=== FILE: README.md ===
# anymap-studio core, modelled in Dafny

anymap-studio is a desktop GIS shell. A project is an ordered list of map
layers with a camera view, a selection and a dirty flag, and it can be drawn
by several map backends. This project models the deterministic logic under
its React interface and proves properties of that model:

- **Format codecs.** The quote-aware CSV row tokenizer, delimiter detection,
  coordinate-column detection and CSV-to-point conversion. Also the KML
  coordinate-tuple reader, the minimal ZIP scanner of the KMZ importer, the
  file-type table and the CSV exporter.
- **GeoJSON utilities.** Bounding boxes, distinct geometry types and
  property keys, attribute rows, field statistics, degree/minute/second
  notation and scale labels.
- **The project store.** Every action is a pure function from the old
  state to the new one. On top of the store sit the unsaved-changes guard
  and the save, save-as, open and close flows of the toolbar and the
  desktop menu.
- **Backend bookkeeping.** The capability table and its queries, and the
  adapter registry cache. Also the MapLibre adapter (its native map reduced
  to sets of source names and a map from style-layer name to visibility),
  the Leaflet and Kepler.gl placeholder adapters, and the map host's
  reconciliation pass and initialisation.
- **Decision logic inside UI components.** The attribute table's filter,
  sort and selection. The command palette's list, filter, keys and
  grouping. The drawing tool's geometries and thresholds, the go-to dialog's
  validation, and the map controls' view arithmetic. The layer panel's file
  and URL imports.

JavaScript built-ins that the code only calls are function parameters of
the model:

- `parseFloat`, `Number` and `String(n)`
- `JSON.stringify` of coordinates and `JSON.parse`
- `TextDecoder.decode` and `localeCompare`
- the Shapefile decoder and `toFixed`

So are the values the program takes from outside: `Date.now()` ids,
`Math.random()` colours, ISO timestamps, dialog answers, file contents,
fetch results and whether a write or a backend call resolves. Coordinates
and numbers are `real`, so comparisons are exact. JavaScript's 32-bit
integer arithmetic appears where the ZIP scanner depends on it.

Files: one module per source file or component (`csv_reader.dfy`,
`layer_panel.dfy`, …). Shared records and helpers live in:

- `project_types.dfy`, `geojson.dfy`
- `wrappers.dfy`, `seqs.dfy`, `text.dfy`
- `omap.dfy`: insertion-ordered maps
- `events.dfy`: handler sets

## Model

| member | source | states |
|---|---|---|
| CsvReader.ParseRow | src/utils/parsers.ts:260-283 | a row splits into one field per delimiter outside quotes, plus one, and every field is trimmed |
| CsvReader.ScanFieldCount | src/utils/parsers.ts:260-283 | the tokenizer closes fields exactly at the delimiters that lie outside quotes, counting a doubled quote as two toggles |
| CsvReader.ScanQuoted | src/utils/parsers.ts:267-273 | inside quotes a doubled quote yields one literal quote and a delimiter does not split, so an escaped text followed by a closing quote reads back as itself |
| CsvReader.ScanPlain | src/utils/parsers.ts:274-280 | text free of quotes and delimiters is collected verbatim into the current field |
| CsvReader.DetectDelimiter | src/utils/parsers.ts:285-294 | the detected delimiter is always a comma, semicolon or tab |
| CsvReader.DelimiterIsMostFrequent | src/utils/parsers.ts:285-294 | the chosen delimiter occurs on the first line at least as often as any candidate; on a tie comma beats semicolon, which beats tab |
| CsvReader.FindPattern | src/utils/parsers.ts:299-315 | the pattern loop finds nothing exactly when no pattern is a normalised header; otherwise it finds the first header position of the highest-priority pattern present |
| CsvReader.DetectColumn | src/utils/parsers.ts:296-315 | column detection returns the original spelling of the header hit first by the highest-priority pattern, matched against lower-cased trimmed headers; it returns nothing exactly when no pattern matches |
| CsvReader.ResolveColumns | src/utils/parsers.ts:206-217 | columns fail to resolve exactly when a coordinate has neither a non-empty option nor a detected header; given options win, and the indices are first positions in the header row |
| CsvReader.CellValue | src/utils/parsers.ts:233-235 | a cell becomes a number only when its text is non-empty and is exactly the rendering of the number it parses to; otherwise it stays text, and a missing cell is undefined |
| CsvReader.RowProps | src/utils/parsers.ts:230-237 | every non-coordinate header receives its cell's value, a repeated header keeps its last occurrence, and keys no later header names are untouched |
| CsvReader.RowPropsLast | src/utils/parsers.ts:230-237 | from any position of the header loop on, a header no later column rewrites ends with its own cell's value |
| CsvReader.RowFeature | src/utils/parsers.ts:222-228 | a row yields a feature exactly when it is long enough for both coordinate columns and both coordinates parse as numbers |
| CsvReader.RowFeatureShape | src/utils/parsers.ts:239-249 | a row's feature is the point [lng, lat], and both coordinates are also numeric properties under their column names |
| CsvReader.RowFeatureCells | src/utils/parsers.ts:230-237 | every other column's cell is a property under its header, with the last repeated header winning |
| CsvReader.RowFeatures | src/utils/parsers.ts:221-251 | the row loop yields the features of exactly the usable rows, one each, in row order, so never more features than rows |
| CsvReader.RowFeaturesMembers | src/utils/parsers.ts:221-251 | no feature exactly when no row is usable; every feature comes from some row, and every usable row's feature is present |
| CsvReader.ParseCsv | src/utils/parsers.ts:188-258 | fewer than two lines fail with the exact message; a success holds between one feature and the data-row count |
| CsvReader.ParseCsvNoColumns | src/utils/parsers.ts:206-217 | with two lines or more, unresolvable columns fail with the message that lists the headers |
| CsvReader.ParseCsvRows | src/utils/parsers.ts:206-258 | once columns resolve, the conversion fails, with the no-valid-rows message, exactly when no row is usable; otherwise its features are the usable rows' features in row order |
| CsvReader.ParsedFeaturesArePoints | src/utils/parsers.ts:243-249 | every feature of a successful conversion is a Point |
| CsvReader.CsvHeaders | src/utils/parsers.ts:341-345 | the offered headers are the trimmed fields of the first untrimmed line, one per delimiter outside quotes, plus one |
| CsvReader.CsvHeadersAgree | src/utils/parsers.ts:341-345 | on text without surrounding whitespace the offered headers are exactly the header row the conversion reads |
| CsvWriter.QuoteField | src/utils/export.ts:56-59 | a value is wrapped in quotes exactly when it holds a comma, quote or newline, and is otherwise left unchanged |
| CsvWriter.CoordFieldReadsBack | src/utils/export.ts:62-65 | trimmed single-line coordinate text without quotes reads back through the row tokenizer as one field holding that text |
| CsvWriter.RecordTexts | src/utils/export.ts:52-65 | a record has one text per key in header order plus the geometry type and coordinates; null or missing values give the empty string |
| CsvWriter.ExportCsv | src/utils/export.ts:39-71 | the corrected export, header quoted: an empty feature list produces no output and any other list produces some |
| CsvWriter.ExportCsvAsWritten | src/utils/export.ts:39-71 | the program's export, header unquoted, produces no output exactly for an empty feature list |
| CsvWriter.ExportAgrees | src/utils/export.ts:50 | when no property key needs quoting, the export as written and the corrected export produce the same text |
| CsvWriter.Records | src/utils/export.ts:52-67 | one record per feature, in feature order |
| CsvWriter.ReadQuotedValue | src/utils/export.ts:57-59 | a value without surrounding whitespace, quoted by the export rule, reads back through the row tokenizer as itself |
| CsvWriter.ReadQuotedRecord | src/utils/export.ts:66 | a record of trimmed fields quoted by the export rule reads back as those fields |
| CsvWriter.RecordIsQuoted | src/utils/export.ts:61-66 | on single-line quote-free coordinates the coordinate rule agrees with the value rule, and a type name never needs quotes |
| CsvWriter.ReadRecord | src/utils/export.ts:52-66 | a clean feature's record reads back as its column texts |
| CsvWriter.ReadHeader | src/utils/export.ts:43-50 | with trimmed names, the corrected header, each name quoted by the value rule, reads back as the property keys followed by the two geometry columns |
| CsvWriter.ReadHeaderAsWritten | src/utils/export.ts:43-50 | trimmed names that need no quoting, joined unquoted, read back as the keys followed by the geometry columns |
| CsvWriter.ReadPlainRecord | src/utils/export.ts:66 | unquoted fields free of commas and quotes read back as one column each |
| CsvWriter.SplitLines | src/utils/export.ts:69 | for any newline-free header, the program's as much as the corrected one, no record breaks a line, so splitting the output at newlines recovers the header and the records |
| CsvWriter.ExportReadsBack | src/utils/export.ts:39-71 | the corrected export has one line per feature plus the header; the header reads back as the keys and geometry columns, and line i+1 as feature i's texts |
| CsvWriter.ExportAsWrittenReadsBack | src/utils/export.ts:39-71 | when no key needs quoting, the program's export has one line per feature plus the header, and each line reads back as its columns |
| CsvWriter.HeaderAsWrittenSplitsKey | src/utils/export.ts:50 | with the header joined unquoted, a key `a,b` reads back as four columns against three in every record; quoted, it stays three |
| KmlCoordinates.ParseCoordinates | src/utils/parsers.ts:119-130 | the reader returns only tuples from whitespace-separated words whose first two parts are numbers, never more than there are words; it returns nothing exactly when no word qualifies |
| KmlCoordinates.EncodeReadsBack | src/utils/parsers.ts:124-128 | a position whose numbers the number parser reads back from their rendering is written as one word that reads back as that position, altitude kept only when present |
| KmlCoordinates.CoordinatesRoundTrip | src/utils/parsers.ts:119-130 | positions whose numbers read back from their rendering, written with single spaces between tuples, read back as the same positions in order |
| KmlCoordinates.ReadWords | src/utils/parsers.ts:120-129 | words that each read as a position, joined by spaces, read as those positions |
| ZipScan.I32 | src/utils/parsers.ts:162-163 | the size assembled with `\|` and `<< 24` is the unsigned field modulo 2^32 in signed range, negative exactly when the top byte is 0x80 or more |
| ZipScan.SliceInRange | src/utils/parsers.ts:167 | `slice` of in-range positions is the subsequence between them |
| ZipScan.FirstKml | src/utils/parsers.ts:170 | the wanted entry exists exactly when some entry is stored (method 0) with a `.kml` name |
| ZipScan.EntryFields | src/utils/parsers.ts:161-168 | an entry's local header reads back as that entry's method, size, name and data |
| ZipScan.ExtractShift | src/utils/parsers.ts:156-180 | the walk is unaffected by bytes in front of the starting offset |
| ZipScan.ExtractFirstEntry | src/utils/parsers.ts:170-176 | the first entry of an archive is either returned or skipped over whole |
| ZipScan.ExtractArchive | src/utils/parsers.ts:151-183 | on a well-formed archive the walk with an unsigned size returns exactly the first stored `.kml` entry's text, and nothing when there is none |
| ZipScan.ExtractFound | src/utils/parsers.ts:156-174 | whatever the walk returns comes from a local header at or after the start, of a stored entry with a `.kml` name |
| ZipScan.StuckFields | src/utils/parsers.ts:161-165 | the 30-byte archive `Stuck` has a valid signature, an empty name and a size the signed reading takes for -30 |
| ZipScan.StuckNeverReturns | src/utils/parsers.ts:176 | on `Stuck`, the walk as written never finishes, for any number of steps; the unsigned walk returns null |
| ZipScan.ExtractAsWrittenAgrees | src/utils/parsers.ts:151-183 | on archives whose sizes are all under 2 GiB, the walk as written finishes within one step per byte and returns what the unsigned walk returns |
| FileTypes.DetectFileType | src/utils/parsers.ts:320-336 | the lower-cased text after the last dot decides the type: each kind exactly for its listed extensions, and `unknown` exactly for every other extension |
| FileTypes.DetectByExtension | src/utils/parsers.ts:321-322 | only the text after the last dot decides the type, in any letter case |
| FileTypes.DetectWithoutDot | src/utils/parsers.ts:321-322 | a name without a dot is looked up as its own extension |
| Geo.CollectionPositions | src/utils/geo.ts:37-45 | a GeometryCollection contributes exactly the positions of its members |
| Geo.FeaturesPositions | src/utils/geo.ts:26-35 | a feature list contributes exactly the positions of its features |
| Geo.Widen | src/utils/geo.ts:49-54 | one step of the min/max loop yields a box containing the new position and the previous box |
| Geo.Fold | src/utils/geo.ts:47-58 | the loop yields a box exactly when there is a position |
| Geo.FoldTight | src/utils/geo.ts:49-58 | the loop's box contains every position and each bound is attained by some position |
| Geo.Bounds | src/utils/geo.ts:8-59 | `calculateBounds` returns null exactly when the input contributes no positions |
| Geo.BoundsTight | src/utils/geo.ts:8-59 | the bounds are the smallest box around all positions, with min at most max on both axes |
| Geo.PositionsContributed | src/utils/geo.ts:31-45 | a feature without geometry contributes nothing, and a GeometryCollection contributes its members' positions |
| Geo.GeometryTypes | src/utils/geo.ts:64-78 | the geometry types are distinct, are exactly the types present, and come in order of first appearance |
| Geo.PropertyKeys | src/utils/geo.ts:83-95 | the property keys are distinct, are exactly the keys of some feature, come in order of first appearance, and a bare geometry has none |
| Geo.FeatureRows | src/utils/geo.ts:100-111 | one row per feature, numbered from 0 in input order, with missing properties as an empty object |
| Geo.SortNumbers | src/utils/geo.ts:122 | the numeric sort yields a sorted permutation of the values |
| Geo.SortedUnique | src/utils/geo.ts:122 | two sorted sequences holding the same values with the same multiplicities are equal, so the sorted order is determined by the values |
| Geo.FieldStats | src/utils/geo.ts:116-136 | count is the length; min and max are attained values bounding all the values; sum is the total and mean is sum over count; the median lies between min and max |
| Geo.MedianIsMiddle | src/utils/geo.ts:122-131 | for every sorted arrangement of the values, the median is its middle value, or the mean of its two middle values for an even count |
| Geo.ToDms | src/utils/geo.ts:148-160 | degrees, minutes in [0,60) and seconds in [0,60) add back up to the absolute value |
| Geo.DmsDirection | src/utils/geo.ts:155-157 | N or E exactly for values of zero and above, S or W below, so the notation determines the decimal value |
| Geo.ScaleOf | src/utils/geo.ts:176-183 | a scale of 1,000,000 or more uses millions, 1,000 or more uses thousands, anything smaller is shown raw; the quotient times its unit is the scale |
| Geo.FormatScale | src/utils/geo.ts:176-183 | the label starts `1:` and carries the M, K or raw form for the respective threshold |
| ProjectTypes.ParseBackend | src/backends/index.ts:13-56 | a recognised name parses to the backend with that name |
| ProjectTypes.ParseBackendName | src/backends/index.ts:13-56 | every backend's name parses back to that backend |
| ProjectTypes.Merge | src/stores/projectStore.ts:83 | in `{ ...layer, ...updates }` the members present in the update win and the others keep their value |
| ProjectTypes.MergeWholeLayer | src/components/map/MapCanvas.tsx:108 | updating with a whole layer overwrites every required member, while an optional member the new layer lacks keeps its old value |
| ProjectTypes.FindLayer | src/components/layers/AttributeTable.tsx:19 | `find` returns the first layer with that id, and nothing exactly when no layer has it |
| ProjectStore.Fresh | src/stores/projectStore.ts:47-57 | the initial state is clean, has no selection, no path and no layers |
| ProjectStore.UpdateUnknown | src/stores/projectStore.ts:83 | a per-layer map over an id no layer has leaves the list as it was |
| ProjectStore.Without | src/stores/projectStore.ts:75 | removal keeps exactly the layers with another id, as a sub-multiset of the list |
| ProjectStore.WithoutUnknown | src/stores/projectStore.ts:75 | removing an id no layer has changes nothing |
| ProjectStore.SpliceIndex | src/stores/projectStore.ts:91-92 | `splice` reads a negative index from the end and clamps to the array |
| ProjectStore.Reorder | src/stores/projectStore.ts:88-94 | reordering is a permutation that puts the moved layer at the target and keeps the others in their relative order |
| ProjectStore.ReorderBack | src/stores/projectStore.ts:88-94 | moving a layer and moving it back restores the list |
| ProjectStore.PathOrNull | src/stores/projectStore.ts:116 | an empty path counts as none |
| ProjectStore.Apply | src/stores/projectStore.ts:59-154 | editing actions set dirty and stamp `modified`; setFilePath and setSelectedLayer do not; load and reset leave the store clean with no selection; each action leaves the fields it does not name alone |
| ProjectStore.AddLayerAppends | src/stores/projectStore.ts:66-71 | adding appends the layer last, keeps the old layers in place, and does not check the id |
| ProjectStore.WithoutSnoc | src/stores/projectStore.ts:75 | removal goes through the list in order: a layer added at the end reappears at the end of the result exactly when its id differs, so the other layers keep their order |
| ProjectStore.RemoveLayerKeepsOrder | src/stores/projectStore.ts:73-79 | `removeLayer` keeps the remaining layers in their order: it empties an empty list, and a layer appended to the project survives at the end exactly when its id differs |
| ProjectStore.RemoveLayerEffect | src/stores/projectStore.ts:73-79 | removal drops exactly the layers with that id and clears the selection only when it named that id |
| ProjectStore.LayerUpdatesLocal | src/stores/projectStore.ts:81-110 | the per-layer updates change only layers with the id and keep length and order; an unknown id leaves the list as it was but still marks the project dirty |
| ProjectStore.ExportProject | src/stores/projectStore.ts:126-140 | the export has version 1.0.0 and `modified` set to now; an empty description becomes absent; layers, view, backend, name and creation time are carried over |
| ProjectStore.LoadExport | src/stores/projectStore.ts:112-140 | loading an export restores name, description, backend, view, layers and creation time, clean and unselected |
| ProjectStore.ResetForgets | src/stores/projectStore.ts:142-154 | reset yields the fresh store whatever the state was |
| SaveFlows.Write | src/App.tsx:72-73 | a resolved write stores the export under the path; a rejected write changes nothing |
| SaveFlows.Leave | src/App.tsx:77-78 | leaving resets the store and shows the landing screen, keeping the files |
| SaveFlows.Guarded | src/App.tsx:65-79 | clean leaves at once; cancel stays; dontSave leaves; save writes first when there is a path, and a rejected write aborts before the reset |
| SaveFlows.GoHome | src/components/layout/Toolbar.tsx:19-35 | the home button applies the shared guard with the project's path, and does nothing without the desktop bridge |
| SaveFlows.CloseProject | src/App.tsx:65-79 | the close menu item applies the same guard |
| SaveFlows.MarkSaved | src/App.tsx:46-47 | recording a save remembers the path and leaves the project clean, layers unchanged |
| SaveFlows.ToolbarSave | src/components/layout/Toolbar.tsx:55-73 | with a path it writes there and is clean only once the write resolves; without a path a cancelled dialog changes nothing, and a chosen path is written, remembered and cleaned after the write |
| SaveFlows.MenuSave | src/App.tsx:35-51 | the save menu item clears the dirty flag, and remembers a chosen path, whether or not the unawaited write resolves; a cancelled dialog changes nothing |
| SaveFlows.SaveAs | src/App.tsx:53-63 | save-as always asks; a chosen path is written, remembered and the project marked clean |
| SaveFlows.OpenProject | src/App.tsx:25-33 | unparsable content changes nothing; otherwise the project is loaded clean with its path and the map screen shown |
| SaveFlows.NewProject | src/App.tsx:21-23 | the new-project item only shows the landing screen |
| SaveFlows.MenuEnabled | src/App.tsx:82-87 | the menu is enabled exactly on the map screen |
| SaveFlows.SaveThenOpen | src/components/layout/Toolbar.tsx:55-63 | saving with a path and opening that file restores name, layers, view, backend and description, clean and with the same path |
| SaveFlows.GuardNeverLosesSavedWork | src/App.tsx:67-79 | leaving dirty with save and a path either writes the export to the file or changes nothing |
| SaveFlows.MenuSaveForgetsFailedWrite | src/App.tsx:37-40 | the save menu item marks a dirty project clean even when the write rejects and the file is not written |
| SaveFlows.ToolbarSaveKeepsFailedWrite | src/components/layout/Toolbar.tsx:60-63 | after a rejected toolbar save the project stays dirty, so leaving still asks |
| Capabilities.BackendInfo | src/backends/capabilities.ts:126-203 | each info entry describes its own backend and carries that backend's capability row |
| Capabilities.Matched | src/backends/capabilities.ts:212-221 | the matched count never exceeds the requested count |
| Capabilities.Score | src/backends/capabilities.ts:222-224 | the score lies in [0,1] and is positive exactly when some requested capability is supported |
| Capabilities.SortByScore | src/backends/capabilities.ts:226 | the sort is a permutation ordered by descending score with table order kept among ties |
| Capabilities.Candidates | src/backends/capabilities.ts:208-227 | the candidates are exactly the backends meeting some requested capability, in table order |
| Capabilities.SuggestBackend | src/backends/capabilities.ts:205-228 | suggestions are exactly the backends with a positive score, each once, best first with table order among ties, scores in (0,1]; no true requirement gives none |
| Capabilities.CanMigrateLayer | src/backends/capabilities.ts:230-258 | migration is allowed exactly when the destination supports the layer type; `raster-tiles` counts as raster and an unknown type never migrates |
| Capabilities.MigrationIgnoresSource | src/backends/capabilities.ts:230-236 | the source backend plays no part in the decision |
| Registry.CreateBackend | src/backends/index.ts:5-62 | an unknown name fails before the cache is touched; a rejected initialise leaves the cache alone; success caches the adapter under its type, replacing without destroying |
| Registry.GetBackend | src/backends/index.ts:64-66 | lookup returns exactly the cached entry, or nothing |
| Registry.DestroyBackend | src/backends/index.ts:68-74 | destroy evicts the type and destroys its adapter once; an absent type is left alone |
| Registry.DestroyTwice | src/backends/index.ts:68-74 | a second destroy of the same type changes nothing |
| Registry.DestroyEachCached | src/backends/index.ts:76-80 | destroying each cached type in cache order empties the cache and destroys every cached adapter once, in that order |
| Registry.DestroyAllEmpties | src/backends/index.ts:76-80 | after destroying all, nothing is cached and every cached adapter has been destroyed exactly once |
| Registry.CreateThenGet | src/backends/index.ts:58-74 | a successful create is visible to lookup until that type is destroyed |
| Events.Register | src/backends/adapters/MapLibreAdapter.ts:342-347 | `on` adds the callback to the event's set and keeps other events' handlers |
| Events.Unregister | src/backends/adapters/MapLibreAdapter.ts:349-351 | `off` removes exactly that callback from the event's set |
| Events.RegisterTwice | src/backends/adapters/LeafletAdapter.ts:77-82 | registering the same callback twice stores it once |
| Events.RegisterUnregister | src/backends/adapters/MapLibreAdapter.ts:342-351 | `off` undoes `on` for that callback and leaves every other callback of the event |
| MapLibreAdapter.Initialize | src/backends/adapters/MapLibreAdapter.ts:28-60 | after the map loads the adapter is initialised and keeps its tracking and handlers |
| MapLibreAdapter.Emit | src/backends/adapters/MapLibreAdapter.ts:353-355 | emit calls each registered callback of the event once, in registration order, and changes nothing else |
| MapLibreAdapter.EmitAfterOff | src/backends/adapters/MapLibreAdapter.ts:342-355 | after `on` then `off` of a callback, emit does not call it, while every other callback of the event is still called |
| MapLibreAdapter.EmitCallsListeners | src/backends/adapters/MapLibreAdapter.ts:353-355 | every callback emit calls is registered for the event, and every registered callback is called |
| MapLibreAdapter.RemoveLayer | src/backends/adapters/MapLibreAdapter.ts:203-229 | an untracked id or missing map is a no-op even when native objects exist; otherwise every derived style layer and source and the tracking entry go, while other entries and the remaining style layers' visibility stay |
| MapLibreAdapter.AddNative | src/backends/adapters/MapLibreAdapter.ts:95-138 | the native objects created are exactly the type's source and style layers; existing unrelated style layers keep their visibility |
| MapLibreAdapter.AddLayerWith | src/backends/adapters/MapLibreAdapter.ts:84-145 | without a map addLayer rejects with "Map not initialized" and changes nothing; otherwise it resolves to the id, tracks exactly the config under it, and leaves other ids' configs and the handlers alone |
| MapLibreAdapter.HiddenRasterShown | src/backends/adapters/MapLibreAdapter.ts:103-119 | a raster layer added with `visible: false` is tracked as hidden while its style layer is shown |
| MapLibreAdapter.AddLayerCreates | src/backends/adapters/MapLibreAdapter.ts:84-201 | with the visibility layout applied, every created style layer carries the config's visibility and the tracked entry is the config |
| MapLibreAdapter.UpdateLayer | src/backends/adapters/MapLibreAdapter.ts:231-275 | an untracked id or missing map is a no-op; otherwise the tracked config is merged with the update, and a visibility in the update is applied to every existing derived style layer |
| MapLibreAdapter.ClearLayerTracking | src/backends/adapters/MapLibreAdapter.ts:80-82 | tracking is emptied and nothing else changes |
| MapLibreAdapter.Destroy | src/backends/adapters/MapLibreAdapter.ts:62-75 | no map, no tracked layers and no handlers remain |
| MapLibreAdapter.RemoveEach | src/backends/adapters/MapLibreAdapter.ts:325-327 | removing layers one by one never creates or drops the map |
| MapLibreAdapter.AddEach | src/backends/adapters/MapLibreAdapter.ts:332-334 | on a map every add succeeds, as written or corrected; without one the first add rejects the import |
| MapLibreAdapter.RemoveEachTracked | src/backends/adapters/MapLibreAdapter.ts:325-327 | removing every tracked config leaves nothing tracked |
| MapLibreAdapter.AddEachTracks | src/backends/adapters/MapLibreAdapter.ts:332-334 | after adding a list the tracked ids are the old ones plus the list's |
| MapLibreAdapter.ImportTracksState | src/backends/adapters/MapLibreAdapter.ts:323-336 | after importState the tracked ids are exactly the state's layer ids |
| StubAdapter.Initialize | src/backends/adapters/LeafletAdapter.ts:21-27 | initialise always rejects with the adapter's not-implemented message and changes nothing, so the adapter never becomes initialised |
| StubAdapter.AddLayer | src/backends/adapters/LeafletAdapter.ts:35-38 | the config is stored under its id, with or without a map, and the id is returned; other ids keep their configs |
| StubAdapter.RemoveLayer | src/backends/adapters/KeplerGLAdapter.ts:40-42 | the id is forgotten, and an absent id changes nothing |
| StubAdapter.UpdateLayer | src/backends/adapters/KeplerGLAdapter.ts:44-49 | the update is merged only into a present config; nothing else changes |
| StubAdapter.SetView | src/backends/adapters/LeafletAdapter.ts:59 | setView changes nothing |
| StubAdapter.ImportState | src/backends/adapters/KeplerGLAdapter.ts:71 | importState changes nothing |
| StubAdapter.ExportState | src/backends/adapters/LeafletAdapter.ts:61-69 | the export is the constant view and the stored configs |
| StubAdapter.Destroy | src/backends/adapters/LeafletAdapter.ts:29-33 | no configs and no handlers remain |
| StubAdapter.On | src/backends/adapters/KeplerGLAdapter.ts:77-82 | `on` adds the callback to the event's set |
| StubAdapter.Off | src/backends/adapters/KeplerGLAdapter.ts:84-86 | `off` removes the callback from the event's set |
| StubAdapter.AddThenRemove | src/backends/adapters/LeafletAdapter.ts:35-42 | adding a config then removing its id restores every other id's config |
| MapCanvas.RemoveStale | src/components/map/MapCanvas.tsx:96-101 | the first loop removes exactly the current layers whose ids the store lacks and keeps every other tracked config |
| MapCanvas.Step | src/components/map/MapCanvas.tsx:104-110 | one step of the second loop touches only the layer's own id |
| MapCanvas.Sync | src/components/map/MapCanvas.tsx:88-111 | without a backend, or with one not initialised, the pass does nothing |
| MapCanvas.AddOrUpdateStep | src/components/map/MapCanvas.tsx:104-110 | each step keeps every tracked id, adds the layer's id, and stores each config under its own id |
| MapCanvas.AddOrUpdateTracks | src/components/map/MapCanvas.tsx:103-110 | after the second loop the tracked ids are the old ones plus the store's |
| MapCanvas.SyncTracksStore | src/components/map/MapCanvas.tsx:88-111 | after one pass the adapter tracks exactly the store's ids |
| MapCanvas.AddOrUpdateAdds | src/components/map/MapCanvas.tsx:105-106 | a store layer the adapter lacked is tracked as exactly that config, when store ids are distinct |
| MapCanvas.OthersKeep | src/components/map/MapCanvas.tsx:104-110 | later steps leave an id they do not name alone |
| MapCanvas.InitializeMap | src/components/map/MapCanvas.tsx:14-73 | without a container nothing happens; the held backend is destroyed first; failure records the message; success registers the view callback, publishes the backend and zoom; loading always ends |
| MapCanvas.AddTolerantTracks | src/components/map/MapCanvas.tsx:58-64 | the initial load tracks every project layer even if some add failed along the way |
| MapCanvas.InitialLoadTracks | src/components/map/MapCanvas.tsx:28-66 | initialising with a ready adapter ends with every project layer tracked |
| MapCanvas.Cleanup | src/components/map/MapCanvas.tsx:78-82 | unmounting destroys and releases the held backend |
| MapCanvas.Unmount | src/components/map/MapCanvas.tsx:78-84 | the whole clean-up releases the held backend and evicts the backend type's registry entry, leaving other types' entries alone |
| MapCanvas.UnmountDestroysTwice | src/components/map/MapCanvas.tsx:78-84 | when the held backend is the registry's cached adapter, unmounting destroys it once through the component and once more through the registry |
| AttributeTable.ShownDoc | src/components/layers/AttributeTable.tsx:17-22 | the table shows a document exactly when it is switched on, the id is non-empty and its first layer is a GeoJSON layer with data, and then it shows that data |
| AttributeTable.AnyValueMatches | src/components/layers/AttributeTable.tsx:29-31 | `some` is true exactly when some value's lower-cased text contains the lower-cased filter |
| AttributeTable.FilterRows | src/components/layers/AttributeTable.tsx:27-33 | an empty filter keeps all rows; otherwise exactly the rows with a matching value are kept |
| AttributeTable.FilterRowsSnoc | src/components/layers/AttributeTable.tsx:27-33 | filtering keeps table order: a row added at the end survives at the end of the result exactly when the filter is empty or one of its values matches |
| AttributeTable.FilterDropsEmptyRows | src/components/layers/AttributeTable.tsx:27-33 | a row without properties never survives a non-empty filter |
| AttributeTable.Compare | src/components/layers/AttributeTable.tsx:38-48 | equal values tie, null and undefined go after any other value in either direction, numbers compare by difference and descending negates |
| AttributeTable.SortRows | src/components/layers/AttributeTable.tsx:36-49 | without a sort column the filtered order is kept; the result is always a permutation of the rows |
| AttributeTable.SortNullsLast | src/components/layers/AttributeTable.tsx:42-43 | in either direction no null or undefined value comes before a non-null one |
| AttributeTable.SortNumbersInOrder | src/components/layers/AttributeTable.tsx:44-47 | on a numeric column the rows come out rising when ascending and falling when descending |
| AttributeTable.HandleSort | src/components/layers/AttributeTable.tsx:51-58 | clicking the sorted column flips the direction; another column becomes the sort column, ascending |
| AttributeTable.SortTwice | src/components/layers/AttributeTable.tsx:51-58 | two clicks on the sorted column restore the sort |
| AttributeTable.SelectRow | src/components/layers/AttributeTable.tsx:60-76 | a modifier toggles only that row; a plain click on the sole selected row empties the selection, any other plain click selects that row alone |
| AttributeTable.ModifierClickTwice | src/components/layers/AttributeTable.tsx:63-65 | a modifier-click undoes itself and touches no other row |
| AttributeTable.PlainClickTwice | src/components/layers/AttributeTable.tsx:66-73 | plain clicks on one row alternate between it alone and nothing |
| AttributeTable.ToggleStats | src/components/layers/AttributeTable.tsx:157 | the statistics button toggles between that column and none |
| AttributeTable.ColumnNumbers | src/components/layers/AttributeTable.tsx:80-82 | the statistics input holds exactly the column's numeric values |
| AttributeTable.ColumnNumbersInOrder | src/components/layers/AttributeTable.tsx:80-82 | the statistics input is the column's numeric values in row order, one per row that has one, so duplicates count |
| AttributeTable.ColumnStats | src/components/layers/AttributeTable.tsx:78-85 | statistics exist exactly when a non-empty column holds some number; they are the field statistics of those numbers and bound every one of them |
| AttributeTable.SelectedFeatures | src/components/layers/AttributeTable.tsx:90 | the exported features are exactly those at selected indices |
| AttributeTable.SelectedInOrder | src/components/layers/AttributeTable.tsx:90 | the exported features are those at selected indices in document order, each once |
| AttributeTable.SelectAllExportsAll | src/components/layers/AttributeTable.tsx:89-91 | selecting every row exports every feature |
| AttributeTable.ExportSubset | src/components/layers/AttributeTable.tsx:87-94 | only a feature collection is exported: the selected features if any are selected, all otherwise |
| CommandPalette.Commands | src/components/common/CommandPalette.tsx:29-234 | the list is the sixteen fixed commands, plus three layer commands exactly when the selected id is non-empty and names a layer; the list is ordered by category |
| CommandPalette.Filtered | src/components/common/CommandPalette.tsx:236-243 | an empty query keeps everything; otherwise exactly the commands whose lower-cased label or category contains the lower-cased query |
| CommandPalette.FilteredSnoc | src/components/common/CommandPalette.tsx:236-243 | filtering keeps the list order: a command added at the end survives at the end of the result exactly when the query is empty or it matches |
| CommandPalette.FilteredKeepsOrder | src/components/common/CommandPalette.tsx:238-242 | filtering keeps the category order |
| CommandPalette.FindGroup | src/components/common/CommandPalette.tsx:292 | the group lookup finds the first group of that category, and nothing exactly when none exists |
| CommandPalette.AddToGroups | src/components/common/CommandPalette.tsx:288-292 | a command of a new category opens a group at the end; otherwise it joins its category's group |
| CommandPalette.GroupAllGroups | src/components/common/CommandPalette.tsx:284-293 | groups are the distinct categories in first-appearance order, each holding exactly its category's commands in list order |
| CommandPalette.GroupsPartition | src/components/common/CommandPalette.tsx:284-293 | every listed command lies in exactly one group, that of its category |
| CommandPalette.GroupedInOrder | src/components/common/CommandPalette.tsx:284-336 | under the category order the grouped listing is the filtered list itself |
| CommandPalette.ListedInFilterOrder | src/components/common/CommandPalette.tsx:236-336 | whatever the query, the palette lists commands in filtered order, so the highlighted row is the one Enter runs |
| CommandPalette.HandleKey | src/components/common/CommandPalette.tsx:267-282 | ArrowDown gives min(i+1, n-1), ArrowUp gives max(i-1, 0); Enter runs a command exactly when the index names one, and closes the palette; Escape closes it |
| CommandPalette.Open | src/components/common/CommandPalette.tsx:249-255 | opening clears the query and selects the first row |
| CommandPalette.SetQuery | src/components/common/CommandPalette.tsx:245-247 | a changed query resets the selection to 0 |
| CommandPalette.KeysStayInRange | src/components/common/CommandPalette.tsx:267-282 | no run of keys moves the index outside the list, every command run is listed, and nothing runs on an empty list |
| CommandPalette.NavigationControl | src/components/common/CommandPalette.tsx:41-92 | the four navigation commands are the ones that share a map control |
| CommandPalette.CommandView | src/components/common/CommandPalette.tsx:46-88 | zoom-in adds a level, zoom-out never goes below 0, reset-north zeroes bearing and pitch; nothing without a backend |
| DrawTool.DrawnGeometry | src/components/tools/DrawTool.tsx:57-82 | one point gives a Point and more a MultiPoint; a line is a LineString of the points in order; a polygon is one ring of n+1 positions closed on the first |
| DrawTool.PolygonRingValid | src/components/tools/DrawTool.tsx:73-82 | the saved ring is a valid linear ring exactly when there are three or more points |
| DrawTool.DrawnLayer | src/components/tools/DrawTool.tsx:84-112 | the saved layer is a visible, opaque geojson layer with one feature, filled and stroked in the same colour |
| DrawTool.SaveDrawing | src/components/tools/DrawTool.tsx:49-119 | saving needs MapLibre and a point; the layer goes to the store before the backend, and a rejected backend add keeps the points and the tool |
| DrawTool.SaveEnabled | src/components/tools/DrawTool.tsx:236-241 | Save is enabled exactly at 1, 2 or 3 points or more for points, line or polygon |
| DrawTool.SaveButtonMakesValidPolygon | src/components/tools/DrawTool.tsx:236-241 | a polygon the button can save always has a valid closed ring |
| DrawTool.Preview | src/components/tools/DrawTool.tsx:171-184 | no preview under two points, a closed ring for a polygon from three points, a line otherwise |
| DrawTool.Clicks | src/components/tools/DrawTool.tsx:127-143 | clicks append their points in order and leave the registered handlers unchanged |
| DrawTool.DoubleClickAsWritten | src/components/tools/DrawTool.tsx:146-152 | as written, the double-click saves the points seen at registration, and nothing when there were none |
| DrawTool.DoubleClickSavesNothing | src/components/tools/DrawTool.tsx:121-163 | a line drawn from a fresh activation is never saved by a double-click, however many points were clicked |
| DrawTool.DoubleClick | src/components/tools/DrawTool.tsx:146-152 | the intended double-click saves the current points for lines and polygons |
| DrawTool.DoubleClickSavesLine | src/components/tools/DrawTool.tsx:146-152 | with the intended handler a line is saved as exactly the clicked points, in click order |
| DrawTool.DoubleClickShortPolygon | src/components/tools/DrawTool.tsx:149-151 | the double-click skips the Save thresholds: a two-click polygon is saved with an invalid ring |
| GoToCoordinates.HandleGo | src/components/common/GoToCoordinates.tsx:16-45 | the first failing check sets its message, longitude before latitude; on success the view is [lng, lat] with zoom defaulting to 12, the error is cleared and the dialog closes |
| GoToCoordinates.ClosesExactlyWhenValid | src/components/common/GoToCoordinates.tsx:21-44 | the dialog closes exactly when both coordinates parse and lie in range, even without a backend; a rejection always leaves a message |
| ViewControls.ZoomIn | src/components/map/MapControls.tsx:7-12 | zoom-in adds one level and keeps centre, pitch and bearing |
| ViewControls.ZoomOut | src/components/map/MapControls.tsx:14-19 | zoom-out removes a level but never goes below 0, keeping the rest |
| ViewControls.ResetNorth | src/components/map/MapControls.tsx:21-26 | reset-north zeroes bearing and pitch and keeps centre and zoom |
| ViewControls.Requested | src/components/layout/Toolbar.tsx:37-53 | without a backend no control calls setView, and fit-bounds never does |
| ViewControls.ZoomOutAfterIn | src/components/map/MapControls.tsx:7-19 | zooming out undoes zooming in from any non-negative level |
| ViewControls.ZoomInAfterOut | src/components/map/MapControls.tsx:7-19 | zooming in undoes zooming out from level 1 up; below that the clamp loses the fraction |
| ViewControls.ResetNorthSettles | src/components/map/MapControls.tsx:7-26 | reset-north is idempotent and commutes with both zoom controls |
| ViewControls.ZoomOutBottoms | src/components/map/MapControls.tsx:14-19 | enough zoom-outs always reach level 0 and stay there |
| ViewControls.ZoomOutDown | src/components/map/MapControls.tsx:14-19 | from a high enough level each zoom-out drops exactly one level |
| LayerPanel.RandomColor | src/components/layers/LayerPanel.tsx:253-264 | the random colour is one of the palette's colours |
| LayerPanel.BoundsAgree | src/components/layers/LayerPanel.tsx:267-318 | the min/max loop (the panel's copy and the one in geo.ts are the same loop) computes exactly the least and greatest longitude and latitude, and null for no positions |
| LayerPanel.StripExtension | src/components/layers/LayerPanel.tsx:63 | the result is a prefix of the name; a name without a listed extension is kept, otherwise exactly that extension and its dot go |
| LayerPanel.DotSuffixUnique | src/components/layers/LayerPanel.tsx:106 | a name ends in at most one dot-free extension, so the order of the alternatives does not matter |
| LayerPanel.StripKnown | src/components/layers/LayerPanel.tsx:106-127 | a name with a listed extension, in any letter case, loses exactly that extension and its dot |
| LayerPanel.UrlName | src/components/layers/LayerPanel.tsx:100 | a URL layer's name is never empty and holds no slash |
| LayerPanel.UrlNameOfSegment | src/components/layers/LayerPanel.tsx:100 | a URL ending `/segment` or `/segment?query` is named by the segment |
| LayerPanel.UrlNameDefault | src/components/layers/LayerPanel.tsx:100 | a URL ending in `/` or `/?query` is named "URL Layer" |
| LayerPanel.FileName | src/components/layers/LayerPanel.tsx:63 | an imported file's name is never empty |
| LayerPanel.FileNameOf | src/components/layers/LayerPanel.tsx:63 | `dir/stem.ext` with a known extension in any case is named `stem` |
| LayerPanel.AddLayerWithData | src/components/layers/LayerPanel.tsx:17-46 | the store gains a visible GeoJSON layer with the data and default style; the backend gets it only if present; the view is fitted to the data's bounds only after a resolved add with positions |
| LayerPanel.RouteOf | src/components/layers/LayerPanel.tsx:62-67 | exactly `.shp` and `.zip` files take the binary path |
| LayerPanel.ExtensionOf | src/components/layers/LayerPanel.tsx:62 | the extension is the lower-cased text after the last dot |
| LayerPanel.Report | src/components/layers/LayerPanel.tsx:86-88 | a caught error becomes an alert with the prefix, leaving the other effects alone |
| LayerPanel.HandleAddFile | src/components/layers/LayerPanel.tsx:48-92 | no bridge or a cancelled dialog does nothing; a Shapefile without payload or failing to decode alerts; JSON without content is ignored silently; a parsed document is added |
| LayerPanel.JsonFileImported | src/components/layers/LayerPanel.tsx:80-85 | a GeoJSON file that parses adds a layer named by the stem holding the parsed document, whatever the backend does |
| LayerPanel.ShapefileNeedsBuffer | src/components/layers/LayerPanel.tsx:67-71 | a `.shp` or `.zip` file without a payload, in any letter case, only raises the alert |
| LayerPanel.TileLayer | src/components/layers/LayerPanel.tsx:107-135 | COG is a `cog` layer with a raster source and no tiles, XYZ a `raster` layer whose only tile is the URL, PMTiles a `pmtiles` layer with a vector source; names lose the type's suffix |
| LayerPanel.AddTileLayer | src/components/layers/LayerPanel.tsx:120-139 | a tile layer goes to the store, then to the backend if there is one; the view is not fitted; a rejected add alerts |
| LayerPanel.UrlEffects | src/components/layers/LayerPanel.tsx:99-140 | a non-blank URL without an error adds exactly one layer; GeoJSON is fetched and added like a file |
| LayerPanel.HandleAddFromUrl | src/components/layers/LayerPanel.tsx:94-150 | a blank input changes nothing; otherwise the trimmed URL is added; success closes the dialog and clears the input, an error keeps both |
| LayerPanel.BlankUrlIgnored | src/components/layers/LayerPanel.tsx:95 | a whitespace-only URL changes nothing and keeps the dialog open |
| LayerPanel.TrimBlank | src/components/layers/LayerPanel.tsx:95 | a text trims to empty exactly when it is all whitespace |
| LayerPanel.CogLayerNamed | src/components/layers/LayerPanel.tsx:107-119 | a COG URL with surrounding spaces is stored trimmed, and named by the file without `.tif` or `.tiff` in any case |

## Left out

- The Electron main process, IPC and file I/O are not modelled. Dialog
  answers, file contents and write outcomes are inputs.
- `parseKML`, `parsePlacemark` and `parseGeometry` are not modelled: they
  traverse a browser DOM. Neither is `parseKMZ`'s hand-off to them. The
  ZIP scanner reads local headers only, as the code does; the central
  directory is not consulted.
- `autoDetectCoordinateColumns` only pairs the two detectors, and
  `CsvReader.DetectColumn` covers it.
- Floating-point rendering is not modelled: `toFixed`, the standard
  deviation of `calculateFieldStats`, and `calculateScale`. Numbers are
  exact reals.
- GeoJson.NumberText: `parseFloat` and `Number` answer a real or `NaN`
  (`None`). The infinities they give for `Infinity` or `1e999` are not
  represented. Those pass the program's `isNaN` checks: the CSV reader
  keeps such a row and stores such a cell as a number, and the go-to
  dialog reports the longitude range. The model has no such values.
- Geo.FieldStats: it does not state the standard deviation. It requires a
  non-empty list, which is what its only caller guarantees.
- Geo.ToDms: it states degrees, minutes and seconds before `toFixed(1)`
  rounds the seconds.
- Geo.ScaleOf: it states the quotient before it is rounded for display.
  `FormatScale` takes the rounding as parameters.
- ProjectStore.Reorder: it requires a source index that names a layer.
  Past the end, `splice` removes nothing and the store would insert
  `undefined` into the list.
- Capabilities.SortByScore: it requires its input in table order, which is
  how `suggestBackend` calls it. The engine's sort is modelled as a stable
  insertion sort.
- MapLibreAdapter.ImportTracksState: it requires that every tracked config
  is stored under its own id (`KeysMatch`). `MapCanvas.StepKeysMatch` and
  `MapCanvas.RemoveStaleKeysMatch` show that the reconciliation keeps this.
  The program loops over the live `this.layers.values()` iterator while
  `removeLayer` deletes from that same map. The model removes each config
  of a snapshot (`RemoveEach` over `Values`). The two agree because each
  step deletes the config the iterator has just visited, under its own id,
  and a Map iterator skips entries deleted before it reaches them.
- MapLibre native behaviour is not modelled beyond source names and
  style-layer visibility: paint values, opacity, the camera, `fitBounds`,
  the PMTiles protocol, and the errors the library raises for duplicate
  names. `getView`, `setView`, `fitBounds` and `exportState` of the
  MapLibre adapter are not modelled.
- The Cesium adapter and the measuring tool are not modelled: they are
  library calls and trigonometry.
- The adapters of the other backends are opaque values of the registry.
- The reconciliation pass is modelled over the MapLibre adapter only; the
  placeholder adapters never initialise, so the pass never runs on them.
  Its unawaited `addLayer` calls are taken in order. The pass, the
  initial load and `importState` take `corrected`, which chooses between
  `addLayer` as written and the raster visibility correction, and what is
  proved about them holds for both.
- ProjectStore.Apply: `reset` takes `now` for both timestamps.
  `loadProject` of a document without metadata (`loadProject` throws) is
  not modelled: `OpenProject` treats it like unparsable content.
- Command palette: the actions that only flip interface flags are not
  modelled. Neither are icons, shortcuts, or the scroll-into-view effect.
  The toggle-visibility command's store update is `ProjectStore.Apply`.
- DrawTool: the markers, the preview source on the native map and the
  cursor are not modelled.
- AttributeTable: rendering is not modelled. `String(v)` of a value and
  `localeCompare` are parameters.
- AttributeTable.Key: a column named after an `Object.prototype` member
  (`toString`, `valueOf`, `constructor`, …) that a row lacks reads, in the
  program, the inherited function. The sort then orders that row by the
  function's text (`function toString() { [native code] }`) rather than
  last. The model reads `undefined`, because properties are modelled as
  own keys only.
- AttributeTable.SortBy: the engine's sort is modelled as a stable
  insertion sort. The comparator is inconsistent in places: null against
  undefined gives 1 in both orders, `NaN` ties with every number, and a
  column mixing numbers and text can compare in a cycle. There
  ECMAScript leaves the order implementation-defined, and the engine's
  result can differ from the model's. Rows `[{v: null}, {}]` stay in that
  order in V8, while the model yields `[{}, {v: null}]`. The proved
  properties (a permutation, nullish values last, numeric columns in
  order) hold of either result.
- AttributeTable.SortRows: it inherits the order of AttributeTable.SortBy
  where the comparator is inconsistent, as stated in the line above.
- LayerPanel: the loading flag and a thrown value that is not an `Error`
  ("Unknown error") are not modelled. `JSON.parse` returns a document or
  an error, and base64 decoding is part of the Shapefile decoder parameter.
  The padding of 50 given to `fitBounds` is not represented.
- URL layer names: the suffix is stripped after the name is taken from the
  URL, so a name can become empty (`https://h/.geojson` gives ""). The
  model keeps that, as the code does; only file names fall back to
  "Untitled" after stripping.
- SaveFlows.GoHome: the toolbar reads the file path it rendered with. The
  model uses the store's path, which differs only while a render is
  pending.
- Text.ToLower: JavaScript `toLowerCase` is modelled on the characters
  that lower-case to ASCII letters (the ASCII capitals and the Kelvin
  sign); other characters are kept. Every other case mapping yields
  non-ASCII text. The one whose result starts with an ASCII letter, `İ`
  (U+0130), gives `i` followed by the combining dot U+0307. No extension,
  `.kml` suffix or column pattern contains that mark, so no comparison
  with them can tell the difference. The attribute
  table's and the command palette's filters compare arbitrary user text
  and take `toLowerCase` as the parameter `lower` instead.
- LayerPanel.StripKnown: the `/i` regular expressions fold ASCII case
  only, while the model lowers with `Text.ToLower`, which also maps the
  Kelvin sign. No stripped extension contains a `k`, so the two agree.
- FileTypes.DetectFileType: the lower-cased extensions `constructor` and
  `__proto__` name members every object inherits, so the table lookup
  returns that member instead of a string. The model answers `unknown`
  there.
- CsvReader.RowProps: a feature's properties are stored in insertion
  order. A JavaScript object lists keys that are array indices first, in
  ascending order, so for a header `name,2020,lat,lng` the program's
  property order, and with it Geo.PropertyKeys, the attribute table's
  columns and the export header, starts with `2020`. The model keeps
  `name` first. A header named `__proto__` is assigned through the
  prototype setter, which ignores a string, number or undefined value, so
  the program drops that column; the model stores it as a property.
- CsvWriter.RecordTexts: a key that a feature lacks but that names an
  `Object.prototype` member (`toString`, `constructor`, …) reads the
  inherited function in the program, so the export writes that function's
  text for the feature. The model writes an empty field, because
  properties are modelled as own keys only.
- CsvWriter.ReadHeaderAsWritten: it requires names that need no quoting.
  A name holding a comma, quote or newline splits the program's header
  (see Findings); CsvWriter.ExportAsWrittenReadsBack has the same
  requirement.
- CsvReader.CsvOptions: the delimiter option is a single character, while
  `parseCSV` accepts any string. No caller passes one.

## Findings

| source | as written | input that shows it | evidently intended | confidence | as-written member | corrected member |
|---|---|---|---|---|---|---|
| src/utils/parsers.ts:162-163 | the compressed size is assembled with `<< 24`, which JavaScript evaluates in signed 32-bit arithmetic, so `offset = dataStart + compressedSize` (line 176) can move backwards | a 30-byte local header with an empty name and size bytes E2 FF FF FF: the size reads as -30 and the walk returns to offset 0 forever | the size read as an unsigned 32-bit number, so the walk always moves forward | not executed; high | ZipScan.StuckNeverReturns | ZipScan.ExtractArchive |
| src/utils/export.ts:50 | the header record is `headers.join(',')` without the quoting applied to values (line 69) | a property key `a,b`: the header reads back as four columns, while every record has three | header names quoted by the same rule as values, so the export reads back column for column | not executed; high | CsvWriter.HeaderAsWrittenSplitsKey | CsvWriter.ExportReadsBack |
| src/backends/adapters/MapLibreAdapter.ts:103-119 | raster and COG style layers are created without a `visibility` layout, unlike the GeoJSON style layers (lines 163-165) | `addLayer` of a raster config with `visible: false`: the config is tracked as hidden while the layer is drawn | the style layer created with the config's visibility | not executed; medium | MapLibreAdapter.HiddenRasterShown | MapLibreAdapter.AddLayerCreates |
| src/components/tools/DrawTool.tsx:146-163 | the double-click handler calls the `saveDrawing` of the render that registered it; the effect does not depend on `points`, so that closure sees the points at registration | activate the line tool, click two points, double-click: the captured point list is empty and nothing is saved | the double-click saves the points clicked so far | not executed; medium | DrawTool.DoubleClickSavesNothing | DrawTool.DoubleClickSavesLine |

=== FILE: attribute_table.dfy ===
/** The attribute table (src/components/layers/AttributeTable.tsx): which
    layer it shows, the text filter, the column sort, the sort-header and
    row-selection state machines, the statistics input and the export
    subset. `String(n)` and `localeCompare` are parameters. */
module AttributeTable {
  import opened Wrappers
  import opened Seqs
  import opened Text
  import opened OrderedMaps
  import opened GeoJson
  import opened ProjectTypes
  import opened Geo

  /** The document the table shows: none while the table is hidden;
      otherwise the first layer with the requested id, when the id is
      non-empty and that layer is a `geojson` layer with data. */
  function ShownDoc(layers: seq<Layer>, visible: bool, tableLayer: Option<string>): (d: Option<Doc>)
    ensures d.Some? ==> visible && tableLayer.Some? && tableLayer.value != "" && tableLayer.value in LayerIds(layers)
    ensures d.Some? ==> var l := FindLayer(layers, tableLayer.value).value;
      l.kind == GeoJsonLayer && l.source.data == d
    ensures (visible && tableLayer.Some? && tableLayer.value != "" && tableLayer.value in LayerIds(layers)
             && FindLayer(layers, tableLayer.value).value.kind == GeoJsonLayer
             && FindLayer(layers, tableLayer.value).value.source.data.Some?) ==> d.Some?
  {
    if !visible || tableLayer.None? || tableLayer.value == "" then None
    else
      match FindLayer(layers, tableLayer.value)
      case None => None
      case Some(l) => if l.kind == GeoJsonLayer then l.source.data else None
  }

  // ----- Filter -----

  /** Some value of the row renders, lower-cased, with the lower-cased
      filter inside it. `lower` is `toLowerCase`, a parameter because
      property values are arbitrary text. */
  predicate RowMatches(row: Row, filter: string, show: real -> string, lower: string -> string) {
    exists i :: 0 <= i < |row.properties| && Contains(lower(ValueText(row.properties[i].1, show)), lower(filter))
  }

  /** Scanning the values one by one, as `some` does. */
  function AnyValueMatches(ps: Props, filter: string, show: real -> string, lower: string -> string): (b: bool)
    ensures b <==> exists i :: 0 <= i < |ps| && Contains(lower(ValueText(ps[i].1, show)), lower(filter))
    decreases |ps|
  {
    if |ps| == 0 then false
    else
      TailKeys(ps);
      var tail: Props := ps[1..];
      assert forall i :: 1 <= i < |ps| ==> tail[i - 1] == ps[i];
      Contains(lower(ValueText(ps[0].1, show)), lower(filter)) || AnyValueMatches(tail, filter, show, lower)
  }

  /** The filtered rows: all of them for an empty filter; otherwise the
      rows with a matching value, in table order. */
  function FilterRows(rows: seq<Row>, filter: string, show: real -> string, lower: string -> string): (r: seq<Row>)
    ensures filter == "" ==> r == rows
    ensures forall row :: row in r <==> row in rows && (filter == "" || RowMatches(row, filter, show, lower))
  {
    if filter == "" then rows
    else Filter(rows, (row: Row) => AnyValueMatches(row.properties, filter, show, lower))
  }

  /** Filtering keeps table order: one more row at the end lands at the end
      of the result exactly when it matches (or the filter is empty), and
      no rows give none. */
  lemma FilterRowsSnoc(rows: seq<Row>, row: Row, filter: string, show: real -> string, lower: string -> string)
    ensures FilterRows([], filter, show, lower) == []
    ensures FilterRows(rows + [row], filter, show, lower)
         == FilterRows(rows, filter, show, lower) + (if filter == "" || RowMatches(row, filter, show, lower) then [row] else [])
  {
    if filter != "" {
      FilterSnoc(rows, row, (row: Row) => AnyValueMatches(row.properties, filter, show, lower));
    }
  }

  /** A row without properties never survives a non-empty filter, and a
      non-empty filter never adds rows. */
  lemma FilterDropsEmptyRows(rows: seq<Row>, filter: string, show: real -> string, lower: string -> string, row: Row)
    requires filter != "" && row.properties == []
    ensures row !in FilterRows(rows, filter, show, lower)
    ensures |FilterRows(rows, filter, show, lower)| <= |rows|
  {
  }

  // ----- Sort -----

  datatype Direction = Asc | Desc

  datatype SortState = SortState(column: Option<string>, direction: Direction)

  /** `row.properties[column]`: a missing key reads as `undefined`. In the
      program a column named after an `Object.prototype` member
      (`toString`, `valueOf`, `constructor`, …) that the row lacks reads
      the inherited function instead; the model does not represent that. */
  function Key(row: Row, column: string): (v: Value)
    ensures Has(row.properties, column) ==> Some(v) == Get(row.properties, column)
    ensures !Has(row.properties, column) ==> v == Undefined
  {
    match Get(row.properties, column)
    case Some(v) => v
    case None => Undefined
  }

  predicate Nullish(v: Value) {
    v.Null? || v.Undefined?
  }

  /** The comparator. Equal values tie; a null or undefined value goes
      after any other in either direction; two numbers compare by
      difference (a `NaN` difference counts as a tie); anything else by
      `localeCompare` of the rendered texts. */
  function Compare(a: Value, b: Value, dir: Direction, show: real -> string, locale: (string, string) -> int): (c: real)
    ensures StrictEquals(a, b) ==> c == 0.0
    ensures !StrictEquals(a, b) && Nullish(a) ==> c == 1.0
    ensures !StrictEquals(a, b) && !Nullish(a) && Nullish(b) ==> c == -1.0
    ensures a.Num? && b.Num? ==> (if dir == Asc then c == a.n - b.n else c == b.n - a.n)
    ensures (a.NaN? || b.NaN?) && !Nullish(a) && !Nullish(b) && IsNumber(a) && IsNumber(b) ==> c == 0.0
  {
    if StrictEquals(a, b) then 0.0
    else if Nullish(a) then 1.0
    else if Nullish(b) then -1.0
    else
      var cmp :=
        if IsNumber(a) && IsNumber(b) then (if a.Num? && b.Num? then a.n - b.n else 0.0)
        else locale(ValueText(a, show), ValueText(b, show)) as real;
      if dir == Asc then cmp else -cmp
  }

  /** One step of a stable insertion sort: `x` goes before the first row it
      does not compare after. */
  function Insert(x: Row, s: seq<Row>, column: string, dir: Direction, show: real -> string,
                  locale: (string, string) -> int): (r: seq<Row>)
    ensures multiset(r) == multiset(s) + multiset{x}
    decreases |s|
  {
    if |s| == 0 || Compare(Key(x, column), Key(s[0], column), dir, show, locale) <= 0.0 then [x] + s
    else
      assert s == [s[0]] + s[1..];
      [s[0]] + Insert(x, s[1..], column, dir, show, locale)
  }

  /** `[...rows].sort(comparator)`, as a stable insertion sort. Where the
      comparator is inconsistent (null against undefined, a column mixing
      numbers and text), the engine's order is implementation-defined and
      may differ from this one. */
  function SortBy(rows: seq<Row>, column: string, dir: Direction, show: real -> string,
                  locale: (string, string) -> int): (r: seq<Row>)
    ensures multiset(r) == multiset(rows)
    decreases |rows|
  {
    if |rows| == 0 then []
    else
      assert rows == [rows[0]] + rows[1..];
      Insert(rows[0], SortBy(rows[1..], column, dir, show, locale), column, dir, show, locale)
  }

  /** `sortedRows`: the filtered rows, sorted only when a non-empty column
      is chosen. The result is always a rearrangement of its input. */
  function SortRows(rows: seq<Row>, st: SortState, show: real -> string, locale: (string, string) -> int): (r: seq<Row>)
    ensures st.column.None? || st.column.value == "" ==> r == rows
    ensures multiset(r) == multiset(rows) && |r| == |rows|
  {
    if st.column.None? || st.column.value == "" then rows
    else
      var r := SortBy(rows, st.column.value, st.direction, show, locale);
      assert |multiset(r)| == |multiset(rows)|;
      r
  }

  /** No row whose value is null or undefined comes before one whose value
      is not. */
  predicate NullsLast(rows: seq<Row>, column: string) {
    forall i, j :: 0 <= i < j < |rows| && Nullish(Key(rows[i], column)) ==> Nullish(Key(rows[j], column))
  }

  lemma NullsLastTail(s: seq<Row>, column: string)
    requires |s| > 0 && NullsLast(s, column)
    ensures NullsLast(s[1..], column)
    ensures Nullish(Key(s[0], column)) ==> forall y :: y in s ==> Nullish(Key(y, column))
  {
    forall i, j | 0 <= i < j < |s[1..]| && Nullish(Key(s[1..][i], column))
      ensures Nullish(Key(s[1..][j], column))
    {
      assert s[1..][i] == s[i + 1] && s[1..][j] == s[j + 1];
    }
    if Nullish(Key(s[0], column)) {
      forall y | y in s ensures Nullish(Key(y, column)) {
        var k :| 0 <= k < |s| && s[k] == y;
        if k > 0 {
          assert Nullish(Key(s[k], column));
        }
      }
    }
  }

  lemma NullsLastCons(x: Row, s: seq<Row>, column: string)
    requires NullsLast(s, column)
    requires Nullish(Key(x, column)) ==> forall y :: y in s ==> Nullish(Key(y, column))
    ensures NullsLast([x] + s, column)
  {
    var r := [x] + s;
    forall i, j | 0 <= i < j < |r| && Nullish(Key(r[i], column)) ensures Nullish(Key(r[j], column)) {
      assert r[j] == s[j - 1] && r[j] in s;
      if i > 0 {
        assert r[i] == s[i - 1];
      }
    }
  }

  lemma {:induction false} InsertNullsLast(x: Row, s: seq<Row>, column: string, dir: Direction,
                                           show: real -> string, locale: (string, string) -> int)
    requires NullsLast(s, column)
    ensures NullsLast(Insert(x, s, column, dir, show, locale), column)
    decreases |s|
  {
    var kx := Key(x, column);
    if |s| == 0 {
      NullsLastCons(x, s, column);
    } else if Compare(kx, Key(s[0], column), dir, show, locale) <= 0.0 {
      NullsLastTail(s, column);
      NullsLastCons(x, s, column);
    } else {
      NullsLastTail(s, column);
      InsertNullsLast(x, s[1..], column, dir, show, locale);
      var t := Insert(x, s[1..], column, dir, show, locale);
      if Nullish(Key(s[0], column)) {
        assert Nullish(kx);
        forall y | y in t ensures Nullish(Key(y, column)) {
          assert multiset(t)[y] > 0;
          assert y in s[1..] || y == x;
        }
      }
      NullsLastCons(s[0], t, column);
    }
  }

  /** Whatever the direction, null and undefined values end up last. */
  lemma {:induction false} SortNullsLast(rows: seq<Row>, column: string, dir: Direction,
                                         show: real -> string, locale: (string, string) -> int)
    ensures NullsLast(SortBy(rows, column, dir, show, locale), column)
    decreases |rows|
  {
    if |rows| > 0 {
      SortNullsLast(rows[1..], column, dir, show, locale);
      InsertNullsLast(rows[0], SortBy(rows[1..], column, dir, show, locale), column, dir, show, locale);
    }
  }

  /** Every value in the column is a number. */
  predicate NumericColumn(rows: seq<Row>, column: string) {
    forall i :: 0 <= i < |rows| ==> Key(rows[i], column).Num?
  }

  /** The column's numbers rise (ascending) or fall (descending). */
  predicate InOrder(rows: seq<Row>, column: string, dir: Direction)
    requires NumericColumn(rows, column)
  {
    forall i, j :: 0 <= i < j < |rows| ==>
      if dir == Asc then Key(rows[i], column).n <= Key(rows[j], column).n
      else Key(rows[i], column).n >= Key(rows[j], column).n
  }

  lemma NumericMembers(s: seq<Row>, column: string)
    requires NumericColumn(s, column)
    ensures forall y :: y in s ==> Key(y, column).Num?
  {
  }

  lemma InOrderCons(x: Row, s: seq<Row>, column: string, dir: Direction)
    requires NumericColumn(s, column) && Key(x, column).Num? && InOrder(s, column, dir)
    requires forall y :: y in s ==> (Key(y, column).Num? &&
      (if dir == Asc then Key(x, column).n <= Key(y, column).n else Key(x, column).n >= Key(y, column).n))
    ensures NumericColumn([x] + s, column) && InOrder([x] + s, column, dir)
  {
    var r := [x] + s;
    assert forall j :: 0 < j < |r| ==> r[j] == s[j - 1] && r[j] in s;
  }

  lemma InOrderTail(s: seq<Row>, column: string, dir: Direction)
    requires |s| > 0 && NumericColumn(s, column) && InOrder(s, column, dir)
    ensures NumericColumn(s[1..], column) && InOrder(s[1..], column, dir)
    ensures forall y :: y in s[1..] ==>
      if dir == Asc then Key(s[0], column).n <= Key(y, column).n else Key(s[0], column).n >= Key(y, column).n
  {
    assert forall i :: 0 <= i < |s[1..]| ==> s[1..][i] == s[i + 1];
  }

  lemma {:induction false} InsertInOrder(x: Row, s: seq<Row>, column: string, dir: Direction,
                                         show: real -> string, locale: (string, string) -> int)
    requires NumericColumn(s, column) && Key(x, column).Num? && InOrder(s, column, dir)
    ensures var r := Insert(x, s, column, dir, show, locale);
      NumericColumn(r, column) && InOrder(r, column, dir)
    decreases |s|
  {
    var kx := Key(x, column);
    if |s| == 0 {
      InOrderCons(x, s, column, dir);
    } else {
      InOrderTail(s, column, dir);
      if Compare(kx, Key(s[0], column), dir, show, locale) <= 0.0 {
        InOrderCons(x, s, column, dir);
      } else {
        InsertInOrder(x, s[1..], column, dir, show, locale);
        var t := Insert(x, s[1..], column, dir, show, locale);
        forall y | y in t
          ensures if dir == Asc then Key(s[0], column).n <= Key(y, column).n else Key(s[0], column).n >= Key(y, column).n
        {
          assert multiset(t)[y] > 0;
          assert y in s[1..] || y == x;
        }
        NumericMembers(t, column);
        InOrderCons(s[0], t, column, dir);
      }
    }
  }

  /** On a column of numbers the sort orders the rows by value: rising
      when ascending, falling when descending. */
  lemma {:induction false} SortNumbersInOrder(rows: seq<Row>, column: string, dir: Direction,
                                              show: real -> string, locale: (string, string) -> int)
    requires NumericColumn(rows, column)
    ensures var r := SortBy(rows, column, dir, show, locale);
      NumericColumn(r, column) && InOrder(r, column, dir)
    decreases |rows|
  {
    if |rows| > 0 {
      assert NumericColumn(rows[1..], column) by {
        assert forall i :: 0 <= i < |rows[1..]| ==> rows[1..][i] == rows[i + 1];
      }
      SortNumbersInOrder(rows[1..], column, dir, show, locale);
      InsertInOrder(rows[0], SortBy(rows[1..], column, dir, show, locale), column, dir, show, locale);
    }
  }

  /** `handleSort`: clicking the sorted column flips the direction; any
      other column becomes the sort column, ascending. */
  function HandleSort(st: SortState, column: string): (r: SortState)
    ensures r.column == Some(column)
    ensures st.column == Some(column) ==> r.direction != st.direction
    ensures st.column != Some(column) ==> r.direction == Asc
  {
    if st.column == Some(column) then st.(direction := if st.direction == Asc then Desc else Asc)
    else SortState(Some(column), Asc)
  }

  /** Two clicks on the sorted column restore the sort. */
  lemma SortTwice(st: SortState, column: string)
    requires st.column == Some(column)
    ensures HandleSort(HandleSort(st, column), column) == st
  {
  }

  // ----- Row selection -----

  /** `handleRowSelect`: with a modifier key the row's membership flips;
      a plain click on the only selected row clears the selection, and any
      other plain click selects that row alone. */
  function SelectRow(selected: set<nat>, id: nat, modifier: bool): (r: set<nat>)
    ensures modifier ==> forall x :: x in r <==> (x in selected) != (x == id)
    ensures !modifier && selected == {id} ==> r == {}
    ensures !modifier && selected != {id} ==> r == {id}
  {
    if modifier then (if id in selected then selected - {id} else selected + {id})
    else if id in selected && |selected| == 1 then
      SingletonIs(selected, id);
      {}
    else {id}
  }

  lemma SingletonIs(s: set<nat>, id: nat)
    requires id in s && |s| == 1
    ensures s == {id}
  {
    assert |s - {id}| == 0;
  }

  /** A modifier-click undoes itself, and touches no other row. */
  lemma ModifierClickTwice(selected: set<nat>, id: nat)
    ensures SelectRow(SelectRow(selected, id, true), id, true) == selected
    ensures SelectRow(selected, id, true) - {id} == selected - {id}
  {
  }

  /** Plain clicks on one row alternate between selecting it alone and
      selecting nothing. */
  lemma PlainClickTwice(selected: set<nat>, id: nat)
    ensures SelectRow(SelectRow(selected, id, false), id, false) == (if selected == {id} then {id} else {})
  {
  }

  // ----- Statistics and export -----

  /** The statistics button of a column: toggles between that column and
      none. */
  function ToggleStats(current: Option<string>, column: string): (r: Option<string>)
    ensures current == Some(column) ==> r.None?
    ensures current != Some(column) ==> r == Some(column)
  {
    if current == Some(column) then None else Some(column)
  }

  /** The numbers of a column, in row order; other values (including
      `NaN`) are skipped. */
  function ColumnNumbers(rows: seq<Row>, column: string): (vs: seq<real>)
    ensures |vs| <= |rows|
    ensures forall v :: v in vs <==> exists i :: 0 <= i < |rows| && Key(rows[i], column) == Num(v)
    decreases |rows|
  {
    if |rows| == 0 then []
    else
      var rest := ColumnNumbers(rows[1..], column);
      assert forall i :: 1 <= i < |rows| ==> rows[1..][i - 1] == rows[i];
      match Key(rows[0], column)
      case Num(n) => [n] + rest
      case _ => rest
  }

  /** A cell's number, when it holds one. */
  function NumberOf(v: Value): Option<real> {
    if v.Num? then Some(v.n) else None
  }

  /** `allRows.map(r => r.properties[column])`, with the numbers marked. */
  function CellNumbers(rows: seq<Row>, column: string): (ns: seq<Option<real>>)
    ensures |ns| == |rows|
    ensures forall i :: 0 <= i < |rows| ==> ns[i] == NumberOf(Key(rows[i], column))
  {
    seq(|rows|, i requires 0 <= i < |rows| => NumberOf(Key(rows[i], column)))
  }

  /** The column's numbers are exactly the numeric cells, one per row that
      has one, in row order. */
  lemma {:induction false} ColumnNumbersInOrder(rows: seq<Row>, column: string)
    ensures ColumnNumbers(rows, column) == Somes(CellNumbers(rows, column))
    decreases |rows|
  {
    if |rows| > 0 {
      var ns := CellNumbers(rows, column);
      assert ns[1..] == CellNumbers(rows[1..], column);
      ColumnNumbersInOrder(rows[1..], column);
    }
  }

  /** The statistics panel's input: none without a (non-empty) column or
      when the column holds no number; otherwise the field statistics of
      its numbers. */
  function ColumnStats(rows: seq<Row>, column: Option<string>): (s: Option<Stats>)
    ensures s.Some? <==> (column.Some? && column.value != ""
      && exists i :: 0 <= i < |rows| && Key(rows[i], column.value).Num?)
    ensures s.Some? ==> s.value == FieldStats(ColumnNumbers(rows, column.value))
    ensures s.Some? ==> forall i :: 0 <= i < |rows| && Key(rows[i], column.value).Num? ==>
      s.value.min <= Key(rows[i], column.value).n <= s.value.max
  {
    if column.None? || column.value == "" then None
    else
      var vs := ColumnNumbers(rows, column.value);
      if |vs| == 0 then None
      else
        assert forall i :: 0 <= i < |rows| && Key(rows[i], column.value).Num? ==> Key(rows[i], column.value).n in vs;
        Some(FieldStats(vs))
  }

  /** The features at the selected indices, in document order. */
  function SelectedFeatures(fs: seq<Feature>, selected: set<nat>): (r: seq<Feature>)
    ensures |r| <= |fs|
    ensures forall f :: f in r <==> exists i :: 0 <= i < |fs| && i in selected && fs[i] == f
    decreases |fs|
  {
    if |fs| == 0 then []
    else
      var init := fs[..|fs| - 1];
      var rest := SelectedFeatures(init, selected);
      assert forall i :: 0 <= i < |init| ==> init[i] == fs[i];
      if (|fs| - 1) in selected then rest + [fs[|fs| - 1]] else rest
  }

  /** Each feature, kept exactly when its index is selected:
      `features.filter((_, i) => selectedRows.has(i))`. */
  function Picks(fs: seq<Feature>, selected: set<nat>): (ps: seq<Option<Feature>>)
    ensures |ps| == |fs|
    ensures forall i :: 0 <= i < |fs| ==> ps[i] == if i in selected then Some(fs[i]) else None
  {
    seq(|fs|, i requires 0 <= i < |fs| => if i in selected then Some(fs[i]) else None)
  }

  /** The selected features are those at selected indices, each once, in
      document order. */
  lemma {:induction false} SelectedInOrder(fs: seq<Feature>, selected: set<nat>)
    ensures SelectedFeatures(fs, selected) == Somes(Picks(fs, selected))
    decreases |fs|
  {
    if |fs| > 0 {
      var init := fs[..|fs| - 1];
      var last := if |fs| - 1 in selected then Some(fs[|fs| - 1]) else None;
      SelectedInOrder(init, selected);
      PicksSnoc(fs, selected);
      SomesSnoc(Picks(init, selected), last);
    }
  }

  lemma PicksSnoc(fs: seq<Feature>, selected: set<nat>)
    requires |fs| > 0
    ensures Picks(fs, selected) == Picks(fs[..|fs| - 1], selected) + [if |fs| - 1 in selected then Some(fs[|fs| - 1]) else None]
  {
    var init := fs[..|fs| - 1];
    assert forall i :: 0 <= i < |init| ==> init[i] == fs[i];
  }

  /** Selecting every row exports every feature. */
  lemma {:induction false} SelectAllExportsAll(fs: seq<Feature>, selected: set<nat>)
    requires forall i :: 0 <= i < |fs| ==> i in selected
    ensures SelectedFeatures(fs, selected) == fs
    decreases |fs|
  {
    if |fs| > 0 {
      SelectAllExportsAll(fs[..|fs| - 1], selected);
      assert fs[..|fs| - 1] + [fs[|fs| - 1]] == fs;
    }
  }

  /** `handleExport`: only a feature collection is exported; the selected
      features if any row is selected, all of them otherwise. */
  function ExportSubset(doc: Doc, selected: set<nat>): (r: Option<seq<Feature>>)
    ensures !doc.CollectionDoc? ==> r.None?
    ensures doc.CollectionDoc? && selected == {} ==> r == Some(doc.features)
    ensures doc.CollectionDoc? && selected != {} ==> (r.Some? &&
      forall f :: f in r.value <==> exists i :: 0 <= i < |doc.features| && i in selected && doc.features[i] == f)
  {
    if !doc.CollectionDoc? then None
    else if |selected| > 0 then Some(SelectedFeatures(doc.features, selected))
    else Some(doc.features)
  }
}

=== FILE: capabilities.dfy ===
/** The backend capability table and the queries over it
    (src/backends/capabilities.ts). */
module Capabilities {
  import opened Seqs
  import opened ProjectTypes

  /** The members of `BackendCapabilities`, in declaration order. */
  datatype Capability =
    | Supports2D | Supports3D | SupportsGlobe | SupportsTerrain | SupportsVectorTiles | SupportsRasterTiles | SupportsCOG
    | SupportsPMTiles | Supports3DTiles | SupportsPointCloud | SupportsLargeDatasets | SupportsDrawing | SupportsProjections

  const AllCapabilities: seq<Capability> := [
    Supports2D, Supports3D, SupportsGlobe, SupportsTerrain, SupportsVectorTiles, SupportsRasterTiles, SupportsCOG,
    SupportsPMTiles, Supports3DTiles, SupportsPointCloud, SupportsLargeDatasets, SupportsDrawing, SupportsProjections]

  /** `BACKEND_CAPABILITIES[t]`: the capabilities whose flag is `true`. */
  function CapabilitySet(t: BackendType): set<Capability> {
    match t
    case MapLibre => {Supports2D, SupportsTerrain, SupportsVectorTiles, SupportsRasterTiles, SupportsCOG, SupportsPMTiles, SupportsLargeDatasets, SupportsDrawing}
    case Mapbox => {Supports2D, SupportsGlobe, SupportsTerrain, SupportsVectorTiles, SupportsRasterTiles, SupportsCOG, SupportsPMTiles, SupportsLargeDatasets, SupportsDrawing}
    case Leaflet => {Supports2D, SupportsVectorTiles, SupportsRasterTiles, SupportsDrawing, SupportsProjections}
    case OpenLayers => {Supports2D, SupportsVectorTiles, SupportsRasterTiles, SupportsCOG, SupportsLargeDatasets, SupportsDrawing, SupportsProjections}
    case DeckGL =>
      {Supports2D, Supports3D, SupportsGlobe, SupportsTerrain, SupportsVectorTiles, SupportsRasterTiles, SupportsCOG, SupportsPMTiles,
       Supports3DTiles, SupportsPointCloud, SupportsLargeDatasets}
    case Cesium =>
      {Supports2D, Supports3D, SupportsGlobe, SupportsTerrain, SupportsRasterTiles, SupportsCOG, Supports3DTiles, SupportsPointCloud,
       SupportsLargeDatasets, SupportsDrawing}
    case KeplerGL => {Supports2D, Supports3D, SupportsLargeDatasets}
    case Potree => {Supports3D, SupportsPointCloud, SupportsLargeDatasets}
  }

  predicate Has(t: BackendType, c: Capability) {
    c in CapabilitySet(t)
  }

  /** The order of the table's entries, which `Object.entries` follows. */
  const Order: seq<BackendType> := [MapLibre, Mapbox, Leaflet, OpenLayers, DeckGL, Cesium, KeplerGL, Potree]

  /** A backend's place in the table. */
  function Pos(t: BackendType): (k: nat)
    ensures k < |Order| && Order[k] == t
  {
    match t
    case MapLibre => 0
    case Mapbox => 1
    case Leaflet => 2
    case OpenLayers => 3
    case DeckGL => 4
    case Cesium => 5
    case KeplerGL => 6
    case Potree => 7
  }

  // ------------------------------------------------------------ info

  /** `BackendInfo`. */
  datatype Info = Info(
    kind: BackendType,
    name: string,
    description: string,
    icon: string,
    capabilities: set<Capability>,
    recommended: seq<string>,
    limitations: seq<string>)

  /** `BACKEND_INFO[t]` (and `getBackendInfo(t)`): each entry describes its
      own backend and carries that backend's row of the capability table. */
  function BackendInfo(t: BackendType): (i: Info)
    ensures i.kind == t && i.capabilities == CapabilitySet(t)
    ensures |i.recommended| > 0 && |i.limitations| == 2
  {
    match t
    case MapLibre =>
      Info(t, "MapLibre GL", "Open-source vector map rendering with GPU acceleration", "map", CapabilitySet(t),
           ["Vector tiles", "PMTiles", "COG rasters", "GeoJSON", "General mapping"],
           ["No true 3D globe", "No 3D Tiles support"])
    case Mapbox =>
      Info(t, "Mapbox GL", "Commercial mapping platform with globe view", "globe", CapabilitySet(t),
           ["Globe visualization", "Mapbox styles", "Commercial projects"],
           ["Requires API key", "Commercial license"])
    case Leaflet =>
      Info(t, "Leaflet", "Lightweight and mobile-friendly mapping", "layers", CapabilitySet(t),
           ["Simple maps", "Mobile apps", "WMS/WFS"],
           ["No GPU acceleration", "Limited large dataset support"])
    case OpenLayers =>
      Info(t, "OpenLayers", "Feature-rich with projection support", "compass", CapabilitySet(t),
           ["WMS/WFS services", "Custom projections", "OGC standards"],
           ["Heavier bundle size", "No 3D support"])
    case DeckGL =>
      Info(t, "Deck.GL", "GPU-powered large-scale data visualization", "bar-chart-3", CapabilitySet(t),
           ["Large datasets", "Data visualization", "GPU acceleration", "Point clouds"],
           ["No built-in drawing tools", "Steeper learning curve"])
    case Cesium =>
      Info(t, "CesiumJS", "3D geospatial with globe and terrain", "globe-2", CapabilitySet(t),
           ["3D visualization", "3D Tiles", "Terrain", "Globe view", "Flight paths"],
           ["Large bundle size (~2MB)", "No vector tiles"])
    case KeplerGL =>
      Info(t, "Kepler.gl", "Geospatial data exploration and analysis", "telescope", CapabilitySet(t),
           ["Data exploration", "Temporal data", "Analytics"],
           ["Limited layer control", "Opinionated UI"])
    case Potree =>
      Info(t, "Potree", "Point cloud visualization for LiDAR data", "scatter-chart", CapabilitySet(t),
           ["LiDAR data", "Point clouds", "3D scanning"],
           ["Only point cloud data", "No 2D support"])
  }

  // ---------------------------------------------------------- suggestion

  /** A `Partial<BackendCapabilities>`: the flags it mentions, each `true`
      or `false`. */
  type Requirements = map<Capability, bool>

  predicate Wants(reqs: Requirements, c: Capability) {
    c in reqs && reqs[c]
  }

  /** How many of the listed capabilities are requested. */
  function Required(cs: seq<Capability>, reqs: Requirements): nat {
    if |cs| == 0 then 0
    else (if Wants(reqs, cs[0]) then 1 else 0) + Required(cs[1..], reqs)
  }

  /** How many of the listed capabilities are requested and supported: never
      more than are requested. */
  function Matched(cs: seq<Capability>, reqs: Requirements, t: BackendType): (n: nat)
    ensures n <= Required(cs, reqs)
  {
    if |cs| == 0 then 0
    else (if Wants(reqs, cs[0]) && Has(t, cs[0]) then 1 else 0) + Matched(cs[1..], reqs, t)
  }

  /** `score / required` for one backend. */
  function Score(reqs: Requirements, t: BackendType): (s: real)
    requires Required(AllCapabilities, reqs) > 0
    ensures 0.0 <= s <= 1.0
    ensures s > 0.0 <==> Matched(AllCapabilities, reqs, t) > 0
  {
    var m, n := Matched(AllCapabilities, reqs, t), Required(AllCapabilities, reqs);
    assert m as real <= n as real;
    m as real / n as real
  }

  /** `a` comes before `b` in the suggestion: a higher score, or the same
      score and an earlier table entry. */
  predicate Before(score: BackendType -> real, a: BackendType, b: BackendType) {
    score(a) > score(b) || (score(a) == score(b) && Pos(a) < Pos(b))
  }

  predicate Ordered(score: BackendType -> real, s: seq<BackendType>) {
    forall i, j :: 0 <= i < j < |s| ==> Before(score, s[i], s[j])
  }

  /** One step of a stable sort by descending score: `x` goes after every
      element scoring at least as much. */
  function Insert(score: BackendType -> real, x: BackendType, s: seq<BackendType>): (r: seq<BackendType>)
    requires Ordered(score, s)
    requires forall i :: 0 <= i < |s| ==> Pos(s[i]) < Pos(x)
    ensures Ordered(score, r)
    ensures multiset(r) == multiset(s) + multiset{x}
  {
    if |s| == 0 then [x]
    else if score(s[0]) >= score(x) then
      OrderedTail(score, x, s);
      var tail := Insert(score, x, s[1..]);
      HeadBeforeInserted(score, x, s, tail);
      OrderedCons(score, s[0], tail);
      MultisetCons(s, tail, x);
      [s[0]] + tail
    else
      InsertedBeforeAll(score, x, s);
      OrderedCons(score, x, s);
      [x] + s
  }

  /** The tail of an ordered list is ordered, and still precedes `x`. */
  lemma OrderedTail(score: BackendType -> real, x: BackendType, s: seq<BackendType>)
    requires Ordered(score, s) && |s| > 0
    requires forall i :: 0 <= i < |s| ==> Pos(s[i]) < Pos(x)
    ensures Ordered(score, s[1..])
    ensures forall i :: 0 <= i < |s[1..]| ==> Pos(s[1..][i]) < Pos(x)
  {
    forall i, j | 0 <= i < j < |s[1..]| ensures Before(score, s[1..][i], s[1..][j]) {
      assert s[1..][i] == s[i + 1] && s[1..][j] == s[j + 1];
    }
  }

  lemma MultisetCons(s: seq<BackendType>, tail: seq<BackendType>, x: BackendType)
    requires |s| > 0 && multiset(tail) == multiset(s[1..]) + multiset{x}
    ensures multiset([s[0]] + tail) == multiset(s) + multiset{x}
  {
    assert s == [s[0]] + s[1..];
  }

  /** An element before every element of an ordered list heads it in order. */
  lemma OrderedCons(score: BackendType -> real, a: BackendType, t: seq<BackendType>)
    requires Ordered(score, t)
    requires forall k :: 0 <= k < |t| ==> Before(score, a, t[k])
    ensures Ordered(score, [a] + t)
  {
    var r := [a] + t;
    forall i, j | 0 <= i < j < |r| ensures Before(score, r[i], r[j]) {
      assert r[j] == t[j - 1];
      if i > 0 {
        assert r[i] == t[i - 1];
      }
    }
  }

  /** The head of an ordered list that scores at least as much as `x`
      comes before everything the insertion into its tail yields. */
  lemma HeadBeforeInserted(score: BackendType -> real, x: BackendType, s: seq<BackendType>, tail: seq<BackendType>)
    requires Ordered(score, s) && |s| > 0
    requires score(s[0]) >= score(x) && Pos(s[0]) < Pos(x)
    requires multiset(tail) == multiset(s[1..]) + multiset{x}
    ensures forall k :: 0 <= k < |tail| ==> Before(score, s[0], tail[k])
  {
    forall k | 0 <= k < |tail| ensures Before(score, s[0], tail[k]) {
      assert tail[k] in multiset(tail);
      if tail[k] != x {
        assert tail[k] in multiset(s[1..]);
        var m :| 0 <= m < |s[1..]| && s[1..][m] == tail[k];
        assert s[m + 1] == tail[k];
      }
    }
  }

  /** An element scoring more than the head of an ordered list comes
      before all of it. */
  lemma InsertedBeforeAll(score: BackendType -> real, x: BackendType, s: seq<BackendType>)
    requires Ordered(score, s) && |s| > 0
    requires score(s[0]) < score(x)
    ensures forall k :: 0 <= k < |s| ==> Before(score, x, s[k])
  {
    forall k | 0 <= k < |s| ensures Before(score, x, s[k]) {
      if k > 0 {
        assert Before(score, s[0], s[k]);
      }
    }
  }

  /** `Array.prototype.sort` with the comparator `b.score - a.score`, which
      is stable: the table order survives among equal scores. */
  function SortByScore(score: BackendType -> real, xs: seq<BackendType>): (r: seq<BackendType>)
    requires Increasing(xs, PosKey)
    ensures Ordered(score, r)
    ensures multiset(r) == multiset(xs)
  {
    if |xs| == 0 then []
    else
      var init := xs[..|xs| - 1];
      IncreasingInit(xs);
      var s := SortByScore(score, init);
      EarlierThanLast(xs, s);
      var r := Insert(score, xs[|xs| - 1], s);
      assert xs == init + [xs[|xs| - 1]];
      r
  }

  lemma IncreasingInit(xs: seq<BackendType>)
    requires |xs| > 0 && Increasing(xs, PosKey)
    ensures Increasing(xs[..|xs| - 1], PosKey)
  {
    var init := xs[..|xs| - 1];
    forall i, j | 0 <= i < j < |init| ensures PosKey(init[i]) < PosKey(init[j]) {
      assert init[i] == xs[i] && init[j] == xs[j];
    }
  }

  /** Any rearrangement of the entries before the last of a list in table
      order lies before the last in the table. */
  lemma EarlierThanLast(xs: seq<BackendType>, s: seq<BackendType>)
    requires |xs| > 0 && Increasing(xs, PosKey)
    requires multiset(s) == multiset(xs[..|xs| - 1])
    ensures forall i :: 0 <= i < |s| ==> Pos(s[i]) < Pos(xs[|xs| - 1])
  {
    var init := xs[..|xs| - 1];
    forall i | 0 <= i < |s| ensures Pos(s[i]) < Pos(xs[|xs| - 1]) {
      assert s[i] in multiset(s);
      assert s[i] in multiset(init);
      var k :| 0 <= k < |init| && init[k] == s[i];
      assert PosKey(xs[k]) < PosKey(xs[|xs| - 1]);
    }
  }

  /** A backend meeting at least one requested capability. */
  predicate Useful(reqs: Requirements, t: BackendType) {
    Matched(AllCapabilities, reqs, t) > 0
  }

  function PosKey(t: BackendType): int {
    Pos(t)
  }

  /** Each backend sits at its own place in the table. */
  lemma OrderPositions()
    ensures Increasing(Order, PosKey)
    ensures forall t :: t in Order
  {
    assert forall k :: 0 <= k < |Order| ==> PosKey(Order[k]) == k;
    forall t: BackendType ensures t in Order {
      assert Order[Pos(t)] == t;
    }
  }

  /** The backends meeting at least one requested capability, in table
      order. */
  function Candidates(reqs: Requirements): (cs: seq<BackendType>)
    ensures Increasing(cs, PosKey)
    ensures forall t :: t in cs <==> Useful(reqs, t)
  {
    var p := (t: BackendType) => Useful(reqs, t);
    OrderPositions();
    FilterKeepsIncreasing(Order, p, PosKey);
    Filter(Order, p)
  }

  /** `suggestBackend`: the backends meeting at least one requested
      capability, best score first, table order among equal scores; nothing
      at all when no flag is `true`. */
  function SuggestBackend(reqs: Requirements): (r: seq<BackendType>)
    ensures Required(AllCapabilities, reqs) == 0 ==> r == []
    ensures Required(AllCapabilities, reqs) > 0 ==>
      && (forall t :: t in r <==> Useful(reqs, t))
      && Ordered((t: BackendType) => Score(reqs, t), r)
      && (forall t :: t in r ==> 0.0 < Score(reqs, t) <= 1.0)
    ensures Distinct(r)
  {
    if Required(AllCapabilities, reqs) == 0 then []
    else
      var cs := Candidates(reqs);
      var r := SortByScore((t: BackendType) => Score(reqs, t), cs);
      assert forall t :: t in r <==> t in multiset(cs);
      r
  }

  // ---------------------------------------------------------- migration

  /** The capability a layer type needs, as `canMigrateLayer` reads it;
      GeoJSON needs 2D or 3D, which is handled separately. */
  function LayerCapability(k: LayerType): Capability
    requires k != GeoJsonLayer
  {
    match k
    case Raster => SupportsRasterTiles
    case VectorTiles => SupportsVectorTiles
    case PMTiles => SupportsPMTiles
    case Cog => SupportsCOG
    case Tiles3D => Supports3DTiles
    case Terrain => SupportsTerrain
    case PointCloud => SupportsPointCloud
  }

  /** Whether a backend can show a layer of type `k`. */
  predicate Supports(t: BackendType, k: LayerType) {
    if k == GeoJsonLayer then Has(t, Supports2D) || Has(t, Supports3D) else Has(t, LayerCapability(k))
  }

  /** `canMigrateLayer`: decided by the destination backend and the layer
      type alone; `raster-tiles` is read as `raster`, and an unknown type
      cannot migrate. */
  function CanMigrateLayer(from: BackendType, to: BackendType, layerType: string): (ok: bool)
    ensures forall k :: layerType == LayerTypeName(k) ==> ok == Supports(to, k)
    ensures layerType == "raster-tiles" ==> ok == Supports(to, Raster)
    ensures layerType !in LayerTypeNames && layerType != "raster-tiles" ==> !ok
  {
    var caps := CapabilitySet(to);
    if layerType == "geojson" then Supports2D in caps || Supports3D in caps
    else if layerType == "vector-tiles" then SupportsVectorTiles in caps
    else if layerType == "raster" || layerType == "raster-tiles" then SupportsRasterTiles in caps
    else if layerType == "cog" then SupportsCOG in caps
    else if layerType == "pmtiles" then SupportsPMTiles in caps
    else if layerType == "3d-tiles" then Supports3DTiles in caps
    else if layerType == "point-cloud" then SupportsPointCloud in caps
    else if layerType == "terrain" then SupportsTerrain in caps
    else false
  }

  const LayerTypeNames: set<string> :=
    {"geojson", "raster", "vector-tiles", "pmtiles", "cog", "3d-tiles", "terrain", "point-cloud"}

  /** The source backend plays no part. */
  lemma MigrationIgnoresSource(a: BackendType, b: BackendType, to: BackendType, layerType: string)
    ensures CanMigrateLayer(a, to, layerType) == CanMigrateLayer(b, to, layerType)
  {
  }
}

=== FILE: command_palette.dfy ===
/** The command palette (src/components/common/CommandPalette.tsx): the
    command list, the query filter, the keyboard selection and the grouping
    by category. Icons, shortcuts and the actions that only flip interface
    flags are not modelled; a command is its id, label and category. */
module CommandPalette {
  import opened Wrappers
  import opened Seqs
  import opened Text
  import opened ProjectTypes
  import opened ViewControls

  /** The tool the interface has active, as far as labels depend on it. */
  datatype Tool = NoTool | MeasureDistance | MeasureArea | Identify | DrawPoint | DrawLine | DrawPolygon

  /** The categories, in the order the command list first uses them. */
  datatype Category = Navigation | Tools | ProjectCategory | ExportCategory | ViewCategory | LayerCategory

  function CategoryName(c: Category): string {
    match c
    case Navigation => "Navigation"
    case Tools => "Tools"
    case ProjectCategory => "Project"
    case ExportCategory => "Export"
    case ViewCategory => "View"
    case LayerCategory => "Layer"
  }

  /** Position of a category in the command list's order. */
  function Rank(c: Category): int {
    match c
    case Navigation => 0
    case Tools => 1
    case ProjectCategory => 2
    case ExportCategory => 3
    case ViewCategory => 4
    case LayerCategory => 5
  }

  lemma RankInjective(a: Category, b: Category)
    requires Rank(a) == Rank(b)
    ensures a == b
  {
  }

  datatype Command = Command(id: string, caption: string, category: Category)

  function CommandRank(c: Command): int {
    Rank(c.category)
  }

  /** The commands that are always offered; two labels follow the active
      measuring tool. */
  function BaseCommands(tool: Tool): seq<Command> {
    [ Command("goto-coords", "Go to Coordinates", Navigation),
      Command("zoom-in", "Zoom In", Navigation),
      Command("zoom-out", "Zoom Out", Navigation),
      Command("fit-bounds", "Fit to All Layers", Navigation),
      Command("reset-north", "Reset North", Navigation),
      Command("measure-distance",
              if tool == MeasureDistance then "Stop Measuring Distance" else "Measure Distance", Tools),
      Command("measure-area", if tool == MeasureArea then "Stop Measuring Area" else "Measure Area", Tools),
      Command("identify", "Identify Features", Tools),
      Command("draw-point", "Draw Point", Tools),
      Command("draw-line", "Draw Line", Tools),
      Command("draw-polygon", "Draw Polygon", Tools),
      Command("save", "Save Project", ProjectCategory),
      Command("go-home", "Go to Start Page", ProjectCategory),
      Command("export", "Export Map / Data", ExportCategory),
      Command("toggle-sidebar", "Toggle Sidebar", ViewCategory),
      Command("settings", "Open Settings", ViewCategory) ]
  }

  /** The commands about the selected layer. */
  function LayerCommands(l: Layer): seq<Command> {
    [ Command("attr-table", "Open Attribute Table: " + l.name, LayerCategory),
      Command("style-editor", "Edit Style: " + l.name, LayerCategory),
      Command("toggle-visibility", "Toggle Visibility: " + l.name, LayerCategory) ]
  }

  /** The full command list: the layer commands are appended exactly when
      the selected id is non-empty and names a layer, and they name the
      first layer with that id. The list is ordered by category. */
  function Commands(tool: Tool, selected: Option<string>, layers: seq<Layer>): (cs: seq<Command>)
    ensures |cs| == 16 || |cs| == 19
    ensures cs[..16] == BaseCommands(tool)
    ensures |cs| == 19 <==> selected.Some? && selected.value != "" && selected.value in LayerIds(layers)
    ensures |cs| == 19 ==> cs[16..] == LayerCommands(FindLayer(layers, selected.value).value)
    ensures Monotone(cs, CommandRank)
  {
    var base := BaseCommands(tool);
    BaseOrdered(tool);
    if selected.Some? && selected.value != "" && FindLayer(layers, selected.value).Some? then
      var extra := LayerCommands(FindLayer(layers, selected.value).value);
      WithLayerOrdered(base, FindLayer(layers, selected.value).value);
      assert (base + extra)[..16] == base && (base + extra)[16..] == extra;
      base + extra
    else
      assert base[..16] == base;
      base
  }

  /** The base commands run through the categories up to View in order. */
  lemma BaseOrdered(tool: Tool)
    ensures |BaseCommands(tool)| == 16 && Monotone(BaseCommands(tool), CommandRank)
    ensures forall i :: 0 <= i < 16 ==> CommandRank(BaseCommands(tool)[i]) <= Rank(ViewCategory)
  {
    var cs := BaseCommands(tool);
    BaseCategories(tool);
    forall i, j | 0 <= i < j < |cs| ensures CommandRank(cs[i]) <= CommandRank(cs[j]) {
      assert Rank(BaseCategory(i)) <= Rank(BaseCategory(j));
    }
  }

  /** Category of the base command at `i`: five navigation commands, six
      tools, two project commands, one export command, two view commands. */
  function BaseCategory(i: int): (c: Category)
    ensures Rank(c) <= Rank(ViewCategory)
  {
    if i < 5 then Navigation
    else if i < 11 then Tools
    else if i < 13 then ProjectCategory
    else if i < 14 then ExportCategory
    else ViewCategory
  }

  lemma BaseCategories(tool: Tool)
    ensures |BaseCommands(tool)| == 16
    ensures forall i :: 0 <= i < 16 ==> BaseCommands(tool)[i].category == BaseCategory(i)
  {
    var cs := BaseCommands(tool);
    forall i | 0 <= i < 16 ensures cs[i].category == BaseCategory(i) {
      if i < 8 {
        if i < 4 {
          assert i == 0 || i == 1 || i == 2 || i == 3;
        } else {
          assert i == 4 || i == 5 || i == 6 || i == 7;
        }
      } else {
        if i < 12 {
          assert i == 8 || i == 9 || i == 10 || i == 11;
        } else {
          assert i == 12 || i == 13 || i == 14 || i == 15;
        }
      }
    }
  }

  /** Base commands followed by the layer commands stay in category order. */
  lemma WithLayerOrdered(base: seq<Command>, l: Layer)
    requires |base| == 16 && Monotone(base, CommandRank)
    requires forall i :: 0 <= i < 16 ==> CommandRank(base[i]) <= Rank(ViewCategory)
    ensures Monotone(base + LayerCommands(l), CommandRank)
  {
    var cs := base + LayerCommands(l);
    forall i, j | 0 <= i < j < |cs| ensures CommandRank(cs[i]) <= CommandRank(cs[j]) {
      if j >= 16 {
        assert cs[j] == LayerCommands(l)[j - 16];
        if i < 16 {
          assert cs[i] == base[i];
        }
      } else {
        assert cs[i] == base[i] && cs[j] == base[j];
      }
    }
  }

  /** The query matches a command when the lower-cased query occurs in its
      lower-cased caption or category. `lower` is `toLowerCase`, a parameter
      because captions carry layer names. */
  predicate Matches(c: Command, query: string, lower: string -> string) {
    var q := lower(query);
    Contains(lower(c.caption), q) || Contains(lower(CategoryName(c.category)), q)
  }

  /** `filteredCommands`: everything for an empty query, otherwise the
      matching commands in list order. */
  function Filtered(cs: seq<Command>, query: string, lower: string -> string): (r: seq<Command>)
    ensures query == "" ==> r == cs
    ensures forall c :: c in r <==> c in cs && (query == "" || Matches(c, query, lower))
    ensures |r| <= |cs|
  {
    if query == "" then cs
    else Filter(cs, (c: Command) => Matches(c, query, lower))
  }

  /** Filtering keeps the list order: one more command at the end lands at
      the end of the result exactly when it matches (or the query is
      empty), and an empty list stays empty. */
  lemma FilteredSnoc(cs: seq<Command>, c: Command, query: string, lower: string -> string)
    ensures Filtered([], query, lower) == []
    ensures Filtered(cs + [c], query, lower)
         == Filtered(cs, query, lower) + (if query == "" || Matches(c, query, lower) then [c] else [])
  {
    if query != "" {
      FilterSnoc(cs, c, (c: Command) => Matches(c, query, lower));
    }
  }

  /** Filtering keeps the category order. */
  lemma FilteredKeepsOrder(cs: seq<Command>, query: string, lower: string -> string)
    requires Monotone(cs, CommandRank)
    ensures Monotone(Filtered(cs, query, lower), CommandRank)
  {
    if query != "" {
      FilterKeepsMonotone(cs, (c: Command) => Matches(c, query, lower), CommandRank);
    }
  }

  // ----- Grouping -----

  datatype Group = Group(category: Category, commands: seq<Command>)

  function Categories(cs: seq<Command>): (r: seq<Category>)
    ensures |r| == |cs| && forall i :: 0 <= i < |cs| ==> r[i] == cs[i].category
  {
    seq(|cs|, i requires 0 <= i < |cs| => cs[i].category)
  }

  function GroupCategories(gs: seq<Group>): (r: seq<Category>)
    ensures |r| == |gs| && forall i :: 0 <= i < |gs| ==> r[i] == gs[i].category
  {
    seq(|gs|, i requires 0 <= i < |gs| => gs[i].category)
  }

  /** `grouped.find(g => g.category === cat)`, as an index. */
  function FindGroup(gs: seq<Group>, cat: Category): (k: Option<nat>)
    ensures k.Some? <==> cat in GroupCategories(gs)
    ensures k.Some? ==> k.value < |gs| && gs[k.value].category == cat
    ensures k.Some? ==> forall i :: 0 <= i < k.value ==> gs[i].category != cat
  {
    var i := IndexOf(GroupCategories(gs), cat);
    if i == -1 then None else Some(i)
  }

  /** One turn of the grouping loop: a command whose category is new opens
      a group at the end; otherwise it joins its category's group. (The
      loop's `seen` set always holds exactly the group categories.) */
  function AddToGroups(gs: seq<Group>, c: Command): (r: seq<Group>)
    ensures FindGroup(gs, c.category).None? ==> r == gs + [Group(c.category, [c])]
    ensures FindGroup(gs, c.category).Some? ==>
      var k := FindGroup(gs, c.category).value;
      r == gs[k := Group(c.category, gs[k].commands + [c])]
  {
    match FindGroup(gs, c.category)
    case None => gs + [Group(c.category, [c])]
    case Some(k) => gs[k := Group(c.category, gs[k].commands + [c])]
  }

  /** The grouping loop over the whole list. */
  function GroupAll(cs: seq<Command>): seq<Group>
    decreases |cs|
  {
    if |cs| == 0 then [] else AddToGroups(GroupAll(cs[..|cs| - 1]), cs[|cs| - 1])
  }

  /** The commands of one category, in list order. */
  function OfCategory(cs: seq<Command>, cat: Category): (r: seq<Command>)
    ensures forall c :: c in r <==> c in cs && c.category == cat
    decreases |cs|
  {
    if |cs| == 0 then []
    else
      var init := cs[..|cs| - 1];
      assert cs == init + [cs[|cs| - 1]];
      OfCategory(init, cat) + (if cs[|cs| - 1].category == cat then [cs[|cs| - 1]] else [])
  }

  /** The commands as the palette lists them: group after group. */
  function Flatten(gs: seq<Group>): seq<Command>
    decreases |gs|
  {
    if |gs| == 0 then [] else Flatten(gs[..|gs| - 1]) + gs[|gs| - 1].commands
  }

  predicate GroupedBy(gs: seq<Group>, cs: seq<Command>) {
    && GroupCategories(gs) == Dedup(Categories(cs))
    && forall i :: 0 <= i < |gs| ==> gs[i].commands == OfCategory(cs, gs[i].category)
  }

  lemma CategoriesPrefix(cs: seq<Command>)
    requires |cs| > 0
    ensures Categories(cs)[..|cs| - 1] == Categories(cs[..|cs| - 1])
    ensures Categories(cs)[|cs| - 1] == cs[|cs| - 1].category
  {
  }

  lemma OfAbsentCategory(cs: seq<Command>, cat: Category)
    requires cat !in Categories(cs)
    ensures OfCategory(cs, cat) == []
  {
  }

  /** The groups are the distinct categories in order of first appearance,
      and each holds exactly the commands of its category, in list order. */
  lemma {:induction false} GroupAllGroups(cs: seq<Command>)
    ensures GroupedBy(GroupAll(cs), cs)
    decreases |cs|
  {
    if |cs| == 0 {
      assert Categories(cs) == [];
    } else {
      var init, last := cs[..|cs| - 1], cs[|cs| - 1];
      assert init + [last] == cs;
      GroupAllGroups(init);
      GroupStep(GroupAll(init), init, last);
      assert GroupAll(cs) == AddToGroups(GroupAll(init), last);
    }
  }

  lemma GroupStep(gs: seq<Group>, init: seq<Command>, c: Command)
    requires GroupedBy(gs, init)
    ensures GroupedBy(AddToGroups(gs, c), init + [c])
  {
    DedupStep(init, c);
    if FindGroup(gs, c.category).None? {
      GroupStepNew(gs, init, c);
    } else {
      GroupStepJoin(gs, init, c);
    }
  }

  /** The distinct categories grow by the new command's category exactly
      when it is new. */
  lemma DedupStep(init: seq<Command>, c: Command)
    ensures var d := Dedup(Categories(init));
      Dedup(Categories(init + [c])) == if c.category in d then d else d + [c.category]
  {
    var cs := init + [c];
    assert cs[..|cs| - 1] == init;
    CategoriesPrefix(cs);
  }

  lemma OfCategoryStep(init: seq<Command>, c: Command, cat: Category)
    ensures OfCategory(init + [c], cat) == OfCategory(init, cat) + (if c.category == cat then [c] else [])
  {
    var cs := init + [c];
    assert cs[..|cs| - 1] == init;
  }

  lemma GroupStepNew(gs: seq<Group>, init: seq<Command>, c: Command)
    requires GroupedBy(gs, init)
    requires FindGroup(gs, c.category).None?
    requires Dedup(Categories(init + [c])) == Dedup(Categories(init)) + [c.category]
    ensures GroupedBy(AddToGroups(gs, c), init + [c])
  {
    var r := AddToGroups(gs, c);
    assert GroupCategories(r) == GroupCategories(gs) + [c.category];
    forall i | 0 <= i < |r| ensures r[i].commands == OfCategory(init + [c], r[i].category) {
      OfCategoryStep(init, c, r[i].category);
      if i == |gs| {
        OfAbsentCategory(init, c.category);
      } else {
        assert GroupCategories(gs)[i] == r[i].category;
      }
    }
  }

  lemma GroupStepJoin(gs: seq<Group>, init: seq<Command>, c: Command)
    requires GroupedBy(gs, init)
    requires FindGroup(gs, c.category).Some?
    requires Dedup(Categories(init + [c])) == Dedup(Categories(init))
    ensures GroupedBy(AddToGroups(gs, c), init + [c])
  {
    var r := AddToGroups(gs, c);
    var k := FindGroup(gs, c.category).value;
    assert GroupCategories(r) == GroupCategories(gs);
    forall i | 0 <= i < |r| ensures r[i].commands == OfCategory(init + [c], r[i].category) {
      OfCategoryStep(init, c, r[i].category);
      if i != k {
        assert Distinct(GroupCategories(gs));
        assert GroupCategories(gs)[i] != GroupCategories(gs)[k];
      }
    }
  }

  /** Every listed command is in exactly one group. */
  lemma GroupsPartition(cs: seq<Command>, c: Command)
    ensures var gs := GroupAll(cs);
      && Distinct(GroupCategories(gs))
      && (c in cs <==> exists i :: 0 <= i < |gs| && c in gs[i].commands)
      && forall i :: 0 <= i < |gs| && c in gs[i].commands ==> gs[i].category == c.category
  {
    var gs := GroupAll(cs);
    GroupAllGroups(cs);
    if c in cs {
      assert c.category in Categories(cs);
      var i := IndexOf(GroupCategories(gs), c.category);
      assert c in gs[i].commands;
    }
  }

  lemma MonotonePrefix(cs: seq<Command>)
    requires |cs| > 0 && Monotone(cs, CommandRank)
    ensures Monotone(cs[..|cs| - 1], CommandRank)
  {
    assert forall i :: 0 <= i < |cs| - 1 ==> cs[..|cs| - 1][i] == cs[i];
  }

  lemma FlattenAppend(gs: seq<Group>, g: Group)
    ensures Flatten(gs + [g]) == Flatten(gs) + g.commands
  {
    assert (gs + [g])[..|gs|] == gs;
  }

  /** When the list is ordered by category the palette lists the commands
      in exactly their filtered order, so the row highlighted for an index
      is the command Enter runs for it. The last group is the last
      command's. */
  lemma {:induction false} GroupedInOrder(cs: seq<Command>)
    requires Monotone(cs, CommandRank)
    ensures Flatten(GroupAll(cs)) == cs
    ensures |cs| > 0 ==> |GroupAll(cs)| > 0 && GroupAll(cs)[|GroupAll(cs)| - 1].category == cs[|cs| - 1].category
    decreases |cs|
  {
    if |cs| > 0 {
      var init := cs[..|cs| - 1];
      var c := cs[|cs| - 1];
      assert cs == init + [c];
      MonotonePrefix(cs);
      GroupedInOrder(init);
      var gs := GroupAll(init);
      GroupAllStep(cs);
      if FindGroup(gs, c.category).None? {
        FlattenAppend(gs, Group(c.category, [c]));
      } else {
        JoinsLastGroup(init, c);
        FlattenJoin(gs, c);
      }
      assert Flatten(GroupAll(cs)) == Flatten(gs) + [c];
    }
  }

  /** One turn of the grouping loop, unfolded. */
  lemma GroupAllStep(cs: seq<Command>)
    requires |cs| > 0
    ensures GroupAll(cs) == AddToGroups(GroupAll(cs[..|cs| - 1]), cs[|cs| - 1])
  {
  }

  /** Joining the last group appends to the listing. */
  lemma FlattenJoin(gs: seq<Group>, c: Command)
    requires |gs| > 0 && FindGroup(gs, c.category) == Some(|gs| - 1)
    ensures Flatten(AddToGroups(gs, c)) == Flatten(gs) + [c]
    ensures var r := AddToGroups(gs, c); |r| == |gs| && r[|r| - 1].category == c.category
  {
    var m := |gs|;
    var g := Group(c.category, gs[m - 1].commands + [c]);
    FlattenLast(gs, g);
    FlattenLast(gs, gs[m - 1]);
    assert gs[m - 1 := gs[m - 1]] == gs;
  }

  lemma FlattenLast(gs: seq<Group>, g: Group)
    requires |gs| > 0
    ensures Flatten(gs[|gs| - 1 := g]) == Flatten(gs[..|gs| - 1]) + g.commands
  {
    var r := gs[|gs| - 1 := g];
    assert r[..|r| - 1] == gs[..|gs| - 1];
  }

  /** Under the category order, a command whose category already has a
      group belongs to the last group. */
  lemma JoinsLastGroup(init: seq<Command>, c: Command)
    requires Monotone(init + [c], CommandRank)
    requires |init| > 0 ==> |GroupAll(init)| > 0 && GroupAll(init)[|GroupAll(init)| - 1].category == init[|init| - 1].category
    requires FindGroup(GroupAll(init), c.category).Some?
    ensures FindGroup(GroupAll(init), c.category).value == |GroupAll(init)| - 1
  {
    var gs := GroupAll(init);
    GroupAllGroups(init);
    var cats := GroupCategories(gs);
    assert c.category in Dedup(Categories(init));
    assert |init| > 0;
    LastCategoryMatches(init, c);
    var k := FindGroup(gs, c.category).value;
    DistinctAt(cats, k, |gs| - 1);
  }

  /** In a list ordered by category, a command whose category already
      occurs shares the category of the command before it. */
  lemma LastCategoryMatches(init: seq<Command>, c: Command)
    requires Monotone(init + [c], CommandRank)
    requires c.category in Categories(init)
    ensures |init| > 0 && init[|init| - 1].category == c.category
  {
    var cs := init + [c];
    var j :| 0 <= j < |init| && Categories(init)[j] == c.category;
    assert cs[j] == init[j] && cs[|init| - 1] == init[|init| - 1] && cs[|init|] == c;
    assert CommandRank(cs[j]) <= CommandRank(cs[|init| - 1]);
    assert CommandRank(cs[|init| - 1]) <= CommandRank(cs[|init|]);
    RankInjective(init[|init| - 1].category, c.category);
  }

  /** Whatever the query, the palette lists its commands in filtered
      order. */
  lemma ListedInFilterOrder(tool: Tool, selected: Option<string>, layers: seq<Layer>, query: string,
                             lower: string -> string)
    ensures var shown := Filtered(Commands(tool, selected, layers), query, lower);
      Flatten(GroupAll(shown)) == shown
  {
    FilteredKeepsOrder(Commands(tool, selected, layers), query, lower);
    GroupedInOrder(Filtered(Commands(tool, selected, layers), query, lower));
  }

  // ----- Keyboard selection -----

  datatype Key = ArrowDown | ArrowUp | Enter | Escape | OtherKey

  datatype Palette = Palette(open: bool, query: string, index: int)

  /** The palette after a key and the command that key ran, if any. */
  datatype Handled = Handled(palette: Palette, ran: Option<Command>)

  function Min(a: int, b: int): int {
    if a <= b then a else b
  }

  function MaxInt(a: int, b: int): int {
    if a >= b then a else b
  }

  /** The index the keyboard can leave behind: inside the list, or -1 or 0
      when the list is empty. */
  predicate InRange(i: int, n: nat) {
    if n > 0 then 0 <= i < n else -1 <= i <= 0
  }

  /** `handleKeyDown` over the filtered list. Every command's action closes
      the palette. */
  function HandleKey(p: Palette, key: Key, shown: seq<Command>): (h: Handled)
    ensures key == ArrowDown ==> h.palette.index == Min(p.index + 1, |shown| - 1)
    ensures key == ArrowUp ==> h.palette.index == MaxInt(p.index - 1, 0)
    ensures h.ran.Some? <==> key == Enter && 0 <= p.index < |shown|
    ensures h.ran.Some? ==> h.ran.value == shown[p.index] && !h.palette.open
    ensures key == Escape ==> !h.palette.open
    ensures h.palette.query == p.query
    ensures InRange(p.index, |shown|) ==> InRange(h.palette.index, |shown|)
  {
    match key
    case ArrowDown => Handled(p.(index := Min(p.index + 1, |shown| - 1)), None)
    case ArrowUp => Handled(p.(index := MaxInt(p.index - 1, 0)), None)
    case Enter =>
      if 0 <= p.index < |shown| then Handled(p.(open := false), Some(shown[p.index]))
      else Handled(p, None)
    case Escape => Handled(p.(open := false), None)
    case OtherKey => Handled(p, None)
  }

  /** Opening the palette clears the query and selects the first row. */
  function Open(p: Palette): (r: Palette)
    ensures r.open && r.query == "" && r.index == 0
  {
    Palette(true, "", 0)
  }

  /** Typing: a changed query selects the first row again. */
  function SetQuery(p: Palette, query: string): (r: Palette)
    ensures r.query == query && r.open == p.open
    ensures query != p.query ==> r.index == 0
    ensures query == p.query ==> r == p
  {
    if query == p.query then p else p.(query := query, index := 0)
  }

  /** A run of keys against one list: the commands run, in order. */
  function RunKeys(p: Palette, keys: seq<Key>, shown: seq<Command>): (r: (Palette, seq<Command>))
    decreases |keys|
  {
    if |keys| == 0 then (p, [])
    else
      var h := HandleKey(p, keys[0], shown);
      var rest := RunKeys(h.palette, keys[1..], shown);
      (rest.0, (if h.ran.Some? then [h.ran.value] else []) + rest.1)
  }

  /** From a fresh query, no run of keys moves the selection outside the
      list, and every command Enter runs is one of the listed ones; with an
      empty list nothing ever runs. */
  lemma {:induction false} KeysStayInRange(p: Palette, keys: seq<Key>, shown: seq<Command>)
    requires InRange(p.index, |shown|)
    ensures InRange(RunKeys(p, keys, shown).0.index, |shown|)
    ensures forall c :: c in RunKeys(p, keys, shown).1 ==> c in shown
    ensures |shown| == 0 ==> RunKeys(p, keys, shown).1 == []
    decreases |keys|
  {
    if |keys| > 0 {
      var h := HandleKey(p, keys[0], shown);
      KeysStayInRange(h.palette, keys[1..], shown);
    }
  }

  // ----- Navigation commands -----

  /** The map control a navigation command shares with the map's buttons. */
  function NavigationControl(id: string): (c: Option<Control>)
    ensures c.Some? <==> id in {"zoom-in", "zoom-out", "reset-north", "fit-bounds"}
  {
    if id == "zoom-in" then Some(ZoomInControl)
    else if id == "zoom-out" then Some(ZoomOutControl)
    else if id == "reset-north" then Some(ResetNorthControl)
    else if id == "fit-bounds" then Some(FitBoundsControl)
    else None
  }

  /** The view a command hands to the backend: zoom in adds a level, zoom
      out never goes below level 0, reset north zeroes bearing and pitch;
      nothing without a backend. */
  function CommandView(c: Command, backendView: Option<View>): (r: Option<View>)
    ensures backendView.None? ==> r.None?
    ensures c.id == "zoom-in" && backendView.Some? ==>
      r.Some? && r.value.zoom == backendView.value.zoom + 1.0 && r.value.lng == backendView.value.lng
    ensures c.id == "zoom-out" && backendView.Some? ==> r.Some? && r.value.zoom >= 0.0
    ensures c.id == "reset-north" && backendView.Some? ==>
      r.Some? && r.value.bearing == Some(0.0) && r.value.pitch == Some(0.0) && r.value.zoom == backendView.value.zoom
    ensures NavigationControl(c.id).None? || c.id == "fit-bounds" ==> r.None?
  {
    match NavigationControl(c.id)
    case None => None
    case Some(k) => Requested(backendView, k)
  }
}

=== FILE: csv_reader.dfy ===
/** The CSV reader of the file parsers: a quote-aware row tokenizer
    (RFC 4180 section 2 quoting), delimiter and coordinate-column detection,
    and the conversion of a CSV text with latitude/longitude columns into
    point features. */
module CsvReader {
  import opened Wrappers
  import opened Seqs
  import opened Text
  import opened OrderedMaps
  import opened GeoJson

  // ---------------------------------------------------------------- rows

  /** The tokenizer loop, one character at a time: `inQ` is the quote state
      and `cur` the field collected so far. Inside quotes a doubled quote is
      one literal quote; any other quote toggles the state; a delimiter
      outside quotes closes the (trimmed) field. */
  function Scan(s: string, d: char, inQ: bool, cur: string): (fields: seq<string>)
    ensures |fields| >= 1
    decreases |s|
  {
    if |s| == 0 then [Trim(cur)]
    else if s[0] == '"' then
      if inQ && |s| > 1 && s[1] == '"' then Scan(s[2..], d, inQ, cur + ['"'])
      else Scan(s[1..], d, !inQ, cur)
    else if s[0] == d && !inQ then [Trim(cur)] + Scan(s[1..], d, false, [])
    else Scan(s[1..], d, inQ, cur + [s[0]])
  }

  predicate AllTrimmed(fields: seq<string>) {
    forall f :: f in fields ==> IsTrimmed(f)
  }

  /** A delimiter outside quotes closes the current field. */
  lemma ScanDelimStep(s: string, d: char, cur: string)
    requires |s| > 0 && s[0] == d && d != '"'
    ensures Scan(s, d, false, cur) == [Trim(cur)] + Scan(s[1..], d, false, [])
  {
  }

  /** A quote outside quotes opens a quoted stretch. */
  lemma ScanOpenQuote(s: string, d: char, cur: string)
    requires |s| > 0 && s[0] == '"'
    ensures Scan(s, d, false, cur) == Scan(s[1..], d, true, cur)
  {
  }

  lemma AllTrimmedCons(x: string, rest: seq<string>)
    requires IsTrimmed(x) && AllTrimmed(rest)
    ensures AllTrimmed([x] + rest)
  {
  }

  /** Closing a field at a delimiter adds one trimmed field. */
  lemma ScanTrimmedAtDelim(s: string, d: char, cur: string)
    requires |s| > 0 && s[0] == d && d != '"'
    requires AllTrimmed(Scan(s[1..], d, false, []))
    ensures AllTrimmed(Scan(s, d, false, cur))
  {
    ScanDelimStep(s, d, cur);
    AllTrimmedCons(Trim(cur), Scan(s[1..], d, false, []));
  }

  /** Every field the tokenizer closes is trimmed. */
  lemma {:induction false} ScanTrimmed(s: string, d: char, inQ: bool, cur: string)
    ensures AllTrimmed(Scan(s, d, inQ, cur))
    decreases |s|
  {
    if |s| == 0 {
    } else if s[0] == '"' {
      if inQ && |s| > 1 && s[1] == '"' {
        ScanTrimmed(s[2..], d, inQ, cur + ['"']);
      } else {
        ScanTrimmed(s[1..], d, !inQ, cur);
      }
    } else if s[0] == d && !inQ {
      ScanTrimmed(s[1..], d, false, []);
      ScanTrimmedAtDelim(s, d, cur);
    } else {
      ScanTrimmed(s[1..], d, inQ, cur + [s[0]]);
    }
  }

  /** The delimiters of `s` that lie outside quotes, where the quote state
      simply flips at every quote character. */
  function OutsideDelimiters(s: string, d: char, inQ: bool): nat
    decreases |s|
  {
    if |s| == 0 then 0
    else if s[0] == '"' then OutsideDelimiters(s[1..], d, !inQ)
    else (if s[0] == d && !inQ then 1 else 0) + OutsideDelimiters(s[1..], d, inQ)
  }

  /** A doubled quote flips the state twice, so the tokenizer closes a field
      exactly at each delimiter outside quotes. */
  lemma {:induction false} ScanFieldCount(s: string, d: char, inQ: bool, cur: string)
    ensures |Scan(s, d, inQ, cur)| == OutsideDelimiters(s, d, inQ) + 1
    decreases |s|
  {
    if |s| == 0 {
    } else if s[0] == '"' {
      if inQ && |s| > 1 && s[1] == '"' {
        ScanFieldCount(s[2..], d, inQ, cur + ['"']);
        assert s[1..][1..] == s[2..];
      } else {
        ScanFieldCount(s[1..], d, !inQ, cur);
      }
    } else if s[0] == d && !inQ {
      ScanFieldCount(s[1..], d, false, []);
    } else {
      ScanFieldCount(s[1..], d, inQ, cur + [s[0]]);
    }
  }

  /** `parseCSVRow(row, d)`: one trimmed field per delimiter outside quotes,
      plus one. */
  function ParseRow(row: string, d: char): (fields: seq<string>)
    ensures |fields| == OutsideDelimiters(row, d, false) + 1
    ensures forall k :: 0 <= k < |fields| ==> IsTrimmed(fields[k])
  {
    ScanFieldCount(row, d, false, []);
    ScanTrimmed(row, d, false, []);
    var fields := Scan(row, d, false, []);
    assert forall k :: 0 <= k < |fields| ==> fields[k] in fields;
    fields
  }

  /** A field's text with every quote doubled (RFC 4180 section 2, rule 7). */
  function Escape(v: string): (e: string)
    ensures |e| == |v| + Count(v, '"')
  {
    if |v| == 0 then [] else (if v[0] == '"' then "\"\"" else [v[0]]) + Escape(v[1..])
  }

  /** Inside quotes, a doubled quote yields one literal quote and does not
      end the field, and a delimiter does not split: an escaped text followed
      by a closing quote reads back as the text itself. */
  lemma {:induction false} ScanQuoted(v: string, rest: string, d: char, cur: string)
    requires |rest| == 0 || rest[0] != '"'
    ensures Scan(Escape(v) + "\"" + rest, d, true, cur) == Scan(rest, d, false, cur + v)
    decreases |v|
  {
    var s := Escape(v) + "\"" + rest;
    if |v| == 0 {
      assert s == "\"" + rest;
      assert s[1..] == rest;
      assert Scan(s, d, true, cur) == Scan(rest, d, false, cur);
      assert cur + v == cur;
    } else {
      var tail := Escape(v[1..]) + "\"" + rest;
      if v[0] == '"' {
        assert s == "\"\"" + tail;
        assert s[2..] == tail;
        assert Scan(s, d, true, cur) == Scan(tail, d, true, cur + ['"']);
        ScanQuoted(v[1..], rest, d, cur + ['"']);
        AppendHead(cur, v);
      } else {
        assert s == [v[0]] + tail;
        assert s[1..] == tail;
        assert Scan(s, d, true, cur) == Scan(tail, d, true, cur + [v[0]]);
        ScanQuoted(v[1..], rest, d, cur + [v[0]]);
        AppendHead(cur, v);
      }
    }
  }

  /** Text without quotes and delimiters is collected verbatim. */
  lemma {:induction false} ScanPlain(v: string, rest: string, d: char, cur: string)
    requires '"' !in v && d !in v
    ensures Scan(v + rest, d, false, cur) == Scan(rest, d, false, cur + v)
    decreases |v|
  {
    if |v| == 0 {
      assert v + rest == rest;
      assert cur + v == cur;
    } else {
      var s := v + rest;
      assert s[0] == v[0] && s[1..] == v[1..] + rest;
      assert v[0] != '"' && v[0] != d;
      assert Scan(s, d, false, cur) == Scan(v[1..] + rest, d, false, cur + [v[0]]);
      ScanPlain(v[1..], rest, d, cur + [v[0]]);
      AppendHead(cur, v);
    }
  }

  // ----------------------------------------------------------- delimiter

  /** `csv.split('\n')[0]`. */
  function FirstLine(csv: string): (line: string)
    ensures '\n' !in line
    ensures |line| <= |csv| && line == csv[..|line|]
  {
    SplitFirstIsPrefix(csv, '\n');
    Split(csv, '\n')[0]
  }

  /** `detectDelimiter`: counts commas, tabs and semicolons on the first
      line. */
  function DetectDelimiter(csv: string): (d: char)
    ensures d in Candidates
  {
    var first := FirstLine(csv);
    var commas := Count(first, ',');
    var tabs := Count(first, '\t');
    var semicolons := Count(first, ';');
    if tabs > commas && tabs > semicolons then '\t'
    else if semicolons > commas then ';'
    else ','
  }

  /** The candidate delimiters in order of preference on a tie. */
  const Candidates: seq<char> := [',', ';', '\t']

  /** The chosen delimiter is a most frequent candidate on the first line,
      and among equally frequent candidates the comma wins over the
      semicolon, which wins over the tab. */
  lemma DelimiterIsMostFrequent(csv: string)
    ensures var first := FirstLine(csv);
            var d := DetectDelimiter(csv);
            forall x :: x in Candidates ==>
              Count(first, x) <= Count(first, d)
              && (Count(first, x) == Count(first, d) ==> IndexOf(Candidates, d) <= IndexOf(Candidates, x))
  {
  }

  // ------------------------------------------------------------- columns

  const LatPatterns: seq<string> := ["latitude", "lat", "y", "lat_dd", "latitude_dd", "point_y", "lat_d"]
  const LngPatterns: seq<string> := ["longitude", "lng", "lon", "long", "x", "lng_dd", "longitude_dd", "point_x", "lon_d"]

  /** `h.toLowerCase().trim()`. */
  function Normalize(h: string): string {
    Trim(ToLower(h))
  }

  function NormalizeAll(headers: seq<string>): (r: seq<string>)
    ensures |r| == |headers|
    ensures forall i :: 0 <= i < |headers| ==> r[i] == Normalize(headers[i])
  {
    seq(|headers|, i requires 0 <= i < |headers| => Normalize(headers[i]))
  }

  /** Pattern `k` is the first, in priority order, found among the
      normalized headers `lower`, and `j` is its first position there. */
  predicate FirstMatch(lower: seq<string>, patterns: seq<string>, k: int, j: int) {
    && 0 <= k < |patterns| && 0 <= j < |lower|
    && lower[j] == patterns[k]
    && (forall k' :: 0 <= k' < k ==> patterns[k'] !in lower)
    && (forall j' :: 0 <= j' < j ==> lower[j'] != patterns[k])
  }

  /** The pattern loop: the position of the first header that the
      highest-priority matching pattern hits. */
  function FindPattern(lower: seq<string>, patterns: seq<string>): (r: Option<nat>)
    ensures r.None? <==> forall k :: 0 <= k < |patterns| ==> patterns[k] !in lower
    ensures r.Some? ==> exists k :: FirstMatch(lower, patterns, k, r.value)
  {
    if |patterns| == 0 then None
    else
      var idx := IndexOf(lower, patterns[0]);
      if idx != -1 then
        assert FirstMatch(lower, patterns, 0, idx);
        Some(idx)
      else
        var r := FindPattern(lower, patterns[1..]);
        assert forall k :: 1 <= k < |patterns| ==> patterns[1..][k - 1] == patterns[k];
        if r.Some? then
          var k :| FirstMatch(lower, patterns[1..], k, r.value);
          assert FirstMatch(lower, patterns, k + 1, r.value);
          r
        else r
  }

  /** `detectLatColumn` / `detectLngColumn`: the original spelling of the
      header that the highest-priority matching pattern hits first, or
      nothing when no pattern matches a lowercased, trimmed header. */
  function DetectColumn(headers: seq<string>, patterns: seq<string>): (r: Option<string>)
    ensures r.None? <==> forall k :: 0 <= k < |patterns| ==> patterns[k] !in NormalizeAll(headers)
    ensures r.Some? ==> exists k, j :: FirstMatch(NormalizeAll(headers), patterns, k, j) && r.value == headers[j]
  {
    var lower := NormalizeAll(headers);
    var j := FindPattern(lower, patterns);
    if j.None? then None else Some(headers[j.value])
  }

  // ------------------------------------------------------------ features

  datatype CsvOptions = CsvOptions(latColumn: Option<string>, lngColumn: Option<string>, delimiter: Option<char>)

  const NoOptions := CsvOptions(None, None, None)

  /** The resolved coordinate columns: names and their first index in the
      header row (`-1` when a given name is not a header). */
  datatype Columns = Columns(headers: seq<string>, latCol: string, lngCol: string, latIdx: int, lngIdx: int)

  /** `options.x || detected`: an empty option counts as absent. */
  function Given(opt: Option<string>): Option<string> {
    if opt.Some? && opt.value != "" then opt else None
  }

  function ResolveColumns(headers: seq<string>, opts: CsvOptions): (r: Option<Columns>)
    ensures r.None? <==>
      (Given(opts.latColumn).None? && DetectColumn(headers, LatPatterns).None?)
      || (Given(opts.lngColumn).None? && DetectColumn(headers, LngPatterns).None?)
    ensures r.Some? ==> (r.value.headers == headers
      && r.value.latIdx == IndexOf(headers, r.value.latCol)
      && r.value.lngIdx == IndexOf(headers, r.value.lngCol))
    ensures r.Some? && Given(opts.latColumn).Some? ==> r.value.latCol == opts.latColumn.value
    ensures r.Some? && Given(opts.lngColumn).Some? ==> r.value.lngCol == opts.lngColumn.value
  {
    var lat := if Given(opts.latColumn).Some? then Given(opts.latColumn) else DetectColumn(headers, LatPatterns);
    var lng := if Given(opts.lngColumn).Some? then Given(opts.lngColumn) else DetectColumn(headers, LngPatterns);
    if lat.None? || lng.None? then None
    else Some(Columns(headers, lat.value, lng.value, IndexOf(headers, lat.value), IndexOf(headers, lng.value)))
  }

  /** `values[idx]`, which is `undefined` out of range. */
  function At(values: seq<string>, idx: int): (r: Option<string>)
    ensures r.Some? <==> 0 <= idx < |values|
    ensures r.Some? ==> r.value == values[idx]
  {
    if 0 <= idx < |values| then Some(values[idx]) else None
  }

  /** `parseFloat(cell)`; `parseFloat(undefined)` is `NaN`. */
  function ParseNum(cell: Option<string>, nt: NumberText): Option<real> {
    if cell.None? then None else nt.parseFloat(cell.value)
  }

  /** A cell's property value: a number only when the text is exactly the
      engine's rendering of the number it denotes, otherwise the text;
      a missing cell is `undefined`. */
  function CellValue(cell: Option<string>, nt: NumberText): (v: Value)
    ensures cell.None? ==> v == Undefined
    ensures cell.Some? ==> v == Str(cell.value) || v.Num?
    ensures v.Num? ==> cell == Some(nt.show(v.n)) && cell.value != "" && nt.number(cell.value) == Some(v.n)
  {
    if cell.None? then Undefined
    else
      var val := cell.value;
      var num := nt.number(val);
      if val != "" && num.Some? && val == nt.show(num.value) then Num(num.value) else Str(val)
  }

  /** No index at or after `i` other than the coordinate columns carries
      header `k`. */
  predicate NotWrittenFrom(headers: seq<string>, latIdx: int, lngIdx: int, i: int, k: string) {
    forall j :: 0 <= i <= j < |headers| && j != latIdx && j != lngIdx ==> headers[j] != k
  }

  /** The `headers.forEach` loop from index `i` on: every header except the
      coordinate columns receives its cell's value, a repeated header
      keeping the value of its last occurrence. */
  function RowProps(headers: seq<string>, values: seq<string>, latIdx: int, lngIdx: int,
                    nt: NumberText, i: nat, acc: Props): (p: Props)
    requires i <= |headers|
    ensures forall k :: NotWrittenFrom(headers, latIdx, lngIdx, i, k) ==> Get(p, k) == Get(acc, k)
    decreases |headers| - i
  {
    if i == |headers| then acc
    else RowProps(headers, values, latIdx, lngIdx, nt, i + 1, RowStep(headers, values, latIdx, lngIdx, nt, i, acc))
  }

  /** One turn of that loop. */
  function RowStep(headers: seq<string>, values: seq<string>, latIdx: int, lngIdx: int,
                   nt: NumberText, i: nat, acc: Props): Props
    requires i < |headers|
  {
    if i != latIdx && i != lngIdx then Set(acc, headers[i], CellValue(At(values, i), nt)) else acc
  }

  /** The header at `j`, written by no later turn, ends up holding `j`'s
      cell. */
  lemma {:induction false} RowPropsLast(headers: seq<string>, values: seq<string>, latIdx: int, lngIdx: int,
                                        nt: NumberText, i: nat, acc: Props, j: int)
    requires i <= j < |headers| && j != latIdx && j != lngIdx
    requires NotWrittenFrom(headers, latIdx, lngIdx, j + 1, headers[j])
    ensures Get(RowProps(headers, values, latIdx, lngIdx, nt, i, acc), headers[j]) == Some(CellValue(At(values, j), nt))
    decreases j - i, 1
  {
    if i < j {
      RowPropsSkip(headers, values, latIdx, lngIdx, nt, i, acc, j);
    } else {
      RowPropsAt(headers, values, latIdx, lngIdx, nt, acc, j);
    }
  }

  /** A turn before `j` does not decide what `j`'s header ends up holding. */
  lemma {:induction false} RowPropsSkip(headers: seq<string>, values: seq<string>, latIdx: int, lngIdx: int,
                                        nt: NumberText, i: nat, acc: Props, j: int)
    requires i < j < |headers| && j != latIdx && j != lngIdx
    requires NotWrittenFrom(headers, latIdx, lngIdx, j + 1, headers[j])
    ensures Get(RowProps(headers, values, latIdx, lngIdx, nt, i, acc), headers[j]) == Some(CellValue(At(values, j), nt))
    decreases j - i, 0
  {
    RowPropsStep(headers, values, latIdx, lngIdx, nt, i, acc);
    RowPropsLast(headers, values, latIdx, lngIdx, nt, i + 1, RowStep(headers, values, latIdx, lngIdx, nt, i, acc), j);
  }

  lemma RowPropsStep(headers: seq<string>, values: seq<string>, latIdx: int, lngIdx: int,
                     nt: NumberText, i: nat, acc: Props)
    requires i < |headers|
    ensures RowProps(headers, values, latIdx, lngIdx, nt, i, acc)
         == RowProps(headers, values, latIdx, lngIdx, nt, i + 1, RowStep(headers, values, latIdx, lngIdx, nt, i, acc))
  {
  }

  /** The turn at `j` writes the cell, and no later turn overwrites it. */
  lemma RowPropsAt(headers: seq<string>, values: seq<string>, latIdx: int, lngIdx: int,
                   nt: NumberText, acc: Props, j: nat)
    requires j < |headers| && j != latIdx && j != lngIdx
    requires NotWrittenFrom(headers, latIdx, lngIdx, j + 1, headers[j])
    ensures Get(RowProps(headers, values, latIdx, lngIdx, nt, j, acc), headers[j]) == Some(CellValue(At(values, j), nt))
  {
    RowPropsStep(headers, values, latIdx, lngIdx, nt, j, acc);
    var acc' := RowStep(headers, values, latIdx, lngIdx, nt, j, acc);
    assert Get(acc', headers[j]) == Some(CellValue(At(values, j), nt));
  }

  function Max(a: int, b: int): int {
    if a >= b then a else b
  }

  /** One data row: its point feature, or nothing when the row is too short
      or a coordinate is not a number. */
  function RowFeature(values: seq<string>, cols: Columns, nt: NumberText): (f: Option<Feature>)
    ensures f.Some? <==>
      && |values| >= Max(cols.latIdx, cols.lngIdx) + 1
      && ParseNum(At(values, cols.latIdx), nt).Some?
      && ParseNum(At(values, cols.lngIdx), nt).Some?
  {
    if |values| < Max(cols.latIdx, cols.lngIdx) + 1 then None
    else
      var lat := ParseNum(At(values, cols.latIdx), nt);
      var lng := ParseNum(At(values, cols.lngIdx), nt);
      if lat.None? || lng.None? then None
      else
        var props := RowProps(cols.headers, values, cols.latIdx, cols.lngIdx, nt, 0, []);
        var props' := Set(Set(props, cols.latCol, Num(lat.value)), cols.lngCol, Num(lng.value));
        Some(Feature(Some(props'), Some(Point(Pos2(lng.value, lat.value)))))
  }

  /** A row's feature is the point `[lng, lat]`, and the coordinates are
      also stored as numeric properties under their column names (the
      longitude wins when both name the same column). */
  lemma RowFeatureShape(values: seq<string>, cols: Columns, nt: NumberText)
    requires RowFeature(values, cols, nt).Some?
    ensures var f := RowFeature(values, cols, nt).value;
      var lat := ParseNum(At(values, cols.latIdx), nt).value;
      var lng := ParseNum(At(values, cols.lngIdx), nt).value;
      && f.geometry == Some(Point(Pos2(lng, lat)))
      && f.properties.Some?
      && Get(f.properties.value, cols.lngCol) == Some(Num(lng))
      && (cols.latCol != cols.lngCol ==> Get(f.properties.value, cols.latCol) == Some(Num(lat)))
  {
  }

  /** Every other column's cell becomes a property under its header, the
      last of repeated headers winning. */
  lemma RowFeatureCells(values: seq<string>, cols: Columns, nt: NumberText, j: int)
    requires RowFeature(values, cols, nt).Some?
    requires 0 <= j < |cols.headers| && j != cols.latIdx && j != cols.lngIdx
    requires NotWrittenFrom(cols.headers, cols.latIdx, cols.lngIdx, j + 1, cols.headers[j])
    requires cols.headers[j] != cols.latCol && cols.headers[j] != cols.lngCol
    ensures Get(RowFeature(values, cols, nt).value.properties.value, cols.headers[j]) == Some(CellValue(At(values, j), nt))
  {
    RowPropsLast(cols.headers, values, cols.latIdx, cols.lngIdx, nt, 0, [], j);
  }

  /** What one data line yields. */
  function RowResult(row: string, d: char, cols: Columns, nt: NumberText): Option<Feature> {
    RowFeature(ParseRow(row, d), cols, nt)
  }

  /** `f` is what some line of `rows` yields. */
  predicate FromSomeRow(rows: seq<string>, d: char, cols: Columns, nt: NumberText, f: Feature) {
    exists i :: 0 <= i < |rows| && RowResult(rows[i], d, cols, nt) == Some(f)
  }

  predicate NoRowYields(rows: seq<string>, d: char, cols: Columns, nt: NumberText) {
    forall i :: 0 <= i < |rows| ==> RowResult(rows[i], d, cols, nt).None?
  }

  /** What each data line yields, line by line. */
  function RowResults(rows: seq<string>, d: char, cols: Columns, nt: NumberText): (rs: seq<Option<Feature>>)
    ensures |rs| == |rows|
    ensures forall i :: 0 <= i < |rows| ==> rs[i] == RowResult(rows[i], d, cols, nt)
  {
    seq(|rows|, i requires 0 <= i < |rows| => RowResult(rows[i], d, cols, nt))
  }

  /** The data-row loop: a feature is pushed for each row that yields one,
      so the result is the rows' results with the skipped rows dropped, in
      row order. */
  function RowFeatures(rows: seq<string>, d: char, cols: Columns, nt: NumberText): (fs: seq<Feature>)
    ensures fs == Somes(RowResults(rows, d, cols, nt))
    ensures |fs| <= |rows|
  {
    if |rows| == 0 then []
    else
      var rest := RowFeatures(rows[1..], d, cols, nt);
      assert RowResults(rows, d, cols, nt)[1..] == RowResults(rows[1..], d, cols, nt);
      match RowResult(rows[0], d, cols, nt)
      case Some(f) => [f] + rest
      case None => rest
  }

  /** Every feature comes from some row, and every row that yields a
      feature has it in the result. */
  lemma RowFeaturesMembers(rows: seq<string>, d: char, cols: Columns, nt: NumberText)
    ensures |RowFeatures(rows, d, cols, nt)| == 0 <==> NoRowYields(rows, d, cols, nt)
    ensures forall f :: f in RowFeatures(rows, d, cols, nt) ==> FromSomeRow(rows, d, cols, nt, f)
    ensures forall i :: 0 <= i < |rows| && RowResult(rows[i], d, cols, nt).Some?
              ==> RowResult(rows[i], d, cols, nt).value in RowFeatures(rows, d, cols, nt)
  {
    var rs := RowResults(rows, d, cols, nt);
    forall f | f in RowFeatures(rows, d, cols, nt) ensures FromSomeRow(rows, d, cols, nt, f) {
      assert Some(f) in rs;
      var i :| 0 <= i < |rs| && rs[i] == Some(f);
      assert RowResult(rows[i], d, cols, nt) == Some(f);
    }
    forall i | 0 <= i < |rows| && RowResult(rows[i], d, cols, nt).Some?
      ensures RowResult(rows[i], d, cols, nt).value in RowFeatures(rows, d, cols, nt)
    {
      assert rs[i].Some?;
    }
  }

  const TooFewLines := "CSV must have at least a header row and one data row"
  const NoValidRows := "No valid coordinate rows found in CSV"

  function NoColumns(headers: seq<string>): string {
    "Could not detect coordinate columns. Found headers: " + Join(headers, ", ")
      + ". Please specify latitude and longitude column names."
  }

  /** `csvString.trim().split('\n')`. */
  function Lines(csv: string): (lines: seq<string>)
    ensures |lines| >= 1
  {
    Split(Trim(csv), '\n')
  }

  /** The lines after the header line. */
  function DataRows(csv: string): (rows: seq<string>)
    ensures |rows| == |Lines(csv)| - 1
  {
    Lines(csv)[1..]
  }

  /** `options.delimiter || detectDelimiter(csvString)`, on the untrimmed
      text. */
  function Delimiter(csv: string, opts: CsvOptions): char {
    if opts.delimiter.Some? then opts.delimiter.value else DetectDelimiter(csv)
  }

  /** The fields of the header line. */
  function HeaderRow(csv: string, opts: CsvOptions): seq<string> {
    ParseRow(Lines(csv)[0], Delimiter(csv, opts))
  }

  /** `parseCSV`: a FeatureCollection of points, or one of its three errors:
      fewer than two lines, no coordinate columns, no usable data row. */
  function ParseCsv(csv: string, opts: CsvOptions, nt: NumberText): (r: Result<seq<Feature>>)
    ensures |Lines(csv)| < 2 ==> r == Failure(TooFewLines)
    ensures r.Success? ==> 0 < |r.value| <= |DataRows(csv)|
  {
    var lines := Lines(csv);
    if |lines| < 2 then Failure(TooFewLines)
    else
      var headers := HeaderRow(csv, opts);
      var cols := ResolveColumns(headers, opts);
      if cols.None? then Failure(NoColumns(headers))
      else
        var fs := RowFeatures(DataRows(csv), Delimiter(csv, opts), cols.value, nt);
        if |fs| == 0 then Failure(NoValidRows) else Success(fs)
  }

  /** With two lines or more but no coordinate columns, the conversion
      fails naming the headers it found. */
  lemma ParseCsvNoColumns(csv: string, opts: CsvOptions, nt: NumberText)
    requires |Lines(csv)| >= 2 && ResolveColumns(HeaderRow(csv, opts), opts).None?
    ensures ParseCsv(csv, opts, nt) == Failure(NoColumns(HeaderRow(csv, opts)))
  {
  }

  /** With columns resolved, the conversion fails exactly when no data row
      yields a feature; otherwise its features are the rows' results with
      the skipped rows dropped, in row order. */
  lemma ParseCsvRows(csv: string, opts: CsvOptions, nt: NumberText)
    requires |Lines(csv)| >= 2 && ResolveColumns(HeaderRow(csv, opts), opts).Some?
    ensures var cols := ResolveColumns(HeaderRow(csv, opts), opts).value;
      var rows, d, r := DataRows(csv), Delimiter(csv, opts), ParseCsv(csv, opts, nt);
      && (r.Failure? <==> NoRowYields(rows, d, cols, nt))
      && (r.Failure? ==> r.error == NoValidRows)
      && (r.Success? ==> r.value == Somes(RowResults(rows, d, cols, nt)))
      && (r.Success? ==> forall f :: f in r.value ==> FromSomeRow(rows, d, cols, nt, f))
  {
    var cols := ResolveColumns(HeaderRow(csv, opts), opts).value;
    RowFeaturesMembers(DataRows(csv), Delimiter(csv, opts), cols, nt);
  }

  /** A feature some data row yields is a point. */
  lemma RowYieldsPoint(rows: seq<string>, d: char, cols: Columns, nt: NumberText, f: Feature)
    requires FromSomeRow(rows, d, cols, nt, f)
    ensures f.geometry.Some? && f.geometry.value.Point?
  {
    var i :| 0 <= i < |rows| && RowResult(rows[i], d, cols, nt) == Some(f);
    RowFeatureShape(ParseRow(rows[i], d), cols, nt);
  }

  /** Every feature of a successful conversion is a point. */
  lemma ParsedFeaturesArePoints(csv: string, opts: CsvOptions, nt: NumberText)
    requires ParseCsv(csv, opts, nt).Success?
    ensures forall f :: f in ParseCsv(csv, opts, nt).value ==> f.geometry.Some? && f.geometry.value.Point?
  {
    var r := ParseCsv(csv, opts, nt);
    assert |Lines(csv)| >= 2 && ResolveColumns(HeaderRow(csv, opts), opts).Some?;
    ParseCsvRows(csv, opts, nt);
    var cols := ResolveColumns(HeaderRow(csv, opts), opts).value;
    var d := Delimiter(csv, opts);
    assert forall f :: f in r.value ==> FromSomeRow(DataRows(csv), d, cols, nt, f);
    forall f | f in r.value
      ensures f.geometry.Some? && f.geometry.value.Point?
    {
      RowYieldsPoint(DataRows(csv), d, cols, nt, f);
    }
  }

  /** `getCSVHeaders`: the first line of the untrimmed text, read with the
      detected delimiter. */
  function CsvHeaders(csv: string): (headers: seq<string>)
    ensures |headers| == OutsideDelimiters(FirstLine(csv), DetectDelimiter(csv), false) + 1
    ensures forall k :: 0 <= k < |headers| ==> IsTrimmed(headers[k])
  {
    ParseRow(FirstLine(csv), DetectDelimiter(csv))
  }

  /** On a text without surrounding whitespace, the headers offered for
      selection are the header row the conversion itself reads. */
  lemma CsvHeadersAgree(csv: string)
    requires IsTrimmed(csv)
    ensures CsvHeaders(csv) == ParseRow(Lines(csv)[0], Delimiter(csv, NoOptions))
  {
    TrimIdentity(csv);
  }
}

=== FILE: csv_writer.dfy ===
/** The CSV export of src/utils/export.ts: one header record of the distinct
    property keys plus two geometry columns, then one record per feature,
    fields quoted as section 2 of RFC 4180 describes. The download itself is
    an output sink and is not modelled; the text handed to it is. */
module CsvWriter {
  import opened Wrappers
  import opened Seqs
  import opened Text
  import opened OrderedMaps
  import opened GeoJson
  import opened Geo
  import opened CsvReader

  /** The characters that force a field into quotes. */
  predicate NeedsQuotes(s: string) {
    ',' in s || '"' in s || '\n' in s
  }

  /** A value's field: quoted, with inner quotes doubled, exactly when it
      holds a comma, a quote or a newline. */
  function QuoteField(s: string): (r: string)
    ensures NeedsQuotes(s) <==> (|r| >= 2 && r[0] == '"' && r[|r| - 1] == '"')
    ensures !NeedsQuotes(s) ==> r == s
  {
    if NeedsQuotes(s) then "\"" + Escape(s) + "\"" else s
  }

  function QuoteAll(cells: seq<string>): (r: seq<string>)
    ensures |r| == |cells|
    ensures forall i :: 0 <= i < |cells| ==> r[i] == QuoteField(cells[i])
  {
    seq(|cells|, i requires 0 <= i < |cells| => QuoteField(cells[i]))
  }

  /** The text of a property value: `null`, `undefined` and a missing key
      give the empty string, anything else `String(v)`. (A missing key
      named after an `Object.prototype` member reads the inherited function
      in the program; the model does not represent that.) */
  function ValueField(v: Option<Value>, show: real -> string): string {
    if v.None? || v.value.Null? || v.value.Undefined? then "" else ValueText(v.value, show)
  }

  /** `f.geometry?.type || ''`. */
  function TypeField(g: Option<Geometry>): string {
    if g.Some? then TypeName(g.value) else ""
  }

  /** `JSON.stringify(coordinates)` for geometries that have coordinates;
      a GeometryCollection and a missing geometry give the empty string. */
  function CoordText(g: Option<Geometry>, coordJson: Geometry -> string): string {
    if g.Some? && !g.value.GeometryCollection? then coordJson(g.value) else ""
  }

  /** The coordinate field is quoted, by the value rule, exactly when it
      holds a comma; a quote or a newline alone does not quote it. */
  function CoordField(c: string): (r: string)
    ensures ',' in c ==> r == QuoteField(c)
    ensures ',' !in c ==> r == c
  {
    if ',' in c then "\"" + Escape(c) + "\"" else c
  }

  /** The texts a feature's record stands for, column by column, before
      quoting. */
  function RecordTexts(f: Feature, keys: seq<string>, show: real -> string, coordJson: Geometry -> string): (ts: seq<string>)
    ensures |ts| == |keys| + 2
    ensures forall i :: 0 <= i < |keys| ==> ts[i] == ValueField(Get(PropsOf(f), keys[i]), show)
    ensures ts[|keys|] == TypeField(f.geometry) && ts[|keys| + 1] == CoordText(f.geometry, coordJson)
  {
    seq(|keys|, i requires 0 <= i < |keys| => ValueField(Get(PropsOf(f), keys[i]), show))
      + [TypeField(f.geometry), CoordText(f.geometry, coordJson)]
  }

  /** One feature's record: quoted values, the raw type name, the
      coordinate field. */
  function Record(f: Feature, keys: seq<string>, show: real -> string, coordJson: Geometry -> string): string {
    var ts := RecordTexts(f, keys, show, coordJson);
    Join(QuoteAll(ts[..|keys|]) + [ts[|keys|], CoordField(ts[|keys| + 1])], ",")
  }

  const GeometryColumns: seq<string> := ["geometry_type", "geometry_coordinates"]

  /** The header record as the exporter writes it: names joined by commas,
      without quoting. */
  function HeaderAsWritten(keys: seq<string>): string {
    Join(keys + GeometryColumns, ",")
  }

  /** The header record with its names quoted by the same rule as values. */
  function Header(keys: seq<string>): string {
    Join(QuoteAll(keys + GeometryColumns), ",")
  }

  /** `exportToCSV`: nothing for an empty list, otherwise the header record
      followed by one record per feature, joined by newlines. */
  function ExportCsv(fs: seq<Feature>, show: real -> string, coordJson: Geometry -> string): (out: Option<string>)
    ensures out.None? <==> |fs| == 0
  {
    if |fs| == 0 then None
    else
      Some(Join(Lines(fs, PropertyKeys(CollectionDoc(fs)), show, coordJson), "\n"))
  }

  /** One record per feature, in order. */
  function Records(fs: seq<Feature>, keys: seq<string>, show: real -> string, coordJson: Geometry -> string): (rs: seq<string>)
    ensures |rs| == |fs|
    ensures forall i :: 0 <= i < |fs| ==> rs[i] == Record(fs[i], keys, show, coordJson)
  {
    seq(|fs|, i requires 0 <= i < |fs| => Record(fs[i], keys, show, coordJson))
  }

  /** The records of the export, header first. */
  function Lines(fs: seq<Feature>, keys: seq<string>, show: real -> string, coordJson: Geometry -> string): seq<string> {
    [Header(keys)] + Records(fs, keys, show, coordJson)
  }

  /** The records of the export as written: the unquoted header first. */
  function LinesAsWritten(fs: seq<Feature>, keys: seq<string>, show: real -> string, coordJson: Geometry -> string): seq<string> {
    [HeaderAsWritten(keys)] + Records(fs, keys, show, coordJson)
  }

  /** `exportToCSV` as written: nothing for an empty list, otherwise the
      unquoted header record followed by one record per feature, joined by
      newlines. */
  function ExportCsvAsWritten(fs: seq<Feature>, show: real -> string, coordJson: Geometry -> string): (out: Option<string>)
    ensures out.None? <==> |fs| == 0
  {
    if |fs| == 0 then None
    else
      Some(Join(LinesAsWritten(fs, PropertyKeys(CollectionDoc(fs)), show, coordJson), "\n"))
  }

  /** The two geometry column names need no quotes. */
  lemma GeometryColumnsPlain()
    ensures forall i :: 0 <= i < |GeometryColumns| ==> !NeedsQuotes(GeometryColumns[i])
  {
    assert !NeedsQuotes("geometry_type");
    assert !NeedsQuotes("geometry_coordinates");
  }

  lemma HeaderAsWrittenQuoted(keys: seq<string>)
    requires forall i :: 0 <= i < |keys| ==> !NeedsQuotes(keys[i])
    ensures HeaderAsWritten(keys) == Header(keys)
  {
    var cols := keys + GeometryColumns;
    GeometryColumnsPlain();
    forall i | 0 <= i < |cols| ensures QuoteAll(cols)[i] == cols[i] {
      if i >= |keys| {
        assert cols[i] == GeometryColumns[i - |keys|];
      }
    }
    assert QuoteAll(cols) == cols;
  }

  /** The program's export and the corrected one differ only when some
      property key holds a comma, a quote or a newline. */
  lemma ExportAgrees(fs: seq<Feature>, show: real -> string, coordJson: Geometry -> string)
    requires forall k :: k in PropertyKeys(CollectionDoc(fs)) ==> !NeedsQuotes(k)
    ensures ExportCsvAsWritten(fs, show, coordJson) == ExportCsv(fs, show, coordJson)
  {
    if |fs| > 0 {
      var keys := PropertyKeys(CollectionDoc(fs));
      assert forall i :: 0 <= i < |keys| ==> keys[i] in keys;
      HeaderAsWrittenQuoted(keys);
      assert LinesAsWritten(fs, keys, show, coordJson) == Lines(fs, keys, show, coordJson);
    }
  }

  // ----------------------------------------------------------- read back

  /** A quoted or plain field is read back as its text, up to the next
      comma. */
  lemma QuoteFieldScan(v: string, rest: string, cur: string)
    requires |rest| == 0 || rest[0] == ','
    ensures Scan(QuoteField(v) + rest, ',', false, cur) == Scan(rest, ',', false, cur + v)
  {
    if NeedsQuotes(v) {
      QuotedFieldScan(v, rest, cur);
    } else {
      ScanPlain(v, rest, ',', cur);
    }
  }

  /** The quoted case: the opening quote starts a quoted stretch that the
      escaped text and the closing quote end. */
  lemma QuotedFieldScan(v: string, rest: string, cur: string)
    requires NeedsQuotes(v)
    requires |rest| == 0 || rest[0] == ','
    ensures Scan(QuoteField(v) + rest, ',', false, cur) == Scan(rest, ',', false, cur + v)
  {
    var tail := Escape(v) + "\"" + rest;
    var s := "\"" + tail;
    assert QuoteField(v) + rest == s;
    assert s[1..] == tail;
    ScanOpenQuote(s, ',', cur);
    ScanQuoted(v, rest, ',', cur);
  }

  /** Quoting every field of a record by the export rule and reading the
      record back with a comma delimiter restores the fields, as long as no
      field has surrounding whitespace (the reader trims). */
  lemma {:induction false} ReadQuotedRecord(cells: seq<string>)
    requires |cells| >= 1
    requires forall i :: 0 <= i < |cells| ==> IsTrimmed(cells[i])
    ensures ParseRow(Join(QuoteAll(cells), ","), ',') == cells
  {
    var q := QuoteAll(cells);
    ParseRowIsScan(Join(q, ","));
    if |cells| == 1 {
      ReadQuotedLast(cells[0]);
    } else {
      var tail := Join(q[1..], ",");
      JoinStep(q, ",");
      ReadQuotedFirst(cells[0], tail);
      assert q[1..] == QuoteAll(cells[1..]);
      ReadQuotedRecord(cells[1..]);
      ParseRowIsScan(tail);
      assert cells == [cells[0]] + cells[1..];
    }
  }

  /** The last field of a record, quoted by the export rule, reads back as
      itself. */
  lemma ReadQuotedLast(v: string)
    requires IsTrimmed(v)
    ensures Scan(QuoteField(v), ',', false, []) == [v]
  {
    QuoteFieldScanEnd(v);
    ScanAtEnd(',', false, v);
    TrimIdentity(v);
  }

  lemma QuoteFieldScanEnd(v: string)
    ensures Scan(QuoteField(v), ',', false, []) == Scan([], ',', false, v)
  {
    QuoteFieldScan(v, [], []);
    assert QuoteField(v) + [] == QuoteField(v);
    assert [] + v == v;
  }

  /** A field followed by a comma reads back as itself; reading resumes
      after the comma. */
  lemma ReadQuotedFirst(v: string, tail: string)
    requires IsTrimmed(v)
    ensures Scan(QuoteField(v) + ("," + tail), ',', false, []) == [v] + Scan(tail, ',', false, [])
  {
    QuoteFieldScan(v, "," + tail, []);
    assert [] + v == v;
    assert "," + tail == [','] + tail;
    ScanAtDelim(tail, ',', v);
    TrimIdentity(v);
  }

  lemma ParseRowIsScan(row: string)
    ensures ParseRow(row, ',') == Scan(row, ',', false, [])
  {
  }

  lemma ScanAtEnd(d: char, inQ: bool, cur: string)
    ensures Scan([], d, inQ, cur) == [Trim(cur)]
  {
  }

  lemma ScanAtDelim(rest: string, d: char, cur: string)
    requires d != '"'
    ensures Scan([d] + rest, d, false, cur) == [Trim(cur)] + Scan(rest, d, false, [])
  {
    assert ([d] + rest)[0] == d && ([d] + rest)[1..] == rest;
  }

  /** A value with no surrounding whitespace survives quoting and reading
      back. */
  lemma ReadQuotedValue(v: string)
    requires IsTrimmed(v)
    ensures ParseRow(QuoteField(v), ',') == [v]
  {
    ReadQuotedRecord([v]);
    assert QuoteAll([v]) == [QuoteField(v)];
  }

  /** Texts that read back unchanged and do not break a line. */
  predicate Clean(s: string) {
    IsTrimmed(s) && '\n' !in s
  }

  /** Every text of the feature's record is clean and the coordinate text
      holds no quote (true of any `JSON.stringify` of numbers). */
  predicate CleanFeature(f: Feature, keys: seq<string>, show: real -> string, coordJson: Geometry -> string) {
    var ts := RecordTexts(f, keys, show, coordJson);
    (forall i :: 0 <= i < |ts| ==> Clean(ts[i])) && '"' !in ts[|keys| + 1]
  }

  /** The coordinate rule agrees with the value rule on quote-free,
      single-line text, and a type name never needs quotes. */
  lemma RecordIsQuoted(f: Feature, keys: seq<string>, show: real -> string, coordJson: Geometry -> string)
    requires CleanFeature(f, keys, show, coordJson)
    ensures Record(f, keys, show, coordJson) == Join(QuoteAll(RecordTexts(f, keys, show, coordJson)), ",")
  {
    var ts := RecordTexts(f, keys, show, coordJson);
    TypeFieldUnquoted(f.geometry);
    CoordFieldQuoted(ts[|keys| + 1]);
    QuoteAllLastTwo(ts, |keys|);
  }

  /** A geometry type name holds no comma, quote or newline. */
  lemma TypeFieldUnquoted(g: Option<Geometry>)
    ensures !NeedsQuotes(TypeField(g))
  {
    if g.Some? {
      match g.value
      case Point(_) =>
      case MultiPoint(_) =>
      case LineString(_) =>
      case MultiLineString(_) =>
      case Polygon(_) =>
      case MultiPolygon(_) =>
      case GeometryCollection(_) =>
    }
  }

  /** Without quotes and newlines, the comma rule is the value rule. */
  lemma CoordFieldQuoted(c: string)
    requires '"' !in c && '\n' !in c
    ensures CoordField(c) == QuoteField(c)
  {
  }

  lemma QuoteAllLastTwo(ts: seq<string>, k: nat)
    requires |ts| == k + 2 && !NeedsQuotes(ts[k]) && CoordField(ts[k + 1]) == QuoteField(ts[k + 1])
    ensures QuoteAll(ts) == QuoteAll(ts[..k]) + [ts[k], CoordField(ts[k + 1])]
  {
    var r := QuoteAll(ts[..k]) + [ts[k], CoordField(ts[k + 1])];
    forall i | 0 <= i < |ts| ensures QuoteAll(ts)[i] == r[i] {
      if i < k {
        assert ts[..k][i] == ts[i];
      }
    }
  }

  /** A clean feature's record reads back as its texts. */
  lemma ReadRecord(f: Feature, keys: seq<string>, show: real -> string, coordJson: Geometry -> string)
    requires CleanFeature(f, keys, show, coordJson)
    ensures ParseRow(Record(f, keys, show, coordJson), ',') == RecordTexts(f, keys, show, coordJson)
  {
    RecordIsQuoted(f, keys, show, coordJson);
    ReadQuotedRecord(RecordTexts(f, keys, show, coordJson));
  }

  /** With clean names, the header reads back as the names followed by the
      two geometry columns. */
  lemma ReadHeader(keys: seq<string>)
    requires forall i :: 0 <= i < |keys| ==> IsTrimmed(keys[i])
    ensures ParseRow(Header(keys), ',') == keys + GeometryColumns
  {
    ReadQuotedRecord(keys + GeometryColumns);
  }

  /** Unquoted fields free of commas and quotes read back one column each. */
  lemma {:induction false} ReadPlainRecord(cells: seq<string>)
    requires |cells| >= 1
    requires forall i :: 0 <= i < |cells| ==> '"' !in cells[i] && ',' !in cells[i]
    ensures |ParseRow(Join(cells, ","), ',')| == |cells|
  {
    ParseRowIsScan(Join(cells, ","));
    if |cells| == 1 {
      ScanPlain(cells[0], [], ',', []);
      assert cells[0] + [] == cells[0];
      ScanAtEnd(',', false, [] + cells[0]);
    } else {
      var tail := Join(cells[1..], ",");
      JoinStep(cells, ",");
      ScanPlain(cells[0], "," + tail, ',', []);
      assert "," + tail == [','] + tail;
      ScanAtDelim(tail, ',', [] + cells[0]);
      ReadPlainRecord(cells[1..]);
      ParseRowIsScan(tail);
    }
  }

  /** The header as written reads back as the names followed by the two
      geometry columns when no name needs quotes or has surrounding
      whitespace. */
  lemma ReadHeaderAsWritten(keys: seq<string>)
    requires forall i :: 0 <= i < |keys| ==> IsTrimmed(keys[i]) && !NeedsQuotes(keys[i])
    ensures ParseRow(HeaderAsWritten(keys), ',') == keys + GeometryColumns
  {
    HeaderAsWrittenQuoted(keys);
    ReadHeader(keys);
  }

  /** The unquoted header does not read back when a property key holds a
      comma: the key `a,b` becomes two columns, one more than every record
      has; quoting the names keeps it one column. */
  lemma HeaderAsWrittenSplitsKey()
    ensures |ParseRow(HeaderAsWritten(["a,b"]), ',')| == 4
    ensures |ParseRow(Header(["a,b"]), ',')| == 3
  {
    var cols := ["a", "b"] + GeometryColumns;
    SplitKeyJoin();
    GeometryColumnsPlain();
    forall i | 0 <= i < |cols| ensures '"' !in cols[i] && ',' !in cols[i] {
      if i >= 2 {
        assert cols[i] == GeometryColumns[i - 2];
      }
    }
    ReadPlainRecord(cols);
    ReadHeader(["a,b"]);
  }

  /** Unquoted, the key `a,b` writes the same text as two keys `a` and `b`. */
  lemma SplitKeyJoin()
    ensures HeaderAsWritten(["a,b"]) == Join(["a", "b"] + GeometryColumns, ",")
  {
    var g := GeometryColumns;
    JoinStep(["a,b"] + g, ",");
    JoinStep(["a", "b"] + g, ",");
    JoinStep(["b"] + g, ",");
    assert (["a,b"] + g)[1..] == g;
    assert (["a", "b"] + g)[1..] == ["b"] + g;
    assert (["b"] + g)[1..] == g;
    assert "a,b" == "a" + ("," + "b");
  }

  // ------------------------------------------------------------- lines

  lemma {:induction false} QuoteFieldKeepsLine(s: string)
    requires '\n' !in s
    ensures '\n' !in QuoteField(s)
  {
    if NeedsQuotes(s) {
      EscapeKeeps(s, '\n');
    }
  }

  lemma {:induction false} EscapeKeeps(s: string, c: char)
    requires c !in s && c != '"'
    ensures c !in Escape(s)
  {
    if |s| > 0 {
      EscapeKeeps(s[1..], c);
    }
  }

  lemma {:induction false} JoinKeeps<T>(pieces: seq<seq<T>>, sep: seq<T>, c: T)
    requires c !in sep
    requires forall i :: 0 <= i < |pieces| ==> c !in pieces[i]
    ensures c !in Join(pieces, sep)
  {
    if |pieces| > 1 {
      JoinKeeps(pieces[1..], sep, c);
    }
  }

  lemma QuotedLine(cells: seq<string>)
    requires forall i :: 0 <= i < |cells| ==> '\n' !in cells[i]
    ensures '\n' !in Join(QuoteAll(cells), ",")
  {
    forall i | 0 <= i < |cells| ensures '\n' !in QuoteAll(cells)[i] {
      QuoteFieldKeepsLine(cells[i]);
    }
    JoinKeeps(QuoteAll(cells), ",", '\n');
  }

  /** The header breaks no line when no name does. */
  lemma HeaderLine(keys: seq<string>)
    requires forall i :: 0 <= i < |keys| ==> '\n' !in keys[i]
    ensures '\n' !in Header(keys)
  {
    var cols := keys + GeometryColumns;
    forall i | 0 <= i < |cols| ensures '\n' !in cols[i] {
      if i == |keys| {
        assert cols[i] == "geometry_type";
      } else if i == |keys| + 1 {
        assert cols[i] == "geometry_coordinates";
      }
    }
    QuotedLine(cols);
  }

  /** No record of an export breaks a line, so splitting the output at
      newlines gives back the header and the records, whichever header
      record (quoted or as written) comes first. */
  lemma SplitLines(header: string, fs: seq<Feature>, keys: seq<string>, show: real -> string, coordJson: Geometry -> string)
    requires '\n' !in header
    requires forall i :: 0 <= i < |fs| ==> CleanFeature(fs[i], keys, show, coordJson)
    ensures var ls := [header] + Records(fs, keys, show, coordJson);
      Split(Join(ls, "\n"), '\n') == ls
  {
    var rs := Records(fs, keys, show, coordJson);
    var ls := [header] + rs;
    forall i | 0 <= i < |rs| ensures '\n' !in rs[i] {
      RecordIsQuoted(fs[i], keys, show, coordJson);
      QuotedLine(RecordTexts(fs[i], keys, show, coordJson));
    }
    SplitJoin(ls, '\n');
  }

  /** Reading the export back: with clean keys and texts, the output has one
      line per record, the first reads back as the header names and line
      `i + 1` as the texts of feature `i`. */
  lemma ExportReadsBack(fs: seq<Feature>, show: real -> string, coordJson: Geometry -> string)
    requires |fs| > 0
    requires forall k :: k in PropertyKeys(CollectionDoc(fs)) ==> Clean(k)
    requires forall i :: 0 <= i < |fs| ==> CleanFeature(fs[i], PropertyKeys(CollectionDoc(fs)), show, coordJson)
    ensures var lines := Split(ExportCsv(fs, show, coordJson).value, '\n');
      && |lines| == |fs| + 1
      && ParseRow(lines[0], ',') == PropertyKeys(CollectionDoc(fs)) + GeometryColumns
      && forall i :: 0 <= i < |fs| ==>
           ParseRow(lines[i + 1], ',') == RecordTexts(fs[i], PropertyKeys(CollectionDoc(fs)), show, coordJson)
  {
    var keys := PropertyKeys(CollectionDoc(fs));
    assert forall i :: 0 <= i < |keys| ==> keys[i] in keys;
    HeaderLine(keys);
    SplitLines(Header(keys), fs, keys, show, coordJson);
    ReadHeader(keys);
    forall i | 0 <= i < |fs|
      ensures ParseRow(Records(fs, keys, show, coordJson)[i], ',') == RecordTexts(fs[i], keys, show, coordJson)
    {
      ReadRecord(fs[i], keys, show, coordJson);
    }
  }

  /** Reading the program's export back: when, in addition, no property
      key holds a comma or a quote, the export as written reads back the
      same way, header included. */
  lemma ExportAsWrittenReadsBack(fs: seq<Feature>, show: real -> string, coordJson: Geometry -> string)
    requires |fs| > 0
    requires forall k :: k in PropertyKeys(CollectionDoc(fs)) ==> Clean(k) && !NeedsQuotes(k)
    requires forall i :: 0 <= i < |fs| ==> CleanFeature(fs[i], PropertyKeys(CollectionDoc(fs)), show, coordJson)
    ensures var lines := Split(ExportCsvAsWritten(fs, show, coordJson).value, '\n');
      && |lines| == |fs| + 1
      && ParseRow(lines[0], ',') == PropertyKeys(CollectionDoc(fs)) + GeometryColumns
      && forall i :: 0 <= i < |fs| ==>
           ParseRow(lines[i + 1], ',') == RecordTexts(fs[i], PropertyKeys(CollectionDoc(fs)), show, coordJson)
  {
    ExportAgrees(fs, show, coordJson);
    ExportReadsBack(fs, show, coordJson);
  }

  /** A clean coordinate text without quotes reads back as itself. */
  lemma CoordFieldReadsBack(c: string)
    requires IsTrimmed(c) && '"' !in c && '\n' !in c
    ensures ParseRow(CoordField(c), ',') == [c]
  {
    CoordFieldQuoted(c);
    ReadQuotedValue(c);
  }
}

=== FILE: draw_tool.dfy ===
/** The drawing tool (src/components/tools/DrawTool.tsx): the clicked points,
    the geometry and layer a finished drawing becomes, the Save button's
    thresholds and the live preview. The random colour, `Date.now()` id and
    creation timestamp are parameters; markers and preview layers on the
    native map are not modelled. */
module DrawTool {
  import opened Wrappers
  import opened GeoJson
  import opened ProjectTypes
  import opened ProjectStore

  /** The three drawing tools. */
  datatype DrawMode = DrawPoints | DrawLine | DrawPolygon

  datatype DrawPoint = DrawPoint(lng: real, lat: real)

  function Positions(pts: seq<DrawPoint>): (ps: seq<Position>)
    ensures |ps| == |pts| && forall i :: 0 <= i < |pts| ==> ps[i] == Pos2(pts[i].lng, pts[i].lat)
  {
    seq(|pts|, i requires 0 <= i < |pts| => Pos2(pts[i].lng, pts[i].lat))
  }

  /** A linear ring in the sense of section 3.1.6 of RFC 7946: at least four
      positions, the last equal to the first. */
  predicate ClosedRing(ring: seq<Position>) {
    |ring| >= 4 && ring[|ring| - 1] == ring[0]
  }

  /** The geometry a drawing saves: one point or a multi-point, a line
      through the points, or a polygon whose single ring is the points
      followed by the first point again. */
  function DrawnGeometry(mode: DrawMode, pts: seq<DrawPoint>): (g: Geometry)
    requires |pts| > 0
    ensures mode == DrawPoints && |pts| == 1 ==> g == Point(Pos2(pts[0].lng, pts[0].lat))
    ensures mode == DrawPoints && |pts| > 1 ==> g == MultiPoint(Positions(pts))
    ensures mode == DrawLine ==> g == LineString(Positions(pts))
    ensures mode == DrawPolygon ==>
      && g.Polygon? && |g.rings| == 1 && |g.rings[0]| == |pts| + 1
      && g.rings[0][..|pts|] == Positions(pts) && g.rings[0][|pts|] == g.rings[0][0]
  {
    match mode
    case DrawPoints =>
      if |pts| == 1 then Point(Pos2(pts[0].lng, pts[0].lat)) else MultiPoint(Positions(pts))
    case DrawLine => LineString(Positions(pts))
    case DrawPolygon =>
      var ring := Positions(pts) + [Pos2(pts[0].lng, pts[0].lat)];
      assert ring[..|pts|] == Positions(pts);
      Polygon([ring])
  }

  /** Three or more points make a valid ring; fewer do not. */
  lemma PolygonRingValid(pts: seq<DrawPoint>)
    requires |pts| > 0
    ensures ClosedRing(DrawnGeometry(DrawPolygon, pts).rings[0]) <==> |pts| >= 3
  {
  }

  function LayerName(mode: DrawMode): string {
    match mode
    case DrawPoints => "Drawn Points"
    case DrawLine => "Drawn Line"
    case DrawPolygon => "Drawn Polygon"
  }

  /** The layer a drawing becomes: a visible, opaque `geojson` layer
      holding one feature, filled and stroked in the same colour. */
  function DrawnLayer(mode: DrawMode, pts: seq<DrawPoint>, color: string, id: string, created: string): (l: Layer)
    requires |pts| > 0
    ensures l.id == id && l.name == LayerName(mode) && l.kind == GeoJsonLayer && l.visible && l.opacity == 1.0
    ensures l.source.kind == "geojson"
    ensures l.source.data == Some(CollectionDoc([Feature(Some([("created", Str(created))]), Some(DrawnGeometry(mode, pts)))]))
    ensures l.style.Some? && l.style.value.fillColor == Some(color) && l.style.value.strokeColor == Some(color)
    ensures l.style.Some? && l.style.value.fillOpacity == Some(0.5) && l.style.value.strokeWidth == Some(2.0)
  {
    var feature := Feature(Some([("created", Str(created))]), Some(DrawnGeometry(mode, pts)));
    Layer(id, LayerName(mode), GeoJsonLayer, true, 1.0,
          Source("geojson", None, Some(CollectionDoc([feature])), None, None),
          Some(Style(Some(color), Some(0.5), Some(color), Some(2.0), None, Some(6.0), None)),
          None, None)
  }

  /** What saving leaves behind: the store, the layer handed to the
      backend's `addLayer` (if it was called), the points still on screen,
      and whether the tool is still active. */
  datatype Saved = Saved(store: Store, handed: Option<Layer>, points: seq<DrawPoint>, active: bool)

  /** `saveDrawing`: only on a MapLibre backend and with at least one point.
      The layer goes to the store first and then to the backend; when the
      backend's `addLayer` rejects, the rest (clearing the points and
      switching the tool off) does not happen, but the store keeps the
      layer. */
  function SaveDrawing(st: Store, mode: DrawMode, pts: seq<DrawPoint>, onMapLibre: bool,
                       color: string, id: string, now: string, backendAdd: Outcome): (s: Saved)
    ensures !onMapLibre || |pts| == 0 ==> s == Saved(st, None, pts, true)
    ensures onMapLibre && |pts| > 0 ==>
      var l := DrawnLayer(mode, pts, color, id, now);
      && s.store.layers == st.layers + [l] && s.store.isDirty
      && s.handed == Some(l)
      && (backendAdd.Pass? ==> s.points == [] && !s.active)
      && (backendAdd.Fail? ==> s.points == pts && s.active)
  {
    if !onMapLibre || |pts| == 0 then Saved(st, None, pts, true)
    else
      var l := DrawnLayer(mode, pts, color, id, now);
      var st' := Apply(st, AddLayer(l), now);
      if backendAdd.Pass? then Saved(st', Some(l), [], false) else Saved(st', Some(l), pts, true)
  }

  /** The fewest points the Save button accepts. */
  function MinPoints(mode: DrawMode): nat {
    match mode
    case DrawPoints => 1
    case DrawLine => 2
    case DrawPolygon => 3
  }

  /** The Save button's `disabled` test, negated. */
  function SaveEnabled(mode: DrawMode, count: nat): (enabled: bool)
    ensures enabled <==> count >= MinPoints(mode)
  {
    !((mode == DrawPoints && count < 1) || (mode == DrawLine && count < 2) || (mode == DrawPolygon && count < 3))
  }

  /** Whatever Save accepts is a valid drawing: a polygon saved from the
      button always has a closed ring of at least four positions. */
  lemma SaveButtonMakesValidPolygon(pts: seq<DrawPoint>)
    requires SaveEnabled(DrawPolygon, |pts|)
    ensures ClosedRing(DrawnGeometry(DrawPolygon, pts).rings[0])
  {
    PolygonRingValid(pts);
  }

  /** The preview geometry drawn while clicking: nothing under two points,
      a closed ring for a polygon from three points, a line otherwise. */
  function Preview(mode: DrawMode, pts: seq<DrawPoint>): (g: Option<Geometry>)
    ensures |pts| < 2 ==> g.None?
    ensures |pts| >= 3 && mode == DrawPolygon ==> g == Some(DrawnGeometry(DrawPolygon, pts))
    ensures |pts| >= 2 && !(mode == DrawPolygon && |pts| >= 3) ==> g == Some(LineString(Positions(pts)))
  {
    if |pts| < 2 then None
    else if mode == DrawPolygon && |pts| >= 3 then
      var cs := Positions(pts);
      assert cs + [cs[0]] == Positions(pts) + [Pos2(pts[0].lng, pts[0].lat)];
      Some(Polygon([cs + [cs[0]]]))
    else Some(LineString(Positions(pts)))
  }

  // ----- Clicks and the double-click handler -----

  /** The tool while it is active: the points clicked so far, and the
      points the map's handlers saw when they were registered. The
      handlers are registered when the tool becomes active or changes, and
      the double-click handler calls the `saveDrawing` of that render. */
  datatype Drawing = Drawing(mode: DrawMode, points: seq<DrawPoint>, registered: seq<DrawPoint>)

  /** Activating a tool (or switching between drawing tools) registers the
      handlers over the points on screen at that moment. */
  function Activate(mode: DrawMode, onScreen: seq<DrawPoint>): (d: Drawing)
    ensures d.mode == mode && d.points == onScreen && d.registered == onScreen
  {
    Drawing(mode, onScreen, onScreen)
  }

  /** A map click appends a point; the registered handlers are unchanged. */
  function Click(d: Drawing, p: DrawPoint): (r: Drawing)
    ensures r.points == d.points + [p] && r.mode == d.mode && r.registered == d.registered
  {
    d.(points := d.points + [p])
  }

  function Clicks(d: Drawing, ps: seq<DrawPoint>): (r: Drawing)
    ensures r.mode == d.mode && r.registered == d.registered && r.points == d.points + ps
    decreases |ps|
  {
    if |ps| == 0 then d
    else
      var r := Clicks(Click(d, ps[0]), ps[1..]);
      assert d.points + [ps[0]] + ps[1..] == d.points + ps;
      r
  }

  /** The double-click handler as written: for lines and polygons it runs
      the `saveDrawing` captured at registration, which sees the points of
      that moment rather than the ones clicked since. */
  function DoubleClickAsWritten(st: Store, d: Drawing, onMapLibre: bool, color: string, id: string,
                                now: string, backendAdd: Outcome): (s: Saved)
    ensures d.mode == DrawPoints ==> s == Saved(st, None, d.points, true)
    ensures d.mode != DrawPoints && d.registered == [] ==> s.store == st && s.handed.None?
  {
    if d.mode == DrawPoints then Saved(st, None, d.points, true)
    else SaveDrawing(st, d.mode, d.registered, onMapLibre, color, id, now, backendAdd)
  }

  /** A line drawn from a fresh activation: whatever was clicked, the
      double-click saves nothing. */
  lemma DoubleClickSavesNothing(st: Store, ps: seq<DrawPoint>, color: string, id: string, now: string)
    requires |ps| >= 2
    ensures var d := Clicks(Activate(DrawLine, []), ps);
      var s := DoubleClickAsWritten(st, d, true, color, id, now, Pass);
      |d.points| >= 2 && s.store == st && s.handed.None?
  {
  }

  /** The double-click handler as the tool's hint ("double-click to
      finish") intends: for lines and polygons it saves the points clicked
      so far, without the Save button's thresholds. */
  function DoubleClick(st: Store, d: Drawing, onMapLibre: bool, color: string, id: string,
                       now: string, backendAdd: Outcome): (s: Saved)
    ensures d.mode == DrawPoints ==> s == Saved(st, None, d.points, true)
    ensures d.mode != DrawPoints ==> s == SaveDrawing(st, d.mode, d.points, onMapLibre, color, id, now, backendAdd)
  {
    if d.mode == DrawPoints then Saved(st, None, d.points, true)
    else SaveDrawing(st, d.mode, d.points, onMapLibre, color, id, now, backendAdd)
  }

  /** With the intended handler, a line drawn from a fresh activation is
      saved as exactly the clicked points, in click order. */
  lemma DoubleClickSavesLine(st: Store, ps: seq<DrawPoint>, color: string, id: string, now: string)
    requires |ps| >= 2
    ensures var d := Clicks(Activate(DrawLine, []), ps);
      var s := DoubleClick(st, d, true, color, id, now, Pass);
      && s.handed.Some?
      && s.handed.value.source.data == Some(CollectionDoc([Feature(Some([("created", Str(now))]), Some(LineString(Positions(ps))))]))
      && s.store.layers == st.layers + [s.handed.value] && s.points == [] && !s.active
  {
    var d := Clicks(Activate(DrawLine, []), ps);
    assert d.points == ps && d.mode == DrawLine;
    var s := DoubleClick(st, d, true, color, id, now, Pass);
    assert s == SaveDrawing(st, DrawLine, ps, true, color, id, now, Pass);
    var l := DrawnLayer(DrawLine, ps, color, id, now);
    assert s.handed == Some(l) && s.store.layers == st.layers + [l];
  }

  /** The intended handler still skips the thresholds: a polygon finished
      after two clicks has a ring of three positions, which section 3.1.6 of
      RFC 7946 does not allow. */
  lemma DoubleClickShortPolygon(st: Store, a: DrawPoint, b: DrawPoint, color: string, id: string, now: string)
    ensures var d := Clicks(Activate(DrawPolygon, []), [a, b]);
      var s := DoubleClick(st, d, true, color, id, now, Pass);
      s.handed.Some? && !ClosedRing(DrawnGeometry(DrawPolygon, [a, b]).rings[0])
  {
    var d := Clicks(Activate(DrawPolygon, []), [a, b]);
    assert d.points == [a, b];
  }
}

=== FILE: events.dfy ===
/** The event-handler registry shared by the adapters
    (src/backends/adapters/MapLibreAdapter.ts, LeafletAdapter.ts and
    KeplerGLAdapter.ts): a `Map` from event name to a `Set` of callbacks.
    A `Set` iterates in insertion order, so each event's callbacks are a
    sequence without repeats. */
module Events {
  import opened Seqs

  type Handlers<H> = map<string, seq<H>>

  /** The callbacks registered for `event`, in registration order. */
  function Listeners<H>(hs: Handlers<H>, event: string): seq<H> {
    if event in hs then hs[event] else []
  }

  /** No callback is registered twice for one event. */
  predicate SetLike<H(==)>(hs: Handlers<H>) {
    forall e :: e in hs ==> Distinct(hs[e])
  }

  /** `on(event, callback)`: creates the event's set if needed and adds the
      callback to it. */
  function Register<H(==,!new)>(hs: Handlers<H>, event: string, cb: H): (r: Handlers<H>)
    requires SetLike(hs)
    ensures SetLike(r)
    ensures forall h :: h in Listeners(r, event) <==> h in Listeners(hs, event) || h == cb
    ensures forall e :: e != event ==> Listeners(r, e) == Listeners(hs, e)
  {
    var ls := Listeners(hs, event);
    if cb in ls then hs[event := ls]
    else
      var ls' := ls + [cb];
      assert Distinct(ls') by {
        forall i, j | 0 <= i < j < |ls'| ensures ls'[i] != ls'[j] {
          if j == |ls| {
            assert ls'[i] in ls;
          }
        }
      }
      hs[event := ls']
  }

  /** `off(event, callback)`: removes the callback from the event's set, if
      the event has one. */
  function Unregister<H(==,!new)>(hs: Handlers<H>, event: string, cb: H): (r: Handlers<H>)
    requires SetLike(hs)
    ensures SetLike(r)
    ensures forall h :: h in Listeners(r, event) <==> h in Listeners(hs, event) && h != cb
    ensures forall e :: e != event ==> Listeners(r, e) == Listeners(hs, e)
  {
    if event !in hs then hs
    else
      var p := (h: H) => h != cb;
      FilterDistinct(hs[event], p);
      hs[event := Filter(hs[event], p)]
  }

  /** Filtering keeps a list free of repeats. */
  lemma {:induction false} FilterDistinct<T(!new)>(xs: seq<T>, p: T -> bool)
    requires Distinct(xs)
    ensures Distinct(Filter(xs, p))
  {
    if |xs| > 0 {
      assert Distinct(xs[1..]) by {
        forall i, j | 0 <= i < j < |xs[1..]| ensures xs[1..][i] != xs[1..][j] {
          assert xs[1..][i] == xs[i + 1] && xs[1..][j] == xs[j + 1];
        }
      }
      FilterDistinct(xs[1..], p);
      var rest := Filter(xs[1..], p);
      if p(xs[0]) {
        forall k | 0 <= k < |xs[1..]| ensures xs[1..][k] != xs[0] {
          assert xs[1..][k] == xs[k + 1];
        }
        assert xs[0] !in rest;
        var r := [xs[0]] + rest;
        assert Filter(xs, p) == r;
        forall i, j | 0 <= i < j < |r| ensures r[i] != r[j] {
          assert r[j] == rest[j - 1];
          if i > 0 {
            assert r[i] == rest[i - 1];
          } else {
            assert r[j] in rest;
          }
        }
      }
    }
  }

  /** Registering the same callback twice stores it once. */
  lemma RegisterTwice<H(!new)>(hs: Handlers<H>, event: string, cb: H)
    requires SetLike(hs)
    ensures Register(Register(hs, event, cb), event, cb) == Register(hs, event, cb)
  {
    var r := Register(hs, event, cb);
    assert r[event := Listeners(r, event)] == r;
  }

  /** `off` undoes `on` for that callback and leaves every other callback of
      the event registered. */
  lemma RegisterUnregister<H(!new)>(hs: Handlers<H>, event: string, cb: H)
    requires SetLike(hs)
    ensures var r := Unregister(Register(hs, event, cb), event, cb);
      forall h :: h in Listeners(r, event) <==> h in Listeners(hs, event) && h != cb
  {
  }
}

=== FILE: file_types.dfy ===
/** `detectFileType` (src/utils/parsers.ts): the import format named by a
    file's extension. */
module FileTypes {
  import opened Seqs
  import opened Text

  /** The extension table, with `unknown` for anything not in it. */
  function TypeOfExtension(ext: string): string {
    if ext == "geojson" || ext == "json" then "geojson"
    else if ext == "kml" then "kml"
    else if ext == "kmz" then "kmz"
    else if ext == "csv" || ext == "tsv" then "csv"
    else if ext == "shp" || ext == "zip" then "shapefile"
    else if ext == "tif" || ext == "tiff" then "geotiff"
    else if ext == "gpkg" then "geopackage"
    else "unknown"
  }

  const Kinds: set<string> := {"geojson", "kml", "kmz", "csv", "shapefile", "geotiff", "geopackage", "unknown"}

  /** The text after the last `.`, lowercased (the whole name when it has
      no dot). */
  function Extension(fileName: string): string {
    ToLower(LastPiece(fileName, '.'))
  }

  /** The text after the last `.`, lowercased, looked up in the table:
      each kind is named by exactly its listed extensions, and every other
      extension is `unknown`. */
  function DetectFileType(fileName: string): (t: string)
    ensures t in Kinds
    ensures var e := Extension(fileName);
      && (t == "geojson" <==> e == "geojson" || e == "json")
      && (t == "kml" <==> e == "kml")
      && (t == "kmz" <==> e == "kmz")
      && (t == "csv" <==> e == "csv" || e == "tsv")
      && (t == "shapefile" <==> e == "shp" || e == "zip")
      && (t == "geotiff" <==> e == "tif" || e == "tiff")
      && (t == "geopackage" <==> e == "gpkg")
      && (t == "unknown" <==> e !in KnownExtensions)
  {
    TypeOfExtension(Extension(fileName))
  }

  const KnownExtensions: set<string> := {"geojson", "json", "kml", "kmz", "csv", "tsv", "shp", "zip", "tif", "tiff", "gpkg"}

  /** Only the last extension counts, in any letter case. */
  lemma DetectByExtension(base: string, ext: string)
    requires '.' !in ext
    ensures DetectFileType(base + "." + ext) == TypeOfExtension(ToLower(ext))
  {
    LastPieceAfter(base, ext, '.');
  }

  /** A name without a dot is its own extension. */
  lemma DetectWithoutDot(fileName: string)
    requires '.' !in fileName
    ensures DetectFileType(fileName) == TypeOfExtension(ToLower(fileName))
  {
    SplitNoSeparator(fileName, '.');
  }
}

=== FILE: geo.dfy ===
/** The GeoJSON utilities of src/utils/geo.ts: the bounding box of a
    document's positions (RFC 7946 sections 3.1.1 and 5), its distinct
    geometry types and property keys, attribute-table rows, field
    statistics, degree/minute/second notation and scale labels. */
module Geo {
  import opened Wrappers
  import opened Seqs
  import opened OrderedMaps
  import opened GeoJson

  // ------------------------------------------------------------ positions

  function Flatten<T(!new)>(xss: seq<seq<T>>): (r: seq<T>)
    ensures forall x :: x in r <==> exists i :: 0 <= i < |xss| && x in xss[i]
  {
    if |xss| == 0 then []
    else
      var r := xss[0] + Flatten(xss[1..]);
      assert forall i :: 1 <= i < |xss| ==> xss[1..][i - 1] == xss[i];
      r
  }

  /** The positions `extractCoords` pushes for a geometry, in visiting
      order. */
  function GeometryPositions(g: Geometry): (ps: seq<Position>)
    decreases g
  {
    match g
    case Point(p) => [p]
    case MultiPoint(points) => points
    case LineString(line) => line
    case MultiLineString(lines) => Flatten(lines)
    case Polygon(rings) => Flatten(rings)
    case MultiPolygon(polygons) => Flatten(seq(|polygons|, i requires 0 <= i < |polygons| => Flatten(polygons[i])))
    case GeometryCollection(geometries) => CollectionPositions(geometries)
  }

  /** The positions of a GeometryCollection: those of its members, in
      order. */
  function CollectionPositions(gs: seq<Geometry>): (ps: seq<Position>)
    ensures forall p :: p in ps <==> exists i :: 0 <= i < |gs| && p in GeometryPositions(gs[i])
    decreases gs
  {
    if |gs| == 0 then []
    else
      var r := GeometryPositions(gs[0]) + CollectionPositions(gs[1..]);
      assert forall i :: 1 <= i < |gs| ==> gs[1..][i - 1] == gs[i];
      r
  }

  /** A feature without geometry contributes nothing. */
  function FeaturePositions(f: Feature): seq<Position> {
    if f.geometry.Some? then GeometryPositions(f.geometry.value) else []
  }

  function FeaturesPositions(fs: seq<Feature>): (ps: seq<Position>)
    ensures forall p :: p in ps <==> exists i :: 0 <= i < |fs| && p in FeaturePositions(fs[i])
  {
    if |fs| == 0 then []
    else
      var r := FeaturePositions(fs[0]) + FeaturesPositions(fs[1..]);
      assert forall i :: 1 <= i < |fs| ==> fs[1..][i - 1] == fs[i];
      r
  }

  /** Every position a document contributes to its bounds. */
  function DocPositions(doc: Doc): seq<Position> {
    match doc
    case FeatureDoc(f) => FeaturePositions(f)
    case CollectionDoc(fs) => FeaturesPositions(fs)
    case GeometryDoc(g) => GeometryPositions(g)
  }

  // --------------------------------------------------------------- bounds

  /** `[[minLng, minLat], [maxLng, maxLat]]`. */
  datatype BBox = BBox(minLng: real, minLat: real, maxLng: real, maxLat: real)

  predicate Inside(b: BBox, p: Position) {
    b.minLng <= p.lng <= b.maxLng && b.minLat <= p.lat <= b.maxLat
  }

  /** Every position lies in the box and each of the four bounds is the
      coordinate of some position: the smallest enclosing box. */
  predicate Tight(b: BBox, ps: seq<Position>) {
    && (forall p :: p in ps ==> Inside(b, p))
    && (exists p :: p in ps && p.lng == b.minLng)
    && (exists p :: p in ps && p.lng == b.maxLng)
    && (exists p :: p in ps && p.lat == b.minLat)
    && (exists p :: p in ps && p.lat == b.maxLat)
  }

  /** One step of the min/max loop; `None` is the initial state in which
      the minima are `Infinity` and the maxima `-Infinity`, so that every
      first comparison succeeds. */
  function Widen(acc: Option<BBox>, p: Position): (r: BBox)
    ensures Inside(r, p)
    ensures acc.Some? ==> (r.minLng <= acc.value.minLng && r.maxLng >= acc.value.maxLng
                           && r.minLat <= acc.value.minLat && r.maxLat >= acc.value.maxLat)
  {
    if acc.None? then BBox(p.lng, p.lat, p.lng, p.lat)
    else
      var b := acc.value;
      BBox(if p.lng < b.minLng then p.lng else b.minLng,
           if p.lat < b.minLat then p.lat else b.minLat,
           if p.lng > b.maxLng then p.lng else b.maxLng,
           if p.lat > b.maxLat then p.lat else b.maxLat)
  }

  /** The loop over the collected positions, last position last. */
  function Fold(ps: seq<Position>): (r: Option<BBox>)
    ensures r.None? <==> |ps| == 0
  {
    if |ps| == 0 then None else Some(Widen(Fold(ps[..|ps| - 1]), ps[|ps| - 1]))
  }

  lemma {:induction false} FoldTight(ps: seq<Position>)
    requires |ps| > 0
    ensures Tight(Fold(ps).value, ps)
  {
    var init := ps[..|ps| - 1];
    var last := ps[|ps| - 1];
    assert forall p :: p in ps <==> p in init || p == last;
    if |init| > 0 {
      FoldTight(init);
      var b := Fold(init).value;
      var r := Fold(ps).value;
      assert forall p :: p in init ==> Inside(r, p);
      var a :| a in init && a.lng == b.minLng;
      var c :| c in init && c.lng == b.maxLng;
      var e :| e in init && e.lat == b.minLat;
      var f :| f in init && f.lat == b.maxLat;
      assert r.minLng == last.lng || r.minLng == a.lng;
      assert r.maxLng == last.lng || r.maxLng == c.lng;
      assert r.minLat == last.lat || r.minLat == e.lat;
      assert r.maxLat == last.lat || r.maxLat == f.lat;
    }
  }

  /** `calculateBounds`. */
  function Bounds(doc: Doc): (r: Option<BBox>)
    ensures r.None? <==> |DocPositions(doc)| == 0
  {
    Fold(DocPositions(doc))
  }

  /** The bounds are absent exactly when there is no position, and
      otherwise form the smallest box around all positions. */
  lemma BoundsTight(doc: Doc)
    ensures Bounds(doc).None? <==> |DocPositions(doc)| == 0
    ensures Bounds(doc).Some? ==> Tight(Bounds(doc).value, DocPositions(doc))
    ensures Bounds(doc).Some? ==> (Bounds(doc).value.minLng <= Bounds(doc).value.maxLng
                                   && Bounds(doc).value.minLat <= Bounds(doc).value.maxLat)
  {
    if |DocPositions(doc)| > 0 {
      FoldTight(DocPositions(doc));
      var b := Bounds(doc).value;
      var p :| p in DocPositions(doc) && p.lng == b.minLng;
      assert Inside(b, p);
    }
  }

  /** A feature without geometry changes no bounds, and a GeometryCollection
      contributes exactly its members' positions. */
  lemma PositionsContributed(f: Feature, gs: seq<Geometry>)
    ensures f.geometry.None? ==> DocPositions(FeatureDoc(f)) == []
    ensures forall p :: p in GeometryPositions(GeometryCollection(gs))
              <==> exists i :: 0 <= i < |gs| && p in GeometryPositions(gs[i])
  {
  }

  // ------------------------------------------------------ types and keys

  function FeatureTypes(fs: seq<Feature>): (ts: seq<string>)
    ensures forall t :: t in ts <==> exists i :: 0 <= i < |fs| && fs[i].geometry.Some? && TypeName(fs[i].geometry.value) == t
  {
    if |fs| == 0 then []
    else
      var rest := FeatureTypes(fs[1..]);
      assert forall i :: 1 <= i < |fs| ==> fs[1..][i - 1] == fs[i];
      (if fs[0].geometry.Some? then [TypeName(fs[0].geometry.value)] else []) + rest
  }

  /** The geometry types in visiting order, with repetitions. */
  function AllTypes(doc: Doc): seq<string> {
    match doc
    case FeatureDoc(f) => FeatureTypes([f])
    case CollectionDoc(fs) => FeatureTypes(fs)
    case GeometryDoc(g) => [TypeName(g)]
  }

  /** `getGeometryTypes`: each type once, in order of first appearance. */
  function GeometryTypes(doc: Doc): (ts: seq<string>)
    ensures Distinct(ts)
    ensures forall t :: t in ts <==> t in AllTypes(doc)
    ensures forall i, j :: 0 <= i < j < |ts| ==> FirstIndex(AllTypes(doc), ts[i]) < FirstIndex(AllTypes(doc), ts[j])
  {
    Dedup(AllTypes(doc))
  }

  /** The feature list of a document, as `getPropertyKeys` and
      `getFeatureRows` see it; a bare geometry has none. */
  function DocFeatures(doc: Doc): seq<Feature> {
    match doc
    case FeatureDoc(f) => [f]
    case CollectionDoc(fs) => fs
    case GeometryDoc(_) => []
  }

  function PropsOf(f: Feature): Props {
    if f.properties.Some? then f.properties.value else []
  }

  /** The keys of every feature's properties, feature by feature, each in
      the object's own order. */
  function AllKeys(fs: seq<Feature>): (ks: seq<string>)
    ensures forall k :: k in ks <==> exists i :: 0 <= i < |fs| && Has(PropsOf(fs[i]), k)
  {
    if |fs| == 0 then []
    else
      var rest := AllKeys(fs[1..]);
      assert forall i :: 1 <= i < |fs| ==> fs[1..][i - 1] == fs[i];
      Keys(PropsOf(fs[0])) + rest
  }

  /** `getPropertyKeys`: each key once, in order of first appearance. */
  function PropertyKeys(doc: Doc): (ks: seq<string>)
    ensures Distinct(ks)
    ensures forall k :: k in ks <==> exists i :: 0 <= i < |DocFeatures(doc)| && Has(PropsOf(DocFeatures(doc)[i]), k)
    ensures forall k :: k in ks <==> k in AllKeys(DocFeatures(doc))
    ensures forall i, j :: 0 <= i < j < |ks| ==> FirstIndex(AllKeys(DocFeatures(doc)), ks[i]) < FirstIndex(AllKeys(DocFeatures(doc)), ks[j])
    ensures doc.GeometryDoc? ==> ks == []
  {
    Dedup(AllKeys(DocFeatures(doc)))
  }

  // ----------------------------------------------------------------- rows

  datatype Row = Row(id: nat, properties: Props, geometry: Option<Geometry>)

  /** `getFeatureRows`: one row per feature, numbered from 0 in input
      order; missing properties read as an empty object. */
  function FeatureRows(doc: Doc): (rows: seq<Row>)
    ensures |rows| == |DocFeatures(doc)|
    ensures forall i :: 0 <= i < |rows| ==>
      rows[i] == Row(i, PropsOf(DocFeatures(doc)[i]), DocFeatures(doc)[i].geometry)
  {
    var fs := DocFeatures(doc);
    seq(|fs|, i requires 0 <= i < |fs| => Row(i, PropsOf(fs[i]), fs[i].geometry))
  }

  // ----------------------------------------------------------- statistics

  predicate Sorted(xs: seq<real>) {
    forall i, j :: 0 <= i < j < |xs| ==> xs[i] <= xs[j]
  }

  function Insert(x: real, xs: seq<real>): (r: seq<real>)
    requires Sorted(xs)
    ensures Sorted(r)
    ensures multiset(r) == multiset(xs) + multiset{x}
    ensures Sum(r) == x + Sum(xs)
  {
    if |xs| == 0 || x <= xs[0] then
      SortedCons(x, xs);
      [x] + xs
    else
      SortedTail(xs);
      var t := Insert(x, xs[1..]);
      HeadBelowInserted(x, xs, t);
      SortedCons(xs[0], t);
      assert xs == [xs[0]] + xs[1..];
      [xs[0]] + t
  }

  lemma SortedTail(xs: seq<real>)
    requires Sorted(xs) && |xs| > 0
    ensures Sorted(xs[1..])
  {
    forall i, j | 0 <= i < j < |xs[1..]| ensures xs[1..][i] <= xs[1..][j] {
      assert xs[1..][i] == xs[i + 1] && xs[1..][j] == xs[j + 1];
    }
  }

  /** A value at most every element of a sorted list heads it in order. */
  lemma SortedCons(a: real, t: seq<real>)
    requires Sorted(t)
    requires |t| > 0 ==> a <= t[0]
    ensures Sorted([a] + t)
  {
    var r := [a] + t;
    forall i, j | 0 <= i < j < |r| ensures r[i] <= r[j] {
      assert r[j] == t[j - 1];
      if i > 0 {
        assert r[i] == t[i - 1];
      } else {
        assert t[0] <= t[j - 1];
      }
    }
  }

  /** The head of a sorted list below `x` is at most the first value the
      insertion into its tail yields. */
  lemma HeadBelowInserted(x: real, xs: seq<real>, t: seq<real>)
    requires Sorted(xs) && |xs| > 0 && xs[0] < x
    requires multiset(t) == multiset(xs[1..]) + multiset{x}
    ensures |t| > 0 && xs[0] <= t[0]
  {
    assert x in multiset(t);
    assert t[0] in multiset(t);
    if t[0] != x {
      assert t[0] in multiset(xs[1..]);
      var m :| 0 <= m < |xs[1..]| && xs[1..][m] == t[0];
      assert xs[m + 1] == t[0];
    }
  }

  /** `[...values].sort((a, b) => a - b)`. */
  function SortNumbers(xs: seq<real>): (r: seq<real>)
    ensures Sorted(r)
    ensures multiset(r) == multiset(xs)
    ensures Sum(r) == Sum(xs)
  {
    if |xs| == 0 then []
    else
      assert xs == [xs[0]] + xs[1..];
      Insert(xs[0], SortNumbers(xs[1..]))
  }

  lemma SameMembers(a: seq<real>, b: seq<real>)
    requires multiset(a) == multiset(b)
    ensures |a| == |b|
    ensures forall v :: v in a <==> v in b
  {
    assert |multiset(a)| == |multiset(b)|;
    forall v ensures v in a <==> v in b {
      assert v in a <==> v in multiset(a);
      assert v in b <==> v in multiset(b);
    }
  }

  lemma SortedEnds(s: seq<real>)
    requires Sorted(s) && |s| > 0
    ensures forall v :: v in s ==> s[0] <= v <= s[|s| - 1]
  {
    forall v | v in s ensures s[0] <= v <= s[|s| - 1] {
      var i :| 0 <= i < |s| && s[i] == v;
    }
  }

  datatype Stats = Stats(count: nat, min: real, max: real, mean: real, median: real, sum: real)

  /** `calculateFieldStats` without the standard deviation. */
  function FieldStats(values: seq<real>): (s: Stats)
    requires |values| > 0
    ensures s.count == |values|
    ensures s.min in values && forall v :: v in values ==> s.min <= v
    ensures s.max in values && forall v :: v in values ==> v <= s.max
    ensures s.sum == Sum(values) && s.mean == s.sum / (|values| as real)
    ensures s.min <= s.median <= s.max
  {
    var sorted := SortNumbers(values);
    SameMembers(values, sorted);
    SortedEnds(sorted);
    var count := |sorted|;
    var sum := Sum(sorted);
    Stats(count, sorted[0], sorted[count - 1], sum / (count as real), Middle(sorted), sum)
  }

  /** The middle value of an ascending list, or the mean of the two middle
      values for an even length: it lies between the ends. */
  function Middle(s: seq<real>): (m: real)
    requires Sorted(s) && |s| > 0
    ensures s[0] <= m <= s[|s| - 1]
  {
    var n := |s|;
    if n % 2 == 0 then
      assert s[0] <= s[n / 2 - 1] <= s[n / 2] <= s[n - 1];
      (s[n / 2 - 1] + s[n / 2]) / 2.0
    else
      assert s[0] <= s[n / 2] <= s[n - 1];
      s[n / 2]
  }

  /** The median is the middle value of any ascending arrangement of the
      values, or the mean of the two middle values when the count is even. */
  lemma MedianIsMiddle(values: seq<real>, s: seq<real>)
    requires |values| > 0
    requires Sorted(s) && multiset(s) == multiset(values)
    ensures var n := |values|;
      |s| == n && FieldStats(values).median == if n % 2 == 0 then (s[n / 2 - 1] + s[n / 2]) / 2.0 else s[n / 2]
  {
    SortedUnique(SortNumbers(values), s);
  }

  /** Two ascending lists with the same elements are the same list. */
  lemma {:induction false} SortedUnique(a: seq<real>, b: seq<real>)
    requires Sorted(a) && Sorted(b) && multiset(a) == multiset(b)
    ensures a == b
    decreases |a|
  {
    SameMembers(a, b);
    if |a| > 0 {
      SortedHeads(a, b);
      TailMultiset(a, b);
      SortedTail(a);
      SortedTail(b);
      SortedUnique(a[1..], b[1..]);
      assert a == [a[0]] + a[1..] && b == [b[0]] + b[1..];
    }
  }

  /** Both lists start with the least element. */
  lemma SortedHeads(a: seq<real>, b: seq<real>)
    requires Sorted(a) && Sorted(b) && multiset(a) == multiset(b) && |a| > 0
    ensures |b| > 0 && a[0] == b[0]
  {
    SameMembers(a, b);
    assert a[0] in b && b[0] in a;
    var i :| 0 <= i < |b| && b[i] == a[0];
    var j :| 0 <= j < |a| && a[j] == b[0];
    assert b[0] <= b[i] && a[0] <= a[j];
  }

  lemma TailMultiset(a: seq<real>, b: seq<real>)
    requires |a| > 0 && |b| > 0 && a[0] == b[0] && multiset(a) == multiset(b)
    ensures multiset(a[1..]) == multiset(b[1..])
  {
    assert a == [a[0]] + a[1..] && b == [b[0]] + b[1..];
    calc {
      multiset(a[1..]);
      multiset([a[0]] + a[1..]) - multiset{a[0]};
      multiset([b[0]] + b[1..]) - multiset{b[0]};
      multiset(b[1..]);
    }
  }

  // ------------------------------------------------------------------ DMS

  datatype Axis = Lat | Lng

  /** Degrees, minutes and unrounded seconds of `|decimal|`, and the
      hemisphere letter. */
  datatype Dms = Dms(degrees: int, minutes: int, seconds: real, direction: char)

  function Abs(x: real): real {
    if x >= 0.0 then x else -x
  }

  /** `toDMS` before the seconds are rounded by `toFixed(1)`. */
  function ToDms(decimal: real, axis: Axis): (r: Dms)
    ensures r.degrees >= 0 && 0 <= r.minutes < 60 && 0.0 <= r.seconds < 60.0
    ensures r.degrees as real + r.minutes as real / 60.0 + r.seconds / 3600.0 == Abs(decimal)
  {
    var absolute := Abs(decimal);
    var degrees := absolute.Floor;
    var minutesFloat := (absolute - degrees as real) * 60.0;
    var minutes := minutesFloat.Floor;
    var seconds := (minutesFloat - minutes as real) * 60.0;
    var direction := if axis == Lat then (if decimal >= 0.0 then 'N' else 'S') else (if decimal >= 0.0 then 'E' else 'W');
    Dms(degrees, minutes, seconds, direction)
  }

  /** The hemisphere letter carries the sign: N/E for zero and above, S/W
      below, so that the notation and the decimal value determine each
      other. */
  lemma DmsDirection(decimal: real, axis: Axis)
    ensures ToDms(decimal, axis).direction == (if axis == Lat then 'N' else 'E') <==> decimal >= 0.0
    ensures ToDms(decimal, axis).direction == (if axis == Lat then 'S' else 'W') <==> decimal < 0.0
    ensures var d := ToDms(decimal, axis);
      var magnitude := d.degrees as real + d.minutes as real / 60.0 + d.seconds / 3600.0;
      decimal == if decimal >= 0.0 then magnitude else -magnitude
  {
  }

  // ---------------------------------------------------------------- scale

  /** The three shapes of a scale label: `1:<q>M`, `1:<q>K` and `1:<n>`. */
  datatype ScaleLabel = Millions(q: real) | Thousands(q: real) | Plain(n: real)

  /** `formatScale`, before the quotient is rounded for display. */
  function ScaleOf(scale: real): (r: ScaleLabel)
    ensures r.Millions? <==> scale >= 1000000.0
    ensures r.Thousands? <==> 1000.0 <= scale < 1000000.0
    ensures r.Plain? <==> scale < 1000.0
    ensures (r.Millions? ==> r.q * 1000000.0 == scale) && (r.Thousands? ==> r.q * 1000.0 == scale)
    ensures r.Plain? ==> r.n == scale
  {
    if scale >= 1000000.0 then Millions(scale / 1000000.0)
    else if scale >= 1000.0 then Thousands(scale / 1000.0)
    else Plain(scale)
  }

  /** The label text, given the engine's `toFixed(1)`, `toFixed(0)` and
      number rendering. */
  function FormatScale(scale: real, fixed1: real -> string, fixed0: real -> string, show: real -> string): (s: string)
    ensures |s| >= 2 && s[..2] == "1:"
    ensures scale >= 1000000.0 ==> s == "1:" + fixed1(scale / 1000000.0) + "M"
    ensures 1000.0 <= scale < 1000000.0 ==> s == "1:" + fixed0(scale / 1000.0) + "K"
    ensures scale < 1000.0 ==> s == "1:" + show(scale)
  {
    match ScaleOf(scale)
    case Millions(q) => "1:" + fixed1(q) + "M"
    case Thousands(q) => "1:" + fixed0(q) + "K"
    case Plain(n) => "1:" + show(n)
  }
}

=== FILE: geojson.dfy ===
/** The GeoJSON values the application reads and writes (RFC 7946), with the
    JavaScript property values they carry. Coordinates are exact reals. */
module GeoJson {
  import opened Wrappers
  import opened OrderedMaps

  /** A JavaScript property value. `Other` is any object or array, carrying
      an identity (so that `===` compares references) and the text
      `String(v)` renders for it. */
  datatype Value =
    | Null
    | Undefined
    | Num(n: real)
    | NaN
    | Str(s: string)
    | Bool(b: bool)
    | Other(ref: nat, text: string)

  /** A feature's `properties` object: string keys in insertion order. */
  type Props = OMap<string, Value>

  /** `typeof v === 'number'`. */
  predicate IsNumber(v: Value) {
    v.Num? || v.NaN?
  }

  /** `a === b`: `NaN` equals nothing, objects compare by reference. */
  predicate StrictEquals(a: Value, b: Value) {
    !a.NaN? && a == b
  }

  /** `String(v)`, given how the engine renders a finite number. */
  function ValueText(v: Value, numText: real -> string): string {
    match v
    case Null => "null"
    case Undefined => "undefined"
    case Num(n) => numText(n)
    case NaN => "NaN"
    case Str(s) => s
    case Bool(b) => if b then "true" else "false"
    case Other(_, t) => t
  }

  /** The engine's number conversions, left abstract: `parseFloat(s)`,
      `Number(s)` and `String(n)`. `None` stands for `NaN`. */
  datatype NumberText = NumberText(
    parseFloat: string -> Option<real>,
    number: string -> Option<real>,
    show: real -> string)

  /** The optional third entry of a position: absent, a number, or the `NaN`
      that `Number('abc')` yields. */
  datatype Altitude = NoAlt | Alt(z: real) | AltNaN

  /** A position `[lng, lat]` or `[lng, lat, alt]` (RFC 7946 section 3.1.1). */
  datatype Position = Position(lng: real, lat: real, alt: Altitude)

  function Pos2(lng: real, lat: real): Position {
    Position(lng, lat, NoAlt)
  }

  datatype Geometry =
    | Point(p: Position)
    | MultiPoint(points: seq<Position>)
    | LineString(line: seq<Position>)
    | MultiLineString(lines: seq<seq<Position>>)
    | Polygon(rings: seq<seq<Position>>)
    | MultiPolygon(polygons: seq<seq<seq<Position>>>)
    | GeometryCollection(geometries: seq<Geometry>)

  /** The `type` member of a geometry. */
  function TypeName(g: Geometry): string {
    match g
    case Point(_) => "Point"
    case MultiPoint(_) => "MultiPoint"
    case LineString(_) => "LineString"
    case MultiLineString(_) => "MultiLineString"
    case Polygon(_) => "Polygon"
    case MultiPolygon(_) => "MultiPolygon"
    case GeometryCollection(_) => "GeometryCollection"
  }

  /** A feature; `None` stands for a `null` or missing member. */
  datatype Feature = Feature(properties: Option<Props>, geometry: Option<Geometry>)

  /** Any GeoJSON object: a Feature, a FeatureCollection, or a bare geometry. */
  datatype Doc =
    | FeatureDoc(feature: Feature)
    | CollectionDoc(features: seq<Feature>)
    | GeometryDoc(geometry: Geometry)
}

=== FILE: go_to_coordinates.dfy ===
/** The go-to-coordinates dialog (src/components/common/GoToCoordinates.tsx):
    validation of the typed longitude, latitude and zoom, and the view it
    requests. `parseFloat` is a parameter; `None` stands for `NaN`. */
module GoToCoordinates {
  import opened Wrappers
  import opened ProjectTypes

  datatype Dialog = Dialog(open: bool, error: string)

  /** The dialog after "Go" and the view handed to `setView`, if any. */
  datatype Go = Go(dialog: Dialog, request: Option<View>)

  const InvalidMessage := "Please enter valid coordinates"
  const LongitudeMessage := "Longitude must be between -180 and 180"
  const LatitudeMessage := "Latitude must be between -90 and 90"
  const DefaultZoom := 12.0

  /** Longitudes and latitudes the dialog accepts; both bounds inclusive. */
  predicate ValidLongitude(lng: real) {
    -180.0 <= lng <= 180.0
  }

  predicate ValidLatitude(lat: real) {
    -90.0 <= lat <= 90.0
  }

  /** `handleGo`: the first failing check sets its message and keeps the
      dialog open; otherwise the view is centred on `[lng, lat]` (when there
      is a backend), the error cleared and the dialog closed. */
  function HandleGo(d: Dialog, lngText: string, latText: string, zoomText: string,
                    parse: string -> Option<real>, hasBackend: bool): (g: Go)
    ensures parse(lngText).None? || parse(latText).None? ==>
      g == Go(d.(error := InvalidMessage), None)
    ensures parse(lngText).Some? && parse(latText).Some? && !ValidLongitude(parse(lngText).value) ==>
      g == Go(d.(error := LongitudeMessage), None)
    ensures parse(lngText).Some? && parse(latText).Some? && ValidLongitude(parse(lngText).value)
            && !ValidLatitude(parse(latText).value) ==>
      g == Go(d.(error := LatitudeMessage), None)
    ensures g.request.Some? ==> hasBackend && !g.dialog.open
    ensures g.request.Some? ==>
      && g.request.value.lng == parse(lngText).value && g.request.value.lat == parse(latText).value
      && g.request.value.zoom == parse(zoomText).GetOr(DefaultZoom)
      && g.request.value.pitch.None? && g.request.value.bearing.None?
  {
    match (parse(lngText), parse(latText))
    case (None, _) => Go(d.(error := InvalidMessage), None)
    case (_, None) => Go(d.(error := InvalidMessage), None)
    case (Some(lng), Some(lat)) =>
      if !ValidLongitude(lng) then Go(d.(error := LongitudeMessage), None)
      else if !ValidLatitude(lat) then Go(d.(error := LatitudeMessage), None)
      else
        var zoom := match parse(zoomText) case Some(z) => z case None => DefaultZoom;
        Go(Dialog(false, ""), if hasBackend then Some(View(lng, lat, zoom, None, None)) else None)
  }

  /** The dialog closes exactly when both coordinates parse and lie in
      range, and then its error is empty; a backend then receives the view.
      A rejected entry always leaves a non-empty message. */
  lemma ClosesExactlyWhenValid(d: Dialog, lngText: string, latText: string, zoomText: string,
                               parse: string -> Option<real>, hasBackend: bool)
    ensures var g := HandleGo(d, lngText, latText, zoomText, parse, hasBackend);
      var valid := parse(lngText).Some? && parse(latText).Some?
        && ValidLongitude(parse(lngText).value) && ValidLatitude(parse(latText).value);
      && (valid ==> !g.dialog.open && g.dialog.error == "" && (g.request.Some? <==> hasBackend))
      && (!valid ==> g.dialog.open == d.open && g.dialog.error != "" && g.request.None?)
  {
  }
}

=== FILE: kml_coords.dfy ===
/** The coordinate-string reader of the KML importer (src/utils/parsers.ts):
    whitespace-separated `lng,lat[,alt]` tuples, each part converted with
    `Number`, which is a parameter here (`None` is `NaN`). */
module KmlCoordinates {
  import opened Wrappers
  import opened Seqs
  import opened Text
  import opened GeoJson

  /** One tuple: two or more comma-separated parts whose first two are
      numbers; a third part, even `NaN`, is the altitude, and any further
      parts are dropped. */
  function Tuple(w: string, number: string -> Option<real>): Option<Position> {
    var parts := Split(w, ',');
    if |parts| < 2 || number(parts[0]).None? || number(parts[1]).None? then None
    else
      var alt := if |parts| == 2 then NoAlt
                 else if number(parts[2]).Some? then Alt(number(parts[2]).value)
                 else AltNaN;
      Some(Position(number(parts[0]).value, number(parts[1]).value, alt))
  }

  function Tuples(ws: seq<string>, number: string -> Option<real>): (ts: seq<Option<Position>>)
    ensures |ts| == |ws|
    ensures forall i :: 0 <= i < |ws| ==> ts[i] == Tuple(ws[i], number)
  {
    seq(|ws|, i requires 0 <= i < |ws| => Tuple(ws[i], number))
  }

  /** `parseCoordinateString`: the tuples of the words of `s` that have a
      numeric longitude and latitude, in order. */
  function ParseCoordinates(s: string, number: string -> Option<real>): (r: seq<Position>)
    ensures |r| <= |Words(s)|
    ensures forall p :: p in r ==> exists w :: w in Words(s) && Tuple(w, number) == Some(p)
    ensures |r| == 0 <==> forall w :: w in Words(s) ==> Tuple(w, number).None?
  {
    var ws := Words(s);
    TuplesFromWords(ws, number);
    TuplesNone(ws, number);
    Somes(Tuples(ws, number))
  }

  /** Every kept tuple is the tuple of one of the words. */
  lemma TuplesFromWords(ws: seq<string>, number: string -> Option<real>)
    ensures forall p :: p in Somes(Tuples(ws, number)) ==> exists w :: w in ws && Tuple(w, number) == Some(p)
  {
    var ts := Tuples(ws, number);
    forall p | p in Somes(ts) ensures exists w :: w in ws && Tuple(w, number) == Some(p) {
      assert Some(p) in ts;
      var i :| 0 <= i < |ts| && ts[i] == Some(p);
      assert ws[i] in ws;
    }
  }

  /** No tuple is kept exactly when no word is a tuple. */
  lemma TuplesNone(ws: seq<string>, number: string -> Option<real>)
    ensures |Somes(Tuples(ws, number))| == 0 <==> forall w :: w in ws ==> Tuple(w, number).None?
  {
    var ts := Tuples(ws, number);
    if |Somes(ts)| == 0 {
      forall w | w in ws ensures Tuple(w, number).None? {
        var i :| 0 <= i < |ws| && ws[i] == w;
        assert ts[i].None?;
      }
    } else {
      var i :| 0 <= i < |ts| && ts[i].Some?;
      assert ws[i] in ws;
    }
  }

  // ------------------------------------------------------- writing back

  /** A part a number prints as: non-empty, with no comma and no whitespace. */
  predicate Printable(t: string) {
    IsWord(t) && ',' !in t
  }

  /** The number conversions agree on `x`: it prints as a printable part
      that reads back as `x`. */
  predicate ReadsBack(x: real, show: real -> string, number: string -> Option<real>) {
    Printable(show(x)) && number(show(x)) == Some(x)
  }

  /** Every coordinate `Encode` writes for `p` reads back, and a `NaN`
      altitude is written as a part that does not read as a number. */
  predicate Writable(p: Position, show: real -> string, number: string -> Option<real>) {
    && ReadsBack(p.lng, show, number)
    && ReadsBack(p.lat, show, number)
    && (p.alt.Alt? ==> ReadsBack(p.alt.z, show, number))
    && (p.alt.AltNaN? ==> number("NaN").None?)
  }

  /** How KML writes a position: `lng,lat` or `lng,lat,alt`. */
  function Encode(p: Position, show: real -> string): string {
    var alt := match p.alt
      case NoAlt => []
      case Alt(z) => [show(z)]
      case AltNaN => ["NaN"];
    Join([show(p.lng), show(p.lat)] + alt, ",")
  }

  lemma PartsOf(ps: seq<string>)
    requires 2 <= |ps| <= 3
    requires forall i :: 0 <= i < |ps| ==> ',' !in ps[i]
    ensures Split(Join(ps, ","), ',') == ps
  {
    SplitJoin(ps, ',');
  }

  lemma {:induction false} WordOfParts(ps: seq<string>)
    requires |ps| >= 1
    requires forall i :: 0 <= i < |ps| ==> IsWord(ps[i])
    ensures IsWord(Join(ps, ","))
  {
    if |ps| >= 2 {
      JoinStep(ps, ",");
      WordOfParts(ps[1..]);
      WordsAroundComma(ps[0], Join(ps[1..], ","));
    }
  }

  lemma WordsAroundComma(a: string, b: string)
    requires IsWord(a) && IsWord(b)
    ensures IsWord(a + ("," + b))
  {
    var c := a + ("," + b);
    assert !IsSpace(',');
    forall i | 0 <= i < |c| ensures !IsSpace(c[i]) {
      if i < |a| {
        assert c[i] == a[i];
      } else if i > |a| {
        assert c[i] == b[i - |a| - 1];
      }
    }
  }

  /** An encoded position is one word and reads back as itself. */
  lemma EncodeReadsBack(p: Position, show: real -> string, number: string -> Option<real>)
    requires Writable(p, show, number)
    ensures IsWord(Encode(p, show))
    ensures Tuple(Encode(p, show), number) == Some(p)
  {
    var alt := match p.alt
      case NoAlt => []
      case Alt(z) => [show(z)]
      case AltNaN => ["NaN"];
    var ps := [show(p.lng), show(p.lat)] + alt;
    assert Printable(show(p.lng)) && Printable(show(p.lat));
    assert forall i :: 0 <= i < |alt| ==> Printable(alt[i]) by {
      if p.alt.Alt? {
        assert Printable(show(p.alt.z));
      } else if p.alt.AltNaN? {
        assert IsWord("NaN") by {
          assert !IsSpace('N') && !IsSpace('a');
        }
      }
    }
    assert forall i :: 0 <= i < |ps| ==> Printable(ps[i]);
    PartsOf(ps);
    WordOfParts(ps);
  }

  /** Positions written with single spaces between tuples read back as the
      same positions. */
  lemma CoordinatesRoundTrip(ps: seq<Position>, show: real -> string, number: string -> Option<real>)
    requires forall i :: 0 <= i < |ps| ==> Writable(ps[i], show, number)
    ensures ParseCoordinates(Join(seq(|ps|, i requires 0 <= i < |ps| => Encode(ps[i], show)), " "), number) == ps
  {
    var ws := seq(|ps|, i requires 0 <= i < |ps| => Encode(ps[i], show));
    forall i | 0 <= i < |ps| ensures IsWord(ws[i]) && Tuple(ws[i], number) == Some(ps[i]) {
      EncodeReadsBack(ps[i], show, number);
    }
    ReadWords(ws, ps, number);
  }

  /** Words that each read as a position, joined by spaces, read as those
      positions. */
  lemma ReadWords(ws: seq<string>, ps: seq<Position>, number: string -> Option<real>)
    requires |ws| == |ps|
    requires forall i :: 0 <= i < |ws| ==> IsWord(ws[i]) && Tuple(ws[i], number) == Some(ps[i])
    ensures ParseCoordinates(Join(ws, " "), number) == ps
  {
    WordsJoin(ws);
    SomesOfTuples(ws, ps, number);
  }

  lemma SomesOfTuples(ws: seq<string>, ps: seq<Position>, number: string -> Option<real>)
    requires |ws| == |ps|
    requires forall i :: 0 <= i < |ws| ==> Tuple(ws[i], number) == Some(ps[i])
    ensures Somes(Tuples(ws, number)) == ps
  {
    var ts := Tuples(ws, number);
    SomesAllPresent(ts);
    assert forall i :: 0 <= i < |ps| ==> Somes(ts)[i] == ps[i];
  }
}

=== FILE: layer_panel.dfy ===
/** The layer panel (src/components/layers/LayerPanel.tsx): importing a
    GeoJSON or Shapefile from disk, adding a layer from a URL, and fitting
    the view to what was imported. The native file dialog, `fetch`,
    `JSON.parse`, the Shapefile decoder, `Math.random` and `Date.now` are
    parameters. */
module LayerPanel {
  import opened Wrappers
  import opened Seqs
  import opened Text
  import opened GeoJson
  import opened ProjectTypes
  import opened ProjectStore
  import opened Geo

  // ------------------------------------------------------------- colours

  /** The colours `getRandomColor` chooses among. */
  const Palette: seq<string> := ["#3b82f6", "#ef4444", "#22c55e", "#f59e0b",
                                 "#8b5cf6", "#ec4899", "#06b6d4", "#f97316"]

  const StrokeColor := "#1d4ed8"

  /** `colors[Math.floor(Math.random() * colors.length)]`, with the random
      index as a parameter. */
  function RandomColor(pick: nat): (c: string)
    requires pick < |Palette|
    ensures c in Palette
  {
    Palette[pick]
  }

  // ------------------------------------------------- the local bounds

  /** The smallest and largest of a non-empty list of numbers. */
  function Least(xs: seq<real>): (m: real)
    requires |xs| > 0
    ensures m in xs && forall x :: x in xs ==> m <= x
  {
    if |xs| == 1 then xs[0]
    else
      var rest := Least(xs[1..]);
      assert forall x :: x in xs ==> x == xs[0] || x in xs[1..];
      if xs[0] <= rest then xs[0] else rest
  }

  function Greatest(xs: seq<real>): (m: real)
    requires |xs| > 0
    ensures m in xs && forall x :: x in xs ==> x <= m
  {
    if |xs| == 1 then xs[0]
    else
      var rest := Greatest(xs[1..]);
      assert forall x :: x in xs ==> x == xs[0] || x in xs[1..];
      if xs[0] >= rest then xs[0] else rest
  }

  function Lngs(ps: seq<Position>): (r: seq<real>)
    ensures |r| == |ps| && forall i :: 0 <= i < |ps| ==> r[i] == ps[i].lng
  {
    seq(|ps|, i requires 0 <= i < |ps| => ps[i].lng)
  }

  function Lats(ps: seq<Position>): (r: seq<real>)
    ensures |r| == |ps| && forall i :: 0 <= i < |ps| ==> r[i] == ps[i].lat
  {
    seq(|ps|, i requires 0 <= i < |ps| => ps[i].lat)
  }

  /** What the panel's own copy of `calculateBounds` is meant to compute,
      stated without its loop: no box for a document without positions,
      otherwise the least and greatest longitude and latitude. */
  function ReferenceBounds(doc: Doc): Option<BBox> {
    var ps := DocPositions(doc);
    if |ps| == 0 then None
    else Some(BBox(Least(Lngs(ps)), Least(Lats(ps)), Greatest(Lngs(ps)), Greatest(Lats(ps))))
  }

  /** A bound that lies on one side of every coordinate and is itself a
      coordinate is the extreme one. */
  lemma ExtremeUnique(xs: seq<real>, a: real, b: real)
    requires a in xs && b in xs
    requires forall x :: x in xs ==> a <= x
    requires forall x :: x in xs ==> b <= x
    ensures a == b
  {
  }

  lemma LngsOf(ps: seq<Position>)
    ensures forall x :: x in Lngs(ps) <==> exists p :: p in ps && p.lng == x
  {
    var ls := Lngs(ps);
    forall x | x in ls ensures exists p :: p in ps && p.lng == x {
      var i :| 0 <= i < |ls| && ls[i] == x;
      assert ps[i] in ps;
    }
    forall p | p in ps ensures p.lng in ls {
      var i :| 0 <= i < |ps| && ps[i] == p;
      assert ls[i] == p.lng;
    }
  }

  lemma LatsOf(ps: seq<Position>)
    ensures forall x :: x in Lats(ps) <==> exists p :: p in ps && p.lat == x
  {
    var ls := Lats(ps);
    forall x | x in ls ensures exists p :: p in ps && p.lat == x {
      var i :| 0 <= i < |ls| && ls[i] == x;
      assert ps[i] in ps;
    }
    forall p | p in ps ensures p.lat in ls {
      var i :| 0 <= i < |ps| && ps[i] == p;
      assert ls[i] == p.lat;
    }
  }

  /** The min/max loop (shared by src/utils/geo.ts and the panel) computes
      exactly the reference bounds, for every document. */
  lemma BoundsAgree(doc: Doc)
    ensures Bounds(doc) == ReferenceBounds(doc)
  {
    var ps := DocPositions(doc);
    BoundsTight(doc);
    if |ps| > 0 {
      var b := Bounds(doc).value;
      LngsOf(ps);
      LatsOf(ps);
      forall x | x in Lngs(ps) ensures b.minLng <= x && x <= b.maxLng {
        var p :| p in ps && p.lng == x;
        assert Inside(b, p);
      }
      forall x | x in Lats(ps) ensures b.minLat <= x && x <= b.maxLat {
        var p :| p in ps && p.lat == x;
        assert Inside(b, p);
      }
      ExtremeUnique(Lngs(ps), b.minLng, Least(Lngs(ps)));
      ExtremeUnique(Lats(ps), b.minLat, Least(Lats(ps)));
      NegatedUnique(Lngs(ps), b.maxLng, Greatest(Lngs(ps)));
      NegatedUnique(Lats(ps), b.maxLat, Greatest(Lats(ps)));
    }
  }

  lemma NegatedUnique(xs: seq<real>, a: real, b: real)
    requires a in xs && b in xs
    requires forall x :: x in xs ==> x <= a
    requires forall x :: x in xs ==> x <= b
    ensures a == b
  {
  }

  // ------------------------------------------------- names and suffixes

  /** `/\.(e1|e2|...)$/i`: the name ends with a dot and one of the
      extensions, in any letter case. */
  predicate HasExtension(name: string, ext: string) {
    EndsWith(ToLower(name), "." + ext)
  }

  /** `name.replace(/\.(e1|e2|...)$/i, '')`: the first listed extension the
      name ends with is cut off, together with its dot. */
  function StripExtension(name: string, exts: seq<string>): (r: string)
    ensures |r| <= |name| && r == name[..|r|]
    ensures (forall k :: 0 <= k < |exts| ==> !HasExtension(name, exts[k])) ==> r == name
    ensures r != name ==> exists k :: 0 <= k < |exts| && HasExtension(name, exts[k])
                                      && |r| == |name| - |exts[k]| - 1
  {
    if |exts| == 0 then name
    else if HasExtension(name, exts[0]) then name[..|name| - |exts[0]| - 1]
    else StripExtension(name, exts[1..])
  }

  /** Extensions the panel strips: each is lower case and has no dot. */
  predicate PlainExtensions(exts: seq<string>) {
    forall k :: 0 <= k < |exts| ==> '.' !in exts[k] && ToLower(exts[k]) == exts[k]
  }

  const FileExtensions: seq<string> := ["geojson", "json", "shp", "zip"]
  const GeoJsonExtensions: seq<string> := ["geojson", "json"]
  const TiffExtensions: seq<string> := ["tif", "tiff"]
  const PmtilesExtensions: seq<string> := ["pmtiles"]

  lemma LowerConcat(a: string, b: string)
    ensures ToLower(a + b) == ToLower(a) + ToLower(b)
  {
  }

  lemma LowerKeepsDot(s: string)
    ensures '.' in ToLower(s) <==> '.' in s
  {
    if '.' in s {
      var i :| 0 <= i < |s| && s[i] == '.';
      assert ToLower(s)[i] == '.';
    }
    if '.' in ToLower(s) {
      var i :| 0 <= i < |s| && ToLower(s)[i] == '.';
      assert s[i] == '.';
    }
  }

  /** A string ends in at most one dot-free extension: a shorter one would
      put its dot inside the longer one. */
  lemma DotSuffixUnique(s: string, x: string, y: string)
    requires '.' !in x && '.' !in y
    requires EndsWith(s, "." + x) && EndsWith(s, "." + y)
    ensures x == y
  {
    if |x| < |y| {
      DotSuffixShorter(s, x, y);
    } else if |y| < |x| {
      DotSuffixShorter(s, y, x);
    } else {
      assert "." + x == "." + y;
      assert x == ("." + x)[1..];
    }
  }

  /** Two dot-led suffixes of one string: the longer one contains the
      shorter one's dot. */
  lemma DotSuffixShorter(s: string, x: string, y: string)
    requires EndsWith(s, "." + x) && EndsWith(s, "." + y)
    requires |x| < |y|
    ensures '.' in y
  {
    var i := |s| - |x| - 1;
    assert s[i] == ("." + x)[0];
    var j := |y| - |x| - 1;
    assert s[i] == ("." + y)[j + 1];
    assert y[j] == '.';
  }

  /** A name with a listed extension, in any letter case, loses exactly
      that extension and its dot. */
  lemma {:induction false} StripKnown(stem: string, ext: string, exts: seq<string>)
    requires PlainExtensions(exts)
    requires '.' !in ext && ToLower(ext) in exts
    ensures StripExtension(stem + "." + ext, exts) == stem
  {
    var name := stem + "." + ext;
    LowerConcat(stem + ".", ext);
    LowerConcat(stem, ".");
    assert ToLower(".") == ".";
    assert HasExtension(name, ToLower(ext));
    LowerKeepsDot(ext);
    if HasExtension(name, exts[0]) {
      DotSuffixUnique(ToLower(name), exts[0], ToLower(ext));
      assert name[..|name| - |exts[0]| - 1] == stem;
    } else {
      assert ToLower(ext) in exts[1..];
      StripKnown(stem, ext, exts[1..]);
    }
  }

  /** The name of a layer from a URL: the text after the last `/` and
      before the first `?`, or "URL Layer" when that is empty. */
  function UrlName(url: string): (n: string)
    ensures n != ""
    ensures '/' !in n
  {
    var segment := Split(LastPiece(url, '/'), '?')[0];
    SplitPieceFree(LastPiece(url, '/'), '?', '/');
    if segment == "" then "URL Layer" else segment
  }

  lemma SplitPieceFree(s: string, c: char, d: char)
    requires d !in s
    ensures d !in Split(s, c)[0]
  {
    SplitFirstIsPrefix(s, c);
  }

  /** For a URL ending `/segment?query`, the name is the segment. */
  lemma UrlNameOfSegment(prefix: string, segment: string, query: string)
    requires segment != "" && '/' !in segment && '?' !in segment && '/' !in query
    ensures UrlName(prefix + "/" + segment + "?" + query) == segment
    ensures UrlName(prefix + "/" + segment) == segment
  {
    assert prefix + "/" + segment + "?" + query == prefix + "/" + (segment + "?" + query);
    LastPieceAfter(prefix, segment + "?" + query, '/');
    SplitPrefix(segment, query, '?');
    LastPieceAfter(prefix, segment, '/');
    SplitNoSeparator(segment, '?');
  }

  /** A URL ending in `/`, or in `/?query`, has no segment to name it by. */
  lemma UrlNameDefault(prefix: string, query: string)
    requires '/' !in query
    ensures UrlName(prefix + "/") == "URL Layer"
    ensures UrlName(prefix + "/?" + query) == "URL Layer"
  {
    assert prefix + "/" == prefix + "/" + [];
    LastPieceAfter(prefix, [], '/');
    assert prefix + "/?" + query == prefix + "/" + ("?" + query);
    LastPieceAfter(prefix, "?" + query, '/');
    assert "?" + query == [] + "?" + query;
    SplitPrefix([], query, '?');
  }

  /** The name of an imported file: the text after the last `/` without a
      known extension, or "Untitled" when nothing is left. */
  function FileName(path: string): (n: string)
    ensures n != ""
  {
    var stripped := StripExtension(LastPiece(path, '/'), FileExtensions);
    if stripped == "" then "Untitled" else stripped
  }

  lemma FileNameOf(dir: string, stem: string, ext: string)
    requires stem != "" && '/' !in stem && '/' !in ext && '.' !in ext
    requires ToLower(ext) in FileExtensions
    ensures FileName(dir + "/" + stem + "." + ext) == stem
  {
    assert dir + "/" + stem + "." + ext == dir + "/" + (stem + "." + ext);
    LastPieceAfter(dir, stem + "." + ext, '/');
    StripKnown(stem, ext, FileExtensions);
  }

  // ------------------------------------------------------ adding layers

  /** What an import leaves behind: the store, the layer handed to the
      backend's `addLayer` (if it was called), the box handed to
      `fitBounds` (with a padding of 50), and the alert shown, if any. */
  datatype Effects = Effects(store: Store, handed: Option<Layer>, fitted: Option<BBox>, failure: Option<string>)

  function Nothing(st: Store): Effects {
    Effects(st, None, None, None)
  }

  /** The layer an imported document becomes. */
  function DataLayer(doc: Doc, name: string, color: string, stamp: string): Layer {
    Layer("layer-" + stamp, name, GeoJsonLayer, true, 1.0,
          Source("geojson", None, Some(doc), None, None),
          Some(Style(Some(color), Some(0.5), Some(StrokeColor), Some(2.0), None, Some(6.0), None)),
          None, None)
  }

  /** `addLayerWithData`: the layer goes to the store, then to the backend,
      and the view is fitted to the data's bounds. A rejected `addLayer`
      leaves the layer in the store and skips the fit; its message is the
      failure. */
  function AddLayerWithData(st: Store, doc: Doc, name: string, color: string, stamp: string, now: string,
                            hasBackend: bool, backendAdd: Outcome): (e: Effects)
    ensures |e.store.layers| == |st.layers| + 1 && e.store.layers[..|st.layers|] == st.layers
    ensures e.store.isDirty && e.store.selected == st.selected && e.store.filePath == st.filePath
    ensures var l := e.store.layers[|st.layers|];
      && l.kind == GeoJsonLayer && l.name == name && l.visible && l.opacity == 1.0
      && l.source.kind == "geojson" && l.source.data == Some(doc)
      && l.style.Some? && l.style.value.fillColor == Some(color) && l.style.value.fillOpacity == Some(0.5)
      && l.style.value.strokeWidth == Some(2.0) && l.style.value.pointRadius == Some(6.0)
    ensures e.handed.Some? <==> hasBackend
    ensures e.handed.Some? ==> e.handed.value == e.store.layers[|st.layers|]
    ensures e.failure.Some? <==> hasBackend && backendAdd.Fail?
    ensures e.fitted.Some? <==> hasBackend && backendAdd.Pass? && |DocPositions(doc)| > 0
    ensures e.fitted.Some? ==> e.fitted == ReferenceBounds(doc)
  {
    var l := DataLayer(doc, name, color, stamp);
    var st' := Apply(st, AddLayer(l), now);
    AddLayerAppends(st, l, now);
    BoundsAgree(doc);
    if !hasBackend then Effects(st', None, None, None)
    else if backendAdd.Fail? then Effects(st', Some(l), None, Some(backendAdd.error))
    else Effects(st', Some(l), Bounds(doc), None)
  }

  /** The branch a file takes: `.shp` and `.zip` are decoded as
      Shapefiles, everything else is parsed as JSON. */
  datatype Route = Binary | Json

  function Extension(path: string): string {
    ToLower(LastPiece(path, '.'))
  }

  function RouteOf(path: string): (r: Route)
    ensures r == Binary <==> Extension(path) in ["shp", "zip"]
  {
    var ext := Extension(path);
    if ext == "shp" || ext == "zip" then Binary else Json
  }

  /** The native dialog's answer. */
  datatype Picked = Picked(canceled: bool, filePath: Option<string>, content: Option<string>, buffer: Option<string>)

  predicate Truthy(s: Option<string>) {
    s.Some? && s.value != ""
  }

  const BinaryMissing := "Failed to read binary file"
  const FileAlertPrefix := "Failed to load file: "
  const UrlAlertPrefix := "Failed to load from URL: "

  /** The alert a caught error turns into. */
  function Report(e: Effects, prefix: string): (r: Effects)
    ensures r.store == e.store && r.handed == e.handed && r.fitted == e.fitted
    ensures r.failure.Some? <==> e.failure.Some?
    ensures e.failure.Some? ==> r.failure.value == prefix + e.failure.value
  {
    if e.failure.Some? then e.(failure := Some(prefix + e.failure.value)) else e
  }

  /** `handleAddFile`. Without the desktop bridge, or when the dialog is
      cancelled or returns no path, nothing happens. A Shapefile without
      its binary payload, or one the decoder rejects, raises an alert; a
      JSON file without content is ignored silently. `decodeShp` stands
      for base64 decoding followed by `shp`, `parseJson` for `JSON.parse`. */
  function HandleAddFile(st: Store, hasApi: bool, picked: Picked,
                         decodeShp: string -> Result<Doc>, parseJson: string -> Result<Doc>,
                         color: string, stamp: string, now: string,
                         hasBackend: bool, backendAdd: Outcome): (e: Effects)
    ensures !hasApi || picked.canceled || !Truthy(picked.filePath) ==> e == Nothing(st)
    ensures hasApi && !picked.canceled && Truthy(picked.filePath) && RouteOf(picked.filePath.value) == Binary ==>
      (if !Truthy(picked.buffer) then e == Nothing(st).(failure := Some(FileAlertPrefix + BinaryMissing))
       else match decodeShp(picked.buffer.value)
            case Failure(m) => e == Nothing(st).(failure := Some(FileAlertPrefix + m))
            case Success(doc) =>
              e == Report(AddLayerWithData(st, doc, FileName(picked.filePath.value), color, stamp, now,
                                           hasBackend, backendAdd), FileAlertPrefix))
    ensures hasApi && !picked.canceled && Truthy(picked.filePath) && RouteOf(picked.filePath.value) == Json ==>
      (if !Truthy(picked.content) then e == Nothing(st)
       else match parseJson(picked.content.value)
            case Failure(m) => e == Nothing(st).(failure := Some(FileAlertPrefix + m))
            case Success(doc) =>
              e == Report(AddLayerWithData(st, doc, FileName(picked.filePath.value), color, stamp, now,
                                           hasBackend, backendAdd), FileAlertPrefix))
  {
    if !hasApi || picked.canceled || !Truthy(picked.filePath) then Nothing(st)
    else
      var path := picked.filePath.value;
      var parsed: Option<Result<Doc>> :=
        if RouteOf(path) == Binary then
          if !Truthy(picked.buffer) then Some(Failure(BinaryMissing)) else Some(decodeShp(picked.buffer.value))
        else
          if !Truthy(picked.content) then None else Some(parseJson(picked.content.value));
      match parsed
      case None => Nothing(st)
      case Some(Failure(m)) => Nothing(st).(failure := Some(FileAlertPrefix + m))
      case Some(Success(doc)) =>
        Report(AddLayerWithData(st, doc, FileName(path), color, stamp, now, hasBackend, backendAdd),
               FileAlertPrefix)
  }

  /** Importing `dir/stem.ext` with a GeoJSON extension and content that
      parses: the store gains a `geojson` layer named `stem` holding the
      parsed document, whatever the backend does; the decoder is never
      consulted. */
  lemma JsonFileImported(st: Store, dir: string, stem: string, ext: string, content: string,
                         decodeShp: string -> Result<Doc>, parseJson: string -> Result<Doc>,
                         color: string, stamp: string, now: string, hasBackend: bool, backendAdd: Outcome)
    requires stem != "" && '/' !in stem && '/' !in ext && '.' !in ext
    requires ToLower(ext) in GeoJsonExtensions && content != "" && parseJson(content).Success?
    ensures var path := dir + "/" + stem + "." + ext;
      var e := HandleAddFile(st, true, Picked(false, Some(path), Some(content), None), decodeShp, parseJson,
                             color, stamp, now, hasBackend, backendAdd);
      && |e.store.layers| == |st.layers| + 1
      && e.store.layers[|st.layers|].name == stem
      && e.store.layers[|st.layers|].source.data == Some(parseJson(content).value)
      && (e.failure.Some? <==> hasBackend && backendAdd.Fail?)
  {
    var path := dir + "/" + stem + "." + ext;
    FileNameOf(dir, stem, ext);
    ExtensionOf(dir + "/" + stem, ext);
    LowerKeepsDot(ext);
  }

  /** The extension is what follows the last dot, lower-cased. */
  lemma ExtensionOf(base: string, ext: string)
    requires '.' !in ext
    ensures Extension(base + "." + ext) == ToLower(ext)
  {
    LastPieceAfter(base, ext, '.');
  }

  /** A `.shp` or `.zip` file, in any letter case, takes the binary path:
      without a payload it is an alert, and the JSON parser is never
      consulted. */
  lemma ShapefileNeedsBuffer(st: Store, base: string, ext: string, content: Option<string>,
                             decodeShp: string -> Result<Doc>, parseJson: string -> Result<Doc>,
                             color: string, stamp: string, now: string, hasBackend: bool, backendAdd: Outcome)
    requires '.' !in ext && ToLower(ext) in ["shp", "zip"]
    ensures var e := HandleAddFile(st, true, Picked(false, Some(base + "." + ext), content, None), decodeShp,
                                   parseJson, color, stamp, now, hasBackend, backendAdd);
      e == Effects(st, None, None, Some(FileAlertPrefix + BinaryMissing))
  {
    ExtensionOf(base, ext);
  }

  // ------------------------------------------------------------- URLs

  datatype UrlKind = UrlGeoJson | UrlCog | UrlPmtiles | UrlXyz

  /** The layer built for a tile URL: a COG keeps the URL alone, XYZ tiles
      also list it as their only tile template, PMTiles become a vector
      source. */
  function TileLayer(url: string, kind: UrlKind, stamp: string): (l: Layer)
    requires kind != UrlGeoJson
    ensures l.id == "layer-" + stamp && l.visible && l.opacity == 1.0 && l.style.None?
    ensures l.source.url == Some(url) && l.source.data.None?
    ensures kind == UrlCog ==> l.kind == Cog && l.source.kind == "raster" && l.source.tiles.None?
    ensures kind == UrlXyz ==> l.kind == Raster && l.source.kind == "raster" && l.source.tiles == Some([url])
    ensures kind == UrlPmtiles ==> l.kind == PMTiles && l.source.kind == "vector" && l.source.tiles.None?
    ensures kind != UrlPmtiles ==> l.name == StripExtension(UrlName(url), TiffExtensions)
    ensures kind == UrlPmtiles ==> l.name == StripExtension(UrlName(url), PmtilesExtensions)
  {
    var name := UrlName(url);
    match kind
    case UrlCog =>
      Layer("layer-" + stamp, StripExtension(name, TiffExtensions), Cog, true, 1.0,
            Source("raster", Some(url), None, None, None), None, None, None)
    case UrlXyz =>
      Layer("layer-" + stamp, StripExtension(name, TiffExtensions), Raster, true, 1.0,
            Source("raster", Some(url), None, Some([url]), None), None, None, None)
    case UrlPmtiles =>
      Layer("layer-" + stamp, StripExtension(name, PmtilesExtensions), PMTiles, true, 1.0,
            Source("vector", Some(url), None, None, None), None, None, None)
  }

  /** The URL dialog after "Add Layer": the effects, whether the dialog is
      still open, and the text left in its input. */
  datatype UrlDialog = UrlDialog(effects: Effects, open: bool, input: string)

  /** The layer a tile URL becomes goes to the store and then to the
      backend; the view is not fitted. */
  function AddTileLayer(st: Store, url: string, kind: UrlKind, stamp: string, now: string,
                        hasBackend: bool, backendAdd: Outcome): (e: Effects)
    requires kind != UrlGeoJson
    ensures e.store == Apply(st, AddLayer(TileLayer(url, kind, stamp)), now)
    ensures e.handed == (if hasBackend then Some(TileLayer(url, kind, stamp)) else None)
    ensures e.fitted.None?
    ensures e.failure.Some? <==> hasBackend && backendAdd.Fail?
    ensures e.failure.Some? ==> e.failure.value == UrlAlertPrefix + backendAdd.error
  {
    var l := TileLayer(url, kind, stamp);
    var st' := Apply(st, AddLayer(l), now);
    if !hasBackend then Effects(st', None, None, None)
    else if backendAdd.Fail? then Effects(st', Some(l), None, Some(UrlAlertPrefix + backendAdd.error))
    else Effects(st', Some(l), None, None)
  }

  /** The effects of adding a non-blank URL. `fetched` is the outcome of
      fetching and parsing the GeoJSON (a failed request carries
      `HTTP <status>`); tile URLs are not fetched. */
  function UrlEffects(st: Store, url: string, kind: UrlKind, fetched: Result<Doc>,
                      color: string, stamp: string, now: string,
                      hasBackend: bool, backendAdd: Outcome): (e: Effects)
    ensures e.failure.None? ==> |e.store.layers| == |st.layers| + 1
    ensures kind == UrlGeoJson ==>
      match fetched
      case Failure(m) => e == Nothing(st).(failure := Some(UrlAlertPrefix + m))
      case Success(doc) =>
        e == Report(AddLayerWithData(st, doc, StripExtension(UrlName(url), GeoJsonExtensions),
                                     color, stamp, now, hasBackend, backendAdd), UrlAlertPrefix)
    ensures kind != UrlGeoJson ==> e == AddTileLayer(st, url, kind, stamp, now, hasBackend, backendAdd)
  {
    if kind == UrlGeoJson then
      match fetched
      case Failure(m) => Nothing(st).(failure := Some(UrlAlertPrefix + m))
      case Success(doc) =>
        Report(AddLayerWithData(st, doc, StripExtension(UrlName(url), GeoJsonExtensions),
                                color, stamp, now, hasBackend, backendAdd), UrlAlertPrefix)
    else
      AddLayerAppends(st, TileLayer(url, kind, stamp), now);
      AddTileLayer(st, url, kind, stamp, now, hasBackend, backendAdd)
  }

  /** `handleAddFromURL`: a blank input does nothing; otherwise the trimmed
      URL is added. Success closes the dialog and clears the input; an
      error leaves both and raises an alert. */
  function HandleAddFromUrl(st: Store, input: string, kind: UrlKind, fetched: Result<Doc>,
                            color: string, stamp: string, now: string,
                            hasBackend: bool, backendAdd: Outcome): (u: UrlDialog)
    ensures Trim(input) == "" ==> u == UrlDialog(Nothing(st), true, input)
    ensures Trim(input) != "" ==>
      u.effects == UrlEffects(st, Trim(input), kind, fetched, color, stamp, now, hasBackend, backendAdd)
    ensures u.open <==> u.effects.failure.Some? || Trim(input) == ""
    ensures !u.open ==> u.input == "" && |u.effects.store.layers| == |st.layers| + 1
    ensures u.open ==> u.input == input
  {
    if Trim(input) == "" then UrlDialog(Nothing(st), true, input)
    else
      var e := UrlEffects(st, Trim(input), kind, fetched, color, stamp, now, hasBackend, backendAdd);
      if e.failure.Some? then UrlDialog(e, true, input) else UrlDialog(e, false, "")
  }

  /** A blank or whitespace-only URL changes nothing, and the "Add Layer"
      button is disabled for exactly those inputs. */
  lemma BlankUrlIgnored(st: Store, input: string, kind: UrlKind, fetched: Result<Doc>,
                        color: string, stamp: string, now: string, hasBackend: bool, backendAdd: Outcome)
    requires AllSpace(input)
    ensures HandleAddFromUrl(st, input, kind, fetched, color, stamp, now, hasBackend, backendAdd)
            == UrlDialog(Nothing(st), true, input)
  {
    TrimBlank(input);
  }

  lemma TrimBlank(s: string)
    ensures Trim(s) == "" <==> AllSpace(s)
  {
    var a := TrimStart(s);
    var k := |s| - |a|;
    assert s == s[..k] + a;
    if Trim(s) == "" {
      assert AllSpace(a[0..]);
      assert a[0..] == a;
      assert |a| == 0;
      forall i | 0 <= i < |s| ensures IsSpace(s[i]) {
        assert s[i] == s[..k][i];
      }
    }
    if AllSpace(s) {
      assert LeadingSpaces(s) == |s|;
      assert a == "";
    }
  }

  /** A COG URL typed with surrounding spaces is stored trimmed, and its
      layer is named by the file without `.tif` or `.tiff`, in any letter
      case. */
  lemma CogLayerNamed(st: Store, input: string, prefix: string, stem: string, ext: string,
                      stamp: string, now: string)
    requires stem != "" && '/' !in stem && '?' !in stem && '/' !in ext && '?' !in ext
    requires '.' !in ext && ToLower(ext) in TiffExtensions
    requires Trim(input) == prefix + "/" + stem + "." + ext
    ensures var u := HandleAddFromUrl(st, input, UrlCog, Failure(""), "", stamp, now, false, Pass);
      var l := u.effects.store.layers[|st.layers|];
      && !u.open && l.name == stem && l.source.url == Some(Trim(input)) && l.kind == Cog
  {
    var url := Trim(input);
    CogName(prefix, stem, ext);
    var l := TileLayer(url, UrlCog, stamp);
    assert l.name == stem;
    var e := AddTileLayer(st, url, UrlCog, stamp, now, false, Pass);
    AddLayerAppends(st, l, now);
    assert e.store.layers[|st.layers|] == l;
  }

  lemma CogName(prefix: string, stem: string, ext: string)
    requires stem != "" && '/' !in stem && '?' !in stem && '/' !in ext && '?' !in ext
    requires '.' !in ext && ToLower(ext) in TiffExtensions
    ensures StripExtension(UrlName(prefix + "/" + stem + "." + ext), TiffExtensions) == stem
  {
    var segment := stem + "." + ext;
    assert prefix + "/" + stem + "." + ext == prefix + "/" + segment;
    UrlNameOfSegment(prefix, segment, "");
    TiffPlain();
    StripKnown(stem, ext, TiffExtensions);
  }

  lemma TiffPlain()
    ensures PlainExtensions(TiffExtensions)
  {
    assert ToLower("tif") == "tif" && ToLower("tiff") == "tiff";
  }
}

=== FILE: map_canvas.dfy ===
/** The map host component (src/components/map/MapCanvas.tsx): the effect
    that reconciles the store's layer list with the adapter, and the
    initialisation sequence. The adapter is the MapLibre model: the
    Leaflet and Kepler.gl adapters never initialise, so the sync pass never
    runs against them. The `addLayer` calls the pass fires without awaiting
    are taken in order. Every flow takes `corrected`, the choice between
    `addLayer` as written and with the raster visibility correction (see
    `AddChosen`); the lemmas hold for both. */
module MapCanvas {
  import opened Wrappers
  import opened OrderedMaps
  import opened ProjectTypes
  import opened Events
  import opened MapLibreAdapter
  import Registry

  /** When every tracked config is stored under its own id, the ids of
      `getLayers()` are the tracked keys. */
  lemma TrackedIds(m: OMap<string, Layer>)
    requires KeysMatch(m)
    ensures forall k :: k in LayerIds(Values(m)) <==> Has(m, k)
  {
    KeysMatchGet(m);
    var vs := Values(m);
    forall k ensures k in LayerIds(vs) <==> Has(m, k) {
      if Has(m, k) {
        var i :| 0 <= i < |m| && Keys(m)[i] == k;
        GetAt(m, i);
        assert LayerIds(vs)[i] == k;
      }
      if k in LayerIds(vs) {
        var i :| 0 <= i < |vs| && LayerIds(vs)[i] == k;
        assert Keys(m)[i] == m[i].0;
        GetAt(m, i);
      }
    }
  }

  // -------------------------------------------------------- sync pass

  /** The first loop: remove every current layer whose id the store lacks. */
  function RemoveStale<H(==,!new)>(a: Adapter<H>, current: seq<Layer>, wanted: set<string>): (r: Adapter<H>)
    requires IsInitialized(a)
    ensures IsInitialized(r)
    ensures forall k :: Has(r.layers, k) <==> Has(a.layers, k) && !(k in LayerIds(current) && k !in wanted)
    ensures forall k :: Has(r.layers, k) ==> Get(r.layers, k) == Get(a.layers, k)
    decreases |current|
  {
    if |current| == 0 then a
    else
      var id := current[0].id;
      var b := if id !in wanted then RemoveLayer(a, id) else a;
      LayerIdsCons(current);
      RemoveStale(b, current[1..], wanted)
  }

  /** The second loop: add each store layer whose id was not current, update
      the others with the whole config. */
  function AddOrUpdate<H(==,!new)>(a: Adapter<H>, ls: seq<Layer>, current: set<string>, corrected: bool): (r: Adapter<H>)
    requires IsInitialized(a)
    ensures IsInitialized(r)
    decreases |ls|
  {
    if |ls| == 0 then a else AddOrUpdate(Step(a, ls[0], current, corrected), ls[1..], current, corrected)
  }

  /** One iteration of the second loop. */
  function Step<H(==,!new)>(a: Adapter<H>, l: Layer, current: set<string>, corrected: bool): (r: Adapter<H>)
    requires IsInitialized(a)
    ensures IsInitialized(r)
    ensures forall k :: k != l.id ==> Get(r.layers, k) == Get(a.layers, k)
  {
    if l.id !in current then AddChosen(a, l, corrected).adapter else UpdateLayer(a, l.id, AsPatch(l))
  }

  function IdSet(ls: seq<Layer>): (s: set<string>)
    ensures forall k :: k in s <==> k in LayerIds(ls)
  {
    set i | 0 <= i < |ls| :: ls[i].id
  }

  /** The layer-sync effect: nothing without an initialised backend. */
  function Sync<H(==,!new)>(backend: Option<Adapter<H>>, ls: seq<Layer>, corrected: bool): (r: Option<Adapter<H>>)
    ensures backend.None? || !IsInitialized(backend.value) ==> r == backend
    ensures r.Some? <==> backend.Some?
  {
    match backend
    case None => None
    case Some(a) =>
      if !IsInitialized(a) then backend
      else
        var current := GetLayers(a);
        var b := RemoveStale(a, current, IdSet(ls));
        Some(AddOrUpdate(b, ls, IdSet(current), corrected))
  }

  /** Each step of the second loop keeps every tracked key, adds the layer's
      id, and stores each config under its own id. */
  lemma AddOrUpdateStep<H(!new)>(a: Adapter<H>, l: Layer, current: set<string>, corrected: bool)
    requires IsInitialized(a) && KeysMatch(a.layers)
    requires l.id in current ==> Has(a.layers, l.id)
    ensures var b := Step(a, l, current, corrected);
      && KeysMatch(b.layers)
      && forall k :: Has(b.layers, k) <==> Has(a.layers, k) || k == l.id
  {
    var b := Step(a, l, current, corrected);
    StepKeysMatch(a, l, current, corrected);
    forall k ensures Has(b.layers, k) <==> Has(a.layers, k) || k == l.id {
      if k != l.id {
        assert Get(b.layers, k) == Get(a.layers, k);
      }
    }
  }

  lemma StepKeysMatch<H(!new)>(a: Adapter<H>, l: Layer, current: set<string>, corrected: bool)
    requires IsInitialized(a) && KeysMatch(a.layers)
    requires l.id in current ==> Has(a.layers, l.id)
    ensures KeysMatch(Step(a, l, current, corrected).layers)
  {
    KeysMatchGet(a.layers);
    var b := Step(a, l, current, corrected);
    forall k | Get(b.layers, k).Some? ensures Get(b.layers, k).value.id == k {
      if k == l.id && l.id in current {
        MergeWholeLayer(Get(a.layers, k).value, l);
      }
    }
    KeysMatchGet(b.layers);
  }

  lemma {:induction false} AddOrUpdateTracks<H(!new)>(a: Adapter<H>, ls: seq<Layer>, current: set<string>, corrected: bool)
    requires IsInitialized(a) && KeysMatch(a.layers)
    requires forall i :: 0 <= i < |ls| && ls[i].id in current ==> Has(a.layers, ls[i].id)
    ensures KeysMatch(AddOrUpdate(a, ls, current, corrected).layers)
    ensures forall k :: Has(AddOrUpdate(a, ls, current, corrected).layers, k) <==> Has(a.layers, k) || k in LayerIds(ls)
    decreases |ls|
  {
    if |ls| > 0 {
      var l := ls[0];
      var b := Step(a, l, current, corrected);
      AddOrUpdateStep(a, l, current, corrected);
      assert forall i :: 0 <= i < |ls[1..]| ==> ls[1..][i] == ls[i + 1];
      AddOrUpdateTracks(b, ls[1..], current, corrected);
      LayerIdsCons(ls);
    }
  }

  lemma RemoveStaleKeysMatch<H(!new)>(a: Adapter<H>, current: seq<Layer>, wanted: set<string>)
    requires IsInitialized(a) && KeysMatch(a.layers)
    ensures KeysMatch(RemoveStale(a, current, wanted).layers)
  {
    KeysMatchGet(a.layers);
    var r := RemoveStale(a, current, wanted);
    forall k | Get(r.layers, k).Some? ensures Get(r.layers, k).value.id == k {
      assert Has(r.layers, k) && Get(r.layers, k) == Get(a.layers, k);
    }
    KeysMatchGet(r.layers);
  }

  /** After one pass over an initialised backend whose configs carry their
      own ids, the adapter tracks exactly the store's layer ids, and still
      stores each config under its own id. */
  lemma SyncTracksStore<H(!new)>(a: Adapter<H>, ls: seq<Layer>, corrected: bool)
    requires IsInitialized(a) && KeysMatch(a.layers)
    ensures var r := Sync(Some(a), ls, corrected).value;
      && KeysMatch(r.layers)
      && forall k :: Has(r.layers, k) <==> k in LayerIds(ls)
  {
    var current := GetLayers(a);
    var wanted := IdSet(ls);
    var b := RemoveStale(a, current, wanted);
    TrackedIds(a.layers);
    RemoveStaleKeysMatch(a, current, wanted);
    forall i | 0 <= i < |ls| && ls[i].id in IdSet(current) ensures Has(b.layers, ls[i].id) {
      assert ls[i].id in LayerIds(ls);
    }
    AddOrUpdateTracks(b, ls, IdSet(current), corrected);
  }

  /** A store layer whose id the adapter lacked ends up tracked as exactly
      that config, when the store's ids are distinct. */
  lemma {:induction false} AddOrUpdateAdds<H(!new)>(a: Adapter<H>, ls: seq<Layer>, current: set<string>, corrected: bool, j: nat)
    requires IsInitialized(a)
    requires j < |ls| && ls[j].id !in current
    requires forall i :: 0 <= i < |ls| && i != j ==> ls[i].id != ls[j].id
    ensures Get(AddOrUpdate(a, ls, current, corrected).layers, ls[j].id) == Some(ls[j])
    decreases |ls|
  {
    var l := ls[0];
    var b := Step(a, l, current, corrected);
    if j == 0 {
      OthersKeep(b, ls[1..], current, corrected, l.id);
    } else {
      AddOrUpdateAdds(b, ls[1..], current, corrected, j - 1);
    }
  }

  /** Later steps of the second loop leave an id they do not name alone. */
  lemma {:induction false} OthersKeep<H(!new)>(a: Adapter<H>, ls: seq<Layer>, current: set<string>, corrected: bool, k: string)
    requires IsInitialized(a)
    requires forall i :: 0 <= i < |ls| ==> ls[i].id != k
    ensures Get(AddOrUpdate(a, ls, current, corrected).layers, k) == Get(a.layers, k)
    decreases |ls|
  {
    if |ls| > 0 {
      OthersKeep(Step(a, ls[0], current, corrected), ls[1..], current, corrected, k);
    }
  }

  // ---------------------------------------------------- initialisation

  /** The component's state: the backend it holds, the adapters it has
      destroyed, and the map store's loading flag, error, zoom and
      published backend. */
  datatype Canvas<H> = Canvas(
    backend: Option<Adapter<H>>,
    retired: seq<Adapter<H>>,
    loading: bool,
    error: Option<string>,
    zoom: Option<real>,
    published: Option<Adapter<H>>)

  /** The first loop of the initial load: `await backend.addLayer(layer)`
      for each layer, a failure logged and skipped. */
  function AddTolerant<H(==,!new)>(a: Adapter<H>, ls: seq<Layer>, corrected: bool): (r: Adapter<H>)
    decreases |ls|
  {
    if |ls| == 0 then a
    else
      var step := AddChosen(a, ls[0], corrected);
      AddTolerant(if step.result.Success? then step.adapter else a, ls[1..], corrected)
  }

  /** `initializeMap`: without a container nothing happens. Otherwise the
      held backend is destroyed first, then `created` is what
      `createBackend` settled to; on success the view-change callback
      `onView` is registered, the project's layers are added, and the zoom
      published; on failure the message is recorded. Loading ends on every
      path. */
  function InitializeMap<H(==,!new)>(c: Canvas<H>, hasContainer: bool, created: Result<Adapter<H>>,
                                    onView: H, ls: seq<Layer>, view: View, corrected: bool): (r: Canvas<H>)
    requires created.Success? ==> SetLike(created.value.handlers)
    ensures !hasContainer ==> r == c
    ensures hasContainer ==> !r.loading
    ensures hasContainer && c.backend.Some? ==> r.retired == c.retired + [Destroy(c.backend.value)]
    ensures hasContainer && c.backend.None? ==> r.retired == c.retired
    ensures hasContainer && created.Failure? ==>
      r.error == Some(created.error) && r.backend.None? && r.published == c.published
    ensures hasContainer && created.Success? ==>
      && r.error.None? && r.zoom == Some(view.zoom)
      && r.backend.Some? && r.published == r.backend
      && onView in Listeners(r.backend.value.handlers, "viewchange")
  {
    if !hasContainer then c
    else
      var retired := if c.backend.Some? then c.retired + [Destroy(c.backend.value)] else c.retired;
      match created
      case Failure(e) => Canvas(None, retired, false, Some(e), c.zoom, c.published)
      case Success(a) =>
        var b := a.(handlers := Register(a.handlers, "viewchange", onView));
        var d := AddTolerant(b, ls, corrected);
        assert d.handlers == b.handlers by {
          AddTolerantHandlers(b, ls, corrected);
        }
        Canvas(Some(d), retired, false, None, Some(view.zoom), Some(d))
  }

  lemma {:induction false} AddTolerantHandlers<H(!new)>(a: Adapter<H>, ls: seq<Layer>, corrected: bool)
    ensures AddTolerant(a, ls, corrected).handlers == a.handlers
    decreases |ls|
  {
    if |ls| > 0 {
      var step := AddChosen(a, ls[0], corrected);
      AddTolerantHandlers(if step.result.Success? then step.adapter else a, ls[1..], corrected);
    }
  }

  /** On an initialised adapter the initial load tracks every project
      layer. */
  lemma {:induction false} AddTolerantTracks<H(!new)>(a: Adapter<H>, ls: seq<Layer>, corrected: bool)
    requires IsInitialized(a)
    ensures forall k :: Has(AddTolerant(a, ls, corrected).layers, k) <==> Has(a.layers, k) || k in LayerIds(ls)
    decreases |ls|
  {
    if |ls| > 0 {
      var b := AddChosen(a, ls[0], corrected).adapter;
      forall k ensures Has(b.layers, k) <==> Has(a.layers, k) || k == ls[0].id {
        if k != ls[0].id {
          assert Get(b.layers, k) == Get(a.layers, k);
        }
      }
      AddTolerantTracks(b, ls[1..], corrected);
      LayerIdsCons(ls);
    }
  }

  /** Initialising with an adapter that is ready and tracks nothing ends
      with every project layer tracked. */
  lemma InitialLoadTracks<H(!new)>(c: Canvas<H>, a: Adapter<H>, onView: H, ls: seq<Layer>, view: View, corrected: bool)
    requires IsInitialized(a) && a.layers == [] && SetLike(a.handlers)
    ensures var r := InitializeMap(c, true, Success(a), onView, ls, view, corrected);
      forall k :: Has(r.backend.value.layers, k) <==> k in LayerIds(ls)
  {
    var b := a.(handlers := Register(a.handlers, "viewchange", onView));
    AddTolerantTracks(b, ls, corrected);
  }

  /** The unmount clean-up: the held backend is destroyed and released. */
  function Cleanup<H(==,!new)>(c: Canvas<H>): (r: Canvas<H>)
    ensures r.backend.None?
    ensures c.backend.Some? ==> r.retired == c.retired + [Destroy(c.backend.value)]
  {
    if c.backend.Some? then c.(backend := None, retired := c.retired + [Destroy(c.backend.value)]) else c
  }

  /** The effect's whole clean-up: `Cleanup`, then
      `destroyBackend(backendType)` on the adapter registry, which evicts
      that type's cache entry and destroys the cached adapter. */
  function Unmount<H(==,!new)>(c: Canvas<H>, reg: Registry.Registry<Adapter<H>>, t: BackendType)
    : (r: (Canvas<H>, Registry.Registry<Adapter<H>>))
    ensures r.0.backend.None?
    ensures Get(r.1.cache, t).None?
    ensures forall t' :: t' != t ==> Get(r.1.cache, t') == Get(reg.cache, t')
  {
    (Cleanup(c), Registry.DestroyBackend(reg, t))
  }

  /** When the held backend is the adapter the registry caches for the
      type, as `createBackend` leaves it, unmounting destroys that adapter
      twice: once through the component's reference and once through the
      registry. */
  lemma UnmountDestroysTwice<H(!new)>(c: Canvas<H>, reg: Registry.Registry<Adapter<H>>, t: BackendType)
    requires c.backend.Some? && Get(reg.cache, t) == c.backend
    ensures var r := Unmount(c, reg, t);
      && r.0.retired == c.retired + [Destroy(c.backend.value)]
      && r.1.destroyed == reg.destroyed + [c.backend.value]
  {
  }
}

=== FILE: maplibre_adapter.dfy ===
/** The layer bookkeeping of the MapLibre adapter
    (src/backends/adapters/MapLibreAdapter.ts). The native map is reduced to
    what the adapter creates and removes by name: a set of source names and
    a map from layer name to its `visibility` layout property. Event
    callbacks are opaque values of type `H`; invoking one is recorded as a
    `Call`, which is all the adapter itself does with it. */
module MapLibreAdapter {
  import opened Wrappers
  import opened Seqs
  import opened OrderedMaps
  import opened ProjectTypes
  import opened Events

  /** The native map: sources by name, and each style layer's visibility. */
  datatype Native = Native(sources: set<string>, layers: map<string, bool>)

  /** One invocation of a registered callback with the event's payload. */
  datatype Call<H> = Call(callback: H, event: string, layer: Layer)

  datatype Adapter<H> = Adapter(
    native: Option<Native>,
    layers: OMap<string, Layer>,
    handlers: Handlers<H>,
    calls: seq<Call<H>>)

  /** A freshly constructed adapter. */
  function New<H(==,!new)>(): Adapter<H> {
    Adapter(None, [], map[], [])
  }

  predicate IsInitialized<H(==,!new)>(a: Adapter<H>) {
    a.native.Some?
  }

  /** `initialize`: the map exists once its `load` event fires; the
      basemap's own style layers are not modelled. */
  function Initialize<H(==,!new)>(a: Adapter<H>): (r: Adapter<H>)
    ensures IsInitialized(r) && r.layers == a.layers && r.handlers == a.handlers
  {
    a.(native := Some(Native({}, map[])))
  }

  // ------------------------------------------------------------ names

  function SourceName(id: string): string {
    "source-" + id
  }

  /** The three style layers a `geojson` layer is drawn with. */
  function GeoJsonLayerNames(id: string): set<string> {
    {id + "-fill", id + "-line", id + "-point"}
  }

  /** The style layers `removeLayer` looks for. */
  function RemovedLayerNames(id: string): set<string> {
    GeoJsonLayerNames(id) + {id + "-label", id + "-highlight-line", id + "-heatmap", id}
  }

  /** The sources `removeLayer` looks for. */
  function RemovedSourceNames(id: string): set<string> {
    {SourceName(id), id + "-highlight-source", id + "-heatmap-source"}
  }

  /** The style layers a visibility change is applied to. */
  function VisibilityTargets(id: string): set<string> {
    GeoJsonLayerNames(id) + {id}
  }

  /** The native objects `addLayer` creates for a layer of type `kind`:
      its source, unless the type is not supported, and its style layers. */
  function CreatedSources(id: string, kind: LayerType): set<string> {
    if kind in {GeoJsonLayer, Raster, Cog, VectorTiles, PMTiles} then {SourceName(id)} else {}
  }

  function CreatedLayers(id: string, kind: LayerType): set<string> {
    if kind == GeoJsonLayer then GeoJsonLayerNames(id)
    else if kind in {Raster, Cog} then {id}
    else {}
  }

  // ------------------------------------------------------------ events

  /** `emit`: every callback registered for the event is called once, in
      registration order. */
  function Emit<H(==,!new)>(a: Adapter<H>, event: string, layer: Layer): (r: Adapter<H>)
    ensures r.native == a.native && r.layers == a.layers && r.handlers == a.handlers
    ensures |r.calls| == |a.calls| + |Listeners(a.handlers, event)|
    ensures r.calls[..|a.calls|] == a.calls
    ensures forall i :: 0 <= i < |Listeners(a.handlers, event)| ==>
      r.calls[|a.calls| + i] == Call(Listeners(a.handlers, event)[i], event, layer)
  {
    var hs := Listeners(a.handlers, event);
    a.(calls := a.calls + seq(|hs|, i requires 0 <= i < |hs| => Call(hs[i], event, layer)))
  }

  /** After `on` then `off` of a callback, an emit does not call it; every
      other callback of that event is called exactly once. */
  lemma EmitAfterOff<H(!new)>(a: Adapter<H>, event: string, cb: H, l: Layer)
    requires SetLike(a.handlers)
    ensures var b := a.(handlers := Unregister(Register(a.handlers, event, cb), event, cb));
      var r := Emit(b, event, l);
      && (forall i :: |b.calls| <= i < |r.calls| ==> r.calls[i].callback != cb)
      && (forall h :: h in Listeners(a.handlers, event) && h != cb ==>
            exists i :: |b.calls| <= i < |r.calls| && r.calls[i].callback == h)
      && Distinct(Listeners(b.handlers, event))
  {
    var b := a.(handlers := Unregister(Register(a.handlers, event, cb), event, cb));
    RegisterUnregister(a.handlers, event, cb);
    EmitCallsListeners(b, event, l);
    assert event in b.handlers ==> Distinct(b.handlers[event]);
  }

  /** The calls an emit appends are to the event's listeners, and to each of
      them. */
  lemma EmitCallsListeners<H(!new)>(a: Adapter<H>, event: string, l: Layer)
    ensures var r := Emit(a, event, l);
      && (forall i :: |a.calls| <= i < |r.calls| ==> r.calls[i].callback in Listeners(a.handlers, event))
      && (forall h :: h in Listeners(a.handlers, event) ==>
            exists i :: |a.calls| <= i < |r.calls| && r.calls[i].callback == h)
  {
    var r := Emit(a, event, l);
    var hs := Listeners(a.handlers, event);
    forall i | |a.calls| <= i < |r.calls| ensures r.calls[i].callback in hs {
      assert r.calls[|a.calls| + (i - |a.calls|)].callback == hs[i - |a.calls|];
    }
    forall h | h in hs ensures exists i :: |a.calls| <= i < |r.calls| && r.calls[i].callback == h {
      var k :| 0 <= k < |hs| && hs[k] == h;
      assert r.calls[|a.calls| + k].callback == h;
    }
  }

  // ------------------------------------------------------------ layers

  /** What a call that returns a promise of a layer id leaves behind. */
  datatype Added<H> = Added(adapter: Adapter<H>, result: Result<string>)

  /** `removeLayer`: nothing happens without a map or for an untracked id,
      even if style layers or sources of that name exist; otherwise every
      derived layer and source is removed, the tracking entry is dropped, and
      `layerremove` is emitted with the old config. */
  function RemoveLayer<H(==,!new)>(a: Adapter<H>, id: string): (r: Adapter<H>)
    ensures a.native.None? || !Has(a.layers, id) ==> r == a
    ensures r.native.Some? <==> a.native.Some?
    ensures r.handlers == a.handlers
    ensures forall k :: k != id ==> Get(r.layers, k) == Get(a.layers, k)
    ensures a.native.Some? ==> Get(r.layers, id) == None
    ensures a.native.Some? && Has(a.layers, id) ==>
      && r.layers == Delete(a.layers, id)
      && (forall n :: n in r.native.value.layers <==> n in a.native.value.layers && n !in RemovedLayerNames(id))
      && (forall n :: n in r.native.value.layers ==> r.native.value.layers[n] == a.native.value.layers[n])
      && r.native.value.sources == a.native.value.sources - RemovedSourceNames(id)
  {
    if a.native.None? then a
    else
      match Get(a.layers, id)
      case None => a
      case Some(config) =>
        var n := a.native.value;
        var n' := Native(n.sources - RemovedSourceNames(id), n.layers - RemovedLayerNames(id));
        Emit(a.(native := Some(n'), layers := Delete(a.layers, id)), "layerremove", config)
  }

  /** The native objects for `config`, with `visible` as the visibility of
      a raster style layer. */
  function AddNative(n: Native, config: Layer, rasterVisible: bool): (r: Native)
    ensures r.sources == n.sources + CreatedSources(config.id, config.kind)
    ensures forall name :: name in r.layers <==> name in n.layers || name in CreatedLayers(config.id, config.kind)
    ensures forall name :: name in n.layers && name !in CreatedLayers(config.id, config.kind) ==>
      r.layers[name] == n.layers[name]
    ensures forall name :: name in CreatedLayers(config.id, config.kind) ==>
      r.layers[name] == if config.kind == GeoJsonLayer then config.visible else rasterVisible
  {
    var id := config.id;
    var v := config.visible;
    match config.kind
    case GeoJsonLayer =>
      Native(n.sources + {SourceName(id)}, n.layers[id + "-fill" := v][id + "-line" := v][id + "-point" := v])
    case Raster => Native(n.sources + {SourceName(id)}, n.layers[id := rasterVisible])
    case Cog => Native(n.sources + {SourceName(id)}, n.layers[id := rasterVisible])
    case VectorTiles => Native(n.sources + {SourceName(id)}, n.layers)
    case PMTiles => Native(n.sources + {SourceName(id)}, n.layers)
    case _ => n
  }

  /** `addLayer`, with the visibility a raster or COG style layer is created
      with as a parameter. */
  function AddLayerWith<H(==,!new)>(a: Adapter<H>, config: Layer, rasterVisible: bool): (r: Added<H>)
    ensures a.native.None? ==> r == Added(a, Failure("Map not initialized"))
    ensures a.native.Some? ==>
      && r.result == Success(config.id)
      && r.adapter.native.Some?
      && Get(r.adapter.layers, config.id) == Some(config)
      && (forall k :: k != config.id ==> Get(r.adapter.layers, k) == Get(a.layers, k))
      && r.adapter.handlers == a.handlers
  {
    if a.native.None? then Added(a, Failure("Map not initialized"))
    else
      var b := RemoveLayer(a, config.id);
      var n := AddNative(b.native.value, config, rasterVisible);
      var c := b.(native := Some(n), layers := Set(b.layers, config.id, config));
      Added(Emit(c, "layeradd", config), Success(config.id))
  }

  /** `addLayer` as the source writes it: a raster or COG style layer is
      created without a `visibility` layout property, so it is shown
      whatever `config.visible` says. */
  function AddLayerAsWritten<H(==,!new)>(a: Adapter<H>, config: Layer): Added<H> {
    AddLayerWith(a, config, true)
  }

  /** `addLayer` with the raster style layer created with the config's
      visibility, as the GeoJSON style layers already are. */
  function AddLayer<H(==,!new)>(a: Adapter<H>, config: Layer): Added<H> {
    AddLayerWith(a, config, config.visible)
  }

  /** The add a caller performs: `addLayer` as written when `corrected` is
      false, the corrected one otherwise. The component flows take the
      choice as a parameter, so what is proved about them holds of the
      program as written and of the correction alike. */
  function AddChosen<H(==,!new)>(a: Adapter<H>, config: Layer, corrected: bool): Added<H> {
    if corrected then AddLayer(a, config) else AddLayerAsWritten(a, config)
  }

  /** The hidden raster layer that `addLayer` as written shows: the tracked
      config says hidden, the style layer says visible. */
  lemma HiddenRasterShown<H(!new)>(a: Adapter<H>, config: Layer)
    requires IsInitialized(a) && config.kind == Raster && !config.visible
    ensures var r := AddLayerAsWritten(a, config).adapter;
      Get(r.layers, config.id) == Some(config) && !config.visible
      && config.id in r.native.value.layers && r.native.value.layers[config.id]
  {
  }

  /** With the correction, every style layer `addLayer` creates carries the
      config's visibility, the tracked entry is the config, and exactly the
      derived objects of its type exist alongside whatever else survived the
      preliminary removal. */
  lemma AddLayerCreates<H(!new)>(a: Adapter<H>, config: Layer)
    requires IsInitialized(a)
    ensures var r := AddLayer(a, config).adapter;
      && Get(r.layers, config.id) == Some(config)
      && CreatedSources(config.id, config.kind) <= r.native.value.sources
      && (forall name :: name in CreatedLayers(config.id, config.kind) ==>
            name in r.native.value.layers && r.native.value.layers[name] == config.visible)
  {
    AddLayerWithNative(a, config, config.visible);
  }

  /** The map `addLayer` leaves is the preliminary removal's map with the
      config's native objects added. */
  lemma AddLayerWithNative<H(!new)>(a: Adapter<H>, config: Layer, rasterVisible: bool)
    requires a.native.Some?
    ensures RemoveLayer(a, config.id).native.Some?
    ensures AddLayerWith(a, config, rasterVisible).adapter.native
      == Some(AddNative(RemoveLayer(a, config.id).native.value, config, rasterVisible))
  {
  }

  /** `updateLayer`: nothing happens without a map or for an untracked id;
      otherwise the tracked config becomes `{ ...config, ...updates }`, and a
      visibility in the update is applied to every existing style layer it
      targets. */
  function UpdateLayer<H(==,!new)>(a: Adapter<H>, id: string, patch: LayerPatch): (r: Adapter<H>)
    ensures a.native.None? || !Has(a.layers, id) ==> r == a
    ensures a.native.Some? && Has(a.layers, id) ==>
      && Get(r.layers, id) == Some(Merge(Get(a.layers, id).value, patch))
      && (forall k :: k != id ==> Get(r.layers, k) == Get(a.layers, k))
      && Keys(r.layers) == Keys(a.layers)
      && r.native.Some?
      && r.native.value.sources == a.native.value.sources
      && (forall n :: n in r.native.value.layers <==> n in a.native.value.layers)
      && (forall n :: n in r.native.value.layers ==>
            r.native.value.layers[n] == if patch.visible.Some? && n in VisibilityTargets(id)
                                     then patch.visible.value else a.native.value.layers[n])
    ensures r.handlers == a.handlers && r.calls == a.calls
  {
    if a.native.None? then a
    else
      match Get(a.layers, id)
      case None => a
      case Some(config) =>
        var n := a.native.value;
        var n' := if patch.visible.None? then n
                  else Native(n.sources, map k | k in n.layers ::
                                 if k in VisibilityTargets(id) then patch.visible.value else n.layers[k]);
        a.(native := Some(n'), layers := Set(a.layers, id, Merge(config, patch)))
  }

  function GetLayer<H(==,!new)>(a: Adapter<H>, id: string): Option<Layer> {
    Get(a.layers, id)
  }

  /** `getLayers`: the tracked configs in insertion order. */
  function GetLayers<H(==,!new)>(a: Adapter<H>): seq<Layer> {
    Values(a.layers)
  }

  /** `clearLayerTracking`: forgets the tracked configs only. */
  function ClearLayerTracking<H(==,!new)>(a: Adapter<H>): (r: Adapter<H>)
    ensures r.layers == [] && r.native == a.native && r.handlers == a.handlers && r.calls == a.calls
  {
    a.(layers := [])
  }

  /** `destroy`: no map, no tracked layers and no handlers remain. */
  function Destroy<H(==,!new)>(a: Adapter<H>): (r: Adapter<H>)
    ensures !IsInitialized(r) && r.layers == [] && r.handlers == map[] && r.calls == a.calls
    ensures GetLayers(r) == []
  {
    Adapter(None, [], map[], a.calls)
  }

  // ------------------------------------------------------- import state

  /** Every tracked config is stored under its own id. */
  predicate KeysMatch(m: OMap<string, Layer>) {
    forall i :: 0 <= i < |m| ==> m[i].1.id == m[i].0
  }

  /** `KeysMatch` read through lookups: every config found under a key
      carries that key as its id, and conversely. */
  lemma KeysMatchGet(m: OMap<string, Layer>)
    ensures KeysMatch(m) <==> Lookups(m)
  {
    if KeysMatch(m) {
      MatchedLookups(m);
    } else {
      var i :| 0 <= i < |m| && m[i].1.id != m[i].0;
      GetAt(m, i);
    }
  }

  /** Every config found under a key carries that key as its id. */
  ghost predicate Lookups(m: OMap<string, Layer>) {
    forall k :: Get(m, k).Some? ==> Get(m, k).value.id == k
  }

  lemma MatchedLookups(m: OMap<string, Layer>)
    requires KeysMatch(m)
    ensures Lookups(m)
  {
    forall k | Get(m, k).Some? ensures Get(m, k).value.id == k {
      var i :| 0 <= i < |m| && Keys(m)[i] == k;
      GetAt(m, i);
    }
  }

  /** The first loop of `importState`: `removeLayer(layer.id)` for each
      tracked config, in insertion order. */
  function RemoveEach<H(==,!new)>(a: Adapter<H>, ls: seq<Layer>): (r: Adapter<H>)
    ensures r.native.Some? <==> a.native.Some?
    decreases |ls|
  {
    if |ls| == 0 then a else RemoveEach(RemoveLayer(a, ls[0].id), ls[1..])
  }

  /** The last loop of `importState`: `await this.addLayer(layer)` for each
      layer in order; the first rejection rejects the whole import. */
  function AddEach<H(==,!new)>(a: Adapter<H>, ls: seq<Layer>, corrected: bool): (r: (Adapter<H>, Outcome))
    ensures a.native.Some? ==> r.1 == Pass && r.0.native.Some?
    ensures a.native.None? && |ls| > 0 ==> r == (a, Fail("Map not initialized"))
    decreases |ls|
  {
    if |ls| == 0 then (a, Pass)
    else
      var step := AddChosen(a, ls[0], corrected);
      if step.result.Failure? then (step.adapter, Fail(step.result.error))
      else AddEach(step.adapter, ls[1..], corrected)
  }

  /** `importState`: clear the tracked layers, then add the state's layers.
      Setting the camera is not modelled. */
  function ImportState<H(==,!new)>(a: Adapter<H>, ls: seq<Layer>, corrected: bool): (Adapter<H>, Outcome) {
    AddEach(RemoveEach(a, Values(a.layers)), ls, corrected)
  }

  /** Removing the oldest tracked layer drops the first entry. */
  lemma RemoveFirst<H(!new)>(a: Adapter<H>)
    requires IsInitialized(a) && |a.layers| > 0 && KeysMatch(a.layers)
    ensures RemoveLayer(a, a.layers[0].1.id).layers == a.layers[1..]
    ensures KeysMatch(a.layers[1..])
  {
    assert Get(a.layers, a.layers[0].0) == Some(a.layers[0].1);
    DeleteFirst(a.layers);
    assert a.layers[..0] + a.layers[1..] == a.layers[1..];
  }

  lemma {:induction false} RemoveEachTracked<H(!new)>(a: Adapter<H>)
    requires IsInitialized(a) && KeysMatch(a.layers)
    ensures RemoveEach(a, Values(a.layers)).layers == []
    decreases |a.layers|
  {
    if |a.layers| > 0 {
      var vs := Values(a.layers);
      var b := RemoveLayer(a, vs[0].id);
      RemoveFirst(a);
      ValuesStep(a.layers);
      assert vs[1..] == Values(b.layers);
      RemoveEachTracked(b);
    }
  }

  /** One `addLayer` on a map succeeds and tracks the config's id besides
      the ones already tracked. */
  lemma AddStepTracks<H(!new)>(a: Adapter<H>, l: Layer, corrected: bool)
    requires IsInitialized(a)
    ensures AddChosen(a, l, corrected).result.Success? && IsInitialized(AddChosen(a, l, corrected).adapter)
    ensures forall k :: Has(AddChosen(a, l, corrected).adapter.layers, k) <==> Has(a.layers, k) || k == l.id
  {
    var b := AddChosen(a, l, corrected).adapter;
    forall k ensures Has(b.layers, k) <==> Has(a.layers, k) || k == l.id {
      if k != l.id {
        assert Get(b.layers, k) == Get(a.layers, k);
      }
    }
  }

  /** On a map the import loop moves on to the next layer after each add. */
  lemma AddEachStep<H(!new)>(a: Adapter<H>, ls: seq<Layer>, corrected: bool)
    requires IsInitialized(a) && |ls| > 0 && AddChosen(a, ls[0], corrected).result.Success?
    ensures AddEach(a, ls, corrected) == AddEach(AddChosen(a, ls[0], corrected).adapter, ls[1..], corrected)
  {
  }

  lemma {:induction false} AddEachTracks<H(!new)>(a: Adapter<H>, ls: seq<Layer>, corrected: bool)
    requires IsInitialized(a)
    ensures forall k :: Has(AddEach(a, ls, corrected).0.layers, k) <==> Has(a.layers, k) || k in LayerIds(ls)
    decreases |ls|
  {
    if |ls| > 0 {
      AddStepTracks(a, ls[0], corrected);
      var b := AddChosen(a, ls[0], corrected).adapter;
      AddEachStep(a, ls, corrected);
      AddEachTracks(b, ls[1..], corrected);
      LayerIdsCons(ls);
    }
  }

  /** After `importState` on an initialised map whose tracked configs carry
      their own ids, the tracked ids are exactly the state's layer ids. */
  lemma ImportTracksState<H(!new)>(a: Adapter<H>, ls: seq<Layer>, corrected: bool)
    requires IsInitialized(a) && KeysMatch(a.layers)
    ensures ImportState(a, ls, corrected).1 == Pass
    ensures forall k :: Has(ImportState(a, ls, corrected).0.layers, k) <==> k in LayerIds(ls)
  {
    var b := RemoveEach(a, Values(a.layers));
    RemoveEachTracked(a);
    AddEachTracks(b, ls, corrected);
  }
}

=== FILE: omap.dfy ===
/** Insertion-ordered maps: the semantics of a JavaScript `Map`. `set` on a
    present key keeps its position, on a new key appends it; `delete` drops
    the entry; iteration visits keys in insertion order. A plain object's
    own string keys follow the same order except that keys which are array
    indices come first, in ascending order; where the model stores an
    object's properties here, that reordering is not represented. */
module OrderedMaps {
  import opened Wrappers
  import opened Seqs

  /** The key of entry `i`; distinctness is stated over it so that the
      pairwise fact is brought in only where a proof names two entries. */
  function KeyAt<K, V>(m: seq<(K, V)>, i: int): K
    requires 0 <= i < |m|
  {
    m[i].0
  }

  predicate DistinctKeys<K(==), V>(m: seq<(K, V)>) {
    forall i, j {:trigger KeyAt(m, i), KeyAt(m, j)} :: 0 <= i < j < |m| ==> KeyAt(m, i) != KeyAt(m, j)
  }

  type OMap<K(==), V> = m: seq<(K, V)> | DistinctKeys(m)

  function Keys<K, V>(m: seq<(K, V)>): (ks: seq<K>)
    ensures |ks| == |m|
    ensures forall i {:trigger ks[i]} :: 0 <= i < |m| ==> ks[i] == m[i].0
  {
    if |m| == 0 then [] else [m[0].0] + Keys(m[1..])
  }

  function Values<K, V>(m: seq<(K, V)>): (vs: seq<V>)
    ensures |vs| == |m|
    ensures forall i {:trigger vs[i]} :: 0 <= i < |m| ==> vs[i] == m[i].1
  {
    if |m| == 0 then [] else [m[0].1] + Values(m[1..])
  }

  predicate Has<K(==), V>(m: OMap<K, V>, k: K) {
    k in Keys(m)
  }

  /** `m.get(k)`. */
  function Get<K(==), V>(m: OMap<K, V>, k: K): (r: Option<V>)
    ensures r.None? <==> !Has(m, k)
  {
    if |m| == 0 then None
    else if m[0].0 == k then
      KeyUnique(m, 0);
      Some(m[0].1)
    else
      TailKeys(m);
      var tail: OMap<K, V> := m[1..];
      assert forall i :: 1 <= i < |m| ==> tail[i - 1] == m[i];
      assert Has(m, k) <==> Has(tail, k);
      Get(tail, k)
  }

  /** The value stored under entry `i`'s key is entry `i`'s value. */
  lemma {:induction false} GetAt<K, V>(m: OMap<K, V>, i: int)
    requires 0 <= i < |m|
    ensures Get(m, m[i].0) == Some(m[i].1)
    decreases |m|
  {
    if i == 0 {
    } else {
      KeyUnique(m, i);
      TailKeys(m);
      var tail: OMap<K, V> := m[1..];
      GetAt(tail, i - 1);
    }
  }

  /** No other entry has the key of entry `i`. */
  lemma KeyUnique<K, V>(m: OMap<K, V>, i: int)
    requires 0 <= i < |m|
    ensures forall j :: 0 <= j < |m| && m[j].0 == m[i].0 ==> j == i
  {
    forall j | 0 <= j < |m| && j != i ensures m[j].0 != m[i].0 {
      if j < i {
        assert KeyAt(m, j) != KeyAt(m, i);
      } else if i < j {
        assert KeyAt(m, i) != KeyAt(m, j);
      }
    }
  }

  /** Replacing an entry's value keeps the keys distinct. */
  lemma UpdateDistinct<K, V>(m: OMap<K, V>, i: int, v: V)
    requires 0 <= i < |m|
    ensures DistinctKeys(m[i := (m[i].0, v)])
  {
    var r := m[i := (m[i].0, v)];
    forall a, b | 0 <= a < b < |r| ensures KeyAt(r, a) != KeyAt(r, b) {
      assert KeyAt(r, a) == KeyAt(m, a) && KeyAt(r, b) == KeyAt(m, b);
    }
  }

  /** Appending an absent key keeps the keys distinct. */
  lemma AppendDistinct<K, V>(m: OMap<K, V>, k: K, v: V)
    requires k !in Keys(m)
    ensures DistinctKeys(m + [(k, v)])
  {
    var r := m + [(k, v)];
    forall a, b | 0 <= a < b < |r| ensures KeyAt(r, a) != KeyAt(r, b) {
      if b < |m| {
        assert KeyAt(r, a) == KeyAt(m, a) && KeyAt(r, b) == KeyAt(m, b);
      } else {
        assert Keys(m)[a] == KeyAt(r, a);
      }
    }
  }

  /** Putting an entry with an absent key in front keeps the keys
      distinct. */
  lemma ConsDistinct<K, V>(e: (K, V), m: OMap<K, V>)
    requires e.0 !in Keys(m)
    ensures DistinctKeys([e] + m)
  {
    var r := [e] + m;
    forall a, b | 0 <= a < b < |r| ensures KeyAt(r, a) != KeyAt(r, b) {
      if 0 < a {
        assert KeyAt(r, a) == KeyAt(m, a - 1) && KeyAt(r, b) == KeyAt(m, b - 1);
      } else {
        assert Keys(m)[b - 1] == KeyAt(r, b);
      }
    }
  }

  /** `m.set(k, v)`. */
  function Set<K(==,!new), V(!new)>(m: OMap<K, V>, k: K, v: V): (r: OMap<K, V>)
    ensures Get(r, k) == Some(v)
    ensures forall k' :: k' != k ==> Get(r, k') == Get(m, k')
  {
    if Has(m, k) then
      var i := FirstIndex(Keys(m), k);
      UpdateDistinct(m, i, v);
      var r := m[i := (k, v)];
      assert Keys(r) == Keys(m);
      UpdateGet(m, i, v);
      r
    else
      AppendDistinct(m, k, v);
      var r := m + [(k, v)];
      assert Keys(r) == Keys(m) + [k];
      AppendGet(m, k, v);
      r
  }

  /** `set` keeps the position of a present key and appends a new one. */
  lemma SetKeys<K(!new), V(!new)>(m: OMap<K, V>, k: K, v: V)
    ensures Has(m, k) ==> Keys(Set(m, k, v)) == Keys(m)
    ensures !Has(m, k) ==> Keys(Set(m, k, v)) == Keys(m) + [k]
  {
    if Has(m, k) {
      var i := FirstIndex(Keys(m), k);
      assert Keys(m[i := (k, v)]) == Keys(m);
    } else {
      assert Keys(m + [(k, v)]) == Keys(m) + [k];
    }
  }

  /** Every entry's key looks up that entry's value. */
  lemma GetAll<K, V>(m: OMap<K, V>)
    ensures forall i :: 0 <= i < |m| ==> Get(m, m[i].0) == Some(m[i].1)
  {
    forall i | 0 <= i < |m| ensures Get(m, m[i].0) == Some(m[i].1) {
      GetAt(m, i);
    }
  }

  /** Overwriting entry `i` in place changes only the lookup of its key. */
  lemma UpdateGet<K, V>(m: OMap<K, V>, i: int, v: V)
    requires 0 <= i < |m|
    requires DistinctKeys(m[i := (m[i].0, v)])
    ensures var r: OMap<K, V> := m[i := (m[i].0, v)];
      && Get(r, m[i].0) == Some(v)
      && forall k' :: k' != m[i].0 ==> Get(r, k') == Get(m, k')
  {
    var r: OMap<K, V> := m[i := (m[i].0, v)];
    GetAt(r, i);
    forall k' | k' != m[i].0 ensures Get(r, k') == Get(m, k') {
      UpdateGetOther(m, i, v, k');
    }
  }

  lemma UpdateGetOther<K, V>(m: OMap<K, V>, i: int, v: V, k: K)
    requires 0 <= i < |m| && k != m[i].0
    requires DistinctKeys(m[i := (m[i].0, v)])
    ensures Get(m[i := (m[i].0, v)], k) == Get(m, k)
  {
    var r: OMap<K, V> := m[i := (m[i].0, v)];
    assert Keys(r) == Keys(m);
    if Has(m, k) {
      var j :| 0 <= j < |m| && Keys(m)[j] == k;
      GetAt(m, j);
      GetAt(r, j);
    }
  }

  /** Appending a new key changes only the lookup of that key. */
  lemma AppendGet<K, V>(m: OMap<K, V>, k: K, v: V)
    requires DistinctKeys(m + [(k, v)])
    ensures var r: OMap<K, V> := m + [(k, v)];
      && Get(r, k) == Some(v)
      && forall k' :: k' != k ==> Get(r, k') == Get(m, k')
  {
    var r: OMap<K, V> := m + [(k, v)];
    GetAt(r, |m|);
    assert Keys(r) == Keys(m) + [k];
    forall k' | k' != k ensures Get(r, k') == Get(m, k') {
      if Has(m, k') {
        var j :| 0 <= j < |m| && Keys(m)[j] == k';
        GetAt(m, j);
        GetAt(r, j);
      }
    }
  }

  /** The entries after the first still have distinct keys, and the first
      key is not among them. */
  lemma TailKeys<K, V>(m: OMap<K, V>)
    requires |m| > 0
    ensures DistinctKeys(m[1..])
    ensures Keys(m) == [m[0].0] + Keys(m[1..])
    ensures !Has(m[1..], m[0].0)
  {
    var tail := m[1..];
    forall a, b | 0 <= a < b < |tail| ensures KeyAt(tail, a) != KeyAt(tail, b) {
      assert KeyAt(tail, a) == KeyAt(m, a + 1) && KeyAt(tail, b) == KeyAt(m, b + 1);
    }
    assert Keys(m) == [m[0].0] + Keys(tail);
    forall a | 0 <= a < |tail| ensures Keys(tail)[a] != m[0].0 {
      assert KeyAt(m, 0) != KeyAt(m, a + 1);
    }
  }

  /** `m.delete(k)`. */
  function Delete<K(==,!new), V(!new)>(m: OMap<K, V>, k: K): (r: OMap<K, V>)
    ensures Get(r, k) == None
    ensures forall k' :: k' != k ==> Get(r, k') == Get(m, k')
    ensures forall k' :: Has(r, k') <==> Has(m, k') && k' != k
    ensures !Has(m, k) ==> r == m
    ensures |r| <= |m|
    decreases |m|
  {
    if |m| == 0 then m
    else
      TailKeys(m);
      var tail: OMap<K, V> := m[1..];
      if m[0].0 == k then tail
      else
        var rest := Delete(tail, k);
        assert !Has(rest, m[0].0);
        ConsDistinct(m[0], rest);
        var r := [m[0]] + rest;
        assert r[1..] == rest;
        assert Keys(r) == [m[0].0] + Keys(rest);
        assert forall k' :: Has(r, k') <==> k' == m[0].0 || Has(rest, k');
        r
  }

  /** Deleting the first key drops exactly the first entry. */
  lemma DeleteFirst<K(!new), V(!new)>(m: OMap<K, V>)
    requires |m| > 0
    ensures Delete(m, m[0].0) == m[1..]
  {
  }

  lemma ValuesStep<K, V>(m: OMap<K, V>)
    requires |m| > 0
    ensures Values(m) == [m[0].1] + Values(m[1..])
  {
  }
}

=== FILE: project_store.dfy ===
/** The project document store (src/stores/projectStore.ts): every action
    is a function from the old state to the new one. The ISO timestamp an
    action takes from the clock is the parameter `now`. */
module ProjectStore {
  import opened Wrappers
  import opened Seqs
  import opened ProjectTypes

  datatype Store = Store(
    name: string,
    description: string,
    filePath: Option<string>,
    isDirty: bool,
    backend: BackendType,
    view: View,
    layers: seq<Layer>,
    selected: Option<string>,
    created: string,
    modified: string)

  const DefaultView: View := View(0.0, 0.0, 2.0, Some(0.0), Some(0.0))

  /** The state the store starts in, and the one `reset` restores. */
  function Fresh(now: string): (s: Store)
    ensures !s.isDirty && s.selected.None? && s.filePath.None? && |s.layers| == 0
  {
    Store("Untitled Project", "", None, false, MapLibre, DefaultView, [], None, now, now)
  }

  // ---------------------------------------------------------- layer lists

  /** `layers.map(l => l.id === id ? f(l) : l)`. */
  function UpdateWhere(ls: seq<Layer>, id: string, f: Layer -> Layer): (r: seq<Layer>)
    ensures |r| == |ls|
    ensures forall i :: 0 <= i < |ls| ==> r[i] == (if ls[i].id == id then f(ls[i]) else ls[i])
  {
    seq(|ls|, i requires 0 <= i < |ls| => if ls[i].id == id then f(ls[i]) else ls[i])
  }

  /** A map over the list that matches no layer leaves it as it was. */
  lemma UpdateUnknown(ls: seq<Layer>, id: string, f: Layer -> Layer)
    requires forall i :: 0 <= i < |ls| ==> ls[i].id != id
    ensures UpdateWhere(ls, id, f) == ls
  {
  }

  /** `layers.filter(l => l.id !== id)`: every layer with that id goes, the
      others stay in their order. */
  function Without(ls: seq<Layer>, id: string): (r: seq<Layer>)
    ensures forall l :: l in r <==> l in ls && l.id != id
    ensures |r| <= |ls|
    ensures multiset(r) <= multiset(ls)
  {
    Filter(ls, (l: Layer) => l.id != id)
  }

  /** Removing an id that no layer has changes nothing. */
  lemma WithoutUnknown(ls: seq<Layer>, id: string)
    requires forall i :: 0 <= i < |ls| ==> ls[i].id != id
    ensures Without(ls, id) == ls
  {
    FilterAll(ls, (l: Layer) => l.id != id);
  }

  /** Removal works through the list in order: one more layer at the end
      lands at the end of the result exactly when its id differs, so the
      remaining layers keep their order. */
  lemma WithoutSnoc(ls: seq<Layer>, l: Layer, id: string)
    ensures Without([], id) == []
    ensures Without(ls + [l], id) == Without(ls, id) + (if l.id != id then [l] else [])
  {
    FilterSnoc(ls, l, (l: Layer) => l.id != id);
  }

  /** The start position `Array.prototype.splice` uses for an index: one
      counted from the end when negative, clamped to the array. */
  function SpliceIndex(len: nat, i: int): (k: nat)
    ensures k <= len
    ensures 0 <= i <= len ==> k == i
    ensures i < 0 && len + i >= 0 ==> k == len + i
  {
    if i < 0 then (if len + i < 0 then 0 else len + i)
    else if i > len then len
    else i
  }

  /** `reorderLayers`: take the layer out at `source` and put it back in
      at `target`, both read as `splice` reads them. */
  function Reorder(ls: seq<Layer>, source: int, target: int): (r: seq<Layer>)
    requires 0 < |ls| && source < |ls|
    ensures |r| == |ls|
    ensures multiset(r) == multiset(ls)
    ensures var i, j := SpliceIndex(|ls|, source), SpliceIndex(|ls| - 1, target);
      && i < |ls| && j < |ls|
      && r[j] == ls[i]
      && r[..j] + r[j + 1..] == ls[..i] + ls[i + 1..]
  {
    var i := SpliceIndex(|ls|, source);
    var rest := ls[..i] + ls[i + 1..];
    var j := SpliceIndex(|ls| - 1, target);
    InsertRemove(rest, j, ls[i]);
    RemoveMultiset(ls, i);
    rest[..j] + [ls[i]] + rest[j..]
  }

  /** Inserting an element and removing it again gives back the list, and
      adds the element to the multiset. */
  lemma InsertRemove(rest: seq<Layer>, j: nat, x: Layer)
    requires j <= |rest|
    ensures var r := rest[..j] + [x] + rest[j..];
      && |r| == |rest| + 1 && r[j] == x && r[..j] + r[j + 1..] == rest
      && multiset(r) == multiset(rest) + multiset{x}
  {
    var r := rest[..j] + [x] + rest[j..];
    assert rest == rest[..j] + rest[j..];
    assert r[..j] == rest[..j] && r[j + 1..] == rest[j..];
    assert multiset(r) == multiset(rest[..j]) + multiset{x} + multiset(rest[j..]);
  }

  /** Removing the element at `i` removes it from the multiset. */
  lemma RemoveMultiset(ls: seq<Layer>, i: nat)
    requires i < |ls|
    ensures multiset(ls) == multiset(ls[..i] + ls[i + 1..]) + multiset{ls[i]}
  {
    assert ls == ls[..i] + [ls[i]] + ls[i + 1..];
    assert multiset(ls) == multiset(ls[..i]) + multiset{ls[i]} + multiset(ls[i + 1..]);
  }

  /** A list is determined by one element and the list without it. */
  lemma Unsplice(s: seq<Layer>, k: nat, rest: seq<Layer>)
    requires k < |s| && s[..k] + s[k + 1..] == rest
    ensures s == rest[..k] + [s[k]] + rest[k..]
  {
    assert rest[..k] == s[..k];
    assert rest[k..] == s[k + 1..];
  }

  /** Moving a layer and moving it back restores the list. */
  lemma ReorderBack(ls: seq<Layer>, i: nat, j: nat)
    requires i < |ls| && j < |ls|
    ensures Reorder(Reorder(ls, i, j), j, i) == ls
  {
    var r := Reorder(ls, i, j);
    var rest := ls[..i] + ls[i + 1..];
    var back := Reorder(r, j, i);
    Unsplice(ls, i, rest);
    Unsplice(back, i, rest);
  }

  // -------------------------------------------------------------- actions

  datatype Action =
    | SetName(newName: string)
    | SetDescription(newDescription: string)
    | SetFilePath(path: Option<string>)
    | SetDirty(dirty: bool)
    | SetBackend(newBackend: BackendType)
    | SetView(newView: View)
    | AddLayer(layer: Layer)
    | RemoveLayer(id: string)
    | UpdateLayer(id: string, patch: LayerPatch)
    | ReorderLayers(source: int, target: int)
    | SetSelectedLayer(selection: Option<string>)
    | ToggleLayerVisibility(id: string)
    | SetLayerOpacity(id: string, opacity: real)
    | LoadProject(project: Project, loadPath: Option<string>)
    | Reset

  /** The actions that record an edit: they set `isDirty` and stamp
      `modified`. */
  predicate Edits(a: Action) {
    a.SetName? || a.SetDescription? || a.SetBackend? || a.SetView? || a.AddLayer?
    || a.RemoveLayer? || a.UpdateLayer? || a.ReorderLayers? || a.ToggleLayerVisibility?
    || a.SetLayerOpacity?
  }

  /** `reorderLayers` needs a source index that names a layer; past the end
      `splice` removes nothing and the store would insert `undefined`. */
  predicate Applicable(st: Store, a: Action) {
    a.ReorderLayers? ==> 0 < |st.layers| && a.source < |st.layers|
  }

  /** `filePath || null`: an empty path counts as none. */
  function PathOrNull(p: Option<string>): (r: Option<string>)
    ensures r.Some? <==> p.Some? && p.value != ""
    ensures r.Some? ==> r == p
  {
    if p.Some? && p.value != "" then p else None
  }

  function Apply(st: Store, a: Action, now: string): (r: Store)
    requires Applicable(st, a)
    ensures Edits(a) ==> r.isDirty && r.modified == now
    ensures a.SetFilePath? || a.SetSelectedLayer? ==> r.isDirty == st.isDirty && r.modified == st.modified
    ensures a.SetDirty? ==> r.isDirty == a.dirty
    ensures a.LoadProject? || a.Reset? ==> !r.isDirty && r.selected.None?
    ensures !a.SetFilePath? && !a.LoadProject? && !a.Reset? ==> r.filePath == st.filePath
    ensures !a.RemoveLayer? && !a.SetSelectedLayer? && !a.LoadProject? && !a.Reset? ==> r.selected == st.selected
    ensures !a.AddLayer? && !a.RemoveLayer? && !a.UpdateLayer? && !a.ReorderLayers?
            && !a.ToggleLayerVisibility? && !a.SetLayerOpacity? && !a.LoadProject? && !a.Reset?
            ==> r.layers == st.layers
  {
    match a
    case SetName(n) => st.(name := n, isDirty := true, modified := now)
    case SetDescription(d) => st.(description := d, isDirty := true, modified := now)
    case SetFilePath(p) => st.(filePath := p)
    case SetDirty(d) => st.(isDirty := d)
    case SetBackend(b) => st.(backend := b, isDirty := true, modified := now)
    case SetView(v) => st.(view := v, isDirty := true, modified := now)
    case AddLayer(l) => st.(layers := st.layers + [l], isDirty := true, modified := now)
    case RemoveLayer(id) =>
      st.(layers := Without(st.layers, id),
          selected := if st.selected == Some(id) then None else st.selected,
          isDirty := true, modified := now)
    case UpdateLayer(id, p) =>
      st.(layers := UpdateWhere(st.layers, id, (l: Layer) => Merge(l, p)), isDirty := true, modified := now)
    case ReorderLayers(s, t) => st.(layers := Reorder(st.layers, s, t), isDirty := true, modified := now)
    case SetSelectedLayer(sel) => st.(selected := sel)
    case ToggleLayerVisibility(id) =>
      st.(layers := UpdateWhere(st.layers, id, (l: Layer) => l.(visible := !l.visible)), isDirty := true, modified := now)
    case SetLayerOpacity(id, o) =>
      st.(layers := UpdateWhere(st.layers, id, (l: Layer) => l.(opacity := o)), isDirty := true, modified := now)
    case LoadProject(p, path) =>
      Store(p.name, p.description.GetOr(""), PathOrNull(path), false, p.backend, p.view, p.layers, None,
            p.created, p.modified)
    case Reset => Fresh(now)
  }

  /** `addLayer` appends: the old layers keep their places, the new one is
      last, and no check is made that its id is new. */
  lemma AddLayerAppends(st: Store, l: Layer, now: string)
    ensures var r := Apply(st, AddLayer(l), now);
      && |r.layers| == |st.layers| + 1
      && r.layers[..|st.layers|] == st.layers
      && r.layers[|st.layers|] == l
      && r.isDirty && r.selected == st.selected && r.filePath == st.filePath
  {
  }

  /** `removeLayer` drops exactly the layers with that id and clears the
      selection only when it named that id. */
  lemma RemoveLayerEffect(st: Store, id: string, now: string)
    ensures var r := Apply(st, RemoveLayer(id), now);
      && (forall l :: l in r.layers <==> l in st.layers && l.id != id)
      && (r.selected.None? <==> st.selected.None? || st.selected == Some(id))
      && (r.selected.Some? ==> r.selected == st.selected)
  {
  }

  /** `removeLayer` keeps the order of the other layers: removing from a
      project with one more layer at the end gives the same list, followed
      by that layer when its id differs. */
  lemma RemoveLayerKeepsOrder(st: Store, l: Layer, id: string, now: string)
    ensures st.layers == [] ==> Apply(st, RemoveLayer(id), now).layers == []
    ensures Apply(st.(layers := st.layers + [l]), RemoveLayer(id), now).layers
         == Apply(st, RemoveLayer(id), now).layers + (if l.id != id then [l] else [])
  {
    WithoutSnoc(st.layers, l, id);
  }

  /** The three per-layer updates change only layers with the given id,
      keep the length and order, and for an unknown id leave the list as it
      was (the project is still marked dirty). */
  lemma LayerUpdatesLocal(st: Store, a: Action, now: string)
    requires a.UpdateLayer? || a.ToggleLayerVisibility? || a.SetLayerOpacity?
    ensures var r := Apply(st, a, now);
      && |r.layers| == |st.layers|
      && (forall i :: 0 <= i < |st.layers| && st.layers[i].id != a.id ==> r.layers[i] == st.layers[i])
      && (a.ToggleLayerVisibility? ==> forall i :: 0 <= i < |st.layers| && st.layers[i].id == a.id ==>
            r.layers[i] == st.layers[i].(visible := !st.layers[i].visible))
      && (a.SetLayerOpacity? ==> forall i :: 0 <= i < |st.layers| && st.layers[i].id == a.id ==>
            r.layers[i].opacity == a.opacity && r.layers[i].id == a.id)
      && ((forall i :: 0 <= i < |st.layers| ==> st.layers[i].id != a.id) ==> r.layers == st.layers)
      && r.isDirty
  {
  }

  // ----------------------------------------------------- load and export

  /** `exportProject`: the document form of the state. The state itself is
      not changed (the function has no state result). */
  function ExportProject(st: Store, now: string): (p: Project)
    ensures p.version == "1.0.0" && p.modified == now
    ensures p.description.None? <==> st.description == ""
    ensures p.description.Some? ==> p.description.value == st.description
    ensures p.layers == st.layers && p.view == st.view && p.backend == st.backend
    ensures p.name == st.name && p.created == st.created
  {
    Project("1.0.0", st.backend, st.view, st.layers, st.name,
            if st.description == "" then None else Some(st.description), st.created, now)
  }

  /** Loading an exported project restores the document: name,
      description, backend, view, layers and creation time, with a clean
      state and no selection. */
  lemma LoadExport(st: Store, other: Store, path: Option<string>, now: string, later: string)
    ensures var r := Apply(other, LoadProject(ExportProject(st, now), path), later);
      && r.name == st.name && r.description == st.description
      && r.backend == st.backend && r.view == st.view && r.layers == st.layers
      && r.created == st.created && r.modified == now
      && !r.isDirty && r.selected.None? && r.filePath == PathOrNull(path)
  {
  }

  /** `reset` forgets everything: whatever the state, the result is the
      fresh store stamped `now`. */
  lemma ResetForgets(st: Store, other: Store, now: string)
    ensures Apply(st, Reset, now) == Apply(other, Reset, now) == Fresh(now)
  {
  }
}

=== FILE: project_types.dfy ===
/** The backend-independent records of the application: the backend kinds,
    the camera view, the unified layer descriptor and the project document
    (src/types/project.ts, src/backends/types.ts). */
module ProjectTypes {
  import opened Wrappers
  import opened OrderedMaps
  import opened GeoJson

  datatype BackendType = MapLibre | Mapbox | Leaflet | OpenLayers | DeckGL | Cesium | KeplerGL | Potree

  /** The string discriminant of each backend. */
  function BackendName(t: BackendType): string {
    match t
    case MapLibre => "maplibre"
    case Mapbox => "mapbox"
    case Leaflet => "leaflet"
    case OpenLayers => "openlayers"
    case DeckGL => "deckgl"
    case Cesium => "cesium"
    case KeplerGL => "keplergl"
    case Potree => "potree"
  }

  /** The `switch (type)` of the registry: a known name, or nothing. */
  function ParseBackend(s: string): (r: Option<BackendType>)
    ensures r.Some? ==> BackendName(r.value) == s
  {
    if s == "maplibre" then Some(MapLibre)
    else if s == "mapbox" then Some(Mapbox)
    else if s == "leaflet" then Some(Leaflet)
    else if s == "openlayers" then Some(OpenLayers)
    else if s == "deckgl" then Some(DeckGL)
    else if s == "cesium" then Some(Cesium)
    else if s == "keplergl" then Some(KeplerGL)
    else if s == "potree" then Some(Potree)
    else None
  }

  /** Names and backends correspond one to one. */
  lemma ParseBackendName(t: BackendType)
    ensures ParseBackend(BackendName(t)) == Some(t)
  {
  }

  /** `ViewOptions`: center `[lng, lat]`, zoom, optional pitch and bearing. */
  datatype View = View(lng: real, lat: real, zoom: real, pitch: Option<real>, bearing: Option<real>)

  datatype LayerType = GeoJsonLayer | Raster | VectorTiles | PMTiles | Cog | Tiles3D | Terrain | PointCloud

  function LayerTypeName(t: LayerType): string {
    match t
    case GeoJsonLayer => "geojson"
    case Raster => "raster"
    case VectorTiles => "vector-tiles"
    case PMTiles => "pmtiles"
    case Cog => "cog"
    case Tiles3D => "3d-tiles"
    case Terrain => "terrain"
    case PointCloud => "point-cloud"
  }

  datatype Source = Source(
    kind: string,
    url: Option<string>,
    data: Option<Doc>,
    tiles: Option<seq<string>>,
    attribution: Option<string>)

  datatype Style = Style(
    fillColor: Option<string>,
    fillOpacity: Option<real>,
    strokeColor: Option<string>,
    strokeWidth: Option<real>,
    strokeOpacity: Option<real>,
    pointRadius: Option<real>,
    pointColor: Option<string>)

  /** `UnifiedLayerConfig`. Optional members are `None` when absent. */
  datatype Layer = Layer(
    id: string,
    name: string,
    kind: LayerType,
    visible: bool,
    opacity: real,
    source: Source,
    style: Option<Style>,
    metadata: Option<Props>,
    zIndex: Option<real>)

  /** `Partial<UnifiedLayerConfig>`: the members an update carries. */
  datatype LayerPatch = LayerPatch(
    id: Option<string>,
    name: Option<string>,
    kind: Option<LayerType>,
    visible: Option<bool>,
    opacity: Option<real>,
    source: Option<Source>,
    style: Option<Style>,
    metadata: Option<Props>,
    zIndex: Option<real>)

  function Pick<T>(update: Option<T>, current: T): T {
    if update.Some? then update.value else current
  }

  function PickOpt<T>(update: Option<T>, current: Option<T>): Option<T> {
    if update.Some? then update else current
  }

  /** `{ ...layer, ...patch }`: members present in the patch win. */
  function Merge(l: Layer, p: LayerPatch): (r: Layer)
    ensures p.visible.Some? ==> r.visible == p.visible.value
    ensures p.visible.None? ==> r.visible == l.visible
    ensures p.opacity.Some? ==> r.opacity == p.opacity.value
    ensures p.opacity.None? ==> r.opacity == l.opacity
    ensures p.id.None? ==> r.id == l.id
  {
    Layer(
      Pick(p.id, l.id), Pick(p.name, l.name), Pick(p.kind, l.kind),
      Pick(p.visible, l.visible), Pick(p.opacity, l.opacity), Pick(p.source, l.source),
      PickOpt(p.style, l.style), PickOpt(p.metadata, l.metadata), PickOpt(p.zIndex, l.zIndex))
  }

  /** A whole layer passed where a partial update is expected. */
  function AsPatch(l: Layer): LayerPatch {
    LayerPatch(
      Some(l.id), Some(l.name), Some(l.kind), Some(l.visible), Some(l.opacity),
      Some(l.source), l.style, l.metadata, l.zIndex)
  }

  const NoChanges: LayerPatch := LayerPatch(None, None, None, None, None, None, None, None, None)

  /** Merging a whole layer overwrites every required member; an optional
      member the new layer lacks keeps its old value. */
  lemma MergeWholeLayer(prev: Layer, l: Layer)
    ensures var r := Merge(prev, AsPatch(l));
      && r.id == l.id && r.name == l.name && r.kind == l.kind && r.visible == l.visible
      && r.opacity == l.opacity && r.source == l.source
      && r.style == PickOpt(l.style, prev.style)
      && r.metadata == PickOpt(l.metadata, prev.metadata)
      && r.zIndex == PickOpt(l.zIndex, prev.zIndex)
  {
  }

  /** `AnyMapProject`; the metadata members are flattened. */
  datatype Project = Project(
    version: string,
    backend: BackendType,
    view: View,
    layers: seq<Layer>,
    name: string,
    description: Option<string>,
    created: string,
    modified: string)

  function LayerIds(ls: seq<Layer>): (ids: seq<string>)
    ensures |ids| == |ls|
    ensures forall i :: 0 <= i < |ls| ==> ids[i] == ls[i].id
  {
    seq(|ls|, i requires 0 <= i < |ls| => ls[i].id)
  }

  lemma LayerIdsCons(ls: seq<Layer>)
    requires |ls| > 0
    ensures forall k :: k in LayerIds(ls) <==> k == ls[0].id || k in LayerIds(ls[1..])
  {
    assert LayerIds(ls) == [ls[0].id] + LayerIds(ls[1..]);
  }
  /** `layers.find(l => l.id === id)`: the first layer with that id. */
  function FindLayer(ls: seq<Layer>, id: string): (r: Option<Layer>)
    ensures r.Some? <==> id in LayerIds(ls)
    ensures r.Some? ==> r.value in ls && r.value.id == id
    ensures r.Some? ==> exists k :: 0 <= k < |ls| && ls[k] == r.value && forall i :: 0 <= i < k ==> ls[i].id != id
  {
    if |ls| == 0 then None
    else if ls[0].id == id then Some(ls[0])
    else
      LayerIdsCons(ls);
      var r := FindLayer(ls[1..], id);
      if r.Some? then
        var k :| 0 <= k < |ls[1..]| && ls[1..][k] == r.value && forall i :: 0 <= i < k ==> ls[1..][i].id != id;
        FirstWithIdShift(ls, id, k);
        r
      else r
  }

  /** The first match in the tail, seen from the whole list. */
  lemma FirstWithIdShift(ls: seq<Layer>, id: string, k: nat)
    requires |ls| > 0 && ls[0].id != id && k < |ls| - 1
    requires forall i :: 0 <= i < k ==> ls[1..][i].id != id
    ensures ls[k + 1] == ls[1..][k] && forall i :: 0 <= i < k + 1 ==> ls[i].id != id
  {
    forall i | 0 <= i < k + 1 ensures ls[i].id != id {
      if i > 0 {
        assert ls[i] == ls[1..][i - 1];
      }
    }
  }
}

=== FILE: registry.dfy ===
/** The adapter registry of src/backends/index.ts: a module-level cache from
    backend type to adapter. The adapters themselves are opaque values of
    type `A`; which adapter class a type loads, and whether its `initialize`
    resolves, are inputs. Every call to `destroy` is recorded in order, so
    that "destroyed exactly once" can be stated. */
module Registry {
  import opened Wrappers
  import opened Seqs
  import opened OrderedMaps
  import opened ProjectTypes

  datatype Registry<A> = Registry(cache: OMap<BackendType, A>, destroyed: seq<A>)

  function Empty<A>(): Registry<A> {
    Registry([], [])
  }

  /** The state after a `createBackend` call and what the promise settles to. */
  datatype Created<A> = Created(reg: Registry<A>, result: Result<A>)

  /** `createBackend(type)`: an unknown type name throws before anything
      else; otherwise the freshly constructed `adapter` is initialised, and
      only when that resolves is it cached, replacing (without destroying)
      any adapter cached under the same type. */
  function CreateBackend<A(!new)>(reg: Registry<A>, typeName: string, adapter: A, init: Outcome): (c: Created<A>)
    ensures ParseBackend(typeName).None? ==>
      c.reg == reg && c.result == Failure("Unknown backend type: " + typeName)
    ensures init.Fail? ==> c.reg == reg && c.result.Failure?
    ensures c.result.Success? <==> ParseBackend(typeName).Some? && init.Pass?
    ensures c.result.Success? ==>
      && c.result.value == adapter
      && Get(c.reg.cache, ParseBackend(typeName).value) == Some(adapter)
      && (forall t :: t != ParseBackend(typeName).value ==> Get(c.reg.cache, t) == Get(reg.cache, t))
      && c.reg.destroyed == reg.destroyed
  {
    match ParseBackend(typeName)
    case None => Created(reg, Failure("Unknown backend type: " + typeName))
    case Some(t) =>
      match init
      case Fail(e) => Created(reg, Failure(e))
      case Pass => Created(reg.(cache := Set(reg.cache, t, adapter)), Success(adapter))
  }

  /** `getBackend(type)`: exactly the cached entry. */
  function GetBackend<A>(reg: Registry<A>, t: BackendType): (r: Option<A>)
    ensures r.Some? <==> t in Keys(reg.cache)
    ensures forall i :: 0 <= i < |reg.cache| && reg.cache[i].0 == t ==> r == Some(reg.cache[i].1)
  {
    GetAll(reg.cache);
    Get(reg.cache, t)
  }

  /** `destroyBackend(type)`: destroys and evicts a cached adapter; an absent
      type is left alone. */
  function DestroyBackend<A(!new)>(reg: Registry<A>, t: BackendType): (r: Registry<A>)
    ensures Get(r.cache, t) == None
    ensures forall t' :: t' != t ==> Get(r.cache, t') == Get(reg.cache, t')
    ensures Get(reg.cache, t).None? ==> r == reg
    ensures Get(reg.cache, t).Some? ==> r.destroyed == reg.destroyed + [Get(reg.cache, t).value]
  {
    match Get(reg.cache, t)
    case None => reg
    case Some(a) => Registry(Delete(reg.cache, t), reg.destroyed + [a])
  }

  /** A second `destroyBackend` of the same type changes nothing. */
  lemma DestroyTwice<A(!new)>(reg: Registry<A>, t: BackendType)
    ensures DestroyBackend(DestroyBackend(reg, t), t) == DestroyBackend(reg, t)
  {
  }

  /** Destroying the listed types one after the other. */
  function DestroyEach<A(!new)>(reg: Registry<A>, ts: seq<BackendType>): (r: Registry<A>)
    decreases |ts|
  {
    if |ts| == 0 then reg else DestroyEach(DestroyBackend(reg, ts[0]), ts[1..])
  }

  /** `destroyAllBackends`: the loop visits the cached types in insertion
      order; deleting the entry being visited does not disturb a `Map`
      iteration, so every type is visited once. */
  function DestroyAll<A(!new)>(reg: Registry<A>): Registry<A> {
    DestroyEach(reg, Keys(reg.cache))
  }

  /** Destroying each cached type, in cache order, leaves the cache empty and
      destroys every cached adapter once, in that order. */
  lemma {:induction false} DestroyEachCached<A(!new)>(reg: Registry<A>)
    ensures DestroyEach(reg, Keys(reg.cache)) == Registry([], reg.destroyed + Values(reg.cache))
    decreases |reg.cache|
  {
    if |reg.cache| > 0 {
      TailKeys(reg.cache);
      var tail: OMap<BackendType, A> := reg.cache[1..];
      var next := Registry(tail, reg.destroyed + [reg.cache[0].1]);
      DestroyEachStep(reg);
      DestroyEachCached(next);
      ValuesStep(reg.cache);
    } else {
      assert Values(reg.cache) == [];
    }
  }

  lemma DestroyEachStep<A(!new)>(reg: Registry<A>)
    requires |reg.cache| > 0
    ensures DestroyEach(reg, Keys(reg.cache))
         == DestroyEach(Registry(reg.cache[1..], reg.destroyed + [reg.cache[0].1]), Keys(reg.cache[1..]))
  {
    var ks := Keys(reg.cache);
    DestroyFirst(reg);
    assert ks[1..] == Keys(reg.cache[1..]);
  }

  /** Destroying the oldest cached type drops the first entry. */
  lemma DestroyFirst<A(!new)>(reg: Registry<A>)
    requires |reg.cache| > 0
    ensures DestroyBackend(reg, reg.cache[0].0) == Registry(reg.cache[1..], reg.destroyed + [reg.cache[0].1])
  {
    assert Get(reg.cache, reg.cache[0].0) == Some(reg.cache[0].1);
    DeleteFirst(reg.cache);
    assert reg.cache[..0] + reg.cache[1..] == reg.cache[1..];
  }

  /** After `destroyAllBackends` nothing is cached, and every adapter that
      was cached has been destroyed exactly once. */
  lemma DestroyAllEmpties<A(!new)>(reg: Registry<A>)
    ensures DestroyAll(reg).cache == []
    ensures DestroyAll(reg).destroyed == reg.destroyed + Values(reg.cache)
  {
    DestroyEachCached(reg);
  }

  /** A successful create is visible to `getBackend` until that type is
      destroyed. */
  lemma CreateThenGet<A(!new)>(reg: Registry<A>, t: BackendType, adapter: A)
    ensures var c := CreateBackend(reg, BackendName(t), adapter, Pass);
      GetBackend(c.reg, t) == Some(adapter) && GetBackend(DestroyBackend(c.reg, t), t) == None
  {
    ParseBackendName(t);
  }
}

=== FILE: save_flows.dfy ===
/** The unsaved-changes guard and the save flows built on the project store
    (src/components/layout/Toolbar.tsx, src/App.tsx). The desktop bridge is
    reduced to its outcomes: whether it is present, what the user picks in
    the leave and save dialogs, whether a file write resolves, and what an
    opened file parses to. Files hold the exported project; its JSON text
    is not modelled. */
module SaveFlows {
  import opened Wrappers
  import opened ProjectTypes
  import opened ProjectStore

  datatype Screen = Landing | MapScreen

  datatype Session = Session(store: Store, screen: Screen, files: map<string, Project>)

  /** The answer to "save before leaving?". */
  datatype Choice = Save | DontSave | Cancel

  /** What the save dialog resolves to. */
  datatype SaveDialog = SaveDialog(canceled: bool, filePath: Option<string>)

  /** A path JavaScript treats as present: not missing, not empty. */
  predicate Truthy(p: Option<string>) {
    p.Some? && p.value != ""
  }

  /** The dialog gave a usable path. */
  predicate Chosen(d: SaveDialog) {
    !d.canceled && Truthy(d.filePath)
  }

  /** `api.writeFile(path, JSON.stringify(exportProject()))`: the file holds
      the export when the write resolves. */
  function Write(s: Session, path: string, write: Outcome, now: string): (r: Session)
    ensures r.store == s.store && r.screen == s.screen
    ensures write.Pass? ==> r.files == s.files[path := ExportProject(s.store, now)]
    ensures write.Fail? ==> r == s
  {
    if write.Pass? then s.(files := s.files[path := ExportProject(s.store, now)]) else s
  }

  /** Resetting the store and showing the landing screen. */
  function Leave(s: Session, now: string): (r: Session)
    ensures r.store == Fresh(now) && r.screen == Landing && r.files == s.files
  {
    Session(Apply(s.store, Reset, now), Landing, s.files)
  }

  /** The guard shared by going home and closing the project: a clean
      project is left at once; a dirty one asks, and `cancel` stays,
      `dontSave` leaves, `save` writes first when the project has a path
      and then leaves. A write that rejects aborts before the reset. */
  function Guarded(s: Session, choice: Choice, path: Option<string>, write: Outcome, now: string): (r: Session)
    ensures !s.store.isDirty ==> r == Leave(s, now)
    ensures s.store.isDirty && choice == Cancel ==> r == s
    ensures s.store.isDirty && choice == DontSave ==> r == Leave(s, now)
    ensures s.store.isDirty && choice == Save && !Truthy(path) ==> r == Leave(s, now)
    ensures s.store.isDirty && choice == Save && Truthy(path) && write.Pass? ==>
      r.store == Fresh(now) && r.screen == Landing && r.files == s.files[path.value := ExportProject(s.store, now)]
    ensures s.store.isDirty && choice == Save && Truthy(path) && write.Fail? ==> r == s
  {
    if !s.store.isDirty then Leave(s, now)
    else if choice == Cancel then s
    else if choice == Save && Truthy(path) then
      if write.Pass? then Leave(Write(s, path.value, write, now), now) else s
    else Leave(s, now)
  }

  /** `handleGoHome` (the toolbar's home button). The path is the one the
      toolbar rendered with, which is the store's. */
  function GoHome(s: Session, hasApi: bool, choice: Choice, write: Outcome, now: string): (r: Session)
    ensures !hasApi ==> r == s
    ensures hasApi ==> r == Guarded(s, choice, s.store.filePath, write, now)
  {
    if !hasApi then s else Guarded(s, choice, s.store.filePath, write, now)
  }

  /** The close-project menu item: the same guard. */
  function CloseProject(s: Session, hasApi: bool, choice: Choice, write: Outcome, now: string): (r: Session)
    ensures !hasApi ==> r == s
    ensures hasApi ==> r == Guarded(s, choice, s.store.filePath, write, now)
  {
    if !hasApi then s else Guarded(s, choice, s.store.filePath, write, now)
  }

  /** Recording a successful save: the path is remembered and the project
      is clean. */
  function MarkSaved(s: Session, path: string): (r: Session)
    ensures r.store.filePath == Some(path) && !r.store.isDirty
    ensures r.store.layers == s.store.layers && r.store.name == s.store.name && r.files == s.files
  {
    var st := Apply(s.store, SetFilePath(Some(path)), "");
    s.(store := Apply(st, SetDirty(false), ""))
  }

  /** The toolbar's save button. With a path it writes there and, once the
      write resolves, clears the dirty flag; without one it asks for a path
      and, if one is chosen and the write resolves, remembers it and clears
      the flag. */
  function ToolbarSave(s: Session, hasApi: bool, dialog: SaveDialog, write: Outcome, now: string): (r: Session)
    ensures !hasApi ==> r == s
    ensures hasApi && Truthy(s.store.filePath) ==>
      && r.store.filePath == s.store.filePath
      && r.store.isDirty == (s.store.isDirty && write.Fail?)
      && (write.Pass? ==> r.files == s.files[s.store.filePath.value := ExportProject(s.store, now)])
      && (write.Fail? ==> r == s)
    ensures hasApi && !Truthy(s.store.filePath) && !Chosen(dialog) ==> r == s
    ensures hasApi && !Truthy(s.store.filePath) && Chosen(dialog) && write.Pass? ==>
      && r.store.filePath == dialog.filePath && !r.store.isDirty
      && r.files == s.files[dialog.filePath.value := ExportProject(s.store, now)]
    ensures hasApi && !Truthy(s.store.filePath) && Chosen(dialog) && write.Fail? ==> r == s
  {
    if !hasApi then s
    else if Truthy(s.store.filePath) then
      if write.Fail? then s
      else
        var w := Write(s, s.store.filePath.value, write, now);
        w.(store := Apply(w.store, SetDirty(false), now))
    else if !Chosen(dialog) then s
    else if write.Fail? then s
    else MarkSaved(Write(s, dialog.filePath.value, write, now), dialog.filePath.value)
  }

  /** The save menu item. The write is not awaited, so the dirty flag is
      cleared (and a chosen path remembered) whether or not it resolves. */
  function MenuSave(s: Session, hasApi: bool, dialog: SaveDialog, write: Outcome, now: string): (r: Session)
    ensures !hasApi ==> r == s
    ensures hasApi && Truthy(s.store.filePath) ==>
      !r.store.isDirty && r.store.filePath == s.store.filePath
    ensures hasApi && !Truthy(s.store.filePath) && !Chosen(dialog) ==> r == s
    ensures hasApi && !Truthy(s.store.filePath) && Chosen(dialog) ==>
      !r.store.isDirty && r.store.filePath == dialog.filePath
  {
    if !hasApi then s
    else if Truthy(s.store.filePath) then
      var w := Write(s, s.store.filePath.value, write, now);
      w.(store := Apply(w.store, SetDirty(false), now))
    else SaveAs(s, hasApi, dialog, write, now)
  }

  /** The save-as menu item: always asks; a chosen path is written,
      remembered and the project marked clean, without awaiting the write. */
  function SaveAs(s: Session, hasApi: bool, dialog: SaveDialog, write: Outcome, now: string): (r: Session)
    ensures !hasApi || !Chosen(dialog) ==> r == s
    ensures hasApi && Chosen(dialog) ==>
      && !r.store.isDirty && r.store.filePath == dialog.filePath
      && r.store.layers == s.store.layers
      && (write.Pass? ==> r.files == s.files[dialog.filePath.value := ExportProject(s.store, now)])
      && (write.Fail? ==> r.files == s.files)
  {
    if !hasApi || !Chosen(dialog) then s
    else MarkSaved(Write(s, dialog.filePath.value, write, now), dialog.filePath.value)
  }

  /** The open-project menu item: content that does not parse (or that
      `loadProject` cannot read) leaves everything as it was; otherwise the
      project is loaded with its path and the map screen shown. */
  function OpenProject(s: Session, hasApi: bool, path: string, parsed: Option<Project>, now: string): (r: Session)
    ensures !hasApi || parsed.None? ==> r == s
    ensures hasApi && parsed.Some? ==>
      r.screen == MapScreen && !r.store.isDirty && r.store.filePath == PathOrNull(Some(path))
      && r.store.layers == parsed.value.layers && r.files == s.files
  {
    if !hasApi || parsed.None? then s
    else Session(Apply(s.store, LoadProject(parsed.value, Some(path)), now), MapScreen, s.files)
  }

  /** The new-project menu item only shows the landing screen. */
  function NewProject(s: Session, hasApi: bool): (r: Session)
    ensures r.store == s.store && r.files == s.files
    ensures hasApi ==> r.screen == Landing
  {
    if hasApi then s.(screen := Landing) else s
  }

  /** The menu items are enabled exactly on the map screen. */
  function MenuEnabled(screen: Screen): (enabled: bool)
    ensures enabled <==> screen == MapScreen
  {
    screen == MapScreen
  }

  /** Saving with a path and opening that file again restores the
      document, clean. */
  lemma SaveThenOpen(s: Session, dialog: SaveDialog, now: string, later: string)
    requires Truthy(s.store.filePath)
    ensures var saved := ToolbarSave(s, true, dialog, Pass, now);
      var path := s.store.filePath.value;
      var r := OpenProject(saved, true, path, Some(saved.files[path]), later);
      && r.store.name == s.store.name && r.store.layers == s.store.layers
      && r.store.view == s.store.view && r.store.backend == s.store.backend
      && r.store.description == s.store.description
      && !r.store.isDirty && r.store.filePath == s.store.filePath && r.screen == MapScreen
  {
    var path := s.store.filePath.value;
    var saved := ToolbarSave(s, true, dialog, Pass, now);
    assert saved.files[path] == ExportProject(s.store, now);
    LoadExport(s.store, saved.store, Some(path), now, later);
  }

  /** Leaving a dirty project never loses the edits silently when the user
      asked to save and a path exists: either the file holds the export, or
      nothing changed at all. */
  lemma GuardNeverLosesSavedWork(s: Session, path: string, write: Outcome, now: string)
    requires s.store.isDirty && path != ""
    ensures var r := Guarded(s, Save, Some(path), write, now);
      r == s || (path in r.files && r.files[path] == ExportProject(s.store, now))
  {
  }
  /** The save menu item marks a dirty project clean even when the write
      rejects: the file does not hold the project, yet nothing is left to
      warn the user on the way out. */
  lemma MenuSaveForgetsFailedWrite(s: Session, e: string, now: string)
    requires s.store.isDirty && Truthy(s.store.filePath)
    ensures var r := MenuSave(s, true, SaveDialog(true, None), Fail(e), now);
      !r.store.isDirty && r.files == s.files
  {
  }

  /** The awaited save keeps the warning: the project stays dirty until
      the write resolves, so leaving afterwards still asks. */
  lemma ToolbarSaveKeepsFailedWrite(s: Session, e: string, now: string)
    requires s.store.isDirty && Truthy(s.store.filePath)
    ensures var r := ToolbarSave(s, true, SaveDialog(true, None), Fail(e), now);
      r.store.isDirty && Guarded(r, Cancel, r.store.filePath, Fail(e), now) == r
  {
  }
}

=== FILE: seqs.dfy ===
/** Sequence helpers that stand in for the JavaScript array and string
    built-ins the application leans on: `Array.from(new Set(xs))`,
    `String.prototype.split` with a one-character separator, `join`, and
    `filter`. */
module Seqs {
  import opened Wrappers

  /** Index of the first occurrence of `x` (JavaScript `indexOf`). */
  function FirstIndex<T(==)>(xs: seq<T>, x: T): (k: nat)
    requires x in xs
    ensures k < |xs| && xs[k] == x
    ensures forall i :: 0 <= i < k ==> xs[i] != x
  {
    if xs[0] == x then 0 else 1 + FirstIndex(xs[1..], x)
  }

  /** JavaScript `indexOf`: the first index, or -1 when absent. */
  function IndexOf<T(==)>(xs: seq<T>, x: T): (k: int)
    ensures k == -1 <==> x !in xs
    ensures k != -1 ==> 0 <= k < |xs| && xs[k] == x && forall i :: 0 <= i < k ==> xs[i] != x
  {
    if x in xs then FirstIndex(xs, x) else -1
  }

  predicate Distinct<T(==)>(xs: seq<T>) {
    forall i, j :: 0 <= i < j < |xs| ==> xs[i] != xs[j]
  }

  /** Equal entries of a distinct sequence sit at the same index. */
  lemma DistinctAt<T>(xs: seq<T>, i: nat, j: nat)
    requires Distinct(xs) && i < |xs| && j < |xs| && xs[i] == xs[j]
    ensures i == j
  {
  }

  lemma {:induction false} FirstIndexOfPrefix<T>(xs: seq<T>, y: T)
    requires |xs| > 0 && y in xs[..|xs| - 1]
    ensures FirstIndex(xs, y) == FirstIndex(xs[..|xs| - 1], y)
  {
    if xs[0] != y {
      assert xs[1..][..|xs[1..]| - 1] == xs[..|xs| - 1][1..];
      FirstIndexOfPrefix(xs[1..], y);
    }
  }

  /** `Array.from(new Set(xs))`: the distinct elements of `xs`, each at the
      position of its first appearance. */
  function Dedup<T(==,!new)>(xs: seq<T>): (r: seq<T>)
    ensures forall x :: x in r <==> x in xs
    ensures Distinct(r)
    ensures forall i, j :: 0 <= i < j < |r| ==> FirstIndex(xs, r[i]) < FirstIndex(xs, r[j])
    ensures |r| <= |xs|
  {
    if |xs| == 0 then []
    else
      var init := xs[..|xs| - 1];
      var p := Dedup(init);
      var last := xs[|xs| - 1];
      InitOrLast(xs);
      FirstIndexInit(xs);
      if last in p then p
      else
        FirstIndexLast(xs);
        p + [last]
  }

  /** An element of `xs` is an element of the prefix or the last one. */
  lemma InitOrLast<T>(xs: seq<T>)
    requires |xs| > 0
    ensures forall x :: x in xs <==> x in xs[..|xs| - 1] || x == xs[|xs| - 1]
  {
    assert xs == xs[..|xs| - 1] + [xs[|xs| - 1]];
  }

  /** Elements before the last are first found where the prefix finds them. */
  lemma FirstIndexInit<T>(xs: seq<T>)
    requires |xs| > 0
    ensures forall y :: y in xs[..|xs| - 1] ==> y in xs && FirstIndex(xs, y) == FirstIndex(xs[..|xs| - 1], y)
  {
    forall y | y in xs[..|xs| - 1]
      ensures y in xs && FirstIndex(xs, y) == FirstIndex(xs[..|xs| - 1], y)
    {
      FirstIndexOfPrefix(xs, y);
    }
  }

  /** An element first found at the end is found at the last index. */
  lemma FirstIndexLast<T>(xs: seq<T>)
    requires |xs| > 0 && xs[|xs| - 1] !in xs[..|xs| - 1]
    ensures FirstIndex(xs, xs[|xs| - 1]) == |xs| - 1
  {
    forall j | 0 <= j < |xs| - 1 ensures xs[j] != xs[|xs| - 1] {
      assert xs[..|xs| - 1][j] == xs[j];
    }
  }

  /** Elements of `xs` satisfying `p`, in order (`Array.prototype.filter`). */
  function Filter<T(!new)>(xs: seq<T>, p: T -> bool): (r: seq<T>)
    ensures |r| <= |xs|
    ensures forall x :: x in r ==> x in xs && p(x)
    ensures forall x :: x in xs && p(x) ==> x in r
    ensures multiset(r) <= multiset(xs)
  {
    if |xs| == 0 then []
    else
      assert xs == [xs[0]] + xs[1..];
      if p(xs[0]) then [xs[0]] + Filter(xs[1..], p)
      else Filter(xs[1..], p)
  }

  lemma {:induction false} FilterAll<T(!new)>(xs: seq<T>, p: T -> bool)
    requires forall x :: x in xs ==> p(x)
    ensures Filter(xs, p) == xs
  {
    if |xs| > 0 {
      FilterAll(xs[1..], p);
    }
  }

  /** `f` strictly increases along `xs`. */
  predicate Increasing<T>(xs: seq<T>, f: T -> int) {
    forall i, j :: 0 <= i < j < |xs| ==> f(xs[i]) < f(xs[j])
  }

  lemma IncreasingHead<T>(xs: seq<T>, f: T -> int)
    requires |xs| > 0 && Increasing(xs, f)
    ensures Increasing(xs[1..], f)
    ensures forall y :: y in xs[1..] ==> f(xs[0]) < f(y)
  {
    forall y | y in xs[1..] ensures f(xs[0]) < f(y) {
      var k :| 0 <= k < |xs[1..]| && xs[1..][k] == y;
      assert xs[k + 1] == y;
    }
  }

  lemma Prepend<T>(x: T, rest: seq<T>, f: T -> int)
    requires Increasing(rest, f)
    requires forall y :: y in rest ==> f(x) < f(y)
    ensures Increasing([x] + rest, f)
  {
    var r := [x] + rest;
    forall i, j | 0 <= i < j < |r| ensures f(r[i]) < f(r[j]) {
      assert r[j] == rest[j - 1] && rest[j - 1] in rest;
      if i > 0 {
        assert r[i] == rest[i - 1];
      }
    }
  }

  /** Filtering keeps a list sorted by a strictly increasing key. */
  lemma {:induction false} FilterKeepsIncreasing<T(!new)>(xs: seq<T>, p: T -> bool, f: T -> int)
    requires Increasing(xs, f)
    ensures Increasing(Filter(xs, p), f)
  {
    if |xs| > 0 {
      IncreasingHead(xs, f);
      FilterKeepsIncreasing(xs[1..], p, f);
      var rest := Filter(xs[1..], p);
      if p(xs[0]) {
        assert Filter(xs, p) == [xs[0]] + rest;
        Prepend(xs[0], rest, f);
      } else {
        assert Filter(xs, p) == rest;
      }
    }
  }

  /** `f` never decreases along `xs`. */
  predicate Monotone<T>(xs: seq<T>, f: T -> int) {
    forall i, j :: 0 <= i < j < |xs| ==> f(xs[i]) <= f(xs[j])
  }

  /** Neighbours in order make the whole list ordered. */
  lemma {:induction false} MonotoneFromAdjacent<T>(xs: seq<T>, f: T -> int)
    requires forall i :: 0 <= i < |xs| - 1 ==> f(xs[i]) <= f(xs[i + 1])
    ensures Monotone(xs, f)
  {
    if |xs| > 1 {
      MonotoneFromAdjacent(xs[1..], f);
      forall j | 0 < j < |xs| ensures f(xs[0]) <= f(xs[j]) {
        assert f(xs[0]) <= f(xs[1]);
        if j > 1 {
          assert xs[1..][0] == xs[1] && xs[1..][j - 1] == xs[j];
        }
      }
      forall i, j | 0 <= i < j < |xs| ensures f(xs[i]) <= f(xs[j]) {
        if i > 0 {
          assert xs[1..][i - 1] == xs[i] && xs[1..][j - 1] == xs[j];
        }
      }
    }
  }

  lemma MonotonePrepend<T>(x: T, rest: seq<T>, f: T -> int)
    requires Monotone(rest, f)
    requires forall y :: y in rest ==> f(x) <= f(y)
    ensures Monotone([x] + rest, f)
  {
    var r := [x] + rest;
    forall i, j | 0 <= i < j < |r| ensures f(r[i]) <= f(r[j]) {
      assert r[j] == rest[j - 1] && rest[j - 1] in rest;
      if i > 0 {
        assert r[i] == rest[i - 1];
      }
    }
  }

  /** Filtering keeps a list ordered by a non-decreasing key. */
  lemma {:induction false} FilterKeepsMonotone<T(!new)>(xs: seq<T>, p: T -> bool, f: T -> int)
    requires Monotone(xs, f)
    ensures Monotone(Filter(xs, p), f)
  {
    if |xs| > 0 {
      assert Monotone(xs[1..], f) by {
        forall i, j | 0 <= i < j < |xs[1..]| ensures f(xs[1..][i]) <= f(xs[1..][j]) {
          assert xs[1..][i] == xs[i + 1] && xs[1..][j] == xs[j + 1];
        }
      }
      forall y | y in xs[1..] ensures f(xs[0]) <= f(y) {
        var k :| 0 <= k < |xs[1..]| && xs[1..][k] == y;
        assert xs[k + 1] == y;
      }
      FilterKeepsMonotone(xs[1..], p, f);
      var rest := Filter(xs[1..], p);
      if p(xs[0]) {
        assert Filter(xs, p) == [xs[0]] + rest;
        MonotonePrepend(xs[0], rest, f);
      } else {
        assert Filter(xs, p) == rest;
      }
    }
  }

  lemma {:induction false} FilterConcat<T(!new)>(xs: seq<T>, ys: seq<T>, p: T -> bool)
    ensures Filter(xs + ys, p) == Filter(xs, p) + Filter(ys, p)
  {
    if |xs| == 0 {
      assert xs + ys == ys;
    } else {
      assert (xs + ys)[1..] == xs[1..] + ys;
      FilterConcat(xs[1..], ys, p);
    }
  }

  /** Filtering a list one element longer appends that element exactly when
      it passes: with `Filter([], p) == []` this fixes the result as the
      in-order subsequence of the passing elements. */
  lemma FilterSnoc<T(!new)>(xs: seq<T>, x: T, p: T -> bool)
    ensures Filter(xs + [x], p) == Filter(xs, p) + (if p(x) then [x] else [])
  {
    FilterConcat(xs, [x], p);
    assert [x][1..] == [];
  }

  /** The present values of `xs`, in order: the shape of a loop that pushes
      a result only when there is one. */
  function Somes<T>(xs: seq<Option<T>>): (r: seq<T>)
    ensures |r| <= |xs|
    ensures forall y :: y in r ==> Some(y) in xs
    ensures forall i :: 0 <= i < |xs| && xs[i].Some? ==> xs[i].value in r
    ensures |r| == 0 <==> forall i :: 0 <= i < |xs| ==> xs[i].None?
  {
    if |xs| == 0 then []
    else
      var rest := Somes(xs[1..]);
      assert forall i :: 1 <= i < |xs| ==> xs[1..][i - 1] == xs[i];
      if xs[0].Some? then [xs[0].value] + rest else rest
  }

  /** The defined results of `g` over `xs`, in order: a loop that pushes
      `g(x)` whenever it is not skipped. */
  function FilterMap<A, B>(xs: seq<A>, g: A -> Option<B>): (r: seq<B>)
    ensures |r| <= |xs|
    ensures forall y :: y in r ==> exists i :: 0 <= i < |xs| && g(xs[i]) == Some(y)
    ensures forall i :: 0 <= i < |xs| && g(xs[i]).Some? ==> g(xs[i]).value in r
    ensures |r| == 0 <==> forall i :: 0 <= i < |xs| ==> g(xs[i]).None?
  {
    if |xs| == 0 then []
    else
      var rest := FilterMap(xs[1..], g);
      assert forall i :: 1 <= i < |xs| ==> xs[1..][i - 1] == xs[i];
      if g(xs[0]).Some? then [g(xs[0]).value] + rest else rest
  }

  /** `Somes` of a list with one more entry at the end. */
  lemma {:induction false} SomesSnoc<T>(xs: seq<Option<T>>, x: Option<T>)
    ensures Somes(xs + [x]) == Somes(xs) + (if x.Some? then [x.value] else [])
    decreases |xs|
  {
    if |xs| > 0 {
      assert (xs + [x])[1..] == xs[1..] + [x];
      SomesSnoc(xs[1..], x);
    } else {
      assert xs + [x] == [x];
      assert [x][1..] == [];
    }
  }

  /** When every entry is present, `Somes` keeps them all, in order. */
  lemma {:induction false} SomesAllPresent<T>(xs: seq<Option<T>>)
    requires forall i :: 0 <= i < |xs| ==> xs[i].Some?
    ensures |Somes(xs)| == |xs|
    ensures forall i :: 0 <= i < |xs| ==> Somes(xs)[i] == xs[i].value
  {
    if |xs| > 0 {
      SomesAllPresent(xs[1..]);
    }
  }

  /** `pieces.join(sep)`. */
  function Join<T>(pieces: seq<seq<T>>, sep: seq<T>): seq<T> {
    if |pieces| == 0 then []
    else if |pieces| == 1 then pieces[0]
    else pieces[0] + sep + Join(pieces[1..], sep)
  }

  /** A non-empty sequence is its head followed by its tail. */
  lemma HeadTail<T>(s: seq<T>)
    requires |s| > 0
    ensures [s[0]] + s[1..] == s
  {
  }

  /** The first piece, the separator, then the rest joined. */
  lemma JoinStep<T>(pieces: seq<seq<T>>, sep: seq<T>)
    requires |pieces| >= 2
    ensures Join(pieces, sep) == pieces[0] + (sep + Join(pieces[1..], sep))
  {
  }

  /** `s.split(c)` for a one-character separator: never empty, and no piece
      holds the separator. */
  function Split<T(==)>(s: seq<T>, c: T): (r: seq<seq<T>>)
    ensures |r| >= 1
    ensures forall k :: 0 <= k < |r| ==> c !in r[k]
    ensures |r| <= |s| + 1
  {
    if |s| == 0 then [[]]
    else
      var rest := Split(s[1..], c);
      if s[0] == c then [[]] + rest
      else [[s[0]] + rest[0]] + rest[1..]
  }

  /** `s.split(c)[0]` is a prefix of `s`. */
  lemma {:induction false} SplitFirstIsPrefix<T>(s: seq<T>, c: T)
    ensures |Split(s, c)[0]| <= |s| && Split(s, c)[0] == s[..|Split(s, c)[0]|]
  {
    if |s| > 0 {
      SplitFirstIsPrefix(s[1..], c);
    }
  }

  /** Splitting and joining on the same separator are inverse: joining the
      pieces restores the input. */
  lemma {:induction false} JoinSplit<T>(s: seq<T>, c: T)
    ensures Join(Split(s, c), [c]) == s
  {
    if |s| > 0 {
      JoinSplit(s[1..], c);
      var rest := Split(s[1..], c);
      if s[0] == c {
        assert Split(s, c)[1..] == rest;
      } else {
        var r := Split(s, c);
        if |rest| == 1 {
          assert r == [[s[0]] + rest[0]];
        } else {
          assert r[1..] == rest[1..];
          assert Join(rest, [c]) == rest[0] + [c] + Join(rest[1..], [c]);
        }
      }
    }
  }

  /** ... and in the other direction: pieces free of the separator come back
      unchanged. */
  lemma {:induction false} SplitJoin<T>(pieces: seq<seq<T>>, c: T)
    requires |pieces| >= 1
    requires forall k :: 0 <= k < |pieces| ==> c !in pieces[k]
    ensures Split(Join(pieces, [c]), c) == pieces
  {
    if |pieces| == 1 {
      SplitNoSeparator(pieces[0], c);
    } else {
      SplitJoin(pieces[1..], c);
      SplitPrefix(pieces[0], Join(pieces[1..], [c]), c);
    }
  }

  lemma {:induction false} SplitNoSeparator<T>(s: seq<T>, c: T)
    requires c !in s
    ensures Split(s, c) == [s]
  {
    if |s| > 0 {
      SplitNoSeparator(s[1..], c);
      assert [s[0]] + s[1..] == s;
    }
  }

  lemma {:induction false} SplitPrefix<T>(a: seq<T>, b: seq<T>, c: T)
    requires c !in a
    ensures Split(a + [c] + b, c) == [a] + Split(b, c)
  {
    if |a| == 0 {
      assert a + [c] + b == [c] + b;
      assert ([c] + b)[1..] == b;
    } else {
      assert (a + [c] + b)[1..] == a[1..] + [c] + b;
      SplitPrefix(a[1..], b, c);
      assert [a[0]] + a[1..] == a;
    }
  }

  /** The last piece of `s.split(c)` (`s.split(c).pop()`). */
  function LastPiece<T(==)>(s: seq<T>, c: T): (r: seq<T>)
    ensures c !in r
  {
    var ps := Split(s, c);
    ps[|ps| - 1]
  }

  /** A separator in `s` splits it into at least two pieces. */
  lemma {:induction false} SplitAtLeastTwo<T>(s: seq<T>, c: T)
    requires c in s
    ensures |Split(s, c)| >= 2
  {
    if s[0] != c {
      SplitAtLeastTwo(s[1..], c);
    }
  }

  /** Text in front of a separator does not change the last piece. */
  lemma {:induction false} LastPieceOfSuffix<T>(a: seq<T>, t: seq<T>, c: T)
    requires c in t
    ensures |Split(a + t, c)| >= 2
    ensures LastPiece(a + t, c) == LastPiece(t, c)
  {
    if |a| == 0 {
      assert a + t == t;
      SplitAtLeastTwo(t, c);
    } else {
      assert (a + t)[1..] == a[1..] + t;
      LastPieceOfSuffix(a[1..], t, c);
    }
  }

  /** `(a + c + b).split(c).pop()` is `b` when `b` holds no `c`. */
  lemma LastPieceAfter<T>(a: seq<T>, b: seq<T>, c: T)
    requires c !in b
    ensures LastPiece(a + [c] + b, c) == b
  {
    assert a + [c] + b == a + ([c] + b);
    LastPieceOfSuffix(a, [c] + b, c);
    assert ([c] + b)[1..] == b;
    SplitNoSeparator(b, c);
  }

  /** Moving the head of `v` onto the end of `a`. */
  lemma AppendHead<T>(a: seq<T>, v: seq<T>)
    requires |v| > 0
    ensures a + [v[0]] + v[1..] == a + v
  {
    assert v == [v[0]] + v[1..];
    assert (a + [v[0]]) + v[1..] == a + ([v[0]] + v[1..]);
  }

  function Sum(xs: seq<real>): real {
    if |xs| == 0 then 0.0 else xs[0] + Sum(xs[1..])
  }

  function Count<T(==)>(xs: seq<T>, x: T): nat {
    if |xs| == 0 then 0 else (if xs[0] == x then 1 else 0) + Count(xs[1..], x)
  }
}

=== FILE: stub_adapter.dfy ===
/** The placeholder adapters for Leaflet and Kepler.gl
    (src/backends/adapters/LeafletAdapter.ts, KeplerGLAdapter.ts), which
    share one body: they keep layer configs and handlers but never create a
    map, so `initialize` always rejects and the view is a constant. */
module StubAdapter {
  import opened Wrappers
  import opened OrderedMaps
  import opened ProjectTypes
  import opened Events

  type StubKind = t: BackendType | t == Leaflet || t == KeplerGL witness Leaflet

  datatype Stub<H> = Stub(kind: StubKind, layers: OMap<string, Layer>, handlers: Handlers<H>)

  function New<H>(kind: StubKind): Stub<H> {
    Stub(kind, [], map[])
  }

  function NotImplemented(kind: StubKind): string {
    (if kind == Leaflet then "Leaflet" else "KeplerGL") + " adapter not yet implemented"
  }

  /** `initialize`: always rejects, and changes nothing, so the adapter never
      reports itself initialised. */
  function Initialize<H>(a: Stub<H>): (r: (Stub<H>, Outcome))
    ensures r.0 == a && r.1.Fail?
    ensures r.1.error == NotImplemented(a.kind)
  {
    (a, Fail(NotImplemented(a.kind)))
  }

  /** `addLayer`: stores the config under its id, with or without a map,
      and resolves to that id. */
  function AddLayer<H(!new)>(a: Stub<H>, config: Layer): (r: (Stub<H>, string))
    ensures r.1 == config.id
    ensures Get(r.0.layers, config.id) == Some(config)
    ensures forall k :: k != config.id ==> Get(r.0.layers, k) == Get(a.layers, k)
    ensures r.0.handlers == a.handlers && r.0.kind == a.kind
  {
    (a.(layers := Set(a.layers, config.id, config)), config.id)
  }

  /** `removeLayer`: forgets the id; an absent id changes nothing. */
  function RemoveLayer<H(!new)>(a: Stub<H>, id: string): (r: Stub<H>)
    ensures Get(r.layers, id) == None
    ensures forall k :: k != id ==> Get(r.layers, k) == Get(a.layers, k)
    ensures !Has(a.layers, id) ==> r == a
  {
    a.(layers := Delete(a.layers, id))
  }

  /** `updateLayer`: merges only into a present config. */
  function UpdateLayer<H(!new)>(a: Stub<H>, id: string, patch: LayerPatch): (r: Stub<H>)
    ensures !Has(a.layers, id) ==> r == a
    ensures Has(a.layers, id) ==>
      && Get(r.layers, id) == Some(Merge(Get(a.layers, id).value, patch))
      && Keys(r.layers) == Keys(a.layers)
    ensures forall k :: k != id ==> Get(r.layers, k) == Get(a.layers, k)
    ensures r.handlers == a.handlers && r.kind == a.kind
  {
    match Get(a.layers, id)
    case None => a
    case Some(config) => a.(layers := Set(a.layers, id, Merge(config, patch)))
  }

  function GetLayers<H>(a: Stub<H>): seq<Layer> {
    Values(a.layers)
  }

  /** `getView`: always the same view, whatever `setView` was given. */
  const StubView: View := View(0.0, 0.0, 2.0, None, None)

  function GetView<H>(a: Stub<H>): View {
    StubView
  }

  /** `setView`, `fitBounds` and `importState` do nothing. */
  function SetView<H>(a: Stub<H>, v: View): (r: Stub<H>)
    ensures r == a
  {
    a
  }

  function ImportState<H>(a: Stub<H>, view: View, layers: seq<Layer>): (r: Stub<H>)
    ensures r == a
  {
    a
  }

  /** `exportState`: the constant view and the stored configs. */
  function ExportState<H>(a: Stub<H>): (r: (View, seq<Layer>))
    ensures r.0 == StubView && r.1 == Values(a.layers)
  {
    (GetView(a), GetLayers(a))
  }

  /** `destroy`: no configs and no handlers remain. */
  function Destroy<H>(a: Stub<H>): (r: Stub<H>)
    ensures r.layers == [] && r.handlers == map[] && r.kind == a.kind
  {
    Stub(a.kind, [], map[])
  }

  /** `on` and `off`, with set semantics. */
  function On<H(==,!new)>(a: Stub<H>, event: string, cb: H): (r: Stub<H>)
    requires SetLike(a.handlers)
    ensures SetLike(r.handlers) && r.layers == a.layers
    ensures forall h :: h in Listeners(r.handlers, event) <==> h in Listeners(a.handlers, event) || h == cb
  {
    a.(handlers := Register(a.handlers, event, cb))
  }

  function Off<H(==,!new)>(a: Stub<H>, event: string, cb: H): (r: Stub<H>)
    requires SetLike(a.handlers)
    ensures SetLike(r.handlers) && r.layers == a.layers
    ensures forall h :: h in Listeners(r.handlers, event) <==> h in Listeners(a.handlers, event) && h != cb
  {
    a.(handlers := Unregister(a.handlers, event, cb))
  }

  /** Adding a config then removing its id restores the stored configs of
      every other id. */
  lemma AddThenRemove<H(!new)>(a: Stub<H>, config: Layer)
    ensures var r := RemoveLayer(AddLayer(a, config).0, config.id);
      Get(r.layers, config.id) == None
      && forall k :: k != config.id ==> Get(r.layers, k) == Get(a.layers, k)
  {
  }
}

=== FILE: text.dfy ===
/** String helpers standing in for `String.prototype.trim`, the regular
    expression class `\s`, `toLowerCase`, `endsWith` and `includes`. */
module Text {
  import opened Seqs

  /** The ECMAScript WhiteSpace and LineTerminator code points: the set that
      both `trim()` and the regular-expression class `\s` remove or match. */
  predicate IsSpace(c: char) {
    c in Spaces
  }

  const Spaces: set<char> := {
    '\t', '\n', '\U{B}', '\U{C}', '\r', ' ', '\U{A0}', '\U{1680}',
    '\U{2000}', '\U{2001}', '\U{2002}', '\U{2003}', '\U{2004}', '\U{2005}',
    '\U{2006}', '\U{2007}', '\U{2008}', '\U{2009}', '\U{200A}',
    '\U{2028}', '\U{2029}', '\U{202F}', '\U{205F}', '\U{3000}', '\U{FEFF}'
  }

  /** No whitespace at either end: what `trim()` leaves behind. */
  predicate IsTrimmed(s: string) {
    |s| == 0 || (!IsSpace(s[0]) && !IsSpace(s[|s| - 1]))
  }

  predicate AllSpace(s: string) {
    forall i :: 0 <= i < |s| ==> IsSpace(s[i])
  }

  /** How many whitespace characters `s` starts with. */
  function LeadingSpaces(s: string): (k: nat)
    ensures k <= |s|
    ensures forall i :: 0 <= i < k ==> IsSpace(s[i])
    ensures k == |s| || !IsSpace(s[k])
  {
    if |s| == 0 || !IsSpace(s[0]) then 0
    else
      var k := LeadingSpaces(s[1..]);
      assert forall i :: 1 <= i < k + 1 ==> s[i] == s[1..][i - 1];
      k + 1
  }

  /** Where the trailing whitespace of `s` begins. */
  function TrailingStart(s: string): (k: nat)
    ensures k <= |s|
    ensures forall i :: k <= i < |s| ==> IsSpace(s[i])
    ensures k == 0 || !IsSpace(s[k - 1])
  {
    if |s| == 0 || !IsSpace(s[|s| - 1]) then |s|
    else TrailingStart(s[..|s| - 1])
  }

  function TrimStart(s: string): (r: string)
    ensures |r| <= |s| && r == s[|s| - |r|..]
    ensures AllSpace(s[..|s| - |r|])
    ensures |r| == 0 || !IsSpace(r[0])
  {
    s[LeadingSpaces(s)..]
  }

  function TrimEnd(s: string): (r: string)
    ensures |r| <= |s| && r == s[..|r|]
    ensures AllSpace(s[|r|..])
    ensures |r| == 0 || !IsSpace(r[|r| - 1])
  {
    s[..TrailingStart(s)]
  }

  /** `s.trim()`: `s` without its leading and trailing whitespace. */
  function Trim(s: string): (r: string)
    ensures IsTrimmed(r)
    ensures |r| <= |s|
  {
    TrimEnd(TrimStart(s))
  }

  /** What `trim()` removes is whitespace at the two ends, and nothing
      else. */
  lemma TrimIsSlice(s: string)
    ensures var r := Trim(s);
      exists i :: 0 <= i <= |s| - |r| && r == s[i..i + |r|]
                  && AllSpace(s[..i]) && AllSpace(s[i + |r|..])
  {
    var i := |s| - |TrimStart(s)|;
    var r := Trim(s);
    TrimAt(s);
    assert 0 <= i <= |s| - |r| && r == s[i..i + |r|] && AllSpace(s[..i]) && AllSpace(s[i + |r|..]);
  }

  /** `trim()` keeps the slice starting where the leading whitespace ends. */
  lemma TrimAt(s: string)
    ensures var i, r := |s| - |TrimStart(s)|, Trim(s);
      && 0 <= i <= |s| - |r| && r == s[i..i + |r|]
      && AllSpace(s[..i]) && AllSpace(s[i + |r|..])
  {
    var a := TrimStart(s);
    var r := TrimEnd(a);
    var i := |s| - |a|;
    assert a == s[i..];
    assert r == a[..|r|];
    assert a[..|r|] == s[i..i + |r|];
    assert AllSpace(a[|r|..]);
    assert s[i + |r|..] == a[|r|..];
  }

  /** Trimming changes nothing exactly when there is nothing to trim. */
  lemma TrimIdentity(s: string)
    ensures Trim(s) == s <==> IsTrimmed(s)
  {
  }

  /** The characters `toLowerCase()` turns into an ASCII letter: `A`-`Z`
      and the Kelvin sign U+212A, which becomes `k`. */
  predicate LowersToAscii(c: char) {
    'A' <= c <= 'Z' || c == '\U{212A}'
  }

  function LowerChar(c: char): (d: char)
    ensures LowersToAscii(c) ==> d != c && 'a' <= d <= 'z'
    ensures !LowersToAscii(c) ==> d == c
    ensures !LowersToAscii(d)
  {
    if 'A' <= c <= 'Z' then (c as int + 32) as char
    else if c == '\U{212A}' then 'k'
    else c
  }

  /** `toLowerCase()` as far as it produces ASCII letters; every other
      character is kept. Its true lower case (if it has one) contains a
      non-ASCII character, so no equality or suffix test against ASCII text
      can tell the difference. */
  function ToLower(s: string): (r: string)
    ensures |r| == |s|
    ensures forall i :: 0 <= i < |s| ==> r[i] == LowerChar(s[i])
  {
    seq(|s|, i requires 0 <= i < |s| => LowerChar(s[i]))
  }

  predicate EndsWith(s: string, suffix: string) {
    |suffix| <= |s| && s[|s| - |suffix|..] == suffix
  }

  /** `s.includes(needle)`. */
  predicate Contains(s: string, needle: string)
    decreases |s|
  {
    if |needle| > |s| then false
    else s[..|needle|] == needle || (|s| > 0 && Contains(s[1..], needle))
  }

  lemma EmptyContained(s: string)
    ensures Contains(s, "")
  {
  }

  /** A non-empty run of non-whitespace characters. */
  predicate IsWord(w: string) {
    |w| > 0 && forall i :: 0 <= i < |w| ==> !IsSpace(w[i])
  }

  /** The whitespace-separated words of `s`:
      `s.trim().split(/\s+/).filter(Boolean)`. */
  function Words(s: string): (r: seq<string>)
    ensures forall k :: 0 <= k < |r| ==> IsWord(r[k])
    decreases |s|
  {
    var t := TrimStart(s);
    if |t| == 0 then []
    else
      var w := WordPrefix(t);
      assert IsWord(w);
      var rest := t[|w|..];
      assert |rest| < |s|;
      var ws := Words(rest);
      assert forall k :: 0 < k <= |ws| ==> ([w] + ws)[k] == ws[k - 1];
      [w] + ws
  }

  /** The longest prefix of `s` without whitespace. */
  function WordPrefix(s: string): (w: string)
    ensures |w| <= |s| && w == s[..|w|]
    ensures forall i :: 0 <= i < |w| ==> !IsSpace(w[i])
    ensures |w| < |s| ==> IsSpace(s[|w|])
    ensures |s| > 0 && !IsSpace(s[0]) ==> |w| > 0
  {
    if |s| == 0 || IsSpace(s[0]) then [] else [s[0]] + WordPrefix(s[1..])
  }

  /** A run of non-whitespace followed by whitespace or nothing: the run is
      the word prefix. */
  lemma {:induction false} WordPrefixOf(w: string, rest: string)
    requires forall i :: 0 <= i < |w| ==> !IsSpace(w[i])
    requires |rest| == 0 || IsSpace(rest[0])
    ensures WordPrefix(w + rest) == w
  {
    if |w| == 0 {
      assert w + rest == rest;
    } else {
      assert (w + rest)[1..] == w[1..] + rest;
      WordPrefixOf(w[1..], rest);
    }
  }

  /** Words joined by single spaces split back into the same words. */
  lemma {:induction false} WordsJoin(ws: seq<string>)
    requires forall k :: 0 <= k < |ws| ==> IsWord(ws[k])
    ensures Words(Join(ws, " ")) == ws
  {
    if |ws| == 0 {
      assert Join(ws, " ") == [];
      assert Words([]) == [];
    } else if |ws| == 1 {
      assert ws == [ws[0]];
      WordsOne(ws[0]);
    } else {
      var tail := ws[1..];
      WordsTail(ws);
      HeadTail(ws);
      WordsJoinStep(ws[0], tail, Join(ws, " "));
      WordsJoin(tail);
      assert Words(Join(ws, " ")) == [ws[0]] + tail;
    }
  }

  lemma WordsOne(w: string)
    requires IsWord(w)
    ensures Words(Join([w], " ")) == [w]
  {
    WordsLead(w, []);
    assert w + [] == w;
  }

  lemma WordsTail(ws: seq<string>)
    requires |ws| > 0 && forall k :: 0 <= k < |ws| ==> IsWord(ws[k])
    ensures forall k :: 0 <= k < |ws[1..]| ==> IsWord(ws[1..][k])
  {
    forall k | 0 <= k < |ws[1..]| ensures IsWord(ws[1..][k]) {
      assert ws[1..][k] == ws[k + 1];
    }
  }

  /** The first word of a joined list, then the words of the rest. */
  lemma WordsJoinStep(w: string, tail: seq<string>, joined: string)
    requires IsWord(w) && |tail| > 0
    requires joined == Join([w] + tail, " ")
    ensures Words(joined) == [w] + Words(Join(tail, " "))
  {
    var ws := [w] + tail;
    assert ws[1..] == tail;
    JoinStep(ws, " ");
    var j := Join(tail, " ");
    WordsLead(w, " " + j);
    WordsSpace(j);
  }

  /** A word followed by whitespace or nothing is the first word. */
  lemma WordsLead(w: string, rest: string)
    requires IsWord(w)
    requires |rest| == 0 || IsSpace(rest[0])
    ensures Words(w + rest) == [w] + Words(rest)
  {
    var s := w + rest;
    assert s[0] == w[0];
    assert TrimStart(s) == s;
    WordPrefixOf(w, rest);
    assert s[|w|..] == rest;
  }

  /** Leading whitespace does not change the words. */
  lemma WordsSpace(j: string)
    ensures Words(" " + j) == Words(j)
  {
    assert (" " + j)[1..] == j;
    assert TrimStart(" " + j) == TrimStart(j);
  }
}

=== FILE: view_controls.dfy ===
/** View arithmetic shared by the map's zoom and compass buttons
    (src/components/map/MapControls.tsx), the toolbar's zoom buttons
    (src/components/layout/Toolbar.tsx) and the command palette's navigation
    commands. Each control reads the backend's view and hands a new one to
    `setView`; with no backend it does nothing. What `setView` then does is
    the adapter's business. */
module ViewControls {
  import opened Wrappers
  import opened ProjectTypes

  datatype Control = ZoomInControl | ZoomOutControl | ResetNorthControl | FitBoundsControl

  function Max(a: real, b: real): (m: real)
    ensures m >= a && m >= b && (m == a || m == b)
  {
    if a >= b then a else b
  }

  /** One level closer; everything else kept. */
  function ZoomIn(v: View): (r: View)
    ensures r.zoom == v.zoom + 1.0
    ensures r.lng == v.lng && r.lat == v.lat && r.pitch == v.pitch && r.bearing == v.bearing
  {
    v.(zoom := v.zoom + 1.0)
  }

  /** One level out, never below level 0. */
  function ZoomOut(v: View): (r: View)
    ensures r.zoom >= 0.0
    ensures v.zoom >= 1.0 ==> r.zoom == v.zoom - 1.0
    ensures v.zoom < 1.0 ==> r.zoom == 0.0
    ensures r.lng == v.lng && r.lat == v.lat && r.pitch == v.pitch && r.bearing == v.bearing
  {
    v.(zoom := Max(0.0, v.zoom - 1.0))
  }

  /** North up and looking straight down; centre and zoom kept. */
  function ResetNorth(v: View): (r: View)
    ensures r.bearing == Some(0.0) && r.pitch == Some(0.0)
    ensures r.lng == v.lng && r.lat == v.lat && r.zoom == v.zoom
  {
    v.(bearing := Some(0.0), pitch := Some(0.0))
  }

  /** The view a control hands to `setView`, if it calls it at all: never
      without a backend, and fitting to bounds is not implemented. */
  function Requested(backendView: Option<View>, c: Control): (r: Option<View>)
    ensures backendView.None? || c == FitBoundsControl ==> r.None?
    ensures backendView.Some? && c == ZoomInControl ==> r == Some(ZoomIn(backendView.value))
    ensures backendView.Some? && c == ZoomOutControl ==> r == Some(ZoomOut(backendView.value))
    ensures backendView.Some? && c == ResetNorthControl ==> r == Some(ResetNorth(backendView.value))
  {
    match backendView
    case None => None
    case Some(v) =>
      match c
      case ZoomInControl => Some(ZoomIn(v))
      case ZoomOutControl => Some(ZoomOut(v))
      case ResetNorthControl => Some(ResetNorth(v))
      case FitBoundsControl => None
  }

  /** Zooming out undoes zooming in from any non-negative level. */
  lemma ZoomOutAfterIn(v: View)
    requires v.zoom >= 0.0
    ensures ZoomOut(ZoomIn(v)) == v
  {
  }

  /** Zooming in undoes zooming out from level 1 up; below that the clamp
      loses the fraction. */
  lemma ZoomInAfterOut(v: View)
    ensures v.zoom >= 1.0 ==> ZoomIn(ZoomOut(v)) == v
    ensures v.zoom < 1.0 ==> ZoomIn(ZoomOut(v)).zoom == 1.0
  {
  }

  /** Resetting north twice is resetting once, and it commutes with both
      zoom controls. */
  lemma ResetNorthSettles(v: View)
    ensures ResetNorth(ResetNorth(v)) == ResetNorth(v)
    ensures ResetNorth(ZoomIn(v)) == ZoomIn(ResetNorth(v))
    ensures ResetNorth(ZoomOut(v)) == ZoomOut(ResetNorth(v))
  {
  }

  /** Zooming out `n` times. */
  function ZoomOutTimes(v: View, n: nat): (r: View)
    ensures r.zoom >= 0.0 || (n == 0 && r == v)
    ensures r.lng == v.lng && r.lat == v.lat
  {
    if n == 0 then v else ZoomOut(ZoomOutTimes(v, n - 1))
  }

  /** Enough zoom-outs always reach level 0 and stay there. */
  lemma {:induction false} ZoomOutBottoms(v: View, n: nat)
    requires v.zoom >= 0.0 && v.zoom <= n as real
    ensures ZoomOutTimes(v, n).zoom == 0.0
  {
    if n > 0 {
      if v.zoom <= (n - 1) as real {
        ZoomOutBottoms(v, n - 1);
      } else {
        ZoomOutDown(v, n - 1);
      }
    }
  }

  /** Each of the first zoom-outs from a high enough level drops exactly one
      level. */
  lemma {:induction false} ZoomOutDown(v: View, n: nat)
    requires v.zoom >= n as real
    ensures ZoomOutTimes(v, n).zoom == v.zoom - n as real
  {
    if n > 0 {
      ZoomOutDown(v, n - 1);
    }
  }
}

=== FILE: wrappers.dfy ===
/** Failure-carrying result types shared by every module of the model.
    A JavaScript `undefined`/`null` return becomes `None`; a thrown `Error`
    or a rejected promise becomes `Failure(message)`. */
module Wrappers {

  datatype Option<+T> = None | Some(value: T) {

    predicate IsFailure() {
      None?
    }

    function PropagateFailure<U>(): Option<U>
      requires None?
    {
      None
    }

    function Extract(): T
      requires Some?
    {
      value
    }

    function GetOr(default: T): T {
      match this
      case Some(v) => v
      case None => default
    }
  }

  datatype Result<+R> = Success(value: R) | Failure(error: string) {

    predicate IsFailure() {
      Failure?
    }

    function PropagateFailure<U>(): Result<U>
      requires Failure?
    {
      Failure(error)
    }

    function Extract(): R
      requires Success?
    {
      value
    }
  }

  /** Outcome of an effect that returns nothing (a `Promise<void>`). */
  datatype Outcome = Pass | Fail(error: string)
}

=== FILE: zip_scan.dfy ===
/** The minimal ZIP reader of the KMZ importer (src/utils/parsers.ts): walk
    the local file headers of section 4.3.7 of PKWARE's APPNOTE.TXT and
    return the first stored (method 0) entry whose name ends in `.kml`.
    `TextDecoder.decode` is a parameter. */
module ZipScan {
  import opened Wrappers
  import opened Text

  type Byte = b: int | 0 <= b < 256

  const Two16: int := 0x1_0000
  const Two31: int := 0x8000_0000
  const Two32: int := 0x1_0000_0000

  /** `data[i]` as an operand of `|` or `<<`: outside the array it reads
      `undefined`, which those operators take as 0. */
  function At(data: seq<Byte>, i: int): Byte {
    if 0 <= i < |data| then data[i] else 0
  }

  /** A little-endian 16-bit field. */
  function U16(data: seq<Byte>, i: int): (n: int)
    ensures 0 <= n < Two16
  {
    At(data, i) + At(data, i + 1) * 256
  }

  /** A little-endian 32-bit field read as an unsigned number. */
  function U32(data: seq<Byte>, i: int): (n: int)
    ensures 0 <= n < Two32
  {
    U16(data, i) + U16(data, i + 2) * Two16
  }

  /** The same four bytes combined with `|` and `<< 24`, which JavaScript
      evaluates in signed 32-bit arithmetic: a top byte of 0x80 or more
      gives a negative number. */
  function I32(data: seq<Byte>, i: int): (n: int)
    ensures -Two31 <= n < Two31
    ensures (n - U32(data, i)) % Two32 == 0
    ensures n < 0 <==> At(data, i + 3) >= 0x80
  {
    var u := U32(data, i);
    if u >= Two31 then u - Two32 else u
  }

  /** A position argument of `Uint8Array.prototype.slice`: negative counts
      from the end, and the result is clamped to the array. */
  function Clamp(len: nat, i: int): (k: nat)
    ensures k <= len
    ensures 0 <= i <= len ==> k == i
  {
    if i < 0 then (if len + i < 0 then 0 else len + i)
    else if i > len then len
    else i
  }

  /** `data.slice(start, end)`. */
  function Slice(data: seq<Byte>, start: int, end: int): seq<Byte> {
    var s, e := Clamp(|data|, start), Clamp(|data|, end);
    if s < e then data[s..e] else []
  }

  /** Between positions inside the array, `slice` is the subsequence. */
  lemma SliceInRange(data: seq<Byte>, start: int, end: int)
    requires 0 <= start <= end <= |data|
    ensures Slice(data, start, end) == data[start..end]
  {
  }

  /** `PK\x03\x04` at `offset`. */
  predicate Signature(data: seq<Byte>, offset: int) {
    At(data, offset) == 0x50 && At(data, offset + 1) == 0x4b
    && At(data, offset + 2) == 0x03 && At(data, offset + 3) == 0x04
  }

  function Method(data: seq<Byte>, offset: int): int {
    U16(data, offset + 8)
  }

  function NameOf(data: seq<Byte>, offset: int, decode: seq<Byte> -> string): string {
    decode(Slice(data, offset + 30, offset + 30 + U16(data, offset + 26)))
  }

  /** The first byte after the fixed header, the name and the extra field. */
  function DataStart(data: seq<Byte>, offset: int): (k: int)
    ensures k >= offset + 30
  {
    offset + 30 + U16(data, offset + 26) + U16(data, offset + 28)
  }

  /** The name ends in `.kml` in any letter case, character by character. */
  predicate IsKml(name: string) {
    && |name| >= 4
    && LowerChar(name[|name| - 4]) == '.' && LowerChar(name[|name| - 3]) == 'k'
    && LowerChar(name[|name| - 2]) == 'm' && LowerChar(name[|name| - 1]) == 'l'
  }

  /** The character test is `name.toLowerCase().endsWith('.kml')`. */
  lemma IsKmlLowerSuffix(name: string)
    ensures IsKml(name) <==> EndsWith(ToLower(name), ".kml")
  {
    var n := |name|;
    if n >= 4 {
      var t := ToLower(name)[n - 4..];
      assert t == [LowerChar(name[n - 4]), LowerChar(name[n - 3]), LowerChar(name[n - 2]), LowerChar(name[n - 1])];
    }
  }

  /** The entry at `offset` is the one being looked for. */
  predicate Wanted(data: seq<Byte>, offset: int, decode: seq<Byte> -> string) {
    IsKml(NameOf(data, offset, decode)) && Method(data, offset) == 0
  }

  // ------------------------------------------------------------ corrected

  /** `extractKMLFromZip` with the compressed size read as an unsigned
      number: from `offset`, skip bytes until a local header signature, then
      either return the wanted entry's text or jump over its data. */
  function Extract(data: seq<Byte>, offset: nat, decode: seq<Byte> -> string): (r: Option<string>)
    decreases |data| - offset
  {
    if offset < |data| - 4 then
      if Signature(data, offset) then
        var start := DataStart(data, offset);
        if Wanted(data, offset, decode) then
          Some(decode(Slice(data, start, start + U32(data, offset + 18))))
        else
          Extract(data, start + U32(data, offset + 18), decode)
      else
        Extract(data, offset + 1, decode)
    else
      None
  }

  // ----------------------------------------------------------- as written

  /** The same walk with the size as the source computes it, in signed
      32-bit arithmetic. A negative size can move the offset backwards or
      leave it where it is, so the walk is given `fuel` steps: `None` means
      it has not finished within them, `Some(r)` that it returned `r`. */
  function ExtractAsWritten(data: seq<Byte>, offset: int, decode: seq<Byte> -> string, fuel: nat): Option<Option<string>>
    decreases fuel
  {
    if fuel == 0 then None
    else if offset < |data| - 4 then
      if Signature(data, offset) then
        var start := DataStart(data, offset);
        if Wanted(data, offset, decode) then
          Some(Some(decode(Slice(data, start, start + I32(data, offset + 18)))))
        else
          ExtractAsWritten(data, start + I32(data, offset + 18), decode, fuel - 1)
      else
        ExtractAsWritten(data, offset + 1, decode, fuel - 1)
    else
      Some(None)
  }

  /** Every local header signature from `offset` on is followed by a size
      field whose top byte is below 0x80: sizes under 2 GiB, where the
      signed and the unsigned reading agree. */
  predicate SmallSizes(data: seq<Byte>, offset: int) {
    forall h :: offset <= h < |data| - 4 && Signature(data, h) ==> At(data, h + 21) < 0x80
  }

  /** On archives whose sizes are all under 2 GiB, the walk as written
      finishes within one step per byte and returns what the corrected walk
      returns. */
  lemma {:induction false} ExtractAsWrittenAgrees(data: seq<Byte>, offset: nat, decode: seq<Byte> -> string, fuel: nat)
    requires SmallSizes(data, offset)
    requires fuel > 0 && fuel > |data| - offset
    ensures ExtractAsWritten(data, offset, decode, fuel) == Some(Extract(data, offset, decode))
    decreases |data| - offset
  {
    if offset < |data| - 4 {
      if Signature(data, offset) {
        var start := DataStart(data, offset);
        assert I32(data, offset + 18) == U32(data, offset + 18);
        if !Wanted(data, offset, decode) {
          ExtractAsWrittenAgrees(data, start + U32(data, offset + 18), decode, fuel - 1);
        }
      } else {
        ExtractAsWrittenAgrees(data, offset + 1, decode, fuel - 1);
      }
    }
  }

  /** A 30-byte archive holding one local header with an empty name and the
      size bytes E2 FF FF FF, which the signed reading takes for -30. */
  const Stuck: seq<Byte> :=
    [0x50, 0x4b, 0x03, 0x04] + seq(14, _ => 0) + [0xE2, 0xFF, 0xFF, 0xFF] + seq(8, _ => 0)

  lemma StuckFields()
    ensures |Stuck| == 30 && Signature(Stuck, 0)
    ensures U16(Stuck, 26) == 0 && U16(Stuck, 28) == 0 && U16(Stuck, 8) == 0
    ensures I32(Stuck, 18) == -30 && U32(Stuck, 18) == Two32 - 30
    ensures Slice(Stuck, 30, 30) == []
  {
  }

  /** As written, the walk over `Stuck` never returns: the jump over the
      entry's data lands back on the entry. The corrected walk jumps past the
      end and returns `null`. */
  lemma {:induction false} StuckNeverReturns(decode: seq<Byte> -> string, fuel: nat)
    requires decode([]) == ""
    ensures ExtractAsWritten(Stuck, 0, decode, fuel).None?
    ensures Extract(Stuck, 0, decode).None?
  {
    StuckFields();
    assert !IsKml(NameOf(Stuck, 0, decode));
    if fuel > 0 {
      assert DataStart(Stuck, 0) + I32(Stuck, 18) == 0;
      StuckNeverReturns(decode, fuel - 1);
    }
    assert DataStart(Stuck, 0) + U32(Stuck, 18) >= |Stuck|;
  }

  // ----------------------------------------------------------- round trip

  /** An archive member: raw name bytes, compression method, data bytes. */
  datatype Entry = Entry(name: seq<Byte>, compression: nat, content: seq<Byte>)

  predicate Fits(e: Entry) {
    |e.name| < Two16 && e.compression < Two16 && |e.content| < Two32
  }

  function LE16(n: int): (r: seq<Byte>)
    requires 0 <= n < Two16
    ensures |r| == 2 && r[0] as int + r[1] as int * 256 == n
  {
    [n % 256, n / 256]
  }

  function LE32(n: int): (r: seq<Byte>)
    requires 0 <= n < Two32
    ensures |r| == 4 && (r[0] as int + r[1] as int * 256) + (r[2] as int + r[3] as int * 256) * Two16 == n
  {
    LE16(n % Two16) + LE16(n / Two16)
  }

  /** The 30 fixed bytes of a local file header (APPNOTE.TXT section 4.3.7):
      signature, version 2.0, no flags, method, zero time, date and CRC,
      compressed and uncompressed sizes, name length, no extra field. */
  function FixedHeader(e: Entry): (h: seq<Byte>)
    requires Fits(e)
    ensures |h| == 30
  {
    [0x50, 0x4b, 0x03, 0x04, 20, 0, 0, 0] + LE16(e.compression) + [0, 0, 0, 0, 0, 0, 0, 0]
    + LE32(|e.content|) + LE32(|e.content|) + LE16(|e.name|) + LE16(0)
  }

  function LocalEntry(e: Entry): (b: seq<Byte>)
    requires Fits(e)
    ensures |b| == 30 + |e.name| + |e.content|
  {
    FixedHeader(e) + e.name + e.content
  }

  /** The local entries one after another. */
  function Archive(es: seq<Entry>): seq<Byte>
    requires forall i :: 0 <= i < |es| ==> Fits(es[i])
  {
    if |es| == 0 then [] else LocalEntry(es[0]) + Archive(es[1..])
  }

  /** What the reader should find: the text of the first stored entry with
      a `.kml` name. */
  function FirstKml(es: seq<Entry>, decode: seq<Byte> -> string): (r: Option<string>)
    ensures r.Some? <==> exists i :: 0 <= i < |es| && es[i].compression == 0 && IsKml(decode(es[i].name))
  {
    if |es| == 0 then None
    else if es[0].compression == 0 && IsKml(decode(es[0].name)) then Some(decode(es[0].content))
    else
      var r := FirstKml(es[1..], decode);
      assert forall i :: 1 <= i < |es| ==> es[1..][i - 1] == es[i];
      r
  }

  /** The header fields of an entry followed by anything read back as the
      entry's own. */
  lemma EntryFields(e: Entry, rest: seq<Byte>)
    requires Fits(e)
    ensures var d := LocalEntry(e) + rest;
      && Signature(d, 0) && |d| > 4
      && Method(d, 0) == e.compression
      && U32(d, 18) == |e.content|
      && U16(d, 26) == |e.name| && U16(d, 28) == 0
      && Slice(d, 30, 30 + |e.name|) == e.name
      && Slice(d, 30 + |e.name|, 30 + |e.name| + |e.content|) == e.content
  {
    var h := FixedHeader(e);
    var d := LocalEntry(e) + rest;
    assert d == h + e.name + e.content + rest;
    assert forall i :: 0 <= i < 30 ==> d[i] == h[i];
    var m, c, n := LE16(e.compression), LE32(|e.content|), LE16(|e.name|);
    assert h[8] == m[0] && h[9] == m[1];
    assert h[18] == c[0] && h[19] == c[1] && h[20] == c[2] && h[21] == c[3];
    assert h[26] == n[0] && h[27] == n[1];
    assert d[30..30 + |e.name|] == e.name;
    assert d[30 + |e.name|..30 + |e.name| + |e.content|] == e.content;
  }

  /** `s` is what `d` holds from position `k` on. */
  predicate SuffixAt(d: seq<Byte>, k: nat, s: seq<Byte>) {
    k + |s| == |d| && forall i {:trigger At(s, i)} :: 0 <= i < |s| ==> At(d, k + i) == At(s, i)
  }

  /** Reading at `k + offset` in `d` is reading at `offset` in the part of
      `d` from `k` on: what comes before does not matter. */
  lemma {:induction false} ExtractShift(d: seq<Byte>, k: nat, s: seq<Byte>, offset: nat, decode: seq<Byte> -> string)
    requires SuffixAt(d, k, s)
    ensures Extract(d, k + offset, decode) == Extract(s, offset, decode)
    decreases |s| - offset
  {
    if offset < |s| - 4 {
      if Signature(s, offset) {
        if Wanted(s, offset, decode) {
          ShiftWanted(d, k, s, offset, decode);
        } else {
          ExtractShift(d, k, s, DataStart(s, offset) + U32(s, offset + 18), decode);
          ShiftSkipEntry(d, k, s, offset, decode);
        }
      } else {
        ExtractShift(d, k, s, offset + 1, decode);
        ShiftSkipByte(d, k, s, offset, decode);
      }
    } else {
      ExtractAtEnd(d, k + offset, decode);
      ExtractAtEnd(s, offset, decode);
    }
  }

  lemma ShiftWanted(d: seq<Byte>, k: nat, s: seq<Byte>, offset: nat, decode: seq<Byte> -> string)
    requires SuffixAt(d, k, s)
    requires offset < |s| - 4 && Signature(s, offset) && Wanted(s, offset, decode)
    ensures Extract(d, k + offset, decode) == Extract(s, offset, decode)
  {
    var q := k + offset;
    SignatureShift(d, k, s, offset, q);
    WantedShift(d, k, s, offset, q, decode);
    ContentShift(d, k, s, offset, q);
    ExtractSameWanted(d, q, s, offset, decode);
  }

  lemma ShiftSkipEntry(d: seq<Byte>, k: nat, s: seq<Byte>, offset: nat, decode: seq<Byte> -> string)
    requires SuffixAt(d, k, s)
    requires offset < |s| - 4 && Signature(s, offset) && !Wanted(s, offset, decode)
    requires var next := DataStart(s, offset) + U32(s, offset + 18);
      Extract(d, k + next, decode) == Extract(s, next, decode)
    ensures Extract(d, k + offset, decode) == Extract(s, offset, decode)
  {
    var q := k + offset;
    SignatureShift(d, k, s, offset, q);
    WantedShift(d, k, s, offset, q, decode);
    NextShift(d, k, s, offset, q);
    ExtractSameOther(d, q, s, offset, decode);
  }

  /** The data of the entry at `o` in `s` is the data of the entry at
      `q == k + o` in `d`. */
  lemma ContentShift(d: seq<Byte>, k: nat, s: seq<Byte>, o: nat, q: int)
    requires SuffixAt(d, k, s) && q == k + o
    ensures Slice(d, DataStart(d, q), DataStart(d, q) + U32(d, q + 18))
         == Slice(s, DataStart(s, o), DataStart(s, o) + U32(s, o + 18))
  {
    var a, b := DataStart(s, o), DataStart(s, o) + U32(s, o + 18);
    NextShift(d, k, s, o, q);
    DataStartShift(d, k, s, o, q);
    SliceShiftTo(d, k, s, a, b, k + a, k + b);
  }

  /** The jump over that entry lands `k` further on in `d`. */
  lemma NextShift(d: seq<Byte>, k: nat, s: seq<Byte>, o: nat, q: int)
    requires SuffixAt(d, k, s) && q == k + o
    ensures DataStart(d, q) + U32(d, q + 18) == k + (DataStart(s, o) + U32(s, o + 18))
  {
    DataStartShift(d, k, s, o, q);
    U32Shift(d, k, s, o + 18, q + 18);
  }

  lemma ShiftSkipByte(d: seq<Byte>, k: nat, s: seq<Byte>, offset: nat, decode: seq<Byte> -> string)
    requires SuffixAt(d, k, s)
    requires offset < |s| - 4 && !Signature(s, offset)
    requires Extract(d, k + offset + 1, decode) == Extract(s, offset + 1, decode)
    ensures Extract(d, k + offset, decode) == Extract(s, offset, decode)
  {
    SignatureShift(d, k, s, offset, k + offset);
    ExtractPastByte(d, k + offset, decode);
    ExtractPastByte(s, offset, decode);
  }

  /** Two wanted entries with the same data give the same text. */
  lemma ExtractSameWanted(d: seq<Byte>, q: nat, s: seq<Byte>, o: nat, decode: seq<Byte> -> string)
    requires q < |d| - 4 && Signature(d, q) && Wanted(d, q, decode)
    requires o < |s| - 4 && Signature(s, o) && Wanted(s, o, decode)
    requires Slice(d, DataStart(d, q), DataStart(d, q) + U32(d, q + 18))
          == Slice(s, DataStart(s, o), DataStart(s, o) + U32(s, o + 18))
    ensures Extract(d, q, decode) == Extract(s, o, decode)
  {
    ExtractAtWanted(d, q, decode);
    ExtractAtWanted(s, o, decode);
  }

  /** Two other entries whose walks continue alike give the same result. */
  lemma ExtractSameOther(d: seq<Byte>, q: nat, s: seq<Byte>, o: nat, decode: seq<Byte> -> string)
    requires q < |d| - 4 && Signature(d, q) && !Wanted(d, q, decode)
    requires o < |s| - 4 && Signature(s, o) && !Wanted(s, o, decode)
    requires Extract(d, DataStart(d, q) + U32(d, q + 18), decode) == Extract(s, DataStart(s, o) + U32(s, o + 18), decode)
    ensures Extract(d, q, decode) == Extract(s, o, decode)
  {
    ExtractAtOther(d, q, decode);
    ExtractAtOther(s, o, decode);
  }

  /** Too close to the end for a header, the walk finds nothing. */
  lemma ExtractAtEnd(data: seq<Byte>, offset: nat, decode: seq<Byte> -> string)
    requires offset >= |data| - 4
    ensures Extract(data, offset, decode) == None
  {
  }

  /** At the wanted entry's header, the walk returns its text. */
  lemma ExtractAtWanted(data: seq<Byte>, offset: nat, decode: seq<Byte> -> string)
    requires offset < |data| - 4 && Signature(data, offset) && Wanted(data, offset, decode)
    ensures var start := DataStart(data, offset);
      Extract(data, offset, decode) == Some(decode(Slice(data, start, start + U32(data, offset + 18))))
  {
  }

  /** At any other header, the walk jumps over the entry's data. */
  lemma ExtractAtOther(data: seq<Byte>, offset: nat, decode: seq<Byte> -> string)
    requires offset < |data| - 4 && Signature(data, offset) && !Wanted(data, offset, decode)
    ensures Extract(data, offset, decode) == Extract(data, DataStart(data, offset) + U32(data, offset + 18), decode)
  {
  }

  /** Away from a header, the walk moves on one byte. */
  lemma ExtractPastByte(data: seq<Byte>, offset: nat, decode: seq<Byte> -> string)
    requires offset < |data| - 4 && !Signature(data, offset)
    ensures Extract(data, offset, decode) == Extract(data, offset + 1, decode)
  {
  }

  /** Whether an entry is wanted does not depend on what comes before it:
      the entry at `o` in `s` is the entry at `q == k + o` in `d`. */
  lemma WantedShift(d: seq<Byte>, k: nat, s: seq<Byte>, o: nat, q: int, decode: seq<Byte> -> string)
    requires SuffixAt(d, k, s) && q == k + o
    ensures Wanted(d, q, decode) == Wanted(s, o, decode)
  {
    U16Shift(d, k, s, o + 8, q + 8);
    NameShift(d, k, s, o, q, decode);
  }

  /** Nor does an entry's name. */
  lemma NameShift(d: seq<Byte>, k: nat, s: seq<Byte>, o: nat, q: int, decode: seq<Byte> -> string)
    requires SuffixAt(d, k, s) && q == k + o
    ensures NameOf(d, q, decode) == NameOf(s, o, decode)
  {
    var n := U16(s, o + 26);
    U16Shift(d, k, s, o + 26, q + 26);
    SliceShiftTo(d, k, s, o + 30, o + 30 + n, q + 30, q + 30 + U16(d, q + 26));
  }

  lemma AtShift(d: seq<Byte>, k: nat, s: seq<Byte>, i: int, j: int)
    requires SuffixAt(d, k, s) && i >= 0 && j == k + i
    ensures At(d, j) == At(s, i)
  {
    if i < |s| {
      assert At(s, i) == At(d, j);
    }
  }

  /** Nor do the header fields. */
  lemma U16Shift(d: seq<Byte>, k: nat, s: seq<Byte>, i: int, j: int)
    requires SuffixAt(d, k, s) && i >= 0 && j == k + i
    ensures U16(d, j) == U16(s, i)
  {
    AtShift(d, k, s, i, j);
    AtShift(d, k, s, i + 1, j + 1);
  }

  lemma U32Shift(d: seq<Byte>, k: nat, s: seq<Byte>, i: int, j: int)
    requires SuffixAt(d, k, s) && i >= 0 && j == k + i
    ensures U32(d, j) == U32(s, i)
  {
    U16Shift(d, k, s, i, j);
    U16Shift(d, k, s, i + 2, j + 2);
  }

  lemma SignatureShift(d: seq<Byte>, k: nat, s: seq<Byte>, o: nat, q: int)
    requires SuffixAt(d, k, s) && q == k + o
    ensures Signature(d, q) == Signature(s, o)
  {
    AtShift(d, k, s, o, q);
    AtShift(d, k, s, o + 1, q + 1);
    AtShift(d, k, s, o + 2, q + 2);
    AtShift(d, k, s, o + 3, q + 3);
  }

  lemma DataStartShift(d: seq<Byte>, k: nat, s: seq<Byte>, o: nat, q: int)
    requires SuffixAt(d, k, s) && q == k + o
    ensures DataStart(d, q) == k + DataStart(s, o)
  {
    U16Shift(d, k, s, o + 26, q + 26);
    U16Shift(d, k, s, o + 28, q + 28);
  }

  /** Nor does a slice of the data. */
  lemma SliceShiftTo(d: seq<Byte>, k: nat, s: seq<Byte>, a: int, b: int, a': int, b': int)
    requires SuffixAt(d, k, s) && 0 <= a <= b && a' == k + a && b' == k + b
    ensures Slice(d, a', b') == Slice(s, a, b)
  {
    var ca, cb := Clamp(|s|, a), Clamp(|s|, b);
    assert Clamp(|d|, a') == k + ca;
    assert Clamp(|d|, b') == k + cb;
    if ca < cb {
      forall j | 0 <= j < cb - ca ensures d[k + ca..k + cb][j] == s[ca..cb][j] {
        assert At(s, ca + j) == At(d, k + (ca + j));
      }
      assert d[k + ca..k + cb] == s[ca..cb];
    }
  }

  /** The first entry of an archive is either the one returned or skipped
      over whole. */
  lemma ExtractFirstEntry(e: Entry, rest: seq<Byte>, decode: seq<Byte> -> string)
    requires Fits(e)
    ensures Extract(LocalEntry(e) + rest, 0, decode)
            == if e.compression == 0 && IsKml(decode(e.name)) then Some(decode(e.content))
               else Extract(rest, 0, decode)
  {
    if e.compression == 0 && IsKml(decode(e.name)) {
      FirstEntryWanted(e, rest, decode);
    } else {
      FirstEntrySkipped(e, rest, decode);
    }
  }

  lemma FirstEntryWanted(e: Entry, rest: seq<Byte>, decode: seq<Byte> -> string)
    requires Fits(e) && e.compression == 0 && IsKml(decode(e.name))
    ensures Extract(LocalEntry(e) + rest, 0, decode) == Some(decode(e.content))
  {
    var d := LocalEntry(e) + rest;
    EntryFields(e, rest);
    assert NameOf(d, 0, decode) == decode(e.name);
    assert DataStart(d, 0) == 30 + |e.name|;
  }

  lemma FirstEntrySkipped(e: Entry, rest: seq<Byte>, decode: seq<Byte> -> string)
    requires Fits(e) && !(e.compression == 0 && IsKml(decode(e.name)))
    ensures Extract(LocalEntry(e) + rest, 0, decode) == Extract(rest, 0, decode)
  {
    var d, k := LocalEntry(e) + rest, |LocalEntry(e)|;
    EntryFields(e, rest);
    assert NameOf(d, 0, decode) == decode(e.name);
    assert DataStart(d, 0) == 30 + |e.name|;
    assert DataStart(d, 0) + U32(d, 18) == k;
    AppendSuffix(LocalEntry(e), rest);
    SkipTo(d, k, rest, decode);
  }

  /** A skipped entry at the start of `d` that ends at `k` leaves the walk
      to what follows it. */
  lemma SkipTo(d: seq<Byte>, k: nat, rest: seq<Byte>, decode: seq<Byte> -> string)
    requires SuffixAt(d, k, rest) && 0 < |d| - 4 && Signature(d, 0) && !Wanted(d, 0, decode)
    requires DataStart(d, 0) + U32(d, 18) == k
    ensures Extract(d, 0, decode) == Extract(rest, 0, decode)
  {
    ExtractAtOther(d, 0, decode);
    ExtractShift(d, k, rest, 0, decode);
    assert k + 0 == k;
  }

  lemma AppendSuffix(p: seq<Byte>, s: seq<Byte>)
    ensures SuffixAt(p + s, |p|, s)
  {
    forall i | 0 <= i < |s| ensures At(p + s, |p| + i) == At(s, i) {
      assert (p + s)[|p| + i] == s[i];
    }
  }

  /** The reader finds in an archive exactly the entry that should be found:
      the first stored one with a `.kml` name, and nothing when there is
      none. */
  lemma {:induction false} ExtractArchive(es: seq<Entry>, decode: seq<Byte> -> string)
    requires forall i :: 0 <= i < |es| ==> Fits(es[i])
    ensures Extract(Archive(es), 0, decode) == FirstKml(es, decode)
  {
    if |es| > 0 {
      ExtractFirstEntry(es[0], Archive(es[1..]), decode);
      ExtractArchive(es[1..], decode);
    }
  }

  /** Whatever the reader returns comes from a local header, at or after
      the starting offset, of a stored entry with a `.kml` name. */
  lemma {:induction false} ExtractFound(data: seq<Byte>, offset: nat, decode: seq<Byte> -> string)
    requires Extract(data, offset, decode).Some?
    ensures exists k :: offset <= k < |data| - 4 && Signature(data, k) && Wanted(data, k, decode)
    decreases |data| - offset
  {
    if Signature(data, offset) && Wanted(data, offset, decode) {
      assert offset < |data| - 4;
    } else if Signature(data, offset) {
      ExtractFound(data, DataStart(data, offset) + U32(data, offset + 18), decode);
    } else {
      ExtractFound(data, offset + 1, decode);
    }
  }
}
